=== FILE: README.md ===
# Building-permit crawlers, modelled in Dafny

The system collects Taiwanese building permits, both 建造執照 (construction permits) and 使用執照 (occupancy permits), from four kinds of municipal systems:

- the MCGBM open-data API, used by five cities;
- the national NBUPIC query system, used by four cities;
- the Hsinchu County permit site;
- the Kaohsiung permit site.

Each crawler walks a date window, either day by day, in three-day batches or in pages of one hundred rows. It reads the listing, fetches each permit's detail, and normalises the detail into one record with a fixed column order: 41 canonical columns, or 40 for Kaohsiung, which has no 竣工期限. A writer then files every record into a monthly worksheet (`YYYY-MM`) of one of two workbooks per city, sorts the sheets by month when saving, and sets column widths.

The model follows the program's own structure:

- Python values decoded from JSON become `PyJson.Json`. Insertion-ordered dicts become `OrderedDict.Dict`. Each Python exception becomes `Raised`, a `None`, or an aborted run.
- The text helpers (`clean_key`, `check_license_type`, the regular expressions, `int`, `round(float(...))`, `repr`/`str` of lists) are pure functions in `Text`, `Scan`, `Clean`, `Classify`, `Extract`, `Numbers` and `PyJson`.
- Dates are proleptic Gregorian dates with an ordinal (`Dates`). The ROC calendar conversions are in `RocDates`, and the date generator is in `DateRange`.
- The four refiners and the two HTML parsers are functions from decoded inputs to records.
- The four `fetch_data` generators are methods. The network is a function parameter (`fetch`, `query`, `detail`, `search`, …) returning `Result`. Each method's loop is proved to produce the same items as an independent, loop-free definition of the crawl.
- `ExcelWriter` keeps the two workbooks as sheet lists and models `write_item`, `save`, `adjust_width` and `get_stats`.
- `Factory` is the city table and `get_crawler`.

Four behaviours of the code are easy to miss, and the model keeps each of them:

- the Kaohsiung record built at utils/data_processor.py:259-300 has 40 keys, one fewer than `CELL_LENGTH_MAPPING` at utils/excel_writer.py:11-53, because it has no 竣工期限 (`Records.KaohsiungKeysShape`);
- when two Hsinchu tables share a title, the `{**a, **b}` merge at utils/data_processor.py:523-524 puts the earlier table's rows in `b`, so the earlier table's cells win (`HsinchuTables.MergeRowsGet`);
- `clean_key` (utils/data_processor.py:58-75) is not idempotent: a second application can rewrite 址址 again (`Clean.CleanKeyNotIdempotent`);
- `refine_mcbgm` (utils/data_processor.py:135-205) has no 其它 check, unlike `refine_nbupic` at utils/data_processor.py:365-367, so it keeps the class 其它 instead of dropping it (`McgbmRefiner.RefineMcgbmTotal`).

## Model

| member | source | states |
|---|---|---|
| Text.Replace | utils/data_processor.py:62-71 | `str.replace`: every character of the result comes from the input or the replacement; a one-character pattern that is not in the replacement is gone; a string without the pattern is unchanged |
| Text.Strip | utils/data_processor.py:72 | `str.strip`: the result is a slice `s[i..j]` of the input with only white space before `i` and after `j`, has no surrounding white space itself, and is empty for an all-blank input |
| Text.ReplaceIsJoinSplit | utils/data_processor.py:62-71 | `s.replace(p, q) == q.join(s.split(p))` for every string and every non-empty pattern |
| Text.JoinSplit | utils/data_processor.py:141-145 | `str.split` loses nothing: joining the pieces with the separator gives the string back |
| Text.SplitJoin | utils/data_processor.py:223 | splitting a join of separator-free parts gives the parts back |
| Text.DigitGroups | utils/data_processor.py:28 | `re.findall(r'\d+')`: every group is a non-empty run of digits |
| Text.IntToString | utils/data_processor.py:41 | `f"{n}"`: reads back as the number, with a minus sign before the digits of a negative number |
| Text.Pad2 | utils/data_processor.py:41 | `f"{m:02d}"`: two digits that read back as the month or day |
| Text.NatToString | utils/data_processor.py:41 | `str` of a natural number: decimal digits that read back as the number |
| Text.ParseInt | utils/data_processor.py:159 | `int(s)` without surrounding white space succeeds exactly for an optional sign before a PEP 515 grouped numeral, and reads its digits |
| Text.GroupedJoin | utils/data_processor.py:159 | two grouped numerals joined by one underscore form a grouped numeral whose digits are both parts' digits |
| Text.GroupedDigits | utils/data_processor.py:159 | the digits of a grouped numeral form a non-empty digit string |
| Text.DigitsGrouped | utils/data_processor.py:159 | a plain digit string is a grouped numeral of itself |
| Text.StripStripped | utils/data_processor.py:72 | `strip` leaves an already stripped string unchanged |
| Text.ReplaceCharCons | utils/data_processor.py:62-69 | replacing a one-character pattern works character by character |
| Text.HexRoundTrip | utils/data_processor.py:201-203 | the zero-padded hex digits of a `\x`, `\u` or `\U` escape read back as the code point |
| Scan.Search | utils/data_processor.py:102-106 | `pattern.search(s).group(1)`: `None` exactly when no position matches; otherwise the group of the leftmost match |
| Scan.LeftmostUnique | utils/data_processor.py:102-106 | the leftmost match is unique, so `search` is a function of its input |
| Scan.FindAll | crawlers/nbupic_crawler.py:120 | `re.findall` of a one-group pattern: every group found is a non-empty run of the group's class |
| Scan.SpacedSearch | crawlers/nbupic_crawler.py:73-74 | the `name="…"\s+value="(…)"` search: `None` exactly when nothing matches, otherwise the leftmost match's group |
| Scan.SpacedSearchOf | crawlers/nbupic_crawler.py:73-74 | a page holding the field, white space, and a quoted value yields that value |
| Scan.RunOf | utils/data_processor.py:89-94 | the greedy `[…]+` run: every character in it is of the class, and the next one is not |
| Scan.GroupAt | utils/data_processor.py:89-94 | a match at a position has the opening text there, and a non-empty group of the class that fits in the string |
| Scan.FindAllOne | crawlers/nbupic_crawler.py:120 | `re.findall` over one occurrence finds exactly its group |
| Clean.CleanKey | utils/data_processor.py:58-75 | `clean_key`: `None` gives ""; the result is stripped, never "-", holds no ideographic space, full-width colon or full-width parentheses, and draws its characters from the input or the replacements |
| Clean.CleanKeyFixedPoint | utils/data_processor.py:58-75 | a stripped label without any of the patterns is returned unchanged |
| Clean.CleanKeyStrips | utils/data_processor.py:58-75 | a label without any rewritten pattern, surrounding white space included, cleans to its stripped text, or to "" when that is `-` |
| Clean.CleanKeyBlank | utils/data_processor.py:72-74 | an all-blank label cleans to "" |
| Clean.CleanKeyDash | utils/data_processor.py:73-74 | the placeholder "-" cleans to "" |
| Clean.CleanKeyNotIdempotent | utils/data_processor.py:70 | the 址址→地址 repair can be applied again: "址址址" cleans to "地址址" and that cleans to "地地址" |
| Clean.CleanJ | utils/data_processor.py:58-61 | `clean_key` on a decoded value: `None` gives "", strings are cleaned, and any other value raises |
| Clean.Deletions | utils/data_processor.py:62-67 | the deletion stage removes every ideographic space and full-width colon, and adds nothing |
| Clean.Substitutions | utils/data_processor.py:68-71 | the substitution stage leaves no full-width parenthesis and introduces only the replacement characters |
| Clean.CleanKeyStages | utils/data_processor.py:58-75 | without the deleted characters, `clean_key` is the substitution stage followed by the blank and dash check |
| Classify.CheckLicenseType | utils/data_processor.py:78-85 | the result is 建造執照 exactly when a construction marker occurs, 使用執照 exactly when none does but an occupancy marker does, and 其它 otherwise |
| Classify.ConstructionWins | utils/data_processor.py:80-81 | a construction marker decides the class whatever surrounds it |
| Classify.AlterationIsOther | utils/data_processor.py:82 | 變使字 contains 使字, yet without another marker the class is 其它 |
| Classify.TitleKinds | utils/data_processor.py:213-217 | the two Kaohsiung titles classify as construction and occupancy |
| Classify.CheckLicenseTypeJ | utils/data_processor.py:137 | on a decoded value: strings are classified, lists and dicts test membership, and other values raise |
| Numbers.PyInt | utils/data_processor.py:159 | `int(s)` reads a digit string as its value |
| Numbers.PyIntOfString | utils/data_processor.py:175 | `int(str(i)) == i` for every integer |
| Numbers.PyIntGrouped | utils/data_processor.py:159 | `int("1_000") == 1000`: two digit groups joined by an underscore read as their digits run together |
| Numbers.SafeInt | utils/data_processor.py:154-161 | `safe_int`: non-strings and failures give 0, and a digit string gives its value |
| Numbers.SafeIntSuffix | utils/data_processor.py:159 | a count with a trailing 棟, 層 or 戶 reads as the count |
| Numbers.SafeIntGrouped | utils/data_processor.py:154-161 | `safe_int("1_000")` is 1000: grouped counts read as their digits |
| Numbers.SafeIntUnsuffixed | utils/data_processor.py:159 | a text ending in a digit is read whole, with nothing dropped |
| Numbers.RoundHalfEven | utils/data_processor.py:150 | `round`: below half goes down, above half goes up, and a half goes to the even neighbour |
| Numbers.RoundHalfEvenNearest | utils/data_processor.py:150 | the rounded value lies within half a unit of the exact value |
| Numbers.FloatRound | utils/data_processor.py:148-152 | `round(float(x))` in `try`: integers stay, and `None`, lists and dicts give "" |
| Numbers.FloatRoundNearest | utils/data_processor.py:148-152 | a price written `whole.frac` becomes the integer nearest its exact value |
| Numbers.FloatRoundHalves | utils/data_processor.py:150 | "2.5" gives 2 and "3.5" gives 4 |
| Numbers.RoundDecimal | utils/data_processor.py:150 | `float` of a digit string is its value |
| Numbers.RoundDecimalGrouped | utils/data_processor.py:150 | `float` of any grouped numeral is the number its digits denote |
| Numbers.FloatRoundGrouped | utils/data_processor.py:148-152 | `round(float("1_000"))` is 1000: grouped prices read as their digits |
| Numbers.PyIntOfNegative | utils/data_processor.py:175 | `int(str(i)) == i` for negative integers as well |
| Numbers.HalfPrice | utils/data_processor.py:150 | a price `d.5` rounds to the even neighbour |
| Extract.ParseBuildingInfo | utils/data_processor.py:97-114 | `parse_building_info`: the empty text gives five zeros |
| Extract.ParseSummaryText | utils/data_processor.py:97-114 | the counts written as `<b>棟<h>幢地上<f>層地下<u>層<n>戶` parse back to the same five counts |
| Extract.CountAt | utils/data_processor.py:102-112 | a count is the digits of the leftmost match of its pattern |
| Extract.PriceAt | utils/data_processor.py:121-127 | for every text with a `($…)` group, the cost is the value of the leftmost group's digits once its commas are dropped |
| Extract.ExtractNumericalValue | utils/data_processor.py:117-130 | `extract_numerical_value`: the empty text and a text without `($…)` give ""; otherwise a non-negative integer or "" |
| Extract.PriceExample | utils/data_processor.py:121-125 | "($1,234,567)" gives 1234567 |
| Extract.PriceWithoutDigits | utils/data_processor.py:123-127 | "($,)" matches, but `float("")` fails and the price is "" |
| Extract.ParseBuildingInfoJ | utils/data_processor.py:99-100 | on a decoded value: falsy gives zeros, strings are parsed, and other truthy values raise |
| Extract.ExtractNumericalValueJ | utils/data_processor.py:119-120 | on a decoded value: falsy gives "", strings are scanned, and other truthy values raise |
| Extract.CountBefore | utils/data_processor.py:102-112 | a count with no match of its pattern is 0 |
| Extract.PriceGroup | utils/data_processor.py:121-122 | `($1,234,567)` matches at the start with the group `1,234,567` |
| PyJson.ReprStr | utils/data_processor.py:201-203 | `repr(s)`: the quote `repr` chooses opens and closes the result, and the result is at least as long as the text plus its quotes |
| PyJson.Escape | utils/data_processor.py:201-203 | `repr` keeps a character verbatim exactly when it is printable and not the quote, the backslash, a tab, a newline or a return |
| PyJson.ReprStrRoundTrip | utils/data_processor.py:201-203 | reading the escapes between the quotes gives the text back |
| PyJson.ReprStrPlain | utils/data_processor.py:201-203 | a printable text without quotes or backslashes is written verbatim in single quotes |
| PyJson.IdeographicSpaceEscaped | utils/data_processor.py:202 | an ideographic space is written as a `\u` escape, so `clean_key` cannot remove it afterwards |
| PyJson.StrList | utils/data_processor.py:146 | `str(list)`: the result is bracketed |
| PyJson.Str | utils/data_processor.py:249-252 | `str` of a string is the string itself |
| PyJson.GetJ | utils/data_processor.py:143-145 | `x.get(k, default)` raises exactly when x is not a dict, and gives the default for a missing key |
| PyJson.IndexJ | utils/data_processor.py:141 | `x[k]` succeeds exactly when x is a dict holding k |
| PyJson.InJ | utils/data_processor.py:140 | `item in x` tests substrings, list elements or dict keys, and raises for other values |
| PyJson.IterJ | utils/data_processor.py:143 | `for … in x` iterates the characters, elements or keys, and raises for other values |
| PyJson.SplitJ | utils/data_processor.py:141 | `x.split(sep)` succeeds exactly for a string and gives at least one piece |
| Fields.UsageText | utils/data_processor.py:139-146 | `str(list(set))`: the rendered list holds every distinct label exactly once |
| Fields.UsageTextRepeat | utils/data_processor.py:141 | adding a label the set already holds leaves the text unchanged |
| Fields.CleanFields | utils/data_processor.py:165-198 | `clean_key(data.get(k, ''))` over many fields succeeds exactly when each field cleans, and gives each field's cleaned text in order |
| Fields.LabelsWhere | utils/data_processor.py:143-145 | the scan for floors carrying the label key raises exactly when some floor does not support `in` |
| Fields.LabelsOf | utils/data_processor.py:222-223 | `usage.get(k, '').split('、')` over the floors raises exactly when some floor is not a dict |
| Fields.LabelsWhereOfChars | utils/data_processor.py:143-145 | `in` over one-character strings does not find a longer key, so no labels are gathered |
| OrderedDict.Set | utils/data_processor.py:321 | `d[k] = v`: k now maps to v, other keys are untouched, a new key goes last, and the keys stay distinct |
| OrderedDict.SetTwice | utils/data_processor.py:476 | a second assignment to a key overrides the first without moving it |
| OrderedDict.Remove | utils/data_processor.py:485 | `del d[k]`: k is gone and no other key appears |
| OrderedDict.RemoveGet | utils/data_processor.py:506 | removing one key leaves the others' values |
| OrderedDict.Merge | utils/data_processor.py:524 | `{**a, **b}` holds the keys of both |
| OrderedDict.MergeGet | utils/data_processor.py:524 | in `{**a, **b}` the second dict's value wins |
| OrderedDict.FromPairs | utils/data_processor.py:337 | `dict(zip(ks, vs))` has distinct keys, namely the zipped prefix of ks |
| OrderedDict.FromPairsGet | utils/data_processor.py:337 | with distinct names each name maps to its value |
| OrderedDict.Literal | utils/data_processor.py:163-205 | a dict display keeps the listed keys and values in order |
| OrderedDict.LiteralGet | utils/data_processor.py:163-205 | each listed key of a display maps to its listed value |
| Sorting.SortSorted | utils/excel_writer.py:134 | the sort is a permutation ordered by its key |
| Sorting.SortIncreasing | utils/excel_writer.py:134 | with distinct keys the sorted order is strictly increasing |
| Sorting.SortBy | utils/excel_writer.py:134 | the sort keeps every sheet, as a permutation |
| Sorting.InsertBy | utils/excel_writer.py:134 | inserting adds exactly the one element |
| Records.KeyCounts | utils/data_processor.py:163-205 | the canonical record has 41 columns and the Kaohsiung record has 40 |
| Records.ColumnNames | utils/data_processor.py:164-191 | the canonical column order: _id, 發照日期 and 執照類別 first, the progress columns at 3 to 8, and 起造人代表人 at 27 |
| Records.CanonicalDistinct | utils/data_processor.py:163-205 | the 41 canonical columns are distinct |
| Records.CanonicalRecord | utils/data_processor.py:163-205 | a record built from 41 values is a dict over the canonical columns, and each column holds its value |
| Records.KaohsiungRecord | utils/data_processor.py:259-300 | the same for the 40 Kaohsiung columns |
| Records.KaohsiungIndex | utils/data_processor.py:259-300 | the Kaohsiung columns are the canonical columns without 竣工期限, in the same order |
| Records.KaohsiungKeysShape | utils/data_processor.py:266 | 竣工期限 is not a Kaohsiung column |
| Records.KaohsiungLeadingColumns | utils/data_processor.py:259-262 | the Kaohsiung record also starts with _id, 發照日期 and 執照類別 |
| Dates.MakeDate | utils/data_processor.py:31-35 | `date(y, m, d)` succeeds exactly for a real calendar day within year 9999 |
| Dates.AddDays | utils/data_processor.py:50 | `d + timedelta(days=n)` is the date n ordinals later |
| Dates.NextDayStep | utils/data_processor.py:50 | the next day is valid and one ordinal later |
| Dates.OrdinalOrdersLexicographically | utils/data_processor.py:48 | date comparison agrees with the ordinal, and equal ordinals mean equal dates |
| Dates.DaysBeforeYearClosed | utils/data_processor.py:55 | the days before a year follow the Gregorian closed form |
| RocDates.TwStrToDate | utils/data_processor.py:24-35 | `tw_str_to_date`: "" and fewer than two numbers give `None`; two numbers mean day 1; otherwise year = first + 1911, month = second, day = third |
| RocDates.TwRoundTrip | utils/data_processor.py:24-42 | `tw_str_to_date(tw_year_format(d, slash=True)) == d` for every date from 1911 on |
| RocDates.TwNoSlashDoesNotParse | utils/data_processor.py:38-42 | the unslashed ROC format is one digit group, which does not parse |
| RocDates.TwRoundTripNeedsEraYears | utils/data_processor.py:41 | before 1911 the minus sign is lost, so the round trip fails |
| RocDates.TwStrToDateMinus | utils/data_processor.py:28 | a leading minus sign is ignored by `\d+` |
| RocDates.SlashText | utils/data_processor.py:38-42 | `tw_year_format(d, slash=True)` is the ROC year, then the month and day zero-padded to two digits, separated by slashes |
| RocDates.TwStrToDateOfKeys | utils/data_processor.py:28-35 | three digit groups are read as ROC year, month and day |
| DateRange.GenerateDates | utils/data_processor.py:45-50 | `generate_dates` yields valid dates no later than the end |
| DateRange.GenerateDatesLength | utils/data_processor.py:45-50 | the count is zero exactly when the start is after the end, and otherwise the number of steps that fit |
| DateRange.GenerateDatesSpacing | utils/data_processor.py:45-50 | the i-th date is i steps after the start |
| DateRange.GenerateDatesComplete | utils/data_processor.py:45-50 | index i exists exactly when the start plus i steps is no later than the end |
| DateRange.DailyCovers | utils/data_processor.py:45-50 | a daily range lists every date of the window exactly once |
| DateRange.TotalDaysUndercounts | utils/data_processor.py:53-55 | `total_days(d, d)` is 0 although `generate_dates(d, d)` yields one date |
| DateRange.TotalDaysVersusRange | utils/data_processor.py:53-55 | for any window, `total_days` is one less than the number of dates generated |
| DateRange.TotalDaysInclusive | utils/data_processor.py:53-55 | the intended count equals the number of dates generated |
| Crawl.Harvest | crawlers/mcgbm_crawler.py:62-77 | the yielded items come from the inputs in order; with no halt, every yielding input contributes its item |
| Crawl.HarvestKeeps | crawlers/mcgbm_crawler.py:62-77 | a property of every yielded item holds of the harvest |
| Crawl.HarvestStopsAtHalt | crawlers/hsinchu_crawler.py:96-101 | nothing after an input that raises is harvested |
| Crawl.HarvestInOrder | crawlers/nbupic_crawler.py:122-158 | harvested items keep the order of the inputs that yielded them |
| Crawl.Flatten | crawlers/hsinchu_crawler.py:64-140 | the concatenated results hold exactly the items of the parts |
| Crawl.TwStrToDateJ | crawlers/kaohsiung_crawler.py:100 | `tw_str_to_date` on a decoded value raises exactly for a truthy non-string |
| Crawl.PyRange | crawlers/mcgbm_crawler.py:47 | `range(lo, hi, step)`: the i-th value is lo + i·step, and the values are exactly those below hi |
| McgbmCrawler.UrlParamsSplit | utils/data_processor.py:19-21 | the URL parameters split at & into the five fields `d`, `c`, `Start`, 執照類別 and 發照日期 |
| McgbmCrawler.Offsets | crawlers/mcgbm_crawler.py:47 | the fifty page offsets are 1, 101, …, 4901 |
| McgbmCrawler.Jobs | crawlers/mcgbm_crawler.py:38-44 | the year–kind jobs: each ROC year from first to last, construction then occupancy |
| McgbmCrawler.RowStep | crawlers/mcgbm_crawler.py:62-77 | a row never stops the page; it yields exactly when it refines and its issue date lies in the window, and then yields the refined record |
| McgbmCrawler.DatedStep | crawlers/mcgbm_crawler.py:65-74 | a record yields exactly when its issue date parses into the window, with that date and its `_id` |
| McgbmCrawler.StepperYieldsItems | crawlers/mcgbm_crawler.py:62-77 | every yielded row is an in-window MCGBM item |
| McgbmCrawler.PageRows | crawlers/mcgbm_crawler.py:58 | `data.get('data', [])` raises exactly for a non-dict body or a truthy non-iterable value |
| McgbmCrawler.ReadPage | crawlers/mcgbm_crawler.py:50-87 | an HTTP or JSON error stops this kind with nothing; an unexpected body aborts the crawl; a full page of 100 rows continues; the yielded items are exactly the in-window rows |
| McgbmCrawler.ThenAssoc | crawlers/mcgbm_crawler.py:43-87 | appending runs is associative |
| McgbmCrawler.Walk | crawlers/mcgbm_crawler.py:47-87 | the page loop visits a prefix of the URLs, starting at the first, and yields only items of the visited pages |
| McgbmCrawler.WalkStops | crawlers/mcgbm_crawler.py:59-87 | the page loop requests exactly the pages up to the first short or failed one, and aborts exactly when that page aborts |
| McgbmCrawler.WalkFull | crawlers/mcgbm_crawler.py:47 | when every page is full, all fifty are requested |
| McgbmCrawler.Chain | crawlers/mcgbm_crawler.py:43-44 | the chained items all come from the runs |
| McgbmCrawler.ChainAborted | crawlers/mcgbm_crawler.py:43-87 | the crawl aborts exactly when some kind aborts |
| McgbmCrawler.ChainSticks | crawlers/mcgbm_crawler.py:43-87 | after an aborting kind nothing more is requested or yielded |
| McgbmCrawler.ChainComplete | crawlers/mcgbm_crawler.py:43-87 | without an abort the crawl is not aborted, and it requests at least as many URLs as any single kind |
| McgbmCrawler.KindStops | crawlers/mcgbm_crawler.py:47-87 | for one year and kind, the requested URLs are `base_url + generate_url_params(kind, 1 + 100q, year)` for q up to the first page that is not full |
| McgbmCrawler.CrawlItems | crawlers/mcgbm_crawler.py:68-74 | every item of the crawl is in the window |
| McgbmCrawler.FetchData | crawlers/mcgbm_crawler.py:31-89 | the generator's items, URLs and abort equal the chained runs of every year and kind, the count is the number of items, and each item is in the window |
| McgbmCrawler.CrawlJobs | crawlers/mcgbm_crawler.py:43-87 | the loop over jobs computes the chained runs |
| McgbmCrawler.ReadKind | crawlers/mcgbm_crawler.py:47-87 | the loop over pages computes the page walk |
| McgbmCrawler.WalkPages | crawlers/mcgbm_crawler.py:47-87 | the page loop over any list of requests ends at the first page that is not full, as the walk does |
| McgbmCrawler.ReadKindRun | crawlers/mcgbm_crawler.py:47 | at most fifty pages are requested for one year and kind |
| McgbmCrawler.ThenNothing | crawlers/mcgbm_crawler.py:43-87 | the empty run is neutral when runs are appended |
| McgbmCrawler.KindItems | crawlers/mcgbm_crawler.py:62-77 | every item of one year and kind is in the window |
| McgbmCrawler.ChainItems | crawlers/mcgbm_crawler.py:43-87 | items in the window stay in the window when the runs are chained |
| McgbmCrawler.JobStep | crawlers/mcgbm_crawler.py:43-87 | one step of the job loop: a kind that does not abort is appended and the crawl continues; an aborting one ends it |
| McgbmCrawler.PageStep | crawlers/mcgbm_crawler.py:47-87 | one step of the page loop: a full page is appended and the walk continues; any other page ends the walk |
| KaohsiungCrawler.EarlierOf | crawlers/kaohsiung_crawler.py:64 | `min` of two dates is one of them and no later than either |
| KaohsiungCrawler.Batches | crawlers/kaohsiung_crawler.py:62-64 | one batch per three-day step of the window, each ending at the earlier of two days later and the end |
| KaohsiungCrawler.BatchesInside | crawlers/kaohsiung_crawler.py:62-64 | each batch lies inside the window and spans fewer than three days |
| KaohsiungCrawler.BatchesTile | crawlers/kaohsiung_crawler.py:62-64 | every date of the window lies in exactly one batch |
| KaohsiungCrawler.RowDate | crawlers/kaohsiung_crawler.py:100 | reading `licdate` raises exactly for a non-dict row or a truthy non-string date |
| KaohsiungCrawler.RowStep | crawlers/kaohsiung_crawler.py:98-126 | a row halts the batch exactly when reading its date raises; it yields the refined detail under the row's `dkey` and date |
| KaohsiungCrawler.UndatedRow | crawlers/kaohsiung_crawler.py:102-103 | a row without key or date is skipped whatever the detail service answers |
| KaohsiungCrawler.BatchItems | crawlers/kaohsiung_crawler.py:89-133 | a failed listing yields nothing; every yielded item is a refined Kaohsiung item |
| KaohsiungCrawler.FetchData | crawlers/kaohsiung_crawler.py:42-135 | no connection gives nothing; otherwise one query per batch, in order, and the items are the batches' results concatenated; the count is the number of items |
| KaohsiungCrawler.CrawlBatches | crawlers/kaohsiung_crawler.py:63-133 | the batch loop issues the batch queries and concatenates the batch results |
| KaohsiungCrawler.BatchResultsItems | crawlers/kaohsiung_crawler.py:115-122 | every concatenated item is a refined Kaohsiung item |
| KaohsiungCrawler.BatchOf | crawlers/kaohsiung_crawler.py:64 | the batch end `min(d + 2 days, end)` is a valid date |
| KaohsiungCrawler.BatchStep | crawlers/kaohsiung_crawler.py:63-133 | one step of the batch loop appends that batch's query and items |
| HsinchuCrawler.Unwrap | crawlers/hsinchu_crawler.py:89-91 | a text not wrapped in `ok(` … `)` is kept as it is, and the result is never longer |
| HsinchuCrawler.UnwrapWrapped | crawlers/hsinchu_crawler.py:90-91 | unwrapping `ok(s)` gives s |
| HsinchuCrawler.RowDate | crawlers/hsinchu_crawler.py:98 | reading `identify_lice_date` raises exactly for a non-dict row or a truthy non-string date |
| HsinchuCrawler.RowStep | crawlers/hsinchu_crawler.py:96-126 | a row halts the day exactly when reading its date raises; a keyless row never yields; a yielded item carries the row's key and its own date or else the day |
| HsinchuCrawler.DetailStep | crawlers/hsinchu_crawler.py:104-130 | a detail yields exactly when it is fetched and refines to a permit, with the refined record |
| HsinchuCrawler.KeylessRow | crawlers/hsinchu_crawler.py:100-101 | a row without `index_key` is skipped whatever the detail service answers |
| HsinchuCrawler.DayItems | crawlers/hsinchu_crawler.py:80-140 | a failed request or undecodable body yields nothing for the day; every item is a refined Hsinchu item |
| HsinchuCrawler.FetchData | crawlers/hsinchu_crawler.py:44-142 | no connection gives nothing; otherwise one query per day, in order, and the items are the days' results concatenated; the count is the number of items |
| HsinchuCrawler.UnwrapPlain | crawlers/hsinchu_crawler.py:89-91 | a response that does not start with `ok(` is kept as it is |
| HsinchuCrawler.ListingRows | crawlers/hsinchu_crawler.py:93-96 | `data.get('rows', [])` and the loop over it raise exactly for a non-dict body or a non-iterable value |
| HsinchuCrawler.RowItem | crawlers/hsinchu_crawler.py:96-126 | a row that yields gives a refined Hsinchu item |
| HsinchuCrawler.DetailItem | crawlers/hsinchu_crawler.py:104-126 | a detail that yields gives a refined Hsinchu item |
| NbupicCrawler.QueryId | crawlers/nbupic_crawler.py:73-74 | the query id, when found, is non-empty and holds no double quote |
| NbupicCrawler.QueryIdOfField | crawlers/nbupic_crawler.py:73-74 | a page with the id field yields its value |
| NbupicCrawler.RequestKey | crawlers/nbupic_crawler.py:77-78 | the request key, when found, is non-empty and holds no double quote |
| NbupicCrawler.RunButtonKeys | crawlers/nbupic_crawler.py:120 | every permit key is non-empty and holds no apostrophe |
| NbupicCrawler.RunButtonKeysOne | crawlers/nbupic_crawler.py:120 | one `run_button('k'` yields the key k |
| NbupicCrawler.QueryFormOf | crawlers/nbupic_crawler.py:97-108 | the day's query form carries the organ, the slashed ROC date, the `%Y%m%d` date and the query id |
| NbupicCrawler.Ymd | crawlers/nbupic_crawler.py:102 | `strftime('%Y%m%d')` of a date from year 1000 to 9999 is eight digits that read back as its year, month and day |
| NbupicCrawler.QueryFormYmd | crawlers/nbupic_crawler.py:102 | the form's `Qry_regdat` reads back as the day queried |
| NbupicCrawler.QueryFormDate | crawlers/nbupic_crawler.py:101 | the slashed ROC date in the form reads back as the day |
| NbupicCrawler.KeyStep | crawlers/nbupic_crawler.py:122-162 | a key never stops the day; it yields only a refined permit whose progress columns were overwritten from the schedule, dated with the day and keyed by the key |
| NbupicCrawler.KeyStepProgress | crawlers/nbupic_crawler.py:146-151 | the five progress columns come from the schedule page, and every other column is the refined record's |
| NbupicCrawler.NoScheduleWithoutPermit | crawlers/nbupic_crawler.py:131-138 | when the licence page fails or is not a permit, the schedule page does not matter and the key is skipped |
| NbupicCrawler.KeyItem | crawlers/nbupic_crawler.py:153-158 | a yielded item of an in-window day is an NBUPIC item |
| NbupicCrawler.DayItems | crawlers/nbupic_crawler.py:110-169 | a failed query or expansion yields nothing; every item is dated with the day and comes from one of the page's keys |
| NbupicCrawler.DayItemsInOrder | crawlers/nbupic_crawler.py:120-158 | the day's items follow the order of the keys on the page |
| NbupicCrawler.DayItemsInWindow | crawlers/nbupic_crawler.py:92-158 | the items of an in-window day are NBUPIC items |
| NbupicCrawler.FetchData | crawlers/nbupic_crawler.py:52-171 | an initial failure, or a missing query id or request key, gives nothing; otherwise one form per day, in order, and the days' results concatenated; the count is the number of items |
| NbupicCrawler.CrawlDays | crawlers/nbupic_crawler.py:92-169 | the day loop issues the forms and concatenates the days' results |
| NbupicCrawler.DayResultsInWindow | crawlers/nbupic_crawler.py:92-158 | every item of the crawl is an NBUPIC item |
| NbupicCrawler.DayStep | crawlers/nbupic_crawler.py:92-169 | one step of the day loop appends that day's form and items |
| NbupicParser.StrippedParts | utils/data_processor.py:357 | `get_text(strip=True)`: the parts are non-empty and stripped |
| NbupicParser.StrippedBlank | utils/data_processor.py:357 | blank text nodes vanish |
| NbupicParser.Pairs | utils/data_processor.py:316-321 | cells pair up into ⌊n/2⌋ label–value pairs |
| NbupicParser.AssignGet | utils/data_processor.py:317-321 | after the pairs are assigned a label holds its last value, and other keys keep theirs |
| NbupicParser.RowDict | utils/data_processor.py:329-337 | a body row becomes a dict exactly when there are column names and cells, with keys drawn from the names |
| NbupicParser.DetailKeys | utils/data_processor.py:327 | the column names drop the first header cell |
| NbupicParser.BodiesLast | utils/data_processor.py:329-339 | for a titled section the last tbody's rows win |
| NbupicParser.DetailsGet | utils/data_processor.py:324-339 | a key holds the rows of the last section that assigns it |
| NbupicParser.ParseHtml | utils/data_processor.py:306-341 | no headers give {}; the result is a dict |
| NbupicParser.ParseHtmlGet | utils/data_processor.py:306-341 | a key holds the rows of the last section that assigns it, or else the last value of its label in the first header |
| NbupicParser.ParseAdditional | utils/data_processor.py:344-360 | no headers give {}; every value is a string |
| NbupicParser.ParseAdditionalGet | utils/data_processor.py:344-360 | a key holds the last value of its label |
| NbupicParser.LastWith | utils/data_processor.py:317-321 | a label's value is the last pair with that label, and none when no pair has it |
| NbupicParser.BodyRows | utils/data_processor.py:329-337 | a tbody gives at most one dict per row, and none without column names |
| NbupicParser.LastSectionStep | utils/data_processor.py:324-339 | a later section that assigns a key overrides the earlier ones |
| NbupicRefiner.BuildingArea | utils/data_processor.py:396 | 建築面積(其他) when truthy, else 建築面積 |
| NbupicRefiner.RefineNbupic | utils/data_processor.py:363-425 | no record exactly for the class 其它; otherwise the canonical columns, with the key as `_id`, the class, and the building area |
| NbupicRefiner.NbupicRecord | utils/data_processor.py:382-424 | the 41 values land in the canonical columns |
| NbupicRefiner.WithProgress | crawlers/nbupic_crawler.py:147-151 | overwriting the progress columns keeps the column order and every other column |
| NbupicRefiner.Overwrite | crawlers/nbupic_crawler.py:147-151 | the named keys take the schedule's value or "", and the others are unchanged |
| NbupicRefiner.NbupicValues | utils/data_processor.py:382-424 | the 41 values carry the key, the class and the building area in their columns |
| NbupicRefiner.ProgressCanonical | crawlers/nbupic_crawler.py:146-151 | the overwritten progress columns are canonical columns |
| McgbmRefiner.RefineMcgbm | utils/data_processor.py:135-206 | succeeds exactly for a readable row; the record has the canonical columns, an `_id`, a class computed from 執照類別, and the cleaned issue date |
| McgbmRefiner.McgbmRecord | utils/data_processor.py:163-205 | the 41 values land in the canonical columns |
| McgbmRefiner.RefineMcgbmTotal | utils/data_processor.py:135-206 | a row of strings always refines |
| McgbmRefiner.McgbmValues | utils/data_processor.py:163-205 | the 41 values carry the cleaned issue date and the class in their columns |
| McgbmRefiner.TextRowUsage | utils/data_processor.py:139-146 | for a row of strings, the usage set can always be built |
| KaohsiungRefiner.TitleKind | utils/data_processor.py:213-217 | a licence title is a construction or an occupancy permit |
| KaohsiungRefiner.FloorRows | utils/data_processor.py:228-240 | the floor rows raise exactly when some floor is not a dict; otherwise there is one row per floor, built from that floor |
| KaohsiungRefiner.LandNames | utils/data_processor.py:243-247 | the land names raise exactly when some entry is not a dict; otherwise there is one name per entry, each ending in 地號 |
| KaohsiungRefiner.LandNo | utils/data_processor.py:242-247 | `lan_data` gives a bracketed list, and a falsy `lan` without it gives "" |
| KaohsiungRefiner.LandNoFirstWord | utils/data_processor.py:242 | without `lan_data` the land number is the first word of `lan` |
| KaohsiungRefiner.AddrText | utils/data_processor.py:249-252 | without `p01addr` the address is `str(addr)` |
| KaohsiungRefiner.NotePart | utils/data_processor.py:256 | a memo becomes a one-element set display, and an unhashable memo raises |
| KaohsiungRefiner.NoteText | utils/data_processor.py:254-257 | without `memo_seq` the note is "" |
| KaohsiungRefiner.RefineKaohsiung | utils/data_processor.py:211-301 | a non-dict detail raises; a record exists exactly for a licence title; it has the 40 Kaohsiung columns, the index key as `_id`, and the title's class |
| KaohsiungRefiner.TitleGate | utils/data_processor.py:213-217 | for a licence title the class check passes with the same class |
| KaohsiungRefiner.KaohsiungRecordOf | utils/data_processor.py:259-300 | the 40 values land in the Kaohsiung columns |
| KaohsiungRefiner.FloorRow | utils/data_processor.py:231-239 | a floor row raises exactly for a non-dict floor, and otherwise has the seven floor columns in order |
| KaohsiungRefiner.FloorInfo | utils/data_processor.py:228-240 | without `stair` the floor information is "[]" |
| KaohsiungRefiner.LandName | utils/data_processor.py:246 | a land entry raises exactly when not a dict, and otherwise ends in 地號 |
| KaohsiungRefiner.AddrValues | utils/data_processor.py:251 | the address list raises exactly when some entry is not a dict, and has one value per entry |
| KaohsiungRefiner.NoteParts | utils/data_processor.py:256 | the memo list raises exactly when some memo fails, and has one part per memo |
| KaohsiungRefiner.KaohsiungValues | utils/data_processor.py:259-300 | the 40 values carry the index key, the issue date and the class in their columns |
| KaohsiungRefiner.TitleOther | utils/data_processor.py:213-217 | a string title that is not a licence title fails the second gate too |
| HsinchuSections.Reverse | utils/data_processor.py:437 | `list.reverse` mirrors the indices |
| HsinchuSections.BranchBounded | utils/data_processor.py:439-453 | a branch holds only spans numbered below the bound, and ends with the span it starts from |
| HsinchuSections.BranchIncreasing | utils/data_processor.py:439-453 | the spans of a branch have strictly increasing numbers from root to leaf |
| HsinchuSections.BranchIsWalk | utils/data_processor.py:439-459 | the branch is the reversed backward walk over the reversed spans |
| HsinchuSections.SourceBranch | utils/data_processor.py:455-459 | `get_branch(i)` of the reversed spans is the branch ending at the matching span |
| HsinchuSections.SetIfBlank | utils/data_processor.py:475-476 | a joined key is written only when missing or blank |
| HsinchuSections.SpanStep | utils/data_processor.py:461-481 | the first branch's value becomes 核發執照字號 and the second's becomes 原領執照字號 |
| HsinchuSections.RenameNumber | utils/data_processor.py:483-485 | 號碼 is renamed to 建造執照號碼 and removed |
| HsinchuSections.Section | utils/data_processor.py:435-485 | a section leaves no 號碼 key, and a section with spans sets 核發執照字號 |
| HsinchuSections.SectionInfo | utils/data_processor.py:430-487 | the pairs are a dict without 號碼 that holds 核發執照字號 once some section has spans |
| HsinchuSections.SpanSteps | utils/data_processor.py:461-481 | after the spans, every earlier key remains, and 核發執照字號 and 原領執照字號 are set once there are one and two spans |
| HsinchuSections.SectionKeepsLicence | utils/data_processor.py:435-485 | a later section never removes 核發執照字號 |
| HsinchuTables.Cleaned | utils/data_processor.py:496 | each header cell is cleaned |
| HsinchuTables.RowData | utils/data_processor.py:501-506 | a row maps the headers it has cells for, except 序號 |
| HsinchuTables.RowDataGet | utils/data_processor.py:503-505 | each header maps to its cleaned cell |
| HsinchuTables.Rows | utils/data_processor.py:500-508 | the kept rows are exactly the non-empty row dicts |
| HsinchuTables.MergeRows | utils/data_processor.py:521-525 | the merge zips to the shorter table |
| HsinchuTables.MergeRowsGet | utils/data_processor.py:524 | in a merged row the earlier table's cell wins |
| HsinchuTables.TableStep | utils/data_processor.py:511-527 | a titled table is stored under its cleaned title, a table titled from its parent merges with an existing one, an untitled one is dropped, and other titles are untouched |
| HsinchuTables.TableData | utils/data_processor.py:490-529 | the tables form a dict of valid rows |
| HsinchuTables.RowDatas | utils/data_processor.py:501-506 | one row dict per table row |
| HsinchuTables.NonEmpty | utils/data_processor.py:507-508 | the kept rows are exactly the non-empty ones |
| HsinchuTables.TableRows | utils/data_processor.py:500-508 | every kept row of a table is valid |
| HsinchuTables.MergeRowsValid | utils/data_processor.py:521-525 | merging valid rows gives valid rows |
| HsinchuRefiner.ParsePage | utils/data_processor.py:532-538 | the parse gives pairs without 號碼 and valid tables |
| HsinchuRefiner.Applicant | utils/data_processor.py:560-562 | the office is appended in parentheses when present |
| HsinchuRefiner.FloorLabels | utils/data_processor.py:574-576 | the labels are exactly the split 使用類組 values of the floor rows |
| HsinchuRefiner.UsageOf | utils/data_processor.py:573-577 | without the floor table the usage is "[]" |
| HsinchuRefiner.FloorInfo | utils/data_processor.py:580 | without the floor table "", otherwise a bracketed list |
| HsinchuRefiner.NoteOf | utils/data_processor.py:584-587 | without the notes table "" |
| HsinchuRefiner.Dates | utils/data_processor.py:553-558 | a construction permit has no start or completion date |
| HsinchuRefiner.RefineHsinchu | utils/data_processor.py:541-632 | no record exactly for the class 其它; otherwise the canonical columns with the key, the class, the licence number, the applicant, and empty dates for construction |
| HsinchuRefiner.HsinchuRecord | utils/data_processor.py:589-631 | the 41 values land in the canonical columns |
| HsinchuRefiner.NoteList | utils/data_processor.py:584-587 | the notes render as a bracketed list |
| HsinchuRefiner.HsinchuValues | utils/data_processor.py:589-631 | the 41 values carry the key, the class, the licence number, the applicant and the dates in their columns |
| Factory.Construct | crawlers/__init__.py:75-97 | the crawler has the city and window, its class follows the system, and MCGBM and NBUPIC crawlers get their base URL and organ |
| Factory.SupportedCities | crawlers/__init__.py:100-102 | the eleven configured cities, each once |
| Factory.GetCrawler | crawlers/__init__.py:70-97 | raises exactly for an unsupported city; otherwise a crawler for that city and window |
| Factory.GetCrawlerTable | crawlers/__init__.py:10-97 | each configured city gets the crawler its configuration names |
| Factory.SystemCounts | crawlers/__init__.py:10-67 | five MCGBM cities, four NBUPIC cities, Hsinchu County and Kaohsiung |
| Factory.CitiesDistinct | crawlers/__init__.py:10-67 | the city table has eleven distinct cities |
| Factory.SystemBlocks | crawlers/__init__.py:10-67 | the table lists the five MCGBM cities first, then the four NBUPIC cities, then Hsinchu County and Kaohsiung |
| ExcelWriter.NewWriter | utils/excel_writer.py:75-87 | both workbooks start with the default sheet only, and the stats are zero |
| ExcelWriter.SheetNameRead | utils/excel_writer.py:104 | `f"{y}-{m:02d}"` reads back as its month under `%Y-%m` |
| ExcelWriter.EarlySheetName | utils/excel_writer.py:104 | a year below 1000 gives a sheet name `%Y-%m` cannot read |
| ExcelWriter.FirstTitled | utils/excel_writer.py:108-109 | `workbook[name]` is the first sheet with that title |
| ExcelWriter.KindOf | utils/excel_writer.py:98 | construction exactly when 執照類別 is 建造執照, occupancy otherwise |
| ExcelWriter.WriteItem | utils/excel_writer.py:89-121 | a missing date or an empty record changes nothing; otherwise only the workbook of the record's kind changes, and it now has the month's sheet |
| ExcelWriter.WriteItemRoute | utils/excel_writer.py:98-121 | an item goes to its kind's workbook under its month's sheet, with the header written first |
| ExcelWriter.WriteSheetTidy | utils/excel_writer.py:106-121 | a new sheet gets header and values, an existing one gets the values appended, and one data row is added |
| ExcelWriter.WriteItemStep | utils/excel_writer.py:89-121 | each item adds one data row to its kind's count |
| ExcelWriter.WriteAllStats | utils/excel_writer.py:145-154 | after writing items the stats count the construction and the occupancy items |
| ExcelWriter.SaveBook | utils/excel_writer.py:131-134 | one sheet is kept as is; otherwise the default sheet goes and the rest is sorted by month, or the save raises exactly when a title is not a month |
| ExcelWriter.SaveBookSorts | utils/excel_writer.py:131-134 | with month titles the save is the sorted sheets without the default |
| ExcelWriter.SaveTidy | utils/excel_writer.py:131-134 | a workbook written by the writer saves, in strictly increasing month order |
| ExcelWriter.ColumnWidthAsWritten | utils/excel_writer.py:56-69 | a mapped header's width, or else the longest string cell |
| ExcelWriter.ColumnWidth | utils/excel_writer.py:56-69 | a mapped header's width, or else the longest cell as shown |
| ExcelWriter.WidthIgnoresNumbers | utils/excel_writer.py:62-66 | a number longer than an unmapped header does not widen the column |
| ExcelWriter.CanonicalHeaderWidths | utils/excel_writer.py:67-68 | under a canonical header both width rules agree |
| ExcelWriter.PathJoin | utils/excel_writer.py:129 | `os.path.join` ends with the file name and starts with the directory |
| ExcelWriter.Save | utils/excel_writer.py:123-143 | raises exactly when a workbook fails to sort; otherwise construction then occupancy, each saved under `<dir>/<city>_<kind>.xlsx`, with one width list per sheet |
| ExcelWriter.SaveWriter | utils/excel_writer.py:123-143 | a writer's workbooks always save, with sheets in month order |
| ExcelWriter.NewBook | utils/excel_writer.py:81-83 | a new workbook has only the default sheet and no data rows |
| ExcelWriter.Titles | utils/excel_writer.py:108 | `workbook.sheetnames` lists the sheet titles in order |
| ExcelWriter.MonthField | utils/excel_writer.py:134 | `%m` accepts only months 1 to 12 |
| ExcelWriter.SheetMonth | utils/excel_writer.py:134 | `strptime(title, "%Y-%m")` succeeds only for a four-digit year, a dash and a month |
| ExcelWriter.SheetNameMonth | utils/excel_writer.py:104 | a sheet name reads back as its month, and is a month title |
| ExcelWriter.SheetNameParts | utils/excel_writer.py:104 | a sheet name is the four-digit year, a dash and the two-digit month |
| ExcelWriter.SheetNameNotDefault | utils/excel_writer.py:104 | a sheet name is never the default title "Sheet" |
| ExcelWriter.RemoveTitled | utils/excel_writer.py:132-133 | removing an absent title leaves the sheets unchanged |
| ExcelWriter.HeaderRow | utils/excel_writer.py:117 | the header row has one cell per key |
| ExcelWriter.ValueRow | utils/excel_writer.py:120 | the value row has one cell per value |
| ExcelWriter.MonthTitleInjective | utils/excel_writer.py:134 | different month titles have different sort keys |
| ExcelWriter.TidyKept | utils/excel_writer.py:131-134 | in a written workbook the default sheet comes first, and the other titles are distinct months |
| ExcelWriter.MappedWidth | utils/excel_writer.py:11-53 | the width table maps exactly the canonical headers |
| ExcelWriter.Widths | utils/excel_writer.py:137-138 | every sheet has at least one column width |
| ExcelWriter.HeaderOverNumber | utils/excel_writer.py:62-66 | under an unmapped header, a number never widens the column |
| ExcelWriter.AllWidths | utils/excel_writer.py:137-138 | one width list per sheet |

## Left out

- HTTP: requests, headers, cookies, timeouts and status checks are the `fetch`, `query`, `detail`, `search`, `expand`, `licence` and `schedule` parameters. Each returns a `Result`, and `Raised` stands for every error the source catches.
- HTML parsing: BeautifulSoup is replaced by the parsed tree it would return (`div.main-header` cells, `tableCon` spans, `table` rows). The selectors and `get_text` are not modelled, beyond stripping in `NbupicParser.StrippedParts`.
- JSON decoding: `json.loads` and `response.json()` are the `decode` parameter or give a `Json` directly.
- Logging and progress callbacks (`self.log`, `on_progress`) have no effect on the items and are not modelled.
- The removal of `\x05` before MCGBM decoding is part of the `fetch` parameter.
- The Hsinchu payload's `nd` timestamp (`datetime.now`) and the other constant payload fields are not modelled. The query is reduced to the dates it carries.
- NbupicCrawler.QueryFormOf: for a year below 1000, `%Y` is modelled as glibc writes it, without zero padding. Other C libraries pad it to four digits, so the form's `Qry_regdat` may differ there.
- openpyxl: workbooks are sheet lists. Cell types, `max_row` of an empty sheet, and the serialisation done by `workbook.save` are not modelled. `Save` returns the sheets, paths and widths it would write.
- `os.makedirs` is left out, because the model writes no files.
- `dict_rename` is not modelled, because nothing in the modelled code calls it.
- `crawlers/base.py`, `api/main.py` and `app.py` are not part of this model.
- Concurrency: the `async` generators are modelled as sequential loops that return their items at the end.
- Json: decoded values have no floating-point case. A JSON number with a fraction or an exponent cannot be represented.
- FloatRound: `float()` is modelled on exact decimals, not on IEEE doubles. An exponent form such as "1e3" gives "" where Python gives 1000. A literal such as "2.5000000000000001", which the double rounds to 2.5, gives 3 where Python gives 2. A text too long for a double overflows to `inf` in Python, so `round` raises and the price is "", while the model gives the exact integer.
- Extract.ExtractNumericalValue: the price digits are read exactly, while `round(float(...))` at utils/data_processor.py:125 goes through an IEEE double. Above 2^53 the double loses precision, so "($9007199254740993)" gives 9007199254740992 in Python but 9007199254740993 in the model.
- ReprStr: the printable set (`PyJson.Printable`) lists the C1 controls, the Unicode space separators other than the space, the line and paragraph separators, the common format characters, the private-use area and two noncharacters. Other unassigned, format or surrogate code points that Python escapes are written verbatim in this model.
- UsageText: Python renders `list(set)` in string-hash order, which changes with `PYTHONHASHSEED`. The model fixes first-occurrence order, and its contract promises only that each distinct label appears exactly once.
- IsDigit: only ASCII and full-width digits count as digits. Python's `\d` and `int()` also accept the other Unicode decimal digits, such as Arabic-Indic digits.
- Valid: dates stop at 9999-12-31 (`Dates.MaxYear`). `generate_dates` raises `OverflowError` when it steps past that date, and so does Kaohsiung's `from_date + delta`. The model's date stepping does not raise there.
- ExcelWriter.Save: it computes column widths with the rule as written (`ColumnWidthAsWritten`), which ignores non-string cells. See the finding below.

## Findings

| source | as written | input that shows it | evidently intended | confidence | as-written member | corrected member |
|---|---|---|---|---|---|---|
| utils/data_processor.py:53-55 | `total_days` is `ceil((end - start) / delta)`, the number of gaps between the dates | start == end: `total_days` gives 0 while `generate_dates` yields one date | the number of dates `generate_dates` yields over the same window | not executed | DateRange.TotalDaysVersusRange | DateRange.TotalDaysInclusive |
| utils/excel_writer.py:62-66 | the width test uses `len(str(v))`, but the update uses `len(v)`, which raises for a number, and the bare `except` skips that cell | a sheet with the unmapped header "x" over the number 12345 gets width 1 | the width of the longest cell as shown, 5 here | not executed | ExcelWriter.WidthIgnoresNumbers | ExcelWriter.ColumnWidth |


=== FILE: classify.dfy ===
/** `check_license_type`: the permit kind named by a licence label. */
module Classify {
  import opened Common
  import opened Text
  import opened PyJson

  const Construction: string := "建造執照"
  const Occupancy: string := "使用執照"
  const Other: string := "其它"

  predicate IsKind(r: string) {
    r == Construction || r == Occupancy || r == Other
  }

  /** Construction markers: 造字, 建字, 建造. */
  predicate HasConstructionMarker(s: string) {
    Contains(s, "造字") || Contains(s, "建字") || Contains(s, "建造")
  }

  /** Occupancy markers: 使字 (unless 變使字 appears anywhere), 使用執照, 用字. */
  predicate HasOccupancyMarker(s: string) {
    (Contains(s, "使字") && !Contains(s, "變使字")) || Contains(s, "使用執照") || Contains(s, "用字")
  }

  /** `check_license_type(s)`. */
  function CheckLicenseType(s: string): (r: string)
    ensures IsKind(r)
    ensures r == Construction <==> HasConstructionMarker(s)
    ensures r == Occupancy <==> !HasConstructionMarker(s) && HasOccupancyMarker(s)
  {
    if HasConstructionMarker(s) then Construction
    else if HasOccupancyMarker(s) then Occupancy
    else Other
  }

  /** A construction marker wins whatever else the label says. */
  lemma ConstructionWins(a: string, marker: string, b: string)
    requires marker == "造字" || marker == "建字" || marker == "建造"
    ensures CheckLicenseType(a + marker + b) == Construction
  {
    ContainsSelf(marker);
    ContainsInContext(a, marker, b, marker);
  }

  /** 變使字 masks every 使字 it contains: a label with no other marker is
      classified `其它` even though 使字 occurs in it. */
  lemma AlterationIsOther(a: string, b: string)
    requires !HasConstructionMarker(a + "變使字" + b)
    requires !Contains(a + "變使字" + b, "使用執照") && !Contains(a + "變使字" + b, "用字")
    ensures Contains(a + "變使字" + b, "使字")
    ensures CheckLicenseType(a + "變使字" + b) == Other
  {
    ContainsSelf("變使字");
    ContainsInContext(a, "變使字", b, "變使字");
    ContainsSelf("使字");
    ContainsInContext(a + "變", "使字", b, "使字");
    assert a + "變" + "使字" + b == a + "變使字" + b;
  }

  /** The two Kaohsiung licence titles classify as their own kinds. */
  lemma TitleKinds(t1: string, t2: string)
    requires t1 == "建造執照號碼" && t2 == "使用執照號碼"
    ensures CheckLicenseType(t1) == Construction
    ensures CheckLicenseType(t2) == Occupancy
  {
    ConstructionWins("", "建造", "執照號碼");
    assert t1 == "" + "建造" + "執照號碼";
    ContainsSelf("使用執照");
    ContainsInContext("", "使用執照", "號碼", "使用執照");
    assert t2 == "" + "使用執照" + "號碼";
    NotContainsWithoutFirst(t2, "造字");
    NotContainsWithoutFirst(t2, "建字");
    NotContainsWithoutFirst(t2, "建造");
  }

  /** `check_license_type` on a decoded JSON value: `in` is a substring test
      on strings, an element test on lists and a key test on dicts; any other
      value makes the first `in` raise `TypeError`. */
  function CheckLicenseTypeJ(v: Json): (r: Result<string>)
    ensures r.Ok? <==> v.JStr? || v.JList? || v.JObj?
    ensures v.JStr? ==> r == Ok(CheckLicenseType(v.s))
    ensures r.Ok? ==> IsKind(r.value)
  {
    match v
    case JStr(s) => Ok(CheckLicenseType(s))
    case JList(_) | JObj(_) =>
      var has := (p: string) => InJ(p, v) == Ok(true);
      if has("造字") || has("建字") || has("建造") then Ok(Construction)
      else if (has("使字") && !has("變使字")) || has("使用執照") || has("用字") then Ok(Occupancy)
      else Ok(Other)
    case _ => Raised
  }
}

=== FILE: clean.dfy ===
/** `clean_key`: the label normaliser applied to scraped keys and values. */
module Clean {
  import opened Common
  import opened Text
  import opened PyJson

  /** The deletions `clean_key` makes: ideographic spaces, full-width
      colons, asterisk runs and the word 年月日. */
  function Deletions(s: string): (r: string)
    ensures forall c :: c in r ==> c in s
    ensures '　' !in r && '：' !in r
  {
    var k1 := Replace(s, "　", "");
    var k2 := Replace(k1, "：", "");
    var k3 := Replace(k2, "* * *", "");
    var k4 := Replace(k3, "＊＊＊", "");
    var k5 := Replace(k4, "***", "");
    Replace(k5, "年月日", "")
  }

  /** The characters the substitutions can bring in. */
  const Inserted := "地址面積()"

  /** The substitutions `clean_key` makes: ASCII parentheses for full-width
      ones, then two typo repairs. */
  function Substitutions(s: string): (r: string)
    ensures forall c :: c in r ==> c in s || c in Inserted
    ensures '（' !in r && '）' !in r
  {
    var k7 := Replace(s, "（", "(");
    var k8 := Replace(k7, "）", ")");
    var k9 := Replace(k8, "址址", "地址");
    Replace(k9, "面績", "面積")
  }

  /** `clean_key(key)`: delete ideographic spaces, full-width colons and
      asterisk runs and the word 年月日, turn full-width parentheses into
      ASCII ones, repair two common typos, strip, and map `-` to empty. */
  function CleanKey(key: Option<string>): (r: string)
    ensures key.None? ==> r == ""
    ensures IsStripped(r)
    ensures r != "-"
    ensures '　' !in r && '：' !in r && '（' !in r && '）' !in r
    ensures key.Some? ==> forall c :: c in r ==> c in key.value || c in Inserted
  {
    match key
    case None => ""
    case Some(k0) =>
      var k := Strip(Substitutions(Deletions(k0)));
      CleanedChars(k0);
      if k == "-" || k == "" then "" else k
  }

  /** What the rewriting stages keep and bring in, before the `-` check. */
  lemma CleanedChars(k0: string)
    ensures IsStripped(Strip(Substitutions(Deletions(k0))))
    ensures forall c :: c in Strip(Substitutions(Deletions(k0))) ==> c in k0 || c in Inserted
    ensures '　' !in Strip(Substitutions(Deletions(k0))) && '：' !in Strip(Substitutions(Deletions(k0)))
    ensures '（' !in Strip(Substitutions(Deletions(k0))) && '）' !in Strip(Substitutions(Deletions(k0)))
  {
    var d := Deletions(k0);
    var t := Substitutions(d);
    var k := Strip(t);
    assert '　' !in t && '：' !in t by {
      DeletedNotInserted();
    }
    assert forall c :: c in t ==> c in k0 || c in Inserted;
  }

  lemma DeletedNotInserted()
    ensures '　' !in Inserted && '：' !in Inserted
  {
  }

  /** The patterns `clean_key` rewrites. */
  predicate HasNoPattern(s: string) {
    && !Contains(s, "　") && !Contains(s, "：") && !Contains(s, "* * *")
    && !Contains(s, "＊＊＊") && !Contains(s, "***") && !Contains(s, "年月日")
    && !Contains(s, "（") && !Contains(s, "）") && !Contains(s, "址址") && !Contains(s, "面績")
  }

  /** A stripped label free of every rewritten pattern, other than `-`, is
      returned unchanged. */
  lemma CleanKeyFixedPoint(s: string)
    requires IsStripped(s) && HasNoPattern(s) && s != "-"
    ensures CleanKey(Some(s)) == s
  {
    assert Deletions(s) == s;
    assert Substitutions(s) == s;
    StripStripped(s);
  }

  /** A label free of every rewritten pattern, with or without surrounding
      white space, cleans to its stripped text, or to "" when that is `-`. */
  lemma CleanKeyStrips(s: string)
    requires HasNoPattern(s)
    ensures CleanKey(Some(s)) == if Strip(s) == "-" then "" else Strip(s)
  {
    assert Deletions(s) == s;
    assert Substitutions(s) == s;
  }

  /** Substitutions leave a string alone when none of their patterns'
      first characters occurs in it. */
  lemma SubstitutionsIdle(s: string)
    requires '（' !in s && '）' !in s && '址' !in s && '面' !in s
    ensures Substitutions(s) == s
  {
    NotContainsWithoutFirst(s, "（");
    NotContainsWithoutFirst(s, "）");
    NotContainsWithoutFirst(s, "址址");
    NotContainsWithoutFirst(s, "面績");
  }

  lemma DeletionsIdle(s: string)
    requires '　' !in s && '：' !in s && '*' !in s && '＊' !in s && '年' !in s
    ensures Deletions(s) == s
  {
    NotContainsWithoutFirst(s, "　");
    NotContainsWithoutFirst(s, "：");
    NotContainsWithoutFirst(s, "* * *");
    NotContainsWithoutFirst(s, "＊＊＊");
    NotContainsWithoutFirst(s, "***");
    NotContainsWithoutFirst(s, "年月日");
  }

  /** Blank labels (white space only) clean to the empty string. */
  lemma CleanKeyBlank(s: string)
    requires forall i :: 0 <= i < |s| ==> IsSpace(s[i])
    ensures CleanKey(Some(s)) == ""
  {
    var d := Deletions(s);
    assert forall c :: c in s ==> IsSpace(c);
    assert forall c :: c in d ==> IsSpace(c);
    SubstitutionsIdle(d);
    assert forall i :: 0 <= i < |d| ==> IsSpace(d[i]) by {
      assert forall i :: 0 <= i < |d| ==> d[i] in d;
    }
  }

  /** The placeholder `-` cleans to the empty string. */
  lemma CleanKeyDash()
    ensures CleanKey(Some("-")) == ""
  {
    DeletionsIdle("-");
    SubstitutionsIdle("-");
    StripStripped("-");
  }

  /** `clean_key` is not idempotent: a triple 址 is repaired one pair per call. */
  lemma CleanKeyNotIdempotent()
    ensures CleanKey(Some("址址址")) == "地址址"
    ensures CleanKey(Some("地址址")) == "地地址"
  {
    RepairFirstPair();
    RepairSecondPair();
  }

  lemma RepairFirstPair()
    ensures CleanKey(Some("址址址")) == "地址址"
  {
    SubstitutionsOfTriple();
    PlainLabel("址址址");
    PlainLabel("地址址");
    CleanKeyStages("址址址", "地址址");
  }

  /** A label of 地 and 址 only: nothing for the deletions, not blank, not
      `-`, and stripped. */
  lemma PlainLabel(s: string)
    requires |s| == 3 && forall i :: 0 <= i < 3 ==> s[i] == '地' || s[i] == '址'
    ensures '　' !in s && '：' !in s && '*' !in s && '＊' !in s && '年' !in s
    ensures s != [] && s != "-" && IsStripped(s)
  {
    assert s[0] in "地址" && s[2] in "地址";
  }

  /** `clean_key` of a label untouched by the deletions, whose substitutions
      yield a non-blank stripped label. */
  lemma CleanKeyStages(s: string, t: string)
    requires '　' !in s && '：' !in s && '*' !in s && '＊' !in s && '年' !in s
    requires Substitutions(s) == t && t != [] && t != "-" && IsStripped(t)
    ensures CleanKey(Some(s)) == t
  {
    DeletionsIdle(s);
    StripStripped(t);
  }

  lemma SubstitutionsOfTriple()
    ensures Substitutions("址址址") == "地址址"
  {
    var s := "址址址";
    NotContainsWithoutFirst(s, "（");
    NotContainsWithoutFirst(s, "）");
    ReplaceTriple();
    NotContainsWithoutFirst("地址址", "面績");
  }

  lemma ReplaceTriple()
    ensures Replace("址址址", "址址", "地址") == "地址址"
  {
    var s := "址址址";
    assert s[..2] == "址址";
    assert s[2..] == "址";
    assert Replace("址", "址址", "地址") == "址";
  }

  lemma RepairSecondPair()
    ensures CleanKey(Some("地址址")) == "地地址"
  {
    SubstitutionsOfRepaired();
    PlainLabel("地址址");
    PlainLabel("地地址");
    CleanKeyStages("地址址", "地地址");
  }

  lemma SubstitutionsOfRepaired()
    ensures Substitutions("地址址") == "地地址"
  {
    var s := "地址址";
    NotContainsWithoutFirst(s, "（");
    NotContainsWithoutFirst(s, "）");
    ReplaceRepaired();
    NotContainsWithoutFirst("地地址", "面績");
  }

  lemma ReplaceRepaired()
    ensures Replace("地址址", "址址", "地址") == "地地址"
  {
    var s := "地址址";
    assert s[0] == '地';
    assert s[..2] != "址址";
    assert s[1..] == "址址";
    assert Replace("址址", "址址", "地址") == "地址" by {
      assert "址址"[2..] == [];
    }
  }

  /** `clean_key` applied to a decoded JSON value: `None` cleans to empty,
      strings are cleaned, and anything else has no `.replace`. */
  function CleanJ(v: Json): (r: Result<string>)
    ensures r.Ok? <==> v.JNull? || v.JStr?
    ensures v.JNull? ==> r == Ok("")
    ensures v.JStr? ==> r == Ok(CleanKey(Some(v.s)))
  {
    match v
    case JNull => Ok(CleanKey(None))
    case JStr(s) => Ok(CleanKey(Some(s)))
    case _ => Raised
  }
}

=== FILE: common.dfy ===
/** Failure-compatible wrappers shared by every module of the model. */
module Common {

  /** Python's `Optional[T]`: a value or `None`. */
  datatype Option<+T> = None | Some(value: T) {
    predicate IsFailure() {
      None?
    }

    function PropagateFailure<U>(): Option<U>
      requires None?
    {
      None
    }

    function Extract(): T
      requires Some?
    {
      value
    }

    function GetOr(default: T): T {
      match this
      case Some(v) => v
      case None => default
    }
  }

  /** The outcome of Python code that may raise: `Raised` stands for any
      exception the calling code catches (or fails to catch). */
  datatype Result<+T> = Ok(value: T) | Raised {
    predicate IsFailure() {
      Raised?
    }

    function PropagateFailure<U>(): Result<U>
      requires Raised?
    {
      Raised
    }

    function Extract(): T
      requires Ok?
    {
      value
    }
  }

  function Min(a: int, b: int): int {
    if a <= b then a else b
  }

  /** Number of elements of `s` that satisfy `p`. */
  function Count<T>(s: seq<T>, p: T -> bool): (n: nat)
    ensures n <= |s|
  {
    if s == [] then 0 else Count(s[..|s| - 1], p) + (if p(s[|s| - 1]) then 1 else 0)
  }

  /** The distinct elements of `s` in order of first occurrence. */
  function Dedup(s: seq<string>): (r: seq<string>)
    ensures forall x :: x in r <==> x in s
    ensures forall i, j :: 0 <= i < j < |r| ==> r[i] != r[j]
  {
    if s == [] then []
    else
      var p := Dedup(s[..|s| - 1]);
      assert forall x :: x in s <==> x in s[..|s| - 1] || x == s[|s| - 1] by {
        assert s == s[..|s| - 1] + [s[|s| - 1]];
      }
      if s[|s| - 1] in p then p else p + [s[|s| - 1]]
  }

  /** A step that may raise applied to each element in turn: the results in
      order, or `Raised` as soon as one step raises. */
  function MapAll<T, U>(xs: seq<T>, g: T -> Result<U>): (r: Result<seq<U>>)
    ensures r.Ok? <==> forall i :: 0 <= i < |xs| ==> g(xs[i]).Ok?
    ensures r.Ok? ==> |r.value| == |xs| && forall i :: 0 <= i < |xs| ==> g(xs[i]) == Ok(r.value[i])
    decreases |xs|
  {
    if xs == [] then Ok([])
    else
      var first := g(xs[0]);
      var rest := MapAll(xs[1..], g);
      assert forall i :: 0 <= i < |xs| - 1 ==> xs[1..][i] == xs[i + 1];
      if first.Raised? || rest.Raised? then Raised
      else Ok([first.value] + rest.value)
  }

  /** The last position whose element satisfies `p`, if any. */
  function LastWhere<T>(xs: seq<T>, p: T -> bool): (r: Option<nat>)
    ensures r.None? <==> forall j :: 0 <= j < |xs| ==> !p(xs[j])
    ensures r.Some? ==> r.value < |xs| && p(xs[r.value]) && forall j :: r.value < j < |xs| ==> !p(xs[j])
    decreases |xs|
  {
    if xs == [] then None
    else if p(xs[|xs| - 1]) then Some(|xs| - 1)
    else
      var r := LastWhere(xs[..|xs| - 1], p);
      assert forall j :: 0 <= j < |xs| - 1 ==> xs[..|xs| - 1][j] == xs[j];
      r
  }
}

=== FILE: crawl.dfy ===
/** What the four crawlers share: the item a crawl yields, the date reading
    applied to a listing row, and the row loop that skips failed rows and
    may be cut short by an exception escaping the loop. */
module Crawl {
  import opened Common
  import opened Dates
  import opened RocDates
  import opened PyJson
  import opened Records

  /** One yielded item: `{'date': ..., 'index_key': ..., 'data': ...}`. */
  datatype Item = Item(date: Date, key: Json, data: Record)

  /** What the loop body does with one row: yield an item, `continue`, or
      raise out of the loop. */
  datatype Step<U> = Yield(item: U) | Skip | Halt

  /** The items a row loop yields, in row order, up to the first row whose
      body raises out of the loop. */
  function Harvest<T, U>(xs: seq<T>, f: T -> Step<U>): (r: seq<U>)
    ensures |r| <= |xs|
    ensures forall y :: y in r ==> exists i :: 0 <= i < |xs| && f(xs[i]) == Yield(y)
    ensures (forall i :: 0 <= i < |xs| ==> !f(xs[i]).Halt?) ==>
      forall i :: 0 <= i < |xs| && f(xs[i]).Yield? ==> f(xs[i]).item in r
    decreases |xs|
  {
    if xs == [] then []
    else
      var rest := Harvest(xs[1..], f);
      assert forall i :: 1 <= i < |xs| ==> xs[i] == xs[1..][i - 1];
      match f(xs[0])
      case Halt => []
      case Skip => rest
      case Yield(y) => [y] + rest
  }

  /** Whatever every yielding row satisfies, every harvested item does. */
  lemma HarvestKeeps<T, U>(xs: seq<T>, f: T -> Step<U>, ok: U -> bool)
    requires forall i :: 0 <= i < |xs| && f(xs[i]).Yield? ==> ok(f(xs[i]).item)
    ensures forall y :: y in Harvest(xs, f) ==> ok(y)
  {
    forall y | y in Harvest(xs, f)
      ensures ok(y)
    {
      var i :| 0 <= i < |xs| && f(xs[i]) == Yield(y);
    }
  }

  /** Nothing after the first row that raises is yielded. */
  lemma {:induction false} HarvestStopsAtHalt<T, U>(xs: seq<T>, f: T -> Step<U>, k: nat)
    requires k < |xs| && f(xs[k]).Halt?
    ensures Harvest(xs, f) == Harvest(xs[..k], f)
    decreases k
  {
    if k > 0 {
      HarvestStopsAtHalt(xs[1..], f, k - 1);
      assert xs[1..][..k - 1] == xs[..k][1..];
    }
  }

  /** Rows `i < j` of `xs` yield `y` and `z`. */
  ghost predicate YieldsInOrder<T, U>(xs: seq<T>, f: T -> Step<U>, y: U, z: U) {
    exists i, j :: 0 <= i < j < |xs| && f(xs[i]) == Yield(y) && f(xs[j]) == Yield(z)
  }

  /** Items come out in the order of the rows that yield them. */
  lemma {:induction false} HarvestInOrder<T, U>(xs: seq<T>, f: T -> Step<U>, a: nat, b: nat)
    requires a < b < |Harvest(xs, f)|
    ensures exists i, j :: 0 <= i < j < |xs| && f(xs[i]) == Yield(Harvest(xs, f)[a]) && f(xs[j]) == Yield(Harvest(xs, f)[b])
    decreases |xs|
  {
    var tail := xs[1..];
    var rest := Harvest(tail, f);
    HarvestCons(xs, f);
    if f(xs[0]).Skip? {
      HarvestInOrder(tail, f, a, b);
      LiftInOrder(xs, f, rest[a], rest[b]);
    } else if a == 0 {
      HeadFirst(xs, f, rest[b - 1]);
    } else {
      HarvestInOrder(tail, f, a - 1, b - 1);
      LiftInOrder(xs, f, rest[a - 1], rest[b - 1]);
    }
  }

  lemma HarvestCons<T, U>(xs: seq<T>, f: T -> Step<U>)
    requires xs != []
    ensures f(xs[0]).Halt? ==> Harvest(xs, f) == []
    ensures f(xs[0]).Skip? ==> Harvest(xs, f) == Harvest(xs[1..], f)
    ensures f(xs[0]).Yield? ==> Harvest(xs, f) == [f(xs[0]).item] + Harvest(xs[1..], f)
  {
  }

  lemma LiftInOrder<T, U>(xs: seq<T>, f: T -> Step<U>, y: U, z: U)
    requires xs != [] && YieldsInOrder(xs[1..], f, y, z)
    ensures YieldsInOrder(xs, f, y, z)
  {
    var i, j :| 0 <= i < j < |xs[1..]| && f(xs[1..][i]) == Yield(y) && f(xs[1..][j]) == Yield(z);
    assert xs[i + 1] == xs[1..][i] && xs[j + 1] == xs[1..][j];
  }

  lemma HeadFirst<T, U>(xs: seq<T>, f: T -> Step<U>, z: U)
    requires xs != [] && f(xs[0]).Yield? && z in Harvest(xs[1..], f)
    ensures YieldsInOrder(xs, f, f(xs[0]).item, z)
  {
    var j :| 0 <= j < |xs[1..]| && f(xs[1..][j]) == Yield(z);
    assert xs[j + 1] == xs[1..][j];
  }

  /** The items of a run of units (days, windows, query jobs), unit after
      unit: nothing but what some unit yields, and all of it. */
  function Flatten(parts: seq<seq<Item>>): (r: seq<Item>)
    ensures forall x :: x in r <==> exists i :: 0 <= i < |parts| && x in parts[i]
    decreases |parts|
  {
    if parts == [] then []
    else
      var init := parts[..|parts| - 1];
      assert forall i :: 0 <= i < |init| ==> init[i] == parts[i];
      Flatten(init) + parts[|parts| - 1]
  }

  /** One more unit adds its items at the end. */
  lemma FlattenSnoc(parts: seq<seq<Item>>, i: nat)
    requires i < |parts|
    ensures Flatten(parts[..i + 1]) == Flatten(parts[..i]) + parts[i]
  {
    assert parts[..i + 1][..i] == parts[..i];
  }

  lemma PrefixSnoc<T>(s: seq<T>, i: nat)
    requires i < |s|
    ensures s[..i + 1] == s[..i] + [s[i]]
  {
  }

  /** `tw_str_to_date(v)` on a decoded value: a falsy value gives `None`
      before any parsing, and a truthy value that is not a string makes
      `re.findall` raise. */
  function TwStrToDateJ(v: Json): (r: Result<Option<Date>>)
    ensures r.Raised? <==> Truthy(v) && !v.JStr?
    ensures v.JStr? ==> r == Ok(TwStrToDate(v.s))
    ensures r.Ok? && r.value.Some? ==> v.JStr? && Valid(r.value.value)
  {
    if !Truthy(v) then Ok(None)
    else if v.JStr? then Ok(TwStrToDate(v.s))
    else Raised
  }

  /** Python `range(lo, hi, step)` for a positive step: every element is a
      whole number of steps from `lo` and below `hi`, and one more step
      would reach `hi`. */
  function PyRange(lo: int, hi: int, step: nat): (r: seq<int>)
    requires step >= 1
    ensures forall i :: 0 <= i < |r| ==> r[i] == lo + i * step && r[i] < hi
    ensures lo + |r| * step >= hi
    ensures |r| >= 1 ==> lo + (|r| - 1) * step < hi
    decreases hi - lo
  {
    if lo >= hi then []
    else
      var rest := PyRange(lo + step, hi, step);
      assert forall i :: 1 <= i <= |rest| ==> (i - 1) * step + step == i * step;
      [lo] + rest
  }

  /** `start <= d <= end`. */
  predicate InWindow(d: Date, start: Date, end: Date) {
    d.year >= 1 && start.year >= 1 && end.year >= 1 && Le(start, d) && Le(d, end)
  }
}

=== FILE: date_range.dfy ===
/** Date stepping (`generate_dates`, `total_days`). Steps are whole days. */
module DateRange {
  import opened Common
  import opened Dates

  /** `generate_dates(start, end, timedelta(days=step))`: start, start+step, …
      while the date is not after `end`. */
  function GenerateDates(start: Date, end: Date, step: nat): (r: seq<Date>)
    requires Valid(start) && Valid(end) && step >= 1
    ensures forall i :: 0 <= i < |r| ==> Valid(r[i]) && Le(r[i], end)
    decreases Ordinal(end) - Ordinal(start)
  {
    if Ordinal(start) > Ordinal(end) then []
    else
      var next := AddDays(start, step);
      var rest := GenerateDates(next, end, step);
      assert forall i :: 1 <= i < |rest| + 1 ==> ([start] + rest)[i] == rest[i - 1];
      [start] + rest
  }

  lemma {:induction false} MulMonotone(a: int, b: int, k: int)
    requires a <= b && k >= 0
    ensures a * k <= b * k
    decreases b - a
  {
    if a < b {
      MulMonotone(a, b - 1, k);
      assert (b - 1) * k + k == b * k;
    }
  }

  /** The range is empty exactly when `start` is after `end`; otherwise its
      last element is the final step that does not pass `end`. */
  lemma {:induction false} GenerateDatesLength(start: Date, end: Date, step: nat)
    requires Valid(start) && Valid(end) && step >= 1
    ensures var n := |GenerateDates(start, end, step)|;
      && (Ordinal(start) > Ordinal(end) <==> n == 0)
      && (n > 0 ==> (n - 1) * step <= Ordinal(end) - Ordinal(start) < n * step)
    decreases Ordinal(end) - Ordinal(start)
  {
    if Ordinal(start) <= Ordinal(end) {
      var next := AddDays(start, step);
      GenerateDatesLength(next, end, step);
      var m := |GenerateDates(next, end, step)|;
      assert |GenerateDates(start, end, step)| == m + 1;
      StepCount(m, step, Ordinal(end) - Ordinal(start));
    }
  }

  /** One more step before a range of `m` steps covers `step` more days. */
  lemma StepCount(m: nat, step: nat, gap: int)
    requires step >= 1 && gap >= 0
    requires m == 0 ==> gap - step < 0
    requires m > 0 ==> (m - 1) * step <= gap - step < m * step
    ensures m * step <= gap < (m + 1) * step
  {
    if m > 0 {
      assert (m - 1) * step + step == m * step;
      assert m * step + step == (m + 1) * step;
    }
  }

  /** Every generated date sits exactly `i * step` days after `start`. */
  lemma {:induction false} GenerateDatesSpacing(start: Date, end: Date, step: nat, i: nat)
    requires Valid(start) && Valid(end) && step >= 1
    requires i < |GenerateDates(start, end, step)|
    ensures Ordinal(GenerateDates(start, end, step)[i]) == Ordinal(start) + i * step
    decreases i
  {
    if i > 0 {
      var next := AddDays(start, step);
      var o := Ordinal(start);
      SpacingStep(start, end, step, i);
      GenerateDatesSpacing(next, end, step, i - 1);
      var d := GenerateDates(start, end, step)[i];
      assert d == GenerateDates(next, end, step)[i - 1];
      assert Ordinal(d) == Ordinal(next) + (i - 1) * step;
      assert Ordinal(next) == o + step;
      assert Ordinal(d) == o + step + (i - 1) * step;
      StepMore(o, i, step);
      assert Ordinal(d) == o + i * step;
    }
  }

  lemma SpacingStep(start: Date, end: Date, step: nat, i: nat)
    requires Valid(start) && Valid(end) && step >= 1
    requires 1 <= i < |GenerateDates(start, end, step)|
    ensures i - 1 < |GenerateDates(AddDays(start, step), end, step)|
    ensures GenerateDates(start, end, step)[i] == GenerateDates(AddDays(start, step), end, step)[i - 1]
    ensures Ordinal(AddDays(start, step)) == Ordinal(start) + step
  {
    GenerateDatesCons(start, end, step);
  }

  lemma StepMore(o: int, i: nat, step: nat)
    requires i >= 1
    ensures o + step + (i - 1) * step == o + i * step
  {
  }

  /** A non-empty range is its start followed by the range one step on. */
  lemma GenerateDatesCons(start: Date, end: Date, step: nat)
    requires Valid(start) && Valid(end) && step >= 1
    requires |GenerateDates(start, end, step)| >= 1
    ensures Ordinal(start) <= Ordinal(end)
    ensures GenerateDates(start, end, step) == [start] + GenerateDates(AddDays(start, step), end, step)
  {
  }

  /** The `i`-th step is in the range exactly when it does not pass `end`:
      the sequence neither stops early nor overshoots. */
  lemma GenerateDatesComplete(start: Date, end: Date, step: nat, i: nat)
    requires Valid(start) && Valid(end) && step >= 1
    ensures i < |GenerateDates(start, end, step)| <==> Ordinal(start) + i * step <= Ordinal(end)
  {
    GenerateDatesLength(start, end, step);
    var n := |GenerateDates(start, end, step)|;
    if n == 0 {
      assert i * step >= 0;
    } else if i < n {
      MulMonotone(i, n - 1, step);
    } else {
      MulMonotone(n, i, step);
    }
  }

  /** Python `math.ceil(x / step)` for a positive step. */
  function CeilDiv(x: int, step: int): int
    requires step >= 1
  {
    -((-x) / step)
  }

  /** `total_days` as written: `ceil((end - start) / delta)`. */
  function TotalDays(start: Date, end: Date, step: nat): int
    requires Valid(start) && Valid(end) && step >= 1
  {
    CeilDiv(Ordinal(end) - Ordinal(start), step)
  }

  /** As written, `total_days` undercounts the dates `generate_dates` yields
      by one whenever the span is a whole number of steps; the smallest case
      is a one-day range. */
  lemma TotalDaysUndercounts(d: Date)
    requires Valid(d)
    ensures |GenerateDates(d, d, 1)| == 1
    ensures TotalDays(d, d, 1) == 0
  {
    GenerateDatesLength(d, d, 1);
  }

  /** The evidently intended count: the number of dates the range yields. */
  function TotalDaysInclusive(start: Date, end: Date): (n: nat)
    requires Valid(start) && Valid(end)
    ensures n == |GenerateDates(start, end, 1)|
  {
    GenerateDatesLength(start, end, 1);
    if Ordinal(start) > Ordinal(end) then 0 else Ordinal(end) - Ordinal(start) + 1
  }

  /** For daily steps `total_days` is always one short of the number of
      dates in a non-empty range, and zero or negative for an empty one. */
  lemma TotalDaysVersusRange(start: Date, end: Date)
    requires Valid(start) && Valid(end)
    ensures Ordinal(start) <= Ordinal(end) ==> TotalDays(start, end, 1) == |GenerateDates(start, end, 1)| - 1
    ensures Ordinal(start) > Ordinal(end) ==> TotalDays(start, end, 1) <= 0 && GenerateDates(start, end, 1) == []
  {
    GenerateDatesLength(start, end, 1);
  }

  /** Stepping by one day visits every day of the window, each exactly once. */
  lemma DailyCovers(start: Date, end: Date, d: Date)
    requires Valid(start) && Valid(end) && Valid(d) && Le(start, d) && Le(d, end)
    ensures exists i :: 0 <= i < |GenerateDates(start, end, 1)| && GenerateDates(start, end, 1)[i] == d
    ensures forall i, j :: 0 <= i < j < |GenerateDates(start, end, 1)| ==>
      GenerateDates(start, end, 1)[i] != GenerateDates(start, end, 1)[j]
  {
    var days := GenerateDates(start, end, 1);
    var k := Ordinal(d) - Ordinal(start);
    GenerateDatesComplete(start, end, 1, k);
    GenerateDatesSpacing(start, end, 1, k);
    OrdinalOrdersLexicographically(days[k], d);
    forall i, j | 0 <= i < j < |days|
      ensures days[i] != days[j]
    {
      GenerateDatesSpacing(start, end, 1, i);
      GenerateDatesSpacing(start, end, 1, j);
    }
  }
}

=== FILE: dates.dfy ===
/** Proleptic Gregorian calendar dates, as Python's `datetime.date`:
    a validated (year, month, day) triple with a day number (`toordinal`). */
module Dates {
  import opened Common

  /** `datetime.MAXYEAR`. */
  const MaxYear: int := 9999

  datatype Date = Date(year: int, month: int, day: int)

  predicate IsLeap(y: int) {
    y % 4 == 0 && (y % 100 != 0 || y % 400 == 0)
  }

  function DaysInMonth(y: int, m: int): int {
    if m == 2 then (if IsLeap(y) then 29 else 28)
    else if m == 4 || m == 6 || m == 9 || m == 11 then 30
    else 31
  }

  /** A calendar date; years above `MaxYear` are admitted so that day
      stepping is total (Python raises `OverflowError` there). */
  predicate Valid(d: Date) {
    1 <= d.year && 1 <= d.month <= 12 && 1 <= d.day <= DaysInMonth(d.year, d.month)
  }

  /** Python `date(y, m, d)`: `None` where the constructor raises `ValueError`. */
  function MakeDate(y: int, m: int, d: int): (r: Option<Date>)
    ensures r.Some? <==> 1 <= y <= MaxYear && 1 <= m <= 12 && 1 <= d <= DaysInMonth(y, m)
    ensures r.Some? ==> Valid(r.value) && r.value == Date(y, m, d)
  {
    if 1 <= y <= MaxYear && 1 <= m <= 12 && 1 <= d <= DaysInMonth(y, m) then Some(Date(y, m, d)) else None
  }

  function LeapDay(y: int): int {
    if IsLeap(y) then 1 else 0
  }

  /** Days in the months of year `y` before month `m` (`_days_before_month`). */
  function DaysBeforeMonth(y: int, m: int): (n: int)
    ensures n >= 0
  {
    if m <= 1 then 0
    else if m == 2 then 31
    else if m == 3 then 59 + LeapDay(y)
    else if m == 4 then 90 + LeapDay(y)
    else if m == 5 then 120 + LeapDay(y)
    else if m == 6 then 151 + LeapDay(y)
    else if m == 7 then 181 + LeapDay(y)
    else if m == 8 then 212 + LeapDay(y)
    else if m == 9 then 243 + LeapDay(y)
    else if m == 10 then 273 + LeapDay(y)
    else if m == 11 then 304 + LeapDay(y)
    else if m == 12 then 334 + LeapDay(y)
    else 365 + LeapDay(y)
  }

  function DaysInYear(y: int): int {
    365 + LeapDay(y)
  }

  /** Days in the years before year `y` (year 1 starts at 0), counted one
      year at a time; `DaysBeforeYearClosed` gives Python's closed form. */
  function DaysBeforeYear(y: int): (n: int)
    requires y >= 1
    ensures n >= 0
    decreases y
  {
    if y == 1 then 0 else DaysBeforeYear(y - 1) + DaysInYear(y - 1)
  }

  /** Python `date.toordinal()`: 0001-01-01 is day 1. */
  function Ordinal(d: Date): int
    requires d.year >= 1
  {
    DaysBeforeYear(d.year) + DaysBeforeMonth(d.year, d.month) + d.day
  }

  /** Python `date <= date`. */
  predicate Le(a: Date, b: Date)
    requires a.year >= 1 && b.year >= 1
  {
    Ordinal(a) <= Ordinal(b)
  }

  function NextDay(d: Date): Date {
    if d.day < DaysInMonth(d.year, d.month) then Date(d.year, d.month, d.day + 1)
    else if d.month < 12 then Date(d.year, d.month + 1, 1)
    else Date(d.year + 1, 1, 1)
  }

  lemma MonthRollover(y: int, m: int)
    requires 1 <= m < 12
    ensures DaysBeforeMonth(y, m + 1) == DaysBeforeMonth(y, m) + DaysInMonth(y, m)
  {
  }

  lemma YearRollover(y: int)
    requires 1 <= y
    ensures DaysBeforeYear(y + 1) == DaysBeforeYear(y) + DaysInYear(y)
  {
  }

  /** The year count agrees with `_days_before_year` in Python's `datetime`:
      `p*365 + p//4 - p//100 + p//400` with `p = y - 1`. */
  lemma {:induction false} DaysBeforeYearClosed(y: int)
    requires y >= 1
    ensures var p := y - 1; DaysBeforeYear(y) == p * 365 + p / 4 - p / 100 + p / 400
    decreases y
  {
    if y > 1 {
      DaysBeforeYearClosed(y - 1);
      ClosedStep(y - 2, DaysBeforeYear(y - 1));
    }
  }

  /** One more year of `365 + LeapDay` keeps the closed form. */
  lemma ClosedStep(q: int, a: int)
    requires a == q * 365 + q / 4 - q / 100 + q / 400
    ensures a + 365 + LeapDay(q + 1) == (q + 1) * 365 + (q + 1) / 4 - (q + 1) / 100 + (q + 1) / 400
  {
    DivStep(q);
    LeapCount(q + 1);
  }

  /** How the three quotients of the closed form move from `q` to `q + 1`. */
  lemma DivStep(q: int)
    ensures (q + 1) / 4 == q / 4 + (if (q + 1) % 4 == 0 then 1 else 0)
    ensures (q + 1) / 100 == q / 100 + (if (q + 1) % 100 == 0 then 1 else 0)
    ensures (q + 1) / 400 == q / 400 + (if (q + 1) % 400 == 0 then 1 else 0)
  {
  }

  /** The leap-year rule as the inclusion-exclusion count the closed form uses. */
  lemma LeapCount(y: int)
    ensures LeapDay(y) == (if y % 4 == 0 then 1 else 0) - (if y % 100 == 0 then 1 else 0) + (if y % 400 == 0 then 1 else 0)
  {
    if y % 400 == 0 {
      var k := y / 400;
      assert y == 100 * (4 * k) && y == 4 * (100 * k);
    } else if y % 100 == 0 {
      var k := y / 100;
      assert y == 4 * (25 * k);
    }
  }

  lemma NextDayStep(d: Date)
    requires Valid(d)
    ensures Valid(NextDay(d))
    ensures Ordinal(NextDay(d)) == Ordinal(d) + 1
  {
    var dim := DaysInMonth(d.year, d.month);
    if d.day < dim {
    } else if d.month < 12 {
      MonthRollover(d.year, d.month);
    } else {
      YearRollover(d.year);
    }
  }

  /** Python `d + timedelta(days=n)` for `n >= 0`. */
  function AddDays(d: Date, n: nat): (r: Date)
    requires Valid(d)
    ensures Valid(r) && Ordinal(r) == Ordinal(d) + n
    decreases n
  {
    if n == 0 then d
    else
      NextDayStep(d);
      AddDays(NextDay(d), n - 1)
  }

  lemma DaysBeforeMonthMonotone(y: int, m: int, m': int)
    requires 1 <= m < m' <= 13
    ensures DaysBeforeMonth(y, m) + DaysInMonth(y, m) <= DaysBeforeMonth(y, m')
  {
  }

  lemma {:induction false} DaysBeforeYearMonotone(y: int, y': int)
    requires 1 <= y < y'
    ensures DaysBeforeYear(y) + DaysInYear(y) <= DaysBeforeYear(y')
    decreases y' - y
  {
    YearRollover(y' - 1);
    if y' > y + 1 {
      DaysBeforeYearMonotone(y, y' - 1);
    }
  }

  predicate LexLess(a: Date, b: Date) {
    a.year < b.year || (a.year == b.year && (a.month < b.month || (a.month == b.month && a.day < b.day)))
  }

  lemma LexLessOrdinalLess(a: Date, b: Date)
    requires Valid(a) && Valid(b) && LexLess(a, b)
    ensures Ordinal(a) < Ordinal(b)
  {
    if a.year < b.year {
      DaysBeforeMonthMonotone(a.year, a.month, 13);
      DaysBeforeYearMonotone(a.year, b.year);
    } else if a.month < b.month {
      DaysBeforeMonthMonotone(a.year, a.month, b.month);
    }
  }

  /** On valid dates the day number orders dates exactly as Python compares
      them: year first, then month, then day. */
  lemma OrdinalOrdersLexicographically(a: Date, b: Date)
    requires Valid(a) && Valid(b)
    ensures Ordinal(a) < Ordinal(b) <==> LexLess(a, b)
    ensures Ordinal(a) == Ordinal(b) <==> a == b
  {
    if LexLess(a, b) {
      LexLessOrdinalLess(a, b);
    } else if LexLess(b, a) {
      LexLessOrdinalLess(b, a);
    }
  }
}

=== FILE: excel_writer.dfy ===
/** `ExcelWriter`: crawled permits gathered into two workbooks, one per
    permit kind, with one sheet per issue month; `save` drops the default
    sheet, orders the month sheets and sets the column widths. A workbook is
    its sheets in tab order, each a title and rows of cell values; writing
    the files is left to the caller. */
module ExcelWriter {
  import opened Common
  import opened Text
  import opened Dates
  import opened OrderedDict
  import opened PyJson
  import opened Classify
  import opened Records
  import opened Sorting
  import opened Crawl

  datatype Sheet = Sheet(title: string, rows: seq<seq<Json>>)

  /** A workbook's sheets in tab order, with the writer's registry
      (`self.worksheets[type]`) of the titles it has created. */
  datatype Book = Book(sheets: seq<Sheet>, created: set<string>)

  /** The title of the sheet `openpyxl.Workbook()` starts with. */
  const DefaultTitle: string := "Sheet"

  function NewBook(): (b: Book)
    ensures Tidy(b) && MonthsOnly(b) && BookStats(b.sheets) == 0
  {
    var b := Book([Sheet(DefaultTitle, [])], {});
    assert BookStats(b.sheets) == BookStats([]) + 0;
    b
  }

  datatype Writer = Writer(city: string, saveDir: string, construction: Book, occupancy: Book)

  /** `ExcelWriter(city_name, save_dir)`; creating the directory is left
      to the caller. */
  function NewWriter(city: string, saveDir: string): (w: Writer)
    ensures Tidy(w.construction) && Tidy(w.occupancy)
    ensures MonthsOnly(w.construction) && MonthsOnly(w.occupancy)
    ensures GetStats(w) == Stats(0, 0)
  {
    Writer(city, saveDir, NewBook(), NewBook())
  }

  function Titles(sheets: seq<Sheet>): (ts: seq<string>)
    ensures |ts| == |sheets|
    ensures forall i :: 0 <= i < |sheets| ==> ts[i] == sheets[i].title
  {
    seq(|sheets|, i requires 0 <= i < |sheets| => sheets[i].title)
  }

  predicate TitlesDistinct(sheets: seq<Sheet>) {
    forall i, j :: 0 <= i < j < |sheets| ==> sheets[i].title != sheets[j].title
  }

  /** `f"{year}-{month:02d}"`. */
  function SheetName(year: int, month: int): string
    requires 1 <= month <= 12
  {
    IntToString(year) + "-" + Pad2(month)
  }

  /** The month field of `%m`, `1[0-2]|0[1-9]|[1-9]`, matching the whole
      rest of the title. */
  function MonthField(s: string): (r: Option<int>)
    ensures r.Some? ==> 1 <= r.value <= 12
  {
    if |s| == 2 && s[0] == '1' && '0' <= s[1] <= '2' then Some(10 + (s[1] as int - '0' as int))
    else if |s| == 2 && s[0] == '0' && '1' <= s[1] <= '9' then Some(s[1] as int - '0' as int)
    else if |s| == 1 && '1' <= s[0] <= '9' then Some(s[0] as int - '0' as int)
    else None
  }

  /** `datetime.strptime(title, "%Y-%m")` as a month count `12 * year +
      month - 1`: four digits, a dash and a month, and a year of at least 1;
      `None` where Python raises `ValueError`. */
  function SheetMonth(t: string): (r: Option<int>)
    ensures r.Some? ==> |t| >= 6 && t[4] == '-' && r.value >= 12
  {
    if |t| >= 5 && AllDigits(t[..4]) && t[4] == '-' then
      var y := DigitsValue(t[..4]);
      match MonthField(t[5..])
      case Some(m) => if y >= 1 then Some(12 * y + m - 1) else None
      case None => None
    else None
  }

  /** A title that `strptime` reads as a month and that the writer would
      give that month. */
  predicate MonthTitle(t: string) {
    match SheetMonth(t)
    case Some(k) => SheetName(k / 12, k % 12 + 1) == t
    case None => false
  }

  lemma FewDigits(y: int)
    requires 1 <= y < 1000
    ensures |IntToString(y)| <= 3
  {
    NatLength(y);
    NatLength(y / 10);
    NatLength(y / 100);
  }

  lemma MonthFieldPad(m: int)
    requires 1 <= m <= 12
    ensures MonthField(Pad2(m)) == Some(m)
  {
    if m >= 10 {
      NatLength(m);
      assert NatToString(m / 10) == ['1'];
    }
  }

  /** A sheet of a year from 1000 to 9999 is read back as its own month,
      so the sort orders sheets by the months they were named after. */
  lemma SheetNameMonth(y: int, m: int)
    requires 1000 <= y <= 9999 && 1 <= m <= 12
    ensures SheetMonth(SheetName(y, m)) == Some(12 * y + m - 1)
    ensures MonthTitle(SheetName(y, m))
  {
    var k := 12 * y + m - 1;
    SheetNameRead(y, m);
    MonthCount(y, m);
    var a, b := k / 12, k % 12 + 1;
    assert a == y && b == m;
    MonthTitleOf(SheetName(y, m), k);
  }

  lemma MonthTitleOf(t: string, k: int)
    requires SheetMonth(t) == Some(k) && SheetName(k / 12, k % 12 + 1) == t
    ensures MonthTitle(t)
  {
    match SheetMonth(t)
    case Some(j) => assert j == k;
  }

  lemma MonthCount(y: int, m: int)
    requires 1 <= m <= 12
    ensures (12 * y + m - 1) / 12 == y && (12 * y + m - 1) % 12 + 1 == m
  {
  }

  lemma SheetNameRead(y: int, m: int)
    requires 1000 <= y <= 9999 && 1 <= m <= 12
    ensures SheetMonth(SheetName(y, m)) == Some(12 * y + m - 1)
  {
    var t := SheetName(y, m);
    SheetNameParts(y, m);
    MonthFieldPad(m);
    assert DigitsValue(t[..4]) == y;
  }

  lemma SheetNameParts(y: int, m: int)
    requires 1000 <= y <= 9999 && 1 <= m <= 12
    ensures var t := SheetName(y, m);
      && |t| >= 5 && t[..4] == IntToString(y) && t[4] == '-' && t[5..] == Pad2(m)
  {
    FourDigits(y);
  }

  /** A sheet dated before year 1000 has fewer than four year digits, which
      `strptime` refuses. */
  lemma EarlySheetName(y: int, m: int)
    requires 1 <= y < 1000 && 1 <= m <= 12
    ensures SheetMonth(SheetName(y, m)) == None
  {
    var a := IntToString(y);
    var t := SheetName(y, m);
    FewDigits(y);
    assert t[|a|] == '-';
    if |t| >= 5 {
      assert t[..4][|a|] == '-';
    }
  }

  lemma SheetNameNotDefault(y: int, m: int)
    requires 1 <= m <= 12
    ensures SheetName(y, m) != DefaultTitle
  {
    var t := SheetName(y, m);
    var a := IntToString(y);
    assert t[0] == a[0];
    assert IsDigit(a[0]) || a[0] == '-';
    assert DefaultTitle[0] == 'S';
  }

  /** Position of the first sheet titled `t`. */
  function FirstTitled(sheets: seq<Sheet>, t: string): (r: Option<nat>)
    ensures r.None? <==> forall j :: 0 <= j < |sheets| ==> sheets[j].title != t
    ensures r.Some? ==> r.value < |sheets| && sheets[r.value].title == t
    ensures r.Some? ==> forall j :: 0 <= j < r.value ==> sheets[j].title != t
    decreases |sheets|
  {
    if sheets == [] then None
    else if sheets[0].title == t then Some(0)
    else
      var r := FirstTitled(sheets[1..], t);
      assert forall j :: 1 <= j < |sheets| ==> sheets[j] == sheets[1..][j - 1];
      match r
      case None => None
      case Some(i) => Some(i + 1)
  }

  /** `workbook.remove(workbook[t])`: the first sheet titled `t` goes. */
  function RemoveTitled(sheets: seq<Sheet>, t: string): (r: seq<Sheet>)
    ensures t !in Titles(sheets) ==> r == sheets
  {
    match FirstTitled(sheets, t)
    case None => sheets
    case Some(i) => sheets[..i] + sheets[i + 1..]
  }

  /** `worksheets[t].append(row)`: the row goes to the end of the sheet
      titled `t`. */
  function AppendRow(sheets: seq<Sheet>, t: string, row: seq<Json>): (r: seq<Sheet>)
    ensures |r| == |sheets|
  {
    seq(|sheets|, i requires 0 <= i < |sheets| =>
      if sheets[i].title == t then Sheet(t, sheets[i].rows + [row]) else sheets[i])
  }

  /** One row for the sheet titled `name`: a sheet the registry does not
      hold yet is created at the end of the book (after removing any sheet
      of that title) and gets the header first. */
  function WriteSheet(b: Book, name: string, header: seq<Json>, values: seq<Json>): Book {
    if name !in b.created then
      var kept := if name in Titles(b.sheets) then RemoveTitled(b.sheets, name) else b.sheets;
      Book(kept + [Sheet(name, [header, values])], b.created + {name})
    else
      Book(AppendRow(b.sheets, name, values), b.created)
  }

  /** `list(data.keys())`. */
  function HeaderRow(data: Record): (row: seq<Json>)
    ensures |row| == |data|
  {
    seq(|data|, i requires 0 <= i < |data| => JStr(data[i].key))
  }

  /** `list(data.values())`. */
  function ValueRow(data: Record): (row: seq<Json>)
    ensures |row| == |data|
  {
    seq(|data|, i requires 0 <= i < |data| => data[i].val)
  }

  /** The book a record goes to: construction permits by the exact kind
      `建造執照`, everything else to the occupancy book. */
  function KindOf(data: Record): (k: string)
    ensures k == Construction <==> Get(data, "執照類別") == Some(JStr(Construction))
    ensures k == Construction || k == Occupancy
  {
    if Get(data, "執照類別") == Some(JStr(Construction)) then Construction else Occupancy
  }

  /** `write_item(item)`: nothing for a missing date or a missing or empty
      record; otherwise one row in the month sheet of the record's book. */
  function WriteItem(w: Writer, date: Option<Date>, data: Option<Record>): (r: Writer)
    requires date.Some? ==> Valid(date.value)
    ensures date.None? || data.None? || data.value == [] ==> r == w
    ensures r.city == w.city && r.saveDir == w.saveDir
    ensures date.Some? && data.Some? && data.value != [] ==>
      var name := SheetName(date.value.year, date.value.month);
      && (KindOf(data.value) == Construction ==> r.occupancy == w.occupancy && name in r.construction.created)
      && (KindOf(data.value) == Occupancy ==> r.construction == w.construction && name in r.occupancy.created)
  {
    if data.None? || data.value == [] || date.None? then w
    else
      var d := date.value;
      var rec := data.value;
      var name := SheetName(d.year, d.month);
      if KindOf(rec) == Construction then
        w.(construction := WriteSheet(w.construction, name, HeaderRow(rec), ValueRow(rec)))
      else
        w.(occupancy := WriteSheet(w.occupancy, name, HeaderRow(rec), ValueRow(rec)))
  }

  /** The items of a crawl written in order. */
  function WriteAll(w: Writer, items: seq<Item>): Writer
    requires forall i :: 0 <= i < |items| ==> Valid(items[i].date)
    decreases |items|
  {
    if items == [] then w
    else
      var last := items[|items| - 1];
      WriteItem(WriteAll(w, items[..|items| - 1]), Some(last.date), Some(last.data))
  }

  /** `ws.max_row - 1 if ws.max_row > 1 else 0`; an empty sheet has
      `max_row == 1`. */
  function DataRows(s: Sheet): nat {
    if |s.rows| > 1 then |s.rows| - 1 else 0
  }

  /** The data rows of the sheets other than the default one. */
  function BookStats(sheets: seq<Sheet>): nat {
    if sheets == [] then 0
    else
      var last := sheets[|sheets| - 1];
      BookStats(sheets[..|sheets| - 1]) + (if last.title != DefaultTitle then DataRows(last) else 0)
  }

  datatype Stats = Stats(construction: nat, occupancy: nat)

  /** `get_stats()`. */
  function GetStats(w: Writer): Stats {
    Stats(BookStats(w.construction.sheets), BookStats(w.occupancy.sheets))
  }

  /** The book as the writer keeps it: the default sheet first and empty,
      then sheets of distinct titles, each created through the registry
      and holding the header and at least one row. */
  predicate Tidy(b: Book) {
    && |b.sheets| >= 1 && b.sheets[0] == Sheet(DefaultTitle, [])
    && TitlesDistinct(b.sheets)
    && DefaultTitle !in b.created
    && (forall i :: 1 <= i < |b.sheets| ==> b.sheets[i].title in b.created && |b.sheets[i].rows| >= 2)
    && (forall t :: t in b.created ==> t in Titles(b.sheets))
  }

  /** Every sheet but the default one is named after a month. */
  predicate MonthsOnly(b: Book) {
    forall i :: 1 <= i < |b.sheets| ==> MonthTitle(b.sheets[i].title)
  }

  lemma {:induction false} StatsSnoc(sheets: seq<Sheet>, s: Sheet)
    ensures BookStats(sheets + [s]) == BookStats(sheets) + (if s.title != DefaultTitle then DataRows(s) else 0)
  {
    assert (sheets + [s])[..|sheets|] == sheets;
  }

  /** Appending a row to the sheets titled `t` adds one data row per such
      sheet that already had a row. */
  lemma {:induction false} AppendRowStats(sheets: seq<Sheet>, t: string, row: seq<Json>)
    requires t != DefaultTitle
    requires forall i :: 0 <= i < |sheets| && sheets[i].title == t ==> |sheets[i].rows| >= 1
    ensures BookStats(AppendRow(sheets, t, row)) == BookStats(sheets) + Count(Titles(sheets), (x: string) => x == t)
    decreases |sheets|
  {
    if sheets != [] {
      var n := |sheets| - 1;
      var init := sheets[..n];
      AppendRowStats(init, t, row);
      assert AppendRow(sheets, t, row)[..n] == AppendRow(init, t, row);
      assert Titles(sheets)[..n] == Titles(init);
    }
  }

  /** A title present once is counted once. */
  lemma {:induction false} CountOnce(ts: seq<string>, t: string)
    requires t in ts
    requires forall i, j :: 0 <= i < j < |ts| ==> ts[i] != ts[j]
    ensures Count(ts, (x: string) => x == t) == 1
    decreases |ts|
  {
    var n := |ts| - 1;
    var init := ts[..n];
    if ts[n] == t {
      CountNone(init, t);
    } else {
      assert t in init by {
        assert ts == init + [ts[n]];
      }
      CountOnce(init, t);
    }
  }

  lemma {:induction false} CountNone(ts: seq<string>, t: string)
    requires t !in ts
    ensures Count(ts, (x: string) => x == t) == 0
    decreases |ts|
  {
    if ts != [] {
      var n := |ts| - 1;
      assert t !in ts[..n];
      CountNone(ts[..n], t);
    }
  }

  lemma TitlesSnoc(sheets: seq<Sheet>, s: Sheet)
    ensures Titles(sheets + [s]) == Titles(sheets) + [s.title]
  {
  }

  /** A write to a tidy book keeps it tidy and adds exactly one data row:
      a new sheet gets the header and the row, an existing sheet only the
      row, and no other sheet changes. */
  lemma WriteSheetTidy(b: Book, name: string, header: seq<Json>, values: seq<Json>)
    requires Tidy(b) && name != DefaultTitle
    ensures var r := WriteSheet(b, name, header, values);
      && Tidy(r)
      && BookStats(r.sheets) == BookStats(b.sheets) + 1
      && (MonthsOnly(b) && MonthTitle(name) ==> MonthsOnly(r))
    ensures name !in b.created ==> WriteSheet(b, name, header, values).sheets == b.sheets + [Sheet(name, [header, values])]
    ensures name in b.created ==>
      var r := WriteSheet(b, name, header, values).sheets;
      forall i :: 0 <= i < |b.sheets| ==>
        r[i] == if b.sheets[i].title == name then Sheet(name, b.sheets[i].rows + [values]) else b.sheets[i]
  {
    var r := WriteSheet(b, name, header, values);
    if name !in b.created {
      NewSheetTidy(b, name, header, values);
    } else {
      ExistingSheetTidy(b, name, values);
    }
  }

  lemma NewSheetTidy(b: Book, name: string, header: seq<Json>, values: seq<Json>)
    requires Tidy(b) && name != DefaultTitle && name !in b.created
    ensures var r := WriteSheet(b, name, header, values);
      && r.sheets == b.sheets + [Sheet(name, [header, values])]
      && Tidy(r)
      && BookStats(r.sheets) == BookStats(b.sheets) + 1
      && (MonthsOnly(b) && MonthTitle(name) ==> MonthsOnly(r))
  {
    var s := Sheet(name, [header, values]);
    UnregisteredAbsent(b, name);
    assert WriteSheet(b, name, header, values) == Book(b.sheets + [s], b.created + {name});
    StatsSnoc(b.sheets, s);
    SnocTidy(b, s);
  }

  /** A title the registry of a tidy book does not hold names no sheet. */
  lemma UnregisteredAbsent(b: Book, name: string)
    requires Tidy(b) && name != DefaultTitle && name !in b.created
    ensures name !in Titles(b.sheets)
  {
    forall i | 0 <= i < |b.sheets|
      ensures b.sheets[i].title != name
    {
      if i >= 1 {
        assert b.sheets[i].title in b.created;
      }
    }
  }

  /** A new sheet of a fresh title, with a header and a row, appended and
      registered keeps a book tidy. */
  lemma SnocTidy(b: Book, s: Sheet)
    requires Tidy(b) && s.title != DefaultTitle && s.title !in Titles(b.sheets) && |s.rows| >= 2
    ensures Tidy(Book(b.sheets + [s], b.created + {s.title}))
    ensures MonthsOnly(b) && MonthTitle(s.title) ==> MonthsOnly(Book(b.sheets + [s], b.created + {s.title}))
  {
    var ss := b.sheets + [s];
    var n := |b.sheets|;
    assert forall i :: 0 <= i < n ==> ss[i] == b.sheets[i];
    TitlesSnoc(b.sheets, s);
    SnocDistinct(b.sheets, s);
  }

  lemma SnocDistinct(sheets: seq<Sheet>, s: Sheet)
    requires TitlesDistinct(sheets) && s.title !in Titles(sheets)
    ensures TitlesDistinct(sheets + [s])
  {
    var ss := sheets + [s];
    forall i, j | 0 <= i < j < |ss|
      ensures ss[i].title != ss[j].title
    {
      assert ss[i] == sheets[i];
      if j == |sheets| {
        assert Titles(sheets)[i] == sheets[i].title;
      } else {
        assert ss[j] == sheets[j];
      }
    }
  }

  lemma ExistingSheetTidy(b: Book, name: string, values: seq<Json>)
    requires Tidy(b) && name != DefaultTitle && name in b.created
    ensures var r := WriteSheet(b, name, [], values);
      && Tidy(r)
      && BookStats(r.sheets) == BookStats(b.sheets) + 1
      && (MonthsOnly(b) ==> MonthsOnly(r))
  {
    var r := WriteSheet(b, name, [], values);
    assert r == Book(AppendRow(b.sheets, name, values), b.created);
    AppendRowTitles(b.sheets, name, values);
    AppendRowStats(b.sheets, name, values);
    CountOnce(Titles(b.sheets), name);
  }

  /** Appending a row renames no sheet and shortens none, and leaves the
      sheets of other titles as they were. */
  lemma AppendRowTitles(sheets: seq<Sheet>, t: string, row: seq<Json>)
    ensures var r := AppendRow(sheets, t, row);
      && Titles(r) == Titles(sheets)
      && (forall i :: 0 <= i < |sheets| ==> r[i].title == sheets[i].title && |r[i].rows| >= |sheets[i].rows|)
      && (forall i :: 0 <= i < |sheets| && sheets[i].title != t ==> r[i] == sheets[i])
  {
  }

  /** A record routed to the construction book. */
  predicate ConstructionItem(it: Item) {
    it.data != [] && KindOf(it.data) == Construction
  }

  /** A record routed to the occupancy book. */
  predicate OccupancyItem(it: Item) {
    it.data != [] && KindOf(it.data) == Occupancy
  }

  predicate MonthsInRange(items: seq<Item>) {
    forall i :: 0 <= i < |items| ==> 1000 <= items[i].date.year <= 9999
  }

  /** Where one item goes: nowhere for an empty record, otherwise one row
      in the month sheet of its book, the other book untouched. */
  lemma WriteItemRoute(w: Writer, it: Item)
    requires Valid(it.date)
    ensures var r := WriteItem(w, Some(it.date), Some(it.data));
      var name := SheetName(it.date.year, it.date.month);
      && (it.data == [] ==> r == w)
      && (ConstructionItem(it) ==>
            r == w.(construction := WriteSheet(w.construction, name, HeaderRow(it.data), ValueRow(it.data))))
      && (OccupancyItem(it) ==>
            r == w.(occupancy := WriteSheet(w.occupancy, name, HeaderRow(it.data), ValueRow(it.data))))
  {
  }

  /** One row written to a tidy book through a month title keeps it tidy
      and adds one data row. */
  lemma WriteBookStep(b: Book, d: Date, data: Record)
    requires Tidy(b) && Valid(d)
    ensures var r := WriteSheet(b, SheetName(d.year, d.month), HeaderRow(data), ValueRow(data));
      && Tidy(r)
      && BookStats(r.sheets) == BookStats(b.sheets) + 1
      && (MonthsOnly(b) && 1000 <= d.year <= 9999 ==> MonthsOnly(r))
  {
    SheetNameNotDefault(d.year, d.month);
    if 1000 <= d.year <= 9999 {
      SheetNameMonth(d.year, d.month);
    }
    WriteSheetTidy(b, SheetName(d.year, d.month), HeaderRow(data), ValueRow(data));
  }

  /** One item written: the books stay tidy and the item's book, if it is
      written at all, gains exactly one data row. */
  lemma WriteItemStep(w: Writer, it: Item)
    requires Tidy(w.construction) && Tidy(w.occupancy) && Valid(it.date)
    ensures var r := WriteItem(w, Some(it.date), Some(it.data));
      && Tidy(r.construction) && Tidy(r.occupancy)
      && GetStats(r).construction == GetStats(w).construction + (if ConstructionItem(it) then 1 else 0)
      && GetStats(r).occupancy == GetStats(w).occupancy + (if OccupancyItem(it) then 1 else 0)
      && (MonthsOnly(w.construction) && MonthsOnly(w.occupancy) && 1000 <= it.date.year <= 9999 ==>
            MonthsOnly(r.construction) && MonthsOnly(r.occupancy))
  {
    WriteItemRoute(w, it);
    if ConstructionItem(it) {
      WriteBookStep(w.construction, it.date, it.data);
    } else if OccupancyItem(it) {
      WriteBookStep(w.occupancy, it.date, it.data);
    }
  }

  /** The last item is written after all the others. */
  lemma WriteAllSnoc(w: Writer, items: seq<Item>)
    requires items != [] && forall i :: 0 <= i < |items| ==> Valid(items[i].date)
    ensures var n := |items| - 1;
      WriteAll(w, items) == WriteItem(WriteAll(w, items[..n]), Some(items[n].date), Some(items[n].data))
  {
  }

  lemma CountSnoc<T>(s: seq<T>, p: T -> bool)
    requires s != []
    ensures Count(s, p) == Count(s[..|s| - 1], p) + (if p(s[|s| - 1]) then 1 else 0)
  {
  }

  /** `get_stats()` after a crawl is written counts the items routed to
      each book: every write adds exactly one row to exactly one book, and
      the books stay tidy. */
  lemma {:induction false} WriteAllStats(city: string, saveDir: string, items: seq<Item>)
    requires forall i :: 0 <= i < |items| ==> Valid(items[i].date)
    ensures var w := WriteAll(NewWriter(city, saveDir), items);
      Tidy(w.construction) && Tidy(w.occupancy)
    ensures GetStats(WriteAll(NewWriter(city, saveDir), items)) == Stats(Count(items, ConstructionItem), Count(items, OccupancyItem))
    ensures var w := WriteAll(NewWriter(city, saveDir), items);
      MonthsInRange(items) ==> MonthsOnly(w.construction) && MonthsOnly(w.occupancy)
    decreases |items|
  {
    if items != [] {
      var n := |items| - 1;
      var init := items[..n];
      var it := items[n];
      assert forall i :: 0 <= i < n ==> init[i] == items[i];
      WriteAllStats(city, saveDir, init);
      var w0 := WriteAll(NewWriter(city, saveDir), init);
      WriteAllSnoc(NewWriter(city, saveDir), items);
      WriteItemStep(w0, it);
      CountSnoc(items, ConstructionItem);
      CountSnoc(items, OccupancyItem);
      assert MonthsInRange(items) ==> MonthsInRange(init) && 1000 <= it.date.year <= 9999;
    }
  }

  /** The sort key of a month sheet. */
  function MonthKey(s: Sheet): int {
    match SheetMonth(s.title)
    case Some(k) => k
    case None => 0
  }

  /** What `save` does to a book before writing it: with more than one
      sheet, the default sheet is removed and the rest sorted by
      `strptime(title, "%Y-%m")`, which raises for a title it cannot read. */
  function SaveBook(sheets: seq<Sheet>): (r: Result<seq<Sheet>>)
    ensures |sheets| <= 1 ==> r == Ok(sheets)
    ensures r.Ok? && |sheets| > 1 ==> var kept := RemoveTitled(sheets, DefaultTitle);
      && multiset(r.value) == multiset(kept) && SortedBy(r.value, MonthKey)
    ensures r.Raised? <==>
      && |sheets| > 1
      && exists i :: 0 <= i < |RemoveTitled(sheets, DefaultTitle)| && SheetMonth(RemoveTitled(sheets, DefaultTitle)[i].title).None?
  {
    if |sheets| > 1 then
      var kept := RemoveTitled(sheets, DefaultTitle);
      if forall i :: 0 <= i < |kept| ==> SheetMonth(kept[i].title).Some? then
        SortSorted(kept, MonthKey);
        Ok(SortBy(kept, MonthKey))
      else Raised
    else Ok(sheets)
  }

  /** Month titles that differ are different months. */
  lemma MonthTitleInjective(a: string, b: string)
    requires MonthTitle(a) && MonthTitle(b) && a != b
    ensures SheetMonth(a).value != SheetMonth(b).value
  {
  }

  /** Month titles that differ have different keys. */
  lemma MonthKeysDistinct(sheets: seq<Sheet>)
    requires TitlesDistinct(sheets)
    requires forall i :: 0 <= i < |sheets| ==> MonthTitle(sheets[i].title)
    ensures KeysDistinct(sheets, MonthKey)
  {
    forall i, j | 0 <= i < j < |sheets|
      ensures MonthKey(sheets[i]) != MonthKey(sheets[j])
    {
      MonthTitleInjective(sheets[i].title, sheets[j].title);
    }
  }

  /** A book of more than one sheet whose titles other than the default
      one all read as months is saved as those sheets sorted by month. */
  lemma SaveBookSorts(sheets: seq<Sheet>)
    requires |sheets| > 1 && DefaultTitle in Titles(sheets)
    requires var kept := RemoveTitled(sheets, DefaultTitle);
      forall i :: 0 <= i < |kept| ==> SheetMonth(kept[i].title).Some?
    ensures SaveBook(sheets) == Ok(SortBy(RemoveTitled(sheets, DefaultTitle), MonthKey))
  {
  }

  /** Saving a tidy book of month sheets fails for none of them: when any
      month was written the default sheet is gone and the month sheets
      follow each other in strictly increasing month order, whatever the
      order they were written in; otherwise the default sheet stays alone. */
  lemma SaveTidy(b: Book)
    requires Tidy(b) && MonthsOnly(b)
    ensures SaveBook(b.sheets).Ok?
    ensures |b.sheets| == 1 ==> SaveBook(b.sheets).value == [Sheet(DefaultTitle, [])]
    ensures |b.sheets| > 1 ==>
      && multiset(SaveBook(b.sheets).value) == multiset(b.sheets[1..])
      && IncreasingBy(SaveBook(b.sheets).value, MonthKey)
  {
    if |b.sheets| > 1 {
      var kept := b.sheets[1..];
      TidyKept(b);
      SaveBookSorts(b.sheets);
      MonthKeysDistinct(kept);
      SortIncreasing(kept, MonthKey);
    }
  }

  /** The months of a tidy book are the sheets after the default one. */
  lemma TidyKept(b: Book)
    requires Tidy(b) && MonthsOnly(b) && |b.sheets| > 1
    ensures DefaultTitle in Titles(b.sheets)
    ensures RemoveTitled(b.sheets, DefaultTitle) == b.sheets[1..]
    ensures TitlesDistinct(b.sheets[1..])
    ensures forall i :: 0 <= i < |b.sheets| - 1 ==> MonthTitle(b.sheets[1..][i].title)
    ensures forall i :: 0 <= i < |b.sheets| - 1 ==> SheetMonth(b.sheets[1..][i].title).Some?
  {
    assert Titles(b.sheets)[0] == DefaultTitle;
    assert FirstTitled(b.sheets, DefaultTitle) == Some(0);
    assert forall i :: 0 <= i < |b.sheets| - 1 ==> b.sheets[1..][i] == b.sheets[i + 1];
  }

  /** Position of the first `k` in `ks`. */
  function Position(ks: seq<string>, k: string): (r: Option<nat>)
    ensures r.None? <==> k !in ks
    ensures r.Some? ==> r.value < |ks| && ks[r.value] == k
    decreases |ks|
  {
    if ks == [] then None
    else if ks[0] == k then Some(0)
    else
      match Position(ks[1..], k)
      case None => None
      case Some(i) => Some(i + 1)
  }

  /** `CELL_LENGTH_MAPPING.get(header)`. */
  function MappedWidth(header: Option<Json>): (r: Option<nat>)
    ensures r.Some? <==> header.Some? && header.value.JStr? && header.value.s in CanonicalKeys
  {
    KeyCounts();
    if header.Some? && header.value.JStr? then
      match Position(CanonicalKeys, header.value.s)
      case Some(i) => Some(CanonicalWidths[i])
      case None => None
    else None
  }

  /** The cell at row `r`, column `c`; `None` for an empty cell. */
  function Cell(rows: seq<seq<Json>>, r: nat, c: nat): Option<Json> {
    if r < |rows| && c < |rows[r]| then Some(rows[r][c]) else None
  }

  function Widest(rows: seq<seq<Json>>): (n: nat)
    ensures forall r :: 0 <= r < |rows| ==> |rows[r]| <= n
    decreases |rows|
  {
    if rows == [] then 0
    else
      var rest := Widest(rows[1..]);
      assert forall r :: 1 <= r < |rows| ==> rows[r] == rows[1..][r - 1];
      if |rows[0]| > rest then |rows[0]| else rest
  }

  /** Column `c` of the sheet, from the header down to `max_row`. */
  function Column(s: Sheet, c: nat): (cells: seq<Option<Json>>)
    ensures |cells| >= 1
  {
    var height := if |s.rows| > 1 then |s.rows| else 1;
    seq(height, r requires 0 <= r < height => Cell(s.rows, r, c))
  }

  /** What `len(cell.value)` counts for a cell as written: the length of
      a string; any other value makes the comparison before it raise, and
      an empty cell holds nothing. */
  function StringLength(c: Option<Json>): nat {
    if c.Some? && c.value.JStr? then |c.value.s| else 0
  }

  /** The length of a cell's `str()` rendering; an empty cell counts
      nothing. */
  function Shown(c: Option<Json>): nat {
    if c.Some? && c.value != JNull then |Str(c.value)| else 0
  }

  /** The greatest length `len` gives a cell of the column, 0 for none. */
  function Longest(cells: seq<Option<Json>>, len: Option<Json> -> nat): (n: nat)
    ensures forall i :: 0 <= i < |cells| ==> len(cells[i]) <= n
    ensures n > 0 ==> exists i :: 0 <= i < |cells| && len(cells[i]) == n
    decreases |cells|
  {
    if cells == [] then 0
    else
      var n := |cells| - 1;
      var m := Longest(cells[..n], len);
      assert forall i :: 0 <= i < n ==> cells[..n][i] == cells[i];
      if len(cells[n]) > m then len(cells[n]) else m
  }

  /** The width `adjust_width` gives a column as written: the mapped width
      of its header, else the longest string in it. */
  function ColumnWidthAsWritten(cells: seq<Option<Json>>): (w: nat)
    requires |cells| >= 1
    ensures MappedWidth(cells[0]).Some? ==> w == MappedWidth(cells[0]).value
    ensures MappedWidth(cells[0]).None? ==> w == Longest(cells, StringLength)
  {
    match MappedWidth(cells[0])
    case Some(w) => w
    case None => Longest(cells, StringLength)
  }

  /** The width of a column: the mapped width of its header, else the
      longest rendering of a value in it. */
  function ColumnWidth(cells: seq<Option<Json>>): (w: nat)
    requires |cells| >= 1
    ensures MappedWidth(cells[0]).Some? ==> w == MappedWidth(cells[0]).value
    ensures MappedWidth(cells[0]).None? ==> w == Longest(cells, Shown)
  {
    match MappedWidth(cells[0])
    case Some(w) => w
    case None => Longest(cells, Shown)
  }

  /** The width of each column of a sheet, up to `max_column`. */
  function Widths(s: Sheet): (ws: seq<nat>)
    ensures |ws| >= 1
  {
    var wide := Widest(s.rows);
    var n := if wide > 1 then wide else 1;
    seq(n, c requires 0 <= c < n => ColumnWidthAsWritten(Column(s, c)))
  }

  /** A string header outside the mapping over a number longer than the
      header: as written, the column is as wide as the header; the number's
      rendering is what the column needs. */
  lemma WidthIgnoresNumbers(h: string, n: nat)
    requires h !in CanonicalKeys && |h| < |IntToString(n)|
    ensures ColumnWidthAsWritten([Some(JStr(h)), Some(JInt(n))]) == |h|
    ensures ColumnWidth([Some(JStr(h)), Some(JInt(n))]) == |IntToString(n)|
  {
    HeaderOverNumber(h, n);
    NumberShown(h, n);
  }

  lemma HeaderOverNumber(h: string, n: nat)
    requires h !in CanonicalKeys
    ensures ColumnWidthAsWritten([Some(JStr(h)), Some(JInt(n))]) == |h|
  {
    var cells := [Some(JStr(h)), Some(JInt(n))];
    assert MappedWidth(cells[0]).None?;
    LongestPair(cells[0], cells[1], StringLength);
  }

  lemma NumberShown(h: string, n: nat)
    requires h !in CanonicalKeys && |h| < |IntToString(n)|
    ensures ColumnWidth([Some(JStr(h)), Some(JInt(n))]) == |IntToString(n)|
  {
    var cells := [Some(JStr(h)), Some(JInt(n))];
    assert MappedWidth(cells[0]).None?;
    LongestPair(cells[0], cells[1], Shown);
  }

  lemma LongestPair(a: Option<Json>, b: Option<Json>, len: Option<Json> -> nat)
    ensures Longest([a, b], len) == if len(a) < len(b) then len(b) else len(a)
  {
    var cells := [a, b];
    assert cells[0] == a && cells[1] == b;
  }

  /** Every column the writer fills has a canonical header, so both width
      rules give the mapped width there. */
  lemma CanonicalHeaderWidths(s: Sheet, c: nat)
    requires |s.rows| >= 1 && c < |s.rows[0]|
    requires s.rows[0][c].JStr? && s.rows[0][c].s in CanonicalKeys
    ensures ColumnWidth(Column(s, c)) == ColumnWidthAsWritten(Column(s, c))
    ensures MappedWidth(Column(s, c)[0]) == MappedWidth(Some(s.rows[0][c]))
  {
  }

  /** `os.path.join(directory, name)` on POSIX. */
  function PathJoin(directory: string, name: string): (r: string)
    ensures EndsWith(r, name)
    ensures |name| >= 1 && name[0] != '/' && directory != [] ==> StartsWith(r, directory)
  {
    if |name| >= 1 && name[0] == '/' then name
    else if directory == [] || directory[|directory| - 1] == '/' then directory + name
    else directory + "/" + name
  }

  /** `f"{city}_{data_type}.xlsx"`. */
  function FileName(city: string, kind: string): string {
    city + "_" + kind + ".xlsx"
  }

  datatype SavedBook = SavedBook(kind: string, path: string, sheets: seq<Sheet>, widths: seq<seq<nat>>)

  function AllWidths(sheets: seq<Sheet>): (ws: seq<seq<nat>>)
    ensures |ws| == |sheets|
  {
    seq(|sheets|, i requires 0 <= i < |sheets| => Widths(sheets[i]))
  }

  /** `save()`: the construction book and then the occupancy book, each
      with its path; `Raised` when a title of either cannot be read as a
      month. */
  function Save(w: Writer): (r: Result<seq<SavedBook>>)
    ensures r.Raised? <==> SaveBook(w.construction.sheets).Raised? || SaveBook(w.occupancy.sheets).Raised?
    ensures r.Ok? ==> |r.value| == 2 && r.value[0].kind == Construction && r.value[1].kind == Occupancy
    ensures r.Ok? ==> forall i :: 0 <= i < 2 ==>
      r.value[i].path == PathJoin(w.saveDir, FileName(w.city, r.value[i].kind))
      && |r.value[i].widths| == |r.value[i].sheets|
  {
    var c :- SaveBook(w.construction.sheets);
    var o :- SaveBook(w.occupancy.sheets);
    Ok([SavedBook(Construction, PathJoin(w.saveDir, FileName(w.city, Construction)), c, AllWidths(c)),
        SavedBook(Occupancy, PathJoin(w.saveDir, FileName(w.city, Occupancy)), o, AllWidths(o))])
  }

  /** A writer whose books are tidy and hold only month sheets saves
      without error, each file holding the month sheets of its book in
      strictly increasing month order; `WriteAllStats` shows that writing a
      crawl of years 1000 to 9999 into a new writer leaves it so. */
  lemma SaveWriter(w: Writer)
    requires Tidy(w.construction) && MonthsOnly(w.construction)
    requires Tidy(w.occupancy) && MonthsOnly(w.occupancy)
    ensures Save(w).Ok?
    ensures IncreasingBy(Save(w).value[0].sheets, MonthKey)
    ensures IncreasingBy(Save(w).value[1].sheets, MonthKey)
  {
    SaveTidy(w.construction);
    SaveTidy(w.occupancy);
  }
}

=== FILE: extract.dfy ===
/** `parse_building_info` and `extract_numerical_value`: counts and costs
    read out of free-text permit summaries. */
module Extract {
  import opened Common
  import opened Text
  import opened Scan
  import opened PyJson

  /** The five counts of a permit: 棟 (buildings), 幢 (blocks), floors above
      ground, floors below ground, 戶 (units). */
  datatype BuildingCounts = BuildingCounts(buildings: nat, heads: nat, floors: nat, basements: nat, units: nat)

  const NoCounts := BuildingCounts(0, 0, 0, 0, 0)

  lemma ClassDigits(g: string)
    requires forall c :: c in g ==> IsDigit(c)
    ensures AllDigits(g)
  {
    assert forall i :: 0 <= i < |g| ==> g[i] in g;
  }

  /** `int(re.search(open + r'(\d+)' + marker, s).group(1))`, or 0 without a match. */
  function CountBefore(s: string, open: string, marker: string): (n: nat)
    ensures (forall k :: 0 <= k <= |s| ==> GroupAt(s, open, IsDigit, marker, k).None?) ==> n == 0
  {
    match Search(s, open, IsDigit, marker)
    case None => 0
    case Some(g) =>
      ClassDigits(g);
      DigitsValue(g)
  }

  /** `parse_building_info(s)`: each count is the number right before the
      first occurrence of its own marker, and 0 when there is none. */
  function ParseBuildingInfo(s: string): (r: BuildingCounts)
    ensures s == "" ==> r == NoCounts
  {
    if s == "" then NoCounts
    else BuildingCounts(
      CountBefore(s, "", "棟"),
      CountBefore(s, "", "幢"),
      CountBefore(s, "地上", "層"),
      CountBefore(s, "地下", "層"),
      CountBefore(s, "", "戶"))
  }

  /** The count read at a leftmost match is the value of its digits. */
  lemma CountAt(s: string, open: string, marker: string, k: nat, g: string)
    requires LeftmostMatch(s, open, IsDigit, marker, k)
    requires GroupAt(s, open, IsDigit, marker, k) == Some(g) && AllDigits(g)
    ensures CountBefore(s, open, marker) == DigitsValue(g)
  {
  }

  /** `extract_numerical_value(s)`: the digits of the first `($…)` group
      with its commas removed, as an integer; the empty string when the text
      is empty, has no such group, or the group has no digit. */
  function ExtractNumericalValue(s: string): (r: Json)
    ensures r.JInt? || r == JStr("")
    ensures s == "" ==> r == JStr("")
    ensures (forall k :: 0 <= k <= |s| ==> GroupAt(s, "($", IsPriceChar, ")", k).None?) ==> r == JStr("")
    ensures r.JInt? ==> r.i >= 0
  {
    if s == "" then JStr("")
    else
      match Search(s, "($", IsPriceChar, ")")
      case None => JStr("")
      case Some(g) =>
        var digits := Replace(g, ",", "");
        if digits == "" then JStr("")
        else
          assert AllDigits(digits) by {
            forall i | 0 <= i < |digits| ensures IsDigit(digits[i]) {
              assert digits[i] in digits;
            }
          }
          JInt(DigitsValue(digits))
  }

  /** The cost read at a leftmost `($…)` match is the value of its digits
      once the commas are dropped, for every text with such a group. */
  lemma PriceAt(s: string, k: nat, g: string)
    requires LeftmostMatch(s, "($", IsPriceChar, ")", k)
    requires GroupAt(s, "($", IsPriceChar, ")", k) == Some(g)
    requires Replace(g, ",", "") != ""
    ensures AllDigits(Replace(g, ",", ""))
    ensures ExtractNumericalValue(s) == JInt(DigitsValue(Replace(g, ",", "")))
  {
    var digits := Replace(g, ",", "");
    forall i | 0 <= i < |digits| ensures IsDigit(digits[i]) {
      assert digits[i] in digits;
    }
  }

  /** `parse_building_info` on a decoded value: falsy values give zeros, a
      string is parsed, and anything else makes the regex search raise. */
  function ParseBuildingInfoJ(v: Json): (r: Result<BuildingCounts>)
    ensures !Truthy(v) ==> r == Ok(NoCounts)
    ensures v.JStr? ==> r == Ok(ParseBuildingInfo(v.s))
    ensures r.Raised? <==> Truthy(v) && !v.JStr?
  {
    if !Truthy(v) then Ok(NoCounts)
    else if v.JStr? then Ok(ParseBuildingInfo(v.s))
    else Raised
  }

  /** `extract_numerical_value` on a decoded value, with the same split. */
  function ExtractNumericalValueJ(v: Json): (r: Result<Json>)
    ensures !Truthy(v) ==> r == Ok(JStr(""))
    ensures v.JStr? ==> r == Ok(ExtractNumericalValue(v.s))
    ensures r.Raised? <==> Truthy(v) && !v.JStr?
  {
    if !Truthy(v) then Ok(JStr(""))
    else if v.JStr? then Ok(ExtractNumericalValue(v.s))
    else Raised
  }

  /** The cost example: the commas of `($1,234,567)` are dropped. */
  lemma PriceExample(s: string)
    requires s == "($1,234,567)"
    ensures ExtractNumericalValue(s) == JInt(1234567)
  {
    PriceGroup(s);
    PriceDigits("1,234,567");
    DigitsSeven("1234567");
  }

  lemma PriceGroup(s: string)
    requires s == "($1,234,567)"
    ensures GroupAt(s, "($", IsPriceChar, ")", 0) == Some("1,234,567")
    ensures LeftmostMatch(s, "($", IsPriceChar, ")", 0)
  {
    RunOfIs(s, IsPriceChar, 2, 11);
    assert s[2..11] == "1,234,567";
  }

  lemma PriceDigits(g: string)
    requires g == "1,234,567"
    ensures Replace(g, ",", "") == "1234567"
  {
    var x, y, z := g[..1], g[2..5], g[6..];
    assert g == x + ([','] + (y + ([','] + z)));
    DropTwoCommas(x, y, z);
    assert x == "1" && y == "234" && z == "567";
    assert x + y + z == "1" + "234" + "567";
  }

  /** Removing the two thousands separators of `x,y,z`. */
  lemma DropTwoCommas(x: string, y: string, z: string)
    requires ',' !in x && ',' !in y && ',' !in z
    ensures Replace(x + ([','] + (y + ([','] + z))), [','], "") == x + y + z
  {
    var t := [','] + z;
    var u := y + t;
    var v := [','] + u;
    assert Replace(t, [','], "") == z by {
      NoCommaIdle(z);
      ReplaceCharCons(',', z, ',', "");
    }
    assert Replace(u, [','], "") == y + z by {
      NoCommaIdle(y);
      ReplaceCharConcat(y, t, ',', "");
    }
    assert Replace(v, [','], "") == y + z by {
      ReplaceCharCons(',', u, ',', "");
    }
    assert Replace(x + v, [','], "") == x + (y + z) by {
      NoCommaIdle(x);
      ReplaceCharConcat(x, v, ',', "");
    }
  }

  lemma NoCommaIdle(x: string)
    requires ',' !in x
    ensures Replace(x, [','], "") == x
  {
    NotContainsWithoutFirst(x, [',']);
  }

  lemma DigitsSeven(d: string)
    requires d == "1234567"
    ensures DigitsValue(d) == 1234567
  {
    assert d[..1] == [d[0]];
    assert DigitsValue(d[..1]) == 1;
    DigitsSnoc(d[..1], d[1]);
    assert d[..2] == d[..1] + [d[1]];
    DigitsSnoc(d[..2], d[2]);
    assert d[..3] == d[..2] + [d[2]];
    DigitsSnoc(d[..3], d[3]);
    assert d[..4] == d[..3] + [d[3]];
    DigitsSnoc(d[..4], d[4]);
    assert d[..5] == d[..4] + [d[4]];
    DigitsSnoc(d[..5], d[5]);
    assert d[..6] == d[..5] + [d[5]];
    DigitsSnoc(d[..6], d[6]);
    assert d == d[..6] + [d[6]];
  }

  /** A group with no digit is not a number: `($,)` gives the empty string. */
  lemma PriceWithoutDigits(s: string)
    requires s == "($,)"
    ensures ExtractNumericalValue(s) == JStr("")
  {
    RunOfIs(s, IsPriceChar, 2, 3);
    assert s[0..2] == "($" && s[3..4] == ")" && s[2..3] == ",";
    assert GroupAt(s, "($", IsPriceChar, ")", 0) == Some(",");
    assert LeftmostMatch(s, "($", IsPriceChar, ")", 0);
    ReplaceCharCons(',', "", ',', "");
    assert [','] + "" == ",";
  }

  /** The summary a permit system writes for given counts,
      `{b}棟{h}幢地上{f}層地下{bs}層{u}戶`, built up one count at a time: each
      prefix ends at the marker of one count. */
  function BuildingsText(c: BuildingCounts): string {
    NatToString(c.buildings) + "棟"
  }

  function HeadsText(c: BuildingCounts): string {
    BuildingsText(c) + NatToString(c.heads) + "幢"
  }

  function FloorsText(c: BuildingCounts): string {
    HeadsText(c) + "地上" + NatToString(c.floors) + "層"
  }

  function BasementsText(c: BuildingCounts): string {
    FloorsText(c) + "地下" + NatToString(c.basements) + "層"
  }

  function SummaryText(c: BuildingCounts): string {
    BasementsText(c) + NatToString(c.units) + "戶"
  }

  /** `parse_building_info` reads back every count of a full summary: the
      five searches each find their own number, whatever the counts are. */
  lemma ParseSummaryText(c: BuildingCounts)
    ensures ParseBuildingInfo(SummaryText(c)) == c
  {
    SummaryPrefixes(c);
    SummaryBuildings(c);
    SummaryHeads(c);
    SummaryFloors(c);
    SummaryBasements(c);
    SummaryUnits(c);
  }

  lemma SummaryPrefixes(c: BuildingCounts)
    ensures StartsWith(SummaryText(c), BuildingsText(c))
    ensures StartsWith(SummaryText(c), HeadsText(c))
    ensures StartsWith(SummaryText(c), FloorsText(c))
    ensures StartsWith(SummaryText(c), BasementsText(c))
  {
    var s := SummaryText(c);
    StartsWithAppend(BasementsText(c), NatToString(c.units) + "戶");
    StartsWithAppend(FloorsText(c), "地下" + NatToString(c.basements) + "層");
    StartsWithAppend(HeadsText(c), "地上" + NatToString(c.floors) + "層");
    StartsWithAppend(BuildingsText(c), NatToString(c.heads) + "幢");
    StartsWithTrans(s, BasementsText(c), FloorsText(c));
    StartsWithTrans(s, FloorsText(c), HeadsText(c));
    StartsWithTrans(s, HeadsText(c), BuildingsText(c));
  }

  lemma SummaryBuildings(c: BuildingCounts)
    requires StartsWith(SummaryText(c), BuildingsText(c))
    ensures CountBefore(SummaryText(c), "", "棟") == c.buildings
  {
    var d := NatToString(c.buildings);
    assert BuildingsText(c) == "" + "" + d + "棟";
    CountPrefixed(SummaryText(c), "", "", d, "棟");
  }

  lemma SummaryHeads(c: BuildingCounts)
    requires StartsWith(SummaryText(c), HeadsText(c))
    ensures CountBefore(SummaryText(c), "", "幢") == c.heads
  {
    var s, pre, d := SummaryText(c), BuildingsText(c), NatToString(c.heads);
    StartsWithTrans(s, HeadsText(c), pre);
    DigitsLack(NatToString(c.buildings), '幢');
    assert pre[|pre| - 1] == '棟';
    NoCountIn(s, pre, "幢");
    assert HeadsText(c) == pre + "" + d + "幢";
    CountPrefixed(s, pre, "", d, "幢");
  }

  lemma SummaryFloors(c: BuildingCounts)
    requires StartsWith(SummaryText(c), FloorsText(c))
    ensures CountBefore(SummaryText(c), "地上", "層") == c.floors
  {
    var s, pre := SummaryText(c), HeadsText(c);
    StartsWithTrans(s, FloorsText(c), pre);
    DigitsLack(NatToString(c.buildings), '地');
    DigitsLack(NatToString(c.heads), '地');
    assert pre == "" + pre;
    NoOpenMid(s, "", pre, "地上", "層");
    CountPrefixed(s, pre, "地上", NatToString(c.floors), "層");
  }

  lemma SummaryBasements(c: BuildingCounts)
    requires StartsWith(SummaryText(c), BasementsText(c))
    ensures CountBefore(SummaryText(c), "地下", "層") == c.basements
  {
    var s, pre := SummaryText(c), FloorsText(c);
    StartsWithTrans(s, BasementsText(c), pre);
    BasementsClear(c);
    CountPrefixed(s, pre, "地下", NatToString(c.basements), "層");
  }

  /** The `地上` before the floor count is no `地下`, so no basement match
      starts before the basement count. */
  lemma BasementsClear(c: BuildingCounts)
    requires StartsWith(SummaryText(c), FloorsText(c))
    ensures forall k :: 0 <= k < |FloorsText(c)| ==> GroupAt(SummaryText(c), "地下", IsDigit, "層", k).None?
  {
    var s, heads, pre := SummaryText(c), HeadsText(c), FloorsText(c);
    var d := NatToString(c.floors);
    StartsWithTrans(s, pre, heads);
    DigitsLack(NatToString(c.buildings), '地');
    DigitsLack(NatToString(c.heads), '地');
    assert heads == "" + heads;
    NoOpenMid(s, "", heads, "地下", "層");
    FloorsAbove(c);
    NotOpenAt(s, pre, |heads|, "地下", "層");
    DigitsLack(d, '地');
    var tail := "上" + d + "層";
    NoOpenMid(s, heads + "地", tail, "地下", "層");
    assert |pre| == |heads| + 1 + |tail|;
    forall k | 0 <= k < |pre| ensures GroupAt(s, "地下", IsDigit, "層", k).None? {
      if k < |heads| {
        assert 0 <= k < 0 + |heads|;
      } else if k > |heads| {
        assert |heads + "地"| <= k < |heads + "地"| + |tail|;
      }
    }
  }

  lemma FloorsAbove(c: BuildingCounts)
    ensures FloorsText(c) == (HeadsText(c) + "地") + ("上" + NatToString(c.floors) + "層")
    ensures FloorsText(c)[|HeadsText(c)| + 1] == '上'
  {
  }

  /** No match of a two-character `open` at `k` when the text disagrees
      with its second character. */
  lemma NotOpenAt(s: string, pre: string, k: nat, open: string, marker: string)
    requires StartsWith(s, pre) && k + 1 < |pre| && |open| >= 2 && pre[k + 1] != open[1]
    ensures GroupAt(s, open, IsDigit, marker, k).None?
  {
    StartsWithAt(s, pre);
    if k + |open| <= |s| {
      assert s[k..k + |open|][1] == s[k + 1];
    }
  }

  lemma SummaryUnits(c: BuildingCounts)
    requires StartsWith(SummaryText(c), BasementsText(c))
    ensures CountBefore(SummaryText(c), "", "戶") == c.units
  {
    var s, pre, d := SummaryText(c), BasementsText(c), NatToString(c.units);
    DigitsLack(NatToString(c.buildings), '戶');
    DigitsLack(NatToString(c.heads), '戶');
    DigitsLack(NatToString(c.floors), '戶');
    DigitsLack(NatToString(c.basements), '戶');
    assert pre[|pre| - 1] == '層';
    NoCountIn(s, pre, "戶");
    assert s == pre + "" + d + "戶";
    StartsWithAppend(s, "");
    assert s + "" == s;
    CountPrefixed(s, pre, "", d, "戶");
  }

  lemma StartsWithAppend(a: string, b: string)
    ensures StartsWith(a + b, a)
  {
    assert (a + b)[..|a|] == a;
  }

  lemma StartsWithTrans(s: string, b: string, a: string)
    requires StartsWith(s, b) && StartsWith(b, a)
    ensures StartsWith(s, a)
  {
    assert s[..|a|] == s[..|b|][..|a|];
  }

  lemma StartsWithAt(s: string, pre: string)
    requires StartsWith(s, pre)
    ensures forall i :: 0 <= i < |pre| ==> s[i] == pre[i]
  {
    forall i | 0 <= i < |pre|
      ensures s[i] == pre[i]
    {
      assert s[..|pre|][i] == s[i];
    }
  }

  lemma DigitsLack(d: string, c: char)
    requires AllDigits(d) && !IsDigit(c)
    ensures c !in d
  {
    assert forall i :: 0 <= i < |d| ==> d[i] != c;
  }

  /** The count read from a text that starts with `pre open digits marker`,
      when no match starts inside `pre`. */
  lemma CountPrefixed(s: string, pre: string, open: string, d: string, marker: string)
    requires StartsWith(s, pre + open + d + marker)
    requires |d| >= 1 && AllDigits(d) && |marker| >= 1 && !IsDigit(marker[0])
    requires forall k :: 0 <= k < |pre| ==> GroupAt(s, open, IsDigit, marker, k).None?
    ensures CountBefore(s, open, marker) == DigitsValue(d)
  {
    var p := pre + open + d + marker;
    var rest := s[|p|..];
    assert s == pre + open + d + marker + rest;
    assert forall c :: c in d ==> IsDigit(c);
    GroupAtOf(pre, open, d, marker, rest, IsDigit);
    assert LeftmostMatch(s, open, IsDigit, marker, |pre|);
    CountAt(s, open, marker, |pre|, d);
  }

  /** No bare `(digits) marker` match starts inside a prefix that ends in a
      non-digit and does not hold the marker's first character. */
  lemma NoCountIn(s: string, pre: string, marker: string)
    requires |marker| >= 1 && |pre| >= 1 && StartsWith(s, pre)
    requires !IsDigit(pre[|pre| - 1]) && marker[0] !in pre
    ensures forall k :: 0 <= k < |pre| ==> GroupAt(s, "", IsDigit, marker, k).None?
  {
    StartsWithAt(s, pre);
    forall k | 0 <= k < |pre|
      ensures GroupAt(s, "", IsDigit, marker, k).None?
    {
      var n := RunOf(s, IsDigit, k);
      assert k + n < |pre|;
      assert s[k + n] == pre[k + n];
    }
  }

  /** No match of an `open` starts inside the stretch `b` of a text
      beginning `a b` when `b` lacks the first character of `open`. */
  lemma NoOpenMid(s: string, a: string, b: string, open: string, marker: string)
    requires |open| >= 1 && StartsWith(s, a + b) && open[0] !in b
    ensures forall k :: |a| <= k < |a| + |b| ==> GroupAt(s, open, IsDigit, marker, k).None?
  {
    StartsWithAt(s, a + b);
    forall k | |a| <= k < |a| + |b|
      ensures GroupAt(s, open, IsDigit, marker, k).None?
    {
      assert s[k] == b[k - |a|];
      if k + |open| <= |s| {
        assert s[k..k + |open|][0] == s[k];
      }
    }
  }
}

=== FILE: factory.dfy ===
/** The crawler factory: `CITY_CONFIG`, the table from a city name to the
    permit system that serves it, and `get_crawler`, which builds the
    crawler of that system for a date window. */
module Factory {
  import opened Common
  import opened Dates
  import opened OrderedDict

  /** A city's entry of `CITY_CONFIG`: its system, with the site address
      of an MCGBM city and the organ code of an NBUPIC city. */
  datatype Config = Mcgbm(baseUrl: string) | Nbupic(organ: string) | HsinchuCounty | Kaohsiung

  /** The `system` field of an entry. */
  function SystemName(c: Config): string {
    match c
    case Mcgbm(_) => "MCGBM"
    case Nbupic(_) => "NBUPIC"
    case HsinchuCounty => "HsinchuCounty"
    case Kaohsiung => "Kaohsiung"
  }

  /** The keys of `CITY_CONFIG` in the order written. */
  const Cities: seq<string> := [
    "基隆市", "新北市", "桃園市", "新竹市", "台中市",
    "竹科", "中科", "南科", "台南市",
    "新竹縣", "高雄市"]

  /** The entries of `CITY_CONFIG`, key by key. */
  const Configs: seq<Config> := [
    Mcgbm("https://master.klcg.gov.tw/opendata/OpenDataSearchUrl.do?"),
    Mcgbm("https://building-apply.publicwork.ntpc.gov.tw/opendata/OpenDataSearchUrl.do?"),
    Mcgbm("https://building.tycg.gov.tw/opendata/OpenDataSearchUrl.do?"),
    Mcgbm("https://build.hccg.gov.tw/opendata/OpenDataSearchUrl.do?"),
    Mcgbm("https://mcgbm.taichung.gov.tw/opendata/OpenDataSearchUrl.do?"),
    Nbupic("B10"), Nbupic("B20"), Nbupic("B30"), Nbupic("IF0"),
    HsinchuCounty,
    Kaohsiung]

  /** `CITY_CONFIG`. */
  const CityConfig: Dict<Config> := Literal(Cities, Configs)

  /** The crawler `get_crawler` builds: its class, with the arguments it
      was given. */
  datatype Crawler =
    | McgbmCrawler(city: string, baseUrl: string, start: Date, end: Date)
    | NbupicCrawler(city: string, organ: string, start: Date, end: Date)
    | HsinchuCountyCrawler(city: string, start: Date, end: Date)
    | KaohsiungCrawler(city: string, start: Date, end: Date)

  /** The crawler of an entry's system, given the site address or organ
      code only where that system takes one. */
  function Construct(city: string, c: Config, start: Date, end: Date): (k: Crawler)
    ensures k.city == city && k.start == start && k.end == end
    ensures k.McgbmCrawler? <==> SystemName(c) == "MCGBM"
    ensures k.NbupicCrawler? <==> SystemName(c) == "NBUPIC"
    ensures k.McgbmCrawler? ==> k.baseUrl == c.baseUrl
    ensures k.NbupicCrawler? ==> k.organ == c.organ
    ensures k.HsinchuCountyCrawler? <==> c.HsinchuCounty?
    ensures k.KaohsiungCrawler? <==> c.Kaohsiung?
  {
    match c
    case Mcgbm(url) => McgbmCrawler(city, url, start, end)
    case Nbupic(organ) => NbupicCrawler(city, organ, start, end)
    case HsinchuCounty => HsinchuCountyCrawler(city, start, end)
    case Kaohsiung => KaohsiungCrawler(city, start, end)
  }

  /** `get_supported_cities()`. */
  function SupportedCities(): (cs: seq<string>)
    ensures |cs| == 11 && Distinct(cs)
    ensures forall c :: c in cs <==> HasKey(CityConfig, c)
  {
    CitiesDistinct();
    Keys(CityConfig)
  }

  /** `get_crawler(city_name, start_date, end_date)`: `ValueError` for a
      city the table does not hold; otherwise the crawler its entry names,
      over the dates as given. */
  function GetCrawler(city: string, start: Date, end: Date): (r: Result<Crawler>)
    ensures r.Raised? <==> city !in SupportedCities()
    ensures r.Ok? ==> r.value.city == city && r.value.start == start && r.value.end == end
  {
    match Get(CityConfig, city)
    case None => Raised
    case Some(c) => Ok(Construct(city, c, start, end))
  }

  lemma CitiesDistinct()
    ensures |Cities| == |Configs| == 11
    ensures Distinct(Cities)
    ensures Keys(CityConfig) == Cities && Values(CityConfig) == Configs
  {
  }

  /** Each city of the table gets the crawler of its own entry. */
  lemma GetCrawlerTable(i: nat, start: Date, end: Date)
    requires i < |Cities|
    ensures GetCrawler(Cities[i], start, end) == Ok(Construct(Cities[i], Configs[i], start, end))
  {
    CitiesDistinct();
    LiteralGet(Cities, Configs, i);
  }

  predicate IsMcgbm(c: Config) {
    c.Mcgbm?
  }

  predicate IsNbupic(c: Config) {
    c.Nbupic?
  }

  /** The table lists the five MCGBM cities, then the four NBUPIC
      cities, then Hsinchu County and Kaohsiung. */
  lemma SystemBlocks()
    ensures forall i :: 0 <= i < |Configs| ==> (IsMcgbm(Configs[i]) <==> 0 <= i < 5)
    ensures forall i :: 0 <= i < |Configs| ==> (IsNbupic(Configs[i]) <==> 5 <= i < 9)
    ensures forall i :: 0 <= i < |Configs| ==> (Configs[i].HsinchuCounty? <==> i == 9)
    ensures forall i :: 0 <= i < |Configs| ==> (Configs[i].Kaohsiung? <==> i == 10)
  {
  }

  /** Elements that satisfy `p` exactly at the positions `lo` to `hi - 1`
      count `hi - lo`. */
  lemma {:induction false} CountBlock<T>(s: seq<T>, p: T -> bool, lo: nat, hi: nat)
    requires lo <= hi <= |s|
    requires forall i :: 0 <= i < |s| ==> (p(s[i]) <==> lo <= i < hi)
    ensures Count(s, p) == hi - lo
    decreases |s|
  {
    if s != [] {
      var n := |s| - 1;
      var init := s[..n];
      assert forall i :: 0 <= i < n ==> init[i] == s[i];
      if n >= hi {
        CountBlock(init, p, lo, hi);
      } else if n >= lo {
        CountBlock(init, p, lo, n);
      } else {
        CountBlock(init, p, n, n);
      }
    }
  }

  /** Five cities run MCGBM, four NBUPIC, and one each their own system. */
  lemma SystemCounts()
    ensures Count(Configs, IsMcgbm) == 5
    ensures Count(Configs, IsNbupic) == 4
    ensures Count(Configs, (c: Config) => c.HsinchuCounty?) == 1
    ensures Count(Configs, (c: Config) => c.Kaohsiung?) == 1
  {
    SystemBlocks();
    CountBlock(Configs, IsMcgbm, 0, 5);
    CountBlock(Configs, IsNbupic, 5, 9);
    CountBlock(Configs, (c: Config) => c.HsinchuCounty?, 9, 10);
    CountBlock(Configs, (c: Config) => c.Kaohsiung?, 10, 11);
  }
}

=== FILE: fields.dfy ===
/** Field access shared by the refiners: `.get` with a default, `clean_key`
    over a list of fields, and the building-usage label set. */
module Fields {
  import opened Common
  import opened Text
  import opened OrderedDict
  import opened PyJson
  import opened Clean

  /** `data.get(k, '')`. */
  function Field(f: Dict<Json>, k: string): Json {
    GetOr(f, k, JStr(""))
  }

  /** `clean_key(data.get(k, ''))` as a step over field names. */
  function FieldCleaner(f: Dict<Json>): string -> Result<string> {
    (k: string) => CleanJ(Field(f, k))
  }

  /** `clean_key(data.get(k, ''))` for each name in turn; `Raised` as soon
      as one field holds a value without `.replace`. */
  function CleanFields(f: Dict<Json>, names: seq<string>): (r: Result<seq<string>>)
    ensures r.Ok? <==> forall i :: 0 <= i < |names| ==> CleanJ(Field(f, names[i])).Ok?
    ensures r.Ok? ==> |r.value| == |names|
    ensures r.Ok? ==> forall i :: 0 <= i < |names| ==> CleanJ(Field(f, names[i])) == Ok(r.value[i])
  {
    var g := FieldCleaner(f);
    assert forall i :: 0 <= i < |names| ==> g(names[i]) == CleanJ(Field(f, names[i]));
    MapAll(names, g)
  }

  /** A floor entry the `if tag in usage: usage[tag].split('、')` loop
      accepts: it supports `in`, and where it holds the tag it is a dict
      whose entry is a string. */
  predicate LabelledFloor(v: Json, tag: string) {
    && (v.JStr? || v.JList? || v.JObj?)
    && (InJ(tag, v) == Ok(true) ==> v.JObj? && GetOr(v.fields, tag, JNull).JStr?)
  }

  /** The `、`-separated labels of the floors that hold `tag`, in order
      (the MCGBM and NBUPIC loops). */
  function LabelsWhere(floors: seq<Json>, tag: string): (r: Result<seq<string>>)
    ensures r.Ok? <==> forall i :: 0 <= i < |floors| ==> LabelledFloor(floors[i], tag)
    decreases |floors|
  {
    if floors == [] then Ok([])
    else
      var rest := LabelsWhere(floors[1..], tag);
      assert forall i :: 1 <= i < |floors| ==> floors[i] == floors[1..][i - 1];
      assert rest.Raised? ==> exists i :: 0 <= i < |floors[1..]| && !LabelledFloor(floors[1..][i], tag);
      var has := InJ(tag, floors[0]);
      if rest.Raised? || has.Raised? then Raised
      else if has.value then
        var v := IndexJ(floors[0], tag);
        if v.Raised? then Raised
        else
          var parts := SplitJ(v.value, "、");
          if parts.Raised? then Raised else Ok(parts.value + rest.value)
      else Ok(rest.value)
  }

  /** Single characters never hold a tag of two or more characters, so a
      summary given as a plain string contributes no labels. */
  lemma {:induction false} LabelsWhereOfChars(floors: seq<Json>, tag: string)
    requires |tag| >= 2
    requires forall i :: 0 <= i < |floors| ==> floors[i].JStr? && |floors[i].s| == 1
    ensures LabelsWhere(floors, tag) == Ok([])
    decreases |floors|
  {
    if floors != [] {
      LabelsWhereOfChars(floors[1..], tag);
      var c := floors[0].s;
      assert !Contains(c, tag) by {
        assert !StartsWith(c, tag);
        assert !StartsWith(c[1..], tag);
      }
    }
  }

  /** A floor entry the `usage.get(tag, '').split('、')` loop accepts: a
      dict whose entry, if any, is a string. */
  predicate DictFloor(v: Json, tag: string) {
    v.JObj? && GetOr(v.fields, tag, JStr("")).JStr?
  }

  /** The `、`-separated labels of every floor, a floor without the tag
      contributing the empty label (the Kaohsiung and Hsinchu County loops). */
  function LabelsOf(floors: seq<Json>, tag: string): (r: Result<seq<string>>)
    ensures r.Ok? <==> forall i :: 0 <= i < |floors| ==> DictFloor(floors[i], tag)
    ensures r.Ok? ==> |r.value| >= |floors|
    decreases |floors|
  {
    if floors == [] then Ok([])
    else
      var rest := LabelsOf(floors[1..], tag);
      assert forall i :: 1 <= i < |floors| ==> floors[i] == floors[1..][i - 1];
      assert rest.Raised? ==> exists i :: 0 <= i < |floors[1..]| && !DictFloor(floors[1..][i], tag);
      var v := GetJ(floors[0], tag, JStr(""));
      if rest.Raised? || v.Raised? then Raised
      else
        var parts := SplitJ(v.value, "、");
        if parts.Raised? then Raised else Ok(parts.value + rest.value)
  }

  /** `order` lists every label of `labels` exactly once: a possible
      iteration order of the set built from them. */
  ghost predicate ListsEachOnce(order: seq<string>, labels: seq<string>) {
    && (forall x :: x in order <==> x in labels)
    && Distinct(order)
  }

  /** `str(list(building_usage))` for the labels gathered into the set: the
      list of the distinct labels, each once, in some order. */
  function UsageText(labels: seq<string>): (r: string)
    ensures |r| >= 2 && r[0] == '[' && r[|r| - 1] == ']'
    ensures exists order :: ListsEachOnce(order, labels) && r == StrList(order)
  {
    var order := Dedup(labels);
    assert ListsEachOnce(order, labels);
    StrList(order)
  }

  /** Adding a label the set already holds leaves the text as it was. */
  lemma UsageTextRepeat(labels: seq<string>, extra: string)
    requires extra in labels
    ensures UsageText(labels + [extra]) == UsageText(labels)
  {
    assert (labels + [extra])[..|labels + [extra]| - 1] == labels;
  }
}

=== FILE: hsinchu_crawler.dfy ===
/** `HsinchuCrawler.fetch_data`: the Hsinchu County permit system queried
    day by day; the listing comes back as JSONP, and each listed key's
    detail page is parsed and refined. The HTTP round trips are parameters:
    `query` maps the day's era date to the listing text, `decode` is
    `json.loads`, and `detail` maps a key to the detail page's heading spans
    and tables; each gives `Raised` where the request, the status check or
    the decoding raises. */
module HsinchuCrawler {
  import opened Common
  import opened Text
  import opened Dates
  import opened RocDates
  import opened DateRange
  import opened OrderedDict
  import opened PyJson
  import opened Classify
  import opened Records
  import opened HsinchuSections
  import opened HsinchuTables
  import opened HsinchuRefiner
  import opened Crawl

  const Wrapper: string := "ok("
  const WrapperEnd: string := ")"

  /** The JSONP unwrapping: `text[3:-1]` when the text starts with `ok(`
      and ends with `)`, the text itself otherwise. */
  function Unwrap(text: string): (r: string)
    ensures !(StartsWith(text, Wrapper) && EndsWith(text, WrapperEnd)) ==> r == text
    ensures |r| <= |text|
  {
    if StartsWith(text, Wrapper) && EndsWith(text, WrapperEnd) then
      assert text[2] == '(';
      text[|Wrapper|..|text| - |WrapperEnd|]
    else text
  }

  /** Unwrapping a wrapped payload gives the payload back. */
  lemma UnwrapWrapped(s: string)
    ensures Unwrap(Wrapper + s + WrapperEnd) == s
  {
    var t := Wrapper + s + WrapperEnd;
    assert t[..|Wrapper|] == Wrapper;
    assert t[|t| - |WrapperEnd|..] == WrapperEnd;
    assert t[|Wrapper|..|t| - |WrapperEnd|] == s;
  }

  /** A text that does not start with `ok(` passes through. */
  lemma UnwrapPlain(text: string)
    requires !StartsWith(text, Wrapper)
    ensures Unwrap(text) == text
  {
  }

  /** A yielded item: a truthy key, a refined permit (never `其它`) over the
      canonical columns that carries the key as its identifier. */
  predicate HsinchuItem(it: Item) {
    && Truthy(it.key) && Valid(it.date)
    && Keys(it.data) == CanonicalKeys && WellFormed(it.data)
    && Get(it.data, "_id") == Some(it.key)
    && (Get(it.data, "執照類別") == Some(JStr(Construction)) || Get(it.data, "執照類別") == Some(JStr(Occupancy)))
  }

  /** `row.get('identify_lice_date', '')`, read by `tw_str_to_date`. */
  function RowDate(row: Json): (r: Result<Option<Date>>)
    ensures r.Raised? <==> !row.JObj? || TwStrToDateJ(GetOr(row.fields, "identify_lice_date", JStr(""))).Raised?
    ensures r.Ok? && r.value.Some? ==> Valid(r.value.value)
  {
    var v :- GetJ(row, "identify_lice_date", JStr(""));
    TwStrToDateJ(v)
  }

  /** The detail page as the parser sees it: heading spans and tables. */
  type Detail = (seq<seq<Span>>, seq<Table>)

  /** The body of the row loop. A row that is not a dict, or whose date is a
      truthy non-string, raises out of the loop and loses the rest of the
      day; a row without key is skipped, and so is one whose detail fails or
      classifies as `其它`. An item is dated by its row, or by the day
      queried when the row's date does not parse. */
  function RowStep(row: Json, day: Date, detail: Json -> Result<Detail>): (s: Step<Item>)
    requires Valid(day)
    ensures s.Halt? <==> RowDate(row).Raised?
    ensures s.Yield? ==>
      && row.JObj? && s.item.key == GetOr(row.fields, "index_key", JStr("")) && Truthy(s.item.key)
      && (RowDate(row) == Ok(Some(s.item.date)) || (RowDate(row) == Ok(None) && s.item.date == day))
    ensures s.Yield? ==> DetailStep(s.item.key, s.item.date, detail) == Yield(s.item)
  {
    match RowDate(row)
    case Raised => Halt
    case Ok(d) =>
      var key := GetOr(row.fields, "index_key", JStr(""));
      if !Truthy(key) then Skip else DetailStep(key, d.GetOr(day), detail)
  }

  /** The detail half of the row loop: fetch, parse and refine the page of
      `key`; a failure or a `其它` permit is skipped. */
  function DetailStep(key: Json, date: Date, detail: Json -> Result<Detail>): (s: Step<Item>)
    ensures !s.Halt?
    ensures s.Yield? <==> detail(key).Ok? && RefineHsinchu(ParsePage(detail(key).value.0, detail(key).value.1), key).Some?
    ensures s.Yield? ==>
      && s.item.key == key && s.item.date == date
      && Some(s.item.data) == RefineHsinchu(ParsePage(detail(key).value.0, detail(key).value.1), key)
  {
    match detail(key)
    case Raised => Skip
    case Ok(dom) =>
      match RefineHsinchu(ParsePage(dom.0, dom.1), key)
      case Some(rec) => Yield(Item(date, key, rec))
      case None => Skip
  }

  /** Every item the row loop yields is a refined permit keyed by its row. */
  lemma RowItem(row: Json, day: Date, detail: Json -> Result<Detail>)
    requires Valid(day)
    ensures RowStep(row, day, detail).Yield? ==> HsinchuItem(RowStep(row, day, detail).item)
  {
    var s := RowStep(row, day, detail);
    if s.Yield? {
      DetailItem(s.item.key, s.item.date, detail);
    }
  }

  /** A detail page that refines yields a permit keyed by the listed key. */
  lemma DetailItem(key: Json, date: Date, detail: Json -> Result<Detail>)
    requires Truthy(key) && Valid(date)
    ensures DetailStep(key, date, detail).Yield? ==> HsinchuItem(DetailStep(key, date, detail).item)
  {
  }

  /** `data.get('rows', [])` iterated; `Raised` for a body that is not a
      dict or rows that cannot be iterated. */
  function ListingRows(data: Json): (r: Result<seq<Json>>)
    ensures r.Raised? <==> !data.JObj? || IterJ(GetOr(data.fields, "rows", JList([]))).Raised?
  {
    var rows :- GetJ(data, "rows", JList([]));
    IterJ(rows)
  }

  /** One day: a failed query, a body that does not decode or a listing
      that cannot be read loses the day; otherwise the rows are walked
      until one raises. */
  function DayItems(text: Result<string>, decode: string -> Result<Json>, day: Date,
                    detail: Json -> Result<Detail>): (r: seq<Item>)
    requires Valid(day)
    ensures text.Raised? ==> r == []
    ensures text.Ok? && decode(Unwrap(text.value)).Raised? ==> r == []
    ensures forall it :: it in r ==> HsinchuItem(it)
  {
    match text
    case Raised => []
    case Ok(t) =>
      match decode(Unwrap(t))
      case Raised => []
      case Ok(data) =>
        match ListingRows(data)
        case Raised => []
        case Ok(rows) =>
          var f := (row: Json) => RowStep(row, day, detail);
          var items := Harvest(rows, f);
          forall it | it in items
            ensures HsinchuItem(it)
          {
            var i :| 0 <= i < |rows| && f(rows[i]) == Yield(it);
            RowItem(rows[i], day, detail);
          }
          items
  }

  /** A row without key is skipped before any detail request: the outcome
      does not depend on the detail pages. */
  lemma KeylessRow(row: Json, day: Date)
    requires Valid(day) && row.JObj? && RowDate(row).Ok?
    requires !Truthy(GetOr(row.fields, "index_key", JStr("")))
    ensures forall detail :: RowStep(row, day, detail) == Skip
  {
  }

  /** The listing query of each day: its era date, without slashes. */
  function DayQueries(days: seq<Date>): (qs: seq<string>)
    requires forall i :: 0 <= i < |days| ==> Valid(days[i])
  {
    seq(|days|, i requires 0 <= i < |days| => TwYearFormat(days[i], false))
  }

  /** What each day yields, day by day. */
  function DayResults(query: string -> Result<string>, decode: string -> Result<Json>,
                      detail: Json -> Result<Detail>, days: seq<Date>): (parts: seq<seq<Item>>)
    requires forall i :: 0 <= i < |days| ==> Valid(days[i])
  {
    seq(|days|, i requires 0 <= i < |days| => DayItems(query(TwYearFormat(days[i], false)), decode, days[i], detail))
  }

  /** `fetch_data`: nothing when the first page cannot be reached;
      otherwise one listing query for every day of the window, in order,
      and the items of each day after those of the day before. */
  method FetchData(connected: bool, query: string -> Result<string>, decode: string -> Result<Json>,
                   detail: Json -> Result<Detail>, start: Date, end: Date)
    returns (items: seq<Item>, count: nat, queries: seq<string>)
    requires Valid(start) && Valid(end)
    ensures count == |items|
    ensures !connected ==> items == [] && queries == []
    ensures connected ==> queries == DayQueries(GenerateDates(start, end, 1))
    ensures connected ==> items == Flatten(DayResults(query, decode, detail, GenerateDates(start, end, 1)))
    ensures forall it :: it in items ==> HsinchuItem(it)
  {
    items := [];
    count := 0;
    queries := [];
    if !connected {
      return;
    }
    var days := GenerateDates(start, end, 1);
    var parts := DayResults(query, decode, detail, days);
    var qs := DayQueries(days);
    for i := 0 to |days|
      invariant count == |items|
      invariant queries == qs[..i]
      invariant items == Flatten(parts[..i])
      invariant forall it :: it in items ==> HsinchuItem(it)
    {
      var q := TwYearFormat(days[i], false);
      var found := DayItems(query(q), decode, days[i], detail);
      assert found == parts[i] && q == qs[i];
      FlattenSnoc(parts, i);
      PrefixSnoc(qs, i);
      items := items + found;
      count := count + |found|;
      queries := queries + [q];
    }
    assert parts[..|days|] == parts;
    assert qs[..|days|] == qs;
  }
}

=== FILE: hsinchu_sections.dfy ===
/** `hc_extract_section_info_bs4`: the key/value pairs of the Hsinchu County
    detail page. Every `div.tableCon` block holds headings whose class name
    ends in a two-digit depth (`tit01`, `tit02`, ...); the key of a heading
    is the path of enclosing headings joined with `-`, its value the text
    of the element that follows it. */
module HsinchuSections {
  import opened Common
  import opened Text
  import opened OrderedDict
  import opened Clean
  import opened Numbers

  /** A `[class^="tit"]` element: its first class name, its text, and the
      stripped text of its next sibling element, if it has one. */
  datatype Span = Span(cls: string, text: string, next: Option<string>)

  /** `int(tit_class[-2:])`, `None` where `int` raises. */
  function Depth(s: Span): Option<int> {
    var c := s.cls;
    PyInt(if |c| >= 2 then c[|c| - 2..] else c)
  }

  /** The starting bound of `get_branch` (`min_num = 9`). */
  const Threshold: int := 9

  function Reverse<T>(s: seq<T>): (r: seq<T>)
    ensures |r| == |s|
    ensures forall i :: 0 <= i < |s| ==> r[i] == s[|s| - 1 - i]
  {
    seq(|s|, i requires 0 <= i < |s| => s[|s| - 1 - i])
  }

  /** The branch ending at the last span of `spans`, in document order:
      walking back, each span whose depth is below every depth kept so far
      is kept, and the walk stops at the first depth-1 span, kept or not.
      Spans whose depth does not parse are passed over. */
  function Branch(spans: seq<Span>, bound: int): seq<Span>
    decreases |spans|
  {
    if spans == [] then []
    else
      var last := spans[|spans| - 1];
      var init := spans[..|spans| - 1];
      match Depth(last)
      case None => Branch(init, bound)
      case Some(d) =>
        var kept := if d < bound then [last] else [];
        if d == 1 then kept
        else Branch(init, if d < bound then d else bound) + kept
  }

  /** A branch is drawn from the spans, every depth in it parses and is
      below the bound, and it ends at the last span whenever that span's
      depth is below the bound. */
  lemma {:induction false} BranchBounded(spans: seq<Span>, bound: int)
    ensures forall i :: 0 <= i < |Branch(spans, bound)| ==>
      Depth(Branch(spans, bound)[i]).Some? && Depth(Branch(spans, bound)[i]).value < bound
    ensures forall i :: 0 <= i < |Branch(spans, bound)| ==> Branch(spans, bound)[i] in spans
    ensures spans != [] && Depth(spans[|spans| - 1]).Some? && Depth(spans[|spans| - 1]).value < bound ==>
      Branch(spans, bound) != [] && Branch(spans, bound)[|Branch(spans, bound)| - 1] == spans[|spans| - 1]
    decreases |spans|
  {
    if spans != [] {
      var last := spans[|spans| - 1];
      var init := spans[..|spans| - 1];
      assert forall x :: x in init ==> x in spans;
      match Depth(last)
      case None =>
        BranchBounded(init, bound);
      case Some(d) =>
        if d != 1 {
          BranchBounded(init, if d < bound then d else bound);
        }
    }
  }

  /** Depths strictly increase along a branch, from the outermost heading
      to the innermost. */
  lemma {:induction false} BranchIncreasing(spans: seq<Span>, bound: int)
    ensures forall i :: 0 <= i < |Branch(spans, bound)| ==> Depth(Branch(spans, bound)[i]).Some?
    ensures forall i, j :: 0 <= i < j < |Branch(spans, bound)| ==>
      Depth(Branch(spans, bound)[i]).value < Depth(Branch(spans, bound)[j]).value
    decreases |spans|
  {
    BranchBounded(spans, bound);
    if spans != [] {
      var last := spans[|spans| - 1];
      var init := spans[..|spans| - 1];
      match Depth(last)
      case None =>
        BranchIncreasing(init, bound);
      case Some(d) =>
        if d != 1 {
          var next := if d < bound then d else bound;
          BranchIncreasing(init, next);
          BranchBounded(init, next);
          var b := Branch(init, next);
          var kept := if d < bound then [last] else [];
          var r := b + kept;
          assert Branch(spans, bound) == r;
          forall i, j | 0 <= i < j < |r|
            ensures Depth(r[i]).Some? && Depth(r[j]).Some? && Depth(r[i]).value < Depth(r[j]).value
          {
            assert r[i] == b[i];
            if j < |b| {
              assert r[j] == b[j];
            } else {
              assert r[j] == last;
            }
          }
        }
    }
  }

  /** `get_branch` as written: the forward walk over the reversed spans,
      appending each span below the running minimum and returning at depth
      1; the caller reverses the list it builds. */
  function Walk(rs: seq<Span>, least: int): (arr: seq<Span>)
    decreases |rs|
  {
    if rs == [] then []
    else
      match Depth(rs[0])
      case None => Walk(rs[1..], least)
      case Some(d) =>
        var kept := if d < least then [rs[0]] else [];
        if d == 1 then kept else kept + Walk(rs[1..], if d < least then d else least)
  }

  lemma ReverseConcat<T>(a: seq<T>, b: seq<T>)
    ensures Reverse(a + b) == Reverse(b) + Reverse(a)
  {
  }

  /** The branch is the reversed walk over the reversed spans. */
  lemma {:induction false} BranchIsWalk(spans: seq<Span>, bound: int)
    ensures Branch(spans, bound) == Reverse(Walk(Reverse(spans), bound))
    decreases |spans|
  {
    if spans != [] {
      var last := spans[|spans| - 1];
      var init := spans[..|spans| - 1];
      var rs := Reverse(spans);
      assert rs[0] == last;
      assert rs[1..] == Reverse(init);
      match Depth(last)
      case None =>
        BranchIsWalk(init, bound);
      case Some(d) =>
        var kept := if d < bound then [last] else [];
        assert Reverse(kept) == kept;
        if d != 1 {
          var next := if d < bound then d else bound;
          BranchIsWalk(init, next);
          ReverseConcat(kept, Walk(Reverse(init), next));
        }
    }
  }

  /** The `j`-th entry of `arrs`, built by walking the reversed spans from
      position `|spans| - 1 - j` and reversing `arrs` afterwards, is the
      branch ending at the `j`-th span. */
  lemma SourceBranch(spans: seq<Span>, j: nat)
    requires j < |spans|
    ensures Reverse(Walk(Reverse(spans)[|spans| - 1 - j..], Threshold)) == Branch(spans[..j + 1], Threshold)
  {
    assert Reverse(spans)[|spans| - 1 - j..] == Reverse(spans[..j + 1]);
    BranchIsWalk(spans[..j + 1], Threshold);
  }

  /** The key of a branch: its cleaned heading texts joined with `-`. */
  function BranchKey(arr: seq<Span>): string {
    Join("-", seq(|arr|, i requires 0 <= i < |arr| => CleanKey(Some(arr[i].text))))
  }

  /** The value of a branch: the cleaned text after its last heading, or
      the empty string. */
  function BranchValue(arr: seq<Span>): (v: string)
    ensures arr == [] ==> v == ""
  {
    if arr == [] then ""
    else
      match arr[|arr| - 1].next
      case Some(t) => CleanKey(Some(t))
      case None => ""
  }

  /** The key and the value recorded for the `j`-th heading. */
  function KeyAt(spans: seq<Span>, j: nat): string
    requires j < |spans|
  {
    BranchKey(Branch(spans[..j + 1], Threshold))
  }

  function ValueAt(spans: seq<Span>, j: nat): string
    requires j < |spans|
  {
    BranchValue(Branch(spans[..j + 1], Threshold))
  }

  /** The keys the first two headings' values are also recorded under, and
      the key the number heading is renamed from and to. */
  const NewLicence: string := "核發執照字號"
  const OldLicence: string := "原領執照字號"
  const NumberKey: string := "號碼"
  const RenamedNumberKey: string := "建造執照號碼"

  /** `if (key_str not in results) or results[key_str] == ''`: a key's
      first non-blank value stays. */
  function SetIfBlank(d: Dict<string>, k: string, v: string): (r: Dict<string>)
    ensures Get(r, k) == if Get(d, k) == None || Get(d, k) == Some("") then Some(v) else Get(d, k)
    ensures forall k' :: k' != k ==> Get(r, k') == Get(d, k')
    ensures forall k' :: HasKey(r, k') <==> HasKey(d, k') || k' == k
    ensures WellFormed(d) ==> WellFormed(r)
  {
    if !HasKey(d, k) || Get(d, k) == Some("") then Set(d, k, v) else d
  }

  /** One heading of a block: record its branch's value under its key, and
      the first two headings' values as the new and original licence
      numbers. */
  function SpanStep(d: Dict<string>, spans: seq<Span>, j: nat): (r: Dict<string>)
    requires j < |spans|
    ensures j == 0 ==> Get(r, NewLicence) == Some(ValueAt(spans, 0))
    ensures j == 1 ==> Get(r, OldLicence) == Some(ValueAt(spans, 1))
    ensures HasKey(r, KeyAt(spans, j))
    ensures forall k :: HasKey(d, k) ==> HasKey(r, k)
    ensures WellFormed(d) ==> WellFormed(r)
  {
    var value := ValueAt(spans, j);
    var d1 := SetIfBlank(d, KeyAt(spans, j), value);
    if j == 0 then Set(d1, NewLicence, value)
    else if j == 1 then Set(d1, OldLicence, value)
    else d1
  }

  /** The first `n` headings of a block, in document order. */
  function SpanSteps(d: Dict<string>, spans: seq<Span>, n: nat): (r: Dict<string>)
    requires n <= |spans|
    ensures forall k :: HasKey(d, k) ==> HasKey(r, k)
    ensures n >= 1 ==> HasKey(r, NewLicence)
    ensures n >= 2 ==> HasKey(r, OldLicence)
    ensures WellFormed(d) ==> WellFormed(r)
    decreases n
  {
    if n == 0 then d
    else
      SpanStep(SpanSteps(d, spans, n - 1), spans, n - 1)
  }

  /** `results['建造執照號碼'] = results['號碼']; del results['號碼']`. */
  function RenameNumber(d: Dict<string>): (r: Dict<string>)
    ensures !HasKey(r, NumberKey)
    ensures HasKey(d, NumberKey) ==> Get(r, RenamedNumberKey) == Get(d, NumberKey)
    ensures !HasKey(d, NumberKey) ==> r == d
    ensures forall k :: k != NumberKey && k != RenamedNumberKey ==> Get(r, k) == Get(d, k)
    ensures WellFormed(d) ==> WellFormed(r)
  {
    if HasKey(d, NumberKey) then
      var moved := Set(d, RenamedNumberKey, GetOr(d, NumberKey, ""));
      var r := Remove(moved, NumberKey);
      forall k | k != NumberKey
        ensures Get(r, k) == Get(moved, k)
      {
        RemoveGet(moved, NumberKey, k);
      }
      r
    else d
  }

  /** One `div.tableCon` block: its headings, then the rename. */
  function Section(d: Dict<string>, spans: seq<Span>): (r: Dict<string>)
    ensures !HasKey(r, NumberKey)
    ensures WellFormed(d) ==> WellFormed(r)
    ensures spans != [] ==> HasKey(r, NewLicence)
  {
    var steps := SpanSteps(d, spans, |spans|);
    RenameNumber(steps)
  }

  /** A later block never takes away the licence-number key. */
  lemma SectionKeepsLicence(d: Dict<string>, spans: seq<Span>)
    ensures HasKey(d, NewLicence) ==> HasKey(Section(d, spans), NewLicence)
  {
    var steps := SpanSteps(d, spans, |spans|);
    assert NewLicence != NumberKey && NewLicence != RenamedNumberKey;
    assert HasKey(d, NewLicence) ==> HasKey(steps, NewLicence);
    assert Get(RenameNumber(steps), NewLicence) == Get(steps, NewLicence);
  }

  /** `hc_extract_section_info_bs4`: the blocks in document order sharing
      one result dict. */
  function SectionInfo(sections: seq<seq<Span>>): (r: Dict<string>)
    ensures WellFormed(r)
    ensures !HasKey(r, NumberKey)
    ensures (exists i :: 0 <= i < |sections| && sections[i] != []) ==> HasKey(r, NewLicence)
    decreases |sections|
  {
    if sections == [] then []
    else
      var init := sections[..|sections| - 1];
      var last := sections[|sections| - 1];
      var before := SectionInfo(init);
      var r := Section(before, last);
      SectionKeepsLicence(before, last);
      assert (exists i :: 0 <= i < |sections| && sections[i] != []) ==> HasKey(r, NewLicence) by {
        if exists i :: 0 <= i < |sections| && sections[i] != [] {
          var i :| 0 <= i < |sections| && sections[i] != [];
          if i < |init| {
            assert init[i] != [];
          }
        }
      }
      r
  }
}

=== FILE: hsinchu_tables.dfy ===
/** `hc_extract_table_data_bs4`: the tables of the Hsinchu County detail
    page, each a list of row dicts filed under the title found next to the
    table. */
module HsinchuTables {
  import opened Common
  import opened OrderedDict
  import opened Clean

  /** Where a table's title comes from: its previous sibling element, else
      the previous sibling of its parent, else nowhere. */
  datatype Title = Before(text: string) | Outer(text: string) | Untitled

  /** A `table`: the texts of its `th` cells, the texts of the `td` cells of
      each of its `tr` elements, and its title. */
  datatype Table = Table(heads: seq<string>, rows: seq<seq<string>>, title: Title)

  type Row = Dict<string>

  /** The serial-number column every row drops. */
  const Serial: string := "序號"

  /** `clean_key` applied to each text. */
  function Cleaned(xs: seq<string>): (r: seq<string>)
    ensures |r| == |xs|
    ensures forall i :: 0 <= i < |xs| ==> r[i] == CleanKey(Some(xs[i]))
  {
    seq(|xs|, i requires 0 <= i < |xs| => CleanKey(Some(xs[i])))
  }

  /** A row the table keeps: a real dict, not empty, without a serial
      number. */
  predicate ValidRow(r: Row) {
    WellFormed(r) && r != [] && !HasKey(r, Serial)
  }

  /** One `tr`: each cell's cleaned text under the header at its position
      (cells past the last header dropped, a repeated header overwriting),
      the serial number popped. */
  function RowData(heads: seq<string>, cells: seq<string>): (r: Row)
    ensures WellFormed(r)
    ensures forall k :: HasKey(r, k) <==> k != Serial && k in heads[..Min(|heads|, |cells|)]
  {
    var d := FromPairs(heads, Cleaned(cells));
    var r := Remove(d, Serial);
    assert forall k :: k != Serial ==> (HasKey(r, k) <==> HasKey(d, k)) by {
      forall k | k != Serial
        ensures HasKey(r, k) <==> HasKey(d, k)
      {
        RemoveGet(d, Serial, k);
      }
    }
    r
  }

  /** Under distinct headers, each kept header reads back its own cell. */
  lemma RowDataGet(heads: seq<string>, cells: seq<string>, i: nat)
    requires Distinct(heads) && i < |heads| && i < |cells| && heads[i] != Serial
    ensures Get(RowData(heads, cells), heads[i]) == Some(CleanKey(Some(cells[i])))
  {
    var d := FromPairs(heads, Cleaned(cells));
    FromPairsGet(heads, Cleaned(cells), i);
    RemoveGet(d, Serial, heads[i]);
  }

  /** The row dict of each `tr` element. */
  function RowDatas(heads: seq<string>, trs: seq<seq<string>>): (r: seq<Row>)
    ensures |r| == |trs|
    ensures forall j :: 0 <= j < |trs| ==> r[j] == RowData(heads, trs[j])
  {
    seq(|trs|, j requires 0 <= j < |trs| => RowData(heads, trs[j]))
  }

  /** `if row: rows.append(row)`: the non-empty rows, in order. */
  function NonEmpty(rows: seq<Row>): (r: seq<Row>)
    ensures |r| <= |rows|
    ensures forall i :: 0 <= i < |r| ==> r[i] != [] && r[i] in rows
    ensures forall j :: 0 <= j < |rows| && rows[j] != [] ==> rows[j] in r
    decreases |rows|
  {
    if rows == [] then []
    else
      var rest := NonEmpty(rows[1..]);
      assert forall j :: 1 <= j < |rows| ==> rows[j] == rows[1..][j - 1];
      if rows[0] != [] then [rows[0]] + rest else rest
  }

  /** The non-empty rows of the given `tr` elements, in order: each one the
      row of some `tr`, and every non-empty row of a `tr` among them. */
  function Rows(heads: seq<string>, trs: seq<seq<string>>): (r: seq<Row>)
    ensures forall i :: 0 <= i < |r| ==> ValidRow(r[i])
    ensures forall i :: 0 <= i < |r| ==> exists j :: 0 <= j < |trs| && r[i] == RowData(heads, trs[j])
    ensures forall j :: 0 <= j < |trs| && RowData(heads, trs[j]) != [] ==> RowData(heads, trs[j]) in r
    ensures |r| <= |trs|
  {
    var all := RowDatas(heads, trs);
    var r := NonEmpty(all);
    forall i | 0 <= i < |r|
      ensures ValidRow(r[i])
      ensures exists j :: 0 <= j < |trs| && r[i] == RowData(heads, trs[j])
    {
      var j :| 0 <= j < |all| && all[j] == r[i];
      assert r[i] == RowData(heads, trs[j]);
    }
    r
  }

  /** A table's rows: the header row skipped, the header texts cleaned. */
  function TableRows(t: Table): (r: seq<Row>)
    ensures forall i :: 0 <= i < |r| ==> ValidRow(r[i])
  {
    if t.rows == [] then [] else Rows(Cleaned(t.heads), t.rows[1..])
  }

  /** `[{**a, **b} for a, b in zip(rows, table_data[key])]`. */
  function MergeRows(a: seq<Row>, b: seq<Row>): (r: seq<Row>)
    ensures |r| == Min(|a|, |b|)
    ensures forall i :: 0 <= i < |r| ==> r[i] == Merge(a[i], b[i])
  {
    seq(Min(|a|, |b|), i requires 0 <= i < Min(|a|, |b|) => Merge(a[i], b[i]))
  }

  /** In a merged row the earlier table's value wins wherever both rows
      hold the header. */
  lemma MergeRowsGet(a: seq<Row>, b: seq<Row>, i: nat, k: string)
    requires i < |a| && i < |b| && WellFormed(b[i])
    ensures Get(MergeRows(a, b)[i], k) == if HasKey(b[i], k) then Get(b[i], k) else Get(a[i], k)
  {
    MergeGet(a[i], b[i], k);
  }

  /** Merging valid rows gives valid rows. */
  lemma MergeRowsValid(a: seq<Row>, b: seq<Row>)
    requires forall i :: 0 <= i < |a| ==> ValidRow(a[i])
    requires forall i :: 0 <= i < |b| ==> ValidRow(b[i])
    ensures forall i :: 0 <= i < |MergeRows(a, b)| ==> ValidRow(MergeRows(a, b)[i])
  {
    var r := MergeRows(a, b);
    forall i | 0 <= i < |r|
      ensures ValidRow(r[i])
    {
      assert HasKey(a[i], a[i][0].key);
      assert HasKey(r[i], a[i][0].key);
    }
  }

  /** Every table filed so far holds valid rows only. */
  predicate ValidData(td: Dict<seq<Row>>) {
    forall e :: e in td ==> forall i :: 0 <= i < |e.val| ==> ValidRow(e.val[i])
  }

  /** One table: filed under its own title (replacing what was there), or
      under its parent's title (merged row by row with an earlier table of
      that title, which wins on shared headers), or not at all. */
  function TableStep(td: Dict<seq<Row>>, t: Table): (r: Dict<seq<Row>>)
    ensures t.title.Before? ==> Get(r, CleanKey(Some(t.title.text))) == Some(TableRows(t))
    ensures t.title.Outer? && !HasKey(td, CleanKey(Some(t.title.text))) ==>
      Get(r, CleanKey(Some(t.title.text))) == Some(TableRows(t))
    ensures t.title.Outer? && HasKey(td, CleanKey(Some(t.title.text))) ==>
      Get(r, CleanKey(Some(t.title.text))) == Some(MergeRows(TableRows(t), GetOr(td, CleanKey(Some(t.title.text)), [])))
    ensures t.title.Untitled? ==> r == td
    ensures !t.title.Untitled? ==> forall k :: k != CleanKey(Some(t.title.text)) ==> Get(r, k) == Get(td, k)
    ensures WellFormed(td) ==> WellFormed(r)
    ensures ValidData(td) ==> ValidData(r)
  {
    var rows := TableRows(t);
    match t.title
    case Untitled => td
    case Before(x) =>
      var k := CleanKey(Some(x));
      SetEntries(td, k, rows);
      Set(td, k, rows)
    case Outer(x) =>
      var k := CleanKey(Some(x));
      match Get(td, k)
      case None =>
        SetEntries(td, k, rows);
        Set(td, k, rows)
      case Some(earlier) =>
        var merged := MergeRows(rows, earlier);
        assert ValidData(td) ==> forall i :: 0 <= i < |merged| ==> ValidRow(merged[i]) by {
          if ValidData(td) {
            GetEntry(td, k, earlier);
            MergeRowsValid(rows, earlier);
          }
        }
        SetEntries(td, k, merged);
        Set(td, k, merged)
  }

  /** `hc_extract_table_data_bs4`: the tables in document order. */
  function TableData(tables: seq<Table>): (r: Dict<seq<Row>>)
    ensures WellFormed(r)
    ensures ValidData(r)
    decreases |tables|
  {
    if tables == [] then []
    else TableStep(TableData(tables[..|tables| - 1]), tables[|tables| - 1])
  }
}

=== FILE: json.dfy ===
/** Python values decoded from JSON (`json.loads`) and the handful of
    dynamic operations the normalisers apply to them: truthiness, `str()`,
    `.get`, `in`, iteration and `.split`. Each operation that Python
    rejects with an exception gives `Raised`. */
module PyJson {
  import opened Common
  import opened Text
  import opened OrderedDict

  datatype Json =
    | JNull
    | JBool(b: bool)
    | JInt(i: int)
    | JStr(s: string)
    | JList(items: seq<Json>)
    | JObj(fields: Dict<Json>)

  /** Python `bool(v)`. */
  predicate Truthy(v: Json) {
    match v
    case JNull => false
    case JBool(b) => b
    case JInt(i) => i != 0
    case JStr(s) => s != []
    case JList(items) => items != []
    case JObj(fields) => fields != []
  }

  /** The characters above DEL that `str.isprintable` rejects in this
      model: the C1 controls, the space separators other than the space,
      the line and paragraph separators, the common format characters, the
      surrogate and private-use ranges and the noncharacters U+FFFE and
      U+FFFF. */
  predicate WideNonPrintable(c: char) {
    || ('\U{007f}' <= c <= '\U{00a0}') || c == '\U{00ad}'
    || ('\U{0600}' <= c <= '\U{0605}') || c == '\U{061c}' || c == '\U{06dd}' || c == '\U{070f}'
    || c == '\U{1680}' || c == '\U{180e}'
    || ('\U{2000}' <= c <= '\U{200f}') || ('\U{2028}' <= c <= '\U{202f}')
    || ('\U{205f}' <= c <= '\U{2064}') || ('\U{2066}' <= c <= '\U{206f}')
    || c == '\U{3000}' || ('\U{e000}' <= c <= '\U{f8ff}') || c == '\U{feff}'
    || ('\U{fff9}' <= c <= '\U{fffb}') || c == '\U{fffe}' || c == '\U{ffff}'
  }

  /** `c.isprintable()`: below DEL the characters from the space on. */
  predicate Printable(c: char) {
    if c < '\U{007f}' then ' ' <= c else !WideNonPrintable(c)
  }

  /** The quote `repr` chooses: a double quote when the text holds a single
      quote and no double quote, a single quote otherwise. */
  function Quote(s: string): (q: char)
    ensures q == '\'' || q == '"'
  {
    if '\'' in s && '"' !in s then '"' else '\''
  }

  /** How `repr` writes one character between quotes `q`: the quote and
      the backslash escaped, tab, newline and return by name, other
      non-printable characters by code point. */
  function Escape(c: char, q: char): (r: string)
    ensures |r| >= 1
    ensures r == [c] <==> c != q && c != '\\' && c != '\t' && c != '\n' && c != '\r' && Printable(c)
  {
    if c == q || c == '\\' then ['\\', c]
    else if c == '\t' then "\\t"
    else if c == '\n' then "\\n"
    else if c == '\r' then "\\r"
    else if Printable(c) then [c]
    else if c as int < 0x100 then "\\x" + HexPad(c as int, 2)
    else if c as int < 0x1_0000 then "\\u" + HexPad(c as int, 4)
    else
      assert c as int < 0x11_0000 < Pow16(8);
      "\\U" + HexPad(c as int, 8)
  }

  /** Every character of `s` written as `Escape` writes it. */
  function EscapeAll(s: string, q: char): (r: string)
    ensures |r| >= |s|
    decreases |s|
  {
    if s == [] then [] else Escape(s[0], q) + EscapeAll(s[1..], q)
  }

  /** Python `repr(s)` of a string. */
  function ReprStr(s: string): (r: string)
    ensures |r| >= |s| + 2
    ensures r[0] == r[|r| - 1] == Quote(s)
  {
    [Quote(s)] + EscapeAll(s, Quote(s)) + [Quote(s)]
  }

  /** A text whose every character is printable, neither quote nor
      backslash, is written verbatim. */
  lemma {:induction false} ReprStrPlain(s: string)
    requires forall i :: 0 <= i < |s| ==> Printable(s[i]) && s[i] != '\\' && s[i] != '\'' && s[i] != '"'
    ensures ReprStr(s) == "'" + s + "'"
  {
    EscapeAllPlain(s, '\'');
  }

  lemma {:induction false} EscapeAllPlain(s: string, q: char)
    requires q == '\'' || q == '"'
    requires forall i :: 0 <= i < |s| ==> Printable(s[i]) && s[i] != '\\' && s[i] != '\'' && s[i] != '"'
    ensures EscapeAll(s, q) == s
    decreases |s|
  {
    if s != [] {
      EscapeAllPlain(s[1..], q);
      assert s == [s[0]] + s[1..];
    }
  }

  /** A hex escape of `n` digits, read as a code point. */
  function HexChar(t: string, n: nat): (r: Option<char>)
    requires n <= |t|
  {
    if forall i :: 0 <= i < n ==> IsHexDigit(t[i]) then
      var v := HexValue(t[..n]);
      if v < 0xD800 || 0xE000 <= v < 0x11_0000 then Some(v as char) else None
    else None
  }

  /** The escape at the head of `t`: the character it stands for and its
      length; `None` for one `repr` never writes. */
  function EscapeAt(t: string): (r: Option<(char, nat)>)
    requires |t| >= 1 && t[0] == '\\'
    ensures r.Some? ==> 2 <= r.value.1 <= |t|
  {
    if |t| < 2 then None
    else if t[1] == 't' then Some(('\t', 2))
    else if t[1] == 'n' then Some(('\n', 2))
    else if t[1] == 'r' then Some(('\r', 2))
    else if t[1] == '\\' || t[1] == '\'' || t[1] == '"' then Some((t[1], 2))
    else if t[1] == 'x' && |t| >= 4 then HexEscapeAt(t, 2)
    else if t[1] == 'u' && |t| >= 6 then HexEscapeAt(t, 4)
    else if t[1] == 'U' && |t| >= 10 then HexEscapeAt(t, 8)
    else None
  }

  function HexEscapeAt(t: string, n: nat): (r: Option<(char, nat)>)
    requires n + 2 <= |t|
    ensures r.Some? ==> r.value.1 == n + 2
  {
    match HexChar(t[2..], n)
    case Some(ch) => Some((ch, n + 2))
    case None => None
  }

  /** The characters a string literal's body stands for, reading the
      escapes `repr` writes; `None` for a body `repr` never writes. */
  function Unescape(t: string): (r: Option<string>)
    decreases |t|
  {
    if t == [] then Some([])
    else if t[0] != '\\' then
      match Unescape(t[1..])
      case Some(rest) => Some([t[0]] + rest)
      case None => None
    else
      match EscapeAt(t)
      case None => None
      case Some((ch, n)) =>
        match Unescape(t[n..])
        case Some(rest) => Some([ch] + rest)
        case None => None
  }

  /** Reading an escape back gives its character, whatever follows. */
  lemma UnescapeOne(c: char, q: char, rest: string)
    requires q == '\'' || q == '"'
    ensures Unescape(Escape(c, q) + rest) ==
      match Unescape(rest) case Some(x) => Some([c] + x) case None => None
  {
    var e := Escape(c, q);
    var t := e + rest;
    if c == q || c == '\\' || c == '\t' || c == '\n' || c == '\r' {
      assert t[0] == '\\' && t[2..] == rest;
    } else if Printable(c) {
      assert t[0] == c && t[1..] == rest;
    } else if c as int < 0x100 {
      assert Pow16(2) == 256;
      HexEscapeOne(c, 'x', 2, rest);
    } else if c as int < 0x1_0000 {
      assert Pow16(4) == 0x1_0000;
      HexEscapeOne(c, 'u', 4, rest);
    } else {
      assert Pow16(8) == 0x1_0000_0000;
      HexEscapeOne(c, 'U', 8, rest);
    }
  }

  /** A code-point escape `\<letter><n hex digits>` reads back as its
      character. */
  lemma HexEscapeOne(c: char, letter: char, n: nat, rest: string)
    requires (letter == 'x' && n == 2) || (letter == 'u' && n == 4) || (letter == 'U' && n == 8)
    requires c as int < Pow16(n)
    ensures Unescape(['\\', letter] + HexPad(c as int, n) + rest) ==
      match Unescape(rest) case Some(x) => Some([c] + x) case None => None
  {
    var t := ['\\', letter] + HexPad(c as int, n) + rest;
    assert t[2..] == HexPad(c as int, n) + rest;
    HexEscapeBack(c, n, rest);
    assert HexEscapeAt(t, n) == Some((c, n + 2));
    assert EscapeAt(t) == Some((c, n + 2));
    assert t[n + 2..] == rest;
  }

  lemma HexEscapeBack(c: char, n: nat, rest: string)
    requires c as int < Pow16(n)
    ensures HexChar(HexPad(c as int, n) + rest, n) == Some(c)
  {
    var t := HexPad(c as int, n) + rest;
    assert t[..n] == HexPad(c as int, n);
    HexRoundTrip(c as int, n);
  }

  /** The body `repr` writes reads back as the text. */
  lemma {:induction false} UnescapeAll(s: string, q: char)
    requires q == '\'' || q == '"'
    ensures Unescape(EscapeAll(s, q)) == Some(s)
    decreases |s|
  {
    if s != [] {
      UnescapeAll(s[1..], q);
      UnescapeOne(s[0], q, EscapeAll(s[1..], q));
      assert s == [s[0]] + s[1..];
    }
  }

  /** `repr` round-trips: between its quotes lies the text, escaped so
      that reading the escapes gives the text back. */
  lemma ReprStrRoundTrip(s: string)
    ensures Unescape(ReprStr(s)[1..|ReprStr(s)| - 1]) == Some(s)
  {
    var r := ReprStr(s);
    assert r[1..|r| - 1] == EscapeAll(s, Quote(s));
    UnescapeAll(s, Quote(s));
  }

  /** The ideographic space of a value is escaped, not kept: `repr` writes
      it as a six-character `\u` escape. */
  lemma IdeographicSpaceEscaped()
    ensures ReprStr("\U{3000}") == "'\\u" + HexPad(0x3000, 4) + "'"
  {
    assert EscapeAll("\U{3000}", '\'') == Escape('\U{3000}', '\'') + EscapeAll([], '\'');
  }


  /** Python `repr` of a list, given the reprs of its elements. */
  function Bracket(open: string, parts: seq<string>, close: string): string {
    open + Join(", ", parts) + close
  }

  /** Python `repr(v)`. */
  function Repr(v: Json): string
    decreases v
  {
    match v
    case JNull => "None"
    case JBool(b) => if b then "True" else "False"
    case JInt(i) => IntToString(i)
    case JStr(s) => ReprStr(s)
    case JList(items) =>
      Bracket("[", seq(|items|, i requires 0 <= i < |items| => Repr(items[i])), "]")
    case JObj(fields) =>
      Bracket("{", seq(|fields|, i requires 0 <= i < |fields| => ReprStr(fields[i].key) + ": " + Repr(fields[i].val)), "}")
  }

  /** Python `str(v)`: a string is itself, anything else its repr. */
  function Str(v: Json): (r: string)
    ensures v.JStr? ==> r == v.s
  {
    if v.JStr? then v.s else Repr(v)
  }

  /** `str(list_of_strings)`. */
  function StrList(items: seq<string>): (r: string)
    ensures |r| >= 2 && r[0] == '[' && r[|r| - 1] == ']'
  {
    Bracket("[", seq(|items|, i requires 0 <= i < |items| => ReprStr(items[i])), "]")
  }

  /** `v.get(k, default)`: only dicts have `.get`. */
  function GetJ(v: Json, k: string, default: Json): (r: Result<Json>)
    ensures r.Ok? <==> v.JObj?
    ensures v.JObj? && !HasKey(v.fields, k) ==> r == Ok(default)
  {
    if v.JObj? then Ok(GetOr(v.fields, k, default)) else Raised
  }

  /** `v[k]` with a string key: only dicts accept it, and only for a present key. */
  function IndexJ(v: Json, k: string): (r: Result<Json>)
    ensures r.Ok? <==> v.JObj? && HasKey(v.fields, k)
  {
    if v.JObj? then
      match Get(v.fields, k)
      case Some(x) => Ok(x)
      case None => Raised
    else Raised
  }

  /** `item in v` for a string `item`: substring test on strings, element
      test on lists, key test on dicts, `TypeError` otherwise. */
  function InJ(item: string, v: Json): (r: Result<bool>)
    ensures r.Ok? <==> v.JStr? || v.JList? || v.JObj?
    ensures v.JStr? ==> r == Ok(Contains(v.s, item))
    ensures v.JList? ==> r == Ok(JStr(item) in v.items)
    ensures v.JObj? ==> r == Ok(HasKey(v.fields, item))
  {
    match v
    case JStr(s) => Ok(Contains(s, item))
    case JList(items) => Ok(JStr(item) in items)
    case JObj(fields) => Ok(HasKey(fields, item))
    case _ => Raised
  }

  /** `for x in v`: list elements, dict keys, or the characters of a string. */
  function IterJ(v: Json): (r: Result<seq<Json>>)
    ensures r.Ok? <==> v.JStr? || v.JList? || v.JObj?
    ensures v.JList? ==> r == Ok(v.items)
    ensures r.Ok? ==> |r.value| == (if v.JStr? then |v.s| else if v.JList? then |v.items| else if v.JObj? then |v.fields| else 0)
  {
    match v
    case JList(items) => Ok(items)
    case JObj(fields) => Ok(seq(|fields|, i requires 0 <= i < |fields| => JStr(fields[i].key)))
    case JStr(s) => Ok(seq(|s|, i requires 0 <= i < |s| => JStr([s[i]])))
    case _ => Raised
  }

  /** `v.split(sep)`: only strings have `.split`. */
  function SplitJ(v: Json, sep: string): (r: Result<seq<string>>)
    requires |sep| > 0
    ensures r.Ok? <==> v.JStr?
    ensures r.Ok? ==> |r.value| >= 1
  {
    if v.JStr? then Ok(Split(v.s, sep)) else Raised
  }
}

=== FILE: kaohsiung_crawler.dfy ===
/** `KaohsiungCrawler.fetch_data`: the Kaohsiung permit system queried in
    three-day windows, each listed row's detail fetched by its key and
    refined. The two HTTP round trips are parameters: `query` maps the
    window's two era dates to the decoded listing and `detail` maps a key
    to the decoded detail; both give `Raised` where the request, the status
    check or the decoding raises. */
module KaohsiungCrawler {
  import opened Common
  import opened Dates
  import opened RocDates
  import opened DateRange
  import opened OrderedDict
  import opened PyJson
  import opened Records
  import opened KaohsiungRefiner
  import opened Crawl

  /** `timedelta(days=3)`. */
  const BatchDays: nat := 3

  /** One query window: `from_date` to `to_date`, both included. */
  datatype Batch = Batch(from: Date, to: Date)

  /** `min(a, b)` on dates. */
  function EarlierOf(a: Date, b: Date): (r: Date)
    requires a.year >= 1 && b.year >= 1
    ensures r == a || r == b
    ensures Le(r, a) && Le(r, b)
  {
    if Le(a, b) then a else b
  }

  /** The window starting at `from`: `min(from + delta - 1 day, end)`. */
  function BatchOf(from: Date, end: Date): (b: Batch)
    requires Valid(from) && Valid(end)
    ensures Valid(b.to)
  {
    Batch(from, EarlierOf(AddDays(from, BatchDays - 1), end))
  }

  /** The windows of the crawl, one per date of `generate_dates(start, end, 3 days)`. */
  function Batches(start: Date, end: Date): (bs: seq<Batch>)
    requires Valid(start) && Valid(end)
    ensures |bs| == |GenerateDates(start, end, BatchDays)|
    ensures forall i :: 0 <= i < |bs| ==> Valid(bs[i].from) && Valid(bs[i].to)
    ensures forall i :: 0 <= i < |bs| ==> bs[i] == BatchOf(GenerateDates(start, end, BatchDays)[i], end)
  {
    var froms := GenerateDates(start, end, BatchDays);
    seq(|froms|, i requires 0 <= i < |froms| => BatchOf(froms[i], end))
  }

  /** Day `d` lies in window `b`. */
  predicate InBatch(d: Date, b: Batch) {
    d.year >= 1 && b.from.year >= 1 && b.to.year >= 1 && Le(b.from, d) && Le(d, b.to)
  }

  /** Every window lies inside the crawl window and starts no later than it ends. */
  lemma BatchesInside(start: Date, end: Date, i: nat)
    requires Valid(start) && Valid(end)
    requires i < |Batches(start, end)|
    ensures var b := Batches(start, end)[i];
      Le(start, b.from) && Le(b.from, b.to) && Le(b.to, end)
      && Ordinal(b.to) - Ordinal(b.from) < BatchDays
  {
    GenerateDatesSpacing(start, end, BatchDays, i);
  }

  /** The windows tile the crawl window: every day of it falls in exactly
      one window. */
  lemma BatchesTile(start: Date, end: Date, d: Date)
    requires Valid(start) && Valid(end) && Valid(d) && Le(start, d) && Le(d, end)
    ensures exists i :: 0 <= i < |Batches(start, end)| && InBatch(d, Batches(start, end)[i])
    ensures forall i, j ::
      (0 <= i < |Batches(start, end)| && 0 <= j < |Batches(start, end)|
       && InBatch(d, Batches(start, end)[i]) && InBatch(d, Batches(start, end)[j])) ==> i == j
  {
    var bs := Batches(start, end);
    var g := Ordinal(d) - Ordinal(start);
    var k := g / BatchDays;
    GenerateDatesComplete(start, end, BatchDays, k);
    GenerateDatesSpacing(start, end, BatchDays, k);
    assert InBatch(d, bs[k]);
    forall i, j | 0 <= i < |bs| && 0 <= j < |bs| && InBatch(d, bs[i]) && InBatch(d, bs[j])
      ensures i == j
    {
      GenerateDatesSpacing(start, end, BatchDays, i);
      GenerateDatesSpacing(start, end, BatchDays, j);
    }
  }

  /** The two dates of the query payload, `tw_year_format` without slashes. */
  function QueryDates(b: Batch): (r: (string, string))
    requires Valid(b.from) && Valid(b.to)
  {
    (TwYearFormat(b.from, false), TwYearFormat(b.to, false))
  }

  /** A yielded item: a truthy key, a real date, and a refined record over
      the Kaohsiung columns that carries the key as its identifier. */
  predicate KaohsiungItem(it: Item) {
    && Truthy(it.key) && Valid(it.date) && EraOffset <= it.date.year
    && Keys(it.data) == KaohsiungKeys && WellFormed(it.data)
    && Get(it.data, "_id") == Some(it.key)
  }

  /** `row.get('licdate', '')`, read by `tw_str_to_date`. */
  function RowDate(row: Json): (r: Result<Option<Date>>)
    ensures r.Raised? <==> !row.JObj? || TwStrToDateJ(GetOr(row.fields, "licdate", JStr(""))).Raised?
  {
    var v :- GetJ(row, "licdate", JStr(""));
    TwStrToDateJ(v)
  }

  /** The body of the row loop. A row that is not a dict, or whose date is a
      truthy non-string, raises out of the loop and loses the rest of the
      window; a row without key or date is skipped, and so is one whose
      detail fails or is not a licence. */
  function RowStep(row: Json, detail: Json -> Result<Json>): (s: Step<Item>)
    ensures s.Halt? <==> RowDate(row).Raised?
    ensures s.Yield? ==> KaohsiungItem(s.item)
    ensures s.Yield? ==>
      && row.JObj? && s.item.key == GetOr(row.fields, "dkey", JStr(""))
      && RowDate(row) == Ok(Some(s.item.date))
    ensures s.Yield? ==> detail(s.item.key).Ok? && RefineKaohsiung(detail(s.item.key).value, s.item.key) == Ok(Some(s.item.data))
  {
    match RowDate(row)
    case Raised => Halt
    case Ok(d) =>
      var key := GetOr(row.fields, "dkey", JStr(""));
      if !Truthy(key) || d.None? then Skip
      else
        match detail(key)
        case Raised => Skip
        case Ok(body) =>
          match RefineKaohsiung(body, key)
          case Ok(Some(rec)) => Yield(Item(d.value, key, rec))
          case _ => Skip
  }

  /** One window: a failed query or a listing that cannot be iterated loses
      the window; otherwise the rows are walked until one raises. */
  function BatchItems(listing: Result<Json>, detail: Json -> Result<Json>): (r: seq<Item>)
    ensures listing.Raised? ==> r == []
    ensures forall it :: it in r ==> KaohsiungItem(it)
  {
    match listing
    case Raised => []
    case Ok(data) =>
      match IterJ(data)
      case Raised => []
      case Ok(rows) =>
        var f := (row: Json) => RowStep(row, detail);
        var items := Harvest(rows, f);
        forall it | it in items
          ensures KaohsiungItem(it)
        {
          var i :| 0 <= i < |rows| && f(rows[i]) == Yield(it);
        }
        items
  }

  /** A row without key or without a parsed date is skipped before any
      detail request: the outcome does not depend on the detail pages. */
  lemma UndatedRow(row: Json)
    requires row.JObj? && RowDate(row).Ok?
    requires !Truthy(GetOr(row.fields, "dkey", JStr(""))) || RowDate(row).value.None?
    ensures forall detail :: RowStep(row, detail) == Skip
  {
  }

  /** The query dates of each window. */
  function BatchQueries(bs: seq<Batch>): (qs: seq<(string, string)>)
    requires forall i :: 0 <= i < |bs| ==> Valid(bs[i].from) && Valid(bs[i].to)
  {
    seq(|bs|, i requires 0 <= i < |bs| => QueryDates(bs[i]))
  }

  /** What each window yields, window by window. */
  function BatchResults(query: (string, string) -> Result<Json>, detail: Json -> Result<Json>,
                        bs: seq<Batch>): (parts: seq<seq<Item>>)
    requires forall i :: 0 <= i < |bs| ==> Valid(bs[i].from) && Valid(bs[i].to)
  {
    seq(|bs|, i requires 0 <= i < |bs| => BatchItems(query(QueryDates(bs[i]).0, QueryDates(bs[i]).1), detail))
  }

  /** `fetch_data`: nothing when the first page cannot be reached;
      otherwise one listing query for every window, in order, and the items
      of each window after those of the window before. */
  method FetchData(connected: bool, query: (string, string) -> Result<Json>, detail: Json -> Result<Json>,
                   start: Date, end: Date)
    returns (items: seq<Item>, count: nat, queries: seq<(string, string)>)
    requires Valid(start) && Valid(end)
    ensures count == |items|
    ensures !connected ==> items == [] && queries == []
    ensures connected ==> queries == BatchQueries(Batches(start, end))
    ensures connected ==> items == Flatten(BatchResults(query, detail, Batches(start, end)))
    ensures forall it :: it in items ==> KaohsiungItem(it)
  {
    items := [];
    count := 0;
    queries := [];
    if !connected {
      return;
    }
    var bs := Batches(start, end);
    items, count, queries := CrawlBatches(query, detail, bs);
    BatchResultsItems(query, detail, bs);
  }

  /** The window loop: one listing query per window, in order. */
  method CrawlBatches(query: (string, string) -> Result<Json>, detail: Json -> Result<Json>, bs: seq<Batch>)
    returns (items: seq<Item>, count: nat, queries: seq<(string, string)>)
    requires forall i :: 0 <= i < |bs| ==> Valid(bs[i].from) && Valid(bs[i].to)
    ensures count == |items|
    ensures queries == BatchQueries(bs)
    ensures items == Flatten(BatchResults(query, detail, bs))
  {
    items := [];
    queries := [];
    for i := 0 to |bs|
      invariant queries == BatchQueries(bs)[..i]
      invariant items == Flatten(BatchResults(query, detail, bs)[..i])
    {
      var dates := QueryDates(bs[i]);
      var found := BatchItems(query(dates.0, dates.1), detail);
      BatchStep(query, detail, bs, i, items, queries);
      items := items + found;
      queries := queries + [dates];
    }
    count := |items|;
    BatchDone(query, detail, bs);
  }

  /** One more window: its query and its items come after the earlier ones. */
  lemma BatchStep(query: (string, string) -> Result<Json>, detail: Json -> Result<Json>, bs: seq<Batch>, i: nat,
                  items: seq<Item>, queries: seq<(string, string)>)
    requires forall i :: 0 <= i < |bs| ==> Valid(bs[i].from) && Valid(bs[i].to)
    requires i < |bs|
    requires items == Flatten(BatchResults(query, detail, bs)[..i])
    requires queries == BatchQueries(bs)[..i]
    ensures items + BatchItems(query(QueryDates(bs[i]).0, QueryDates(bs[i]).1), detail) ==
      Flatten(BatchResults(query, detail, bs)[..i + 1])
    ensures queries + [QueryDates(bs[i])] == BatchQueries(bs)[..i + 1]
  {
    var parts := BatchResults(query, detail, bs);
    var qs := BatchQueries(bs);
    FlattenSnoc(parts, i);
    PrefixSnoc(qs, i);
  }

  lemma BatchDone(query: (string, string) -> Result<Json>, detail: Json -> Result<Json>, bs: seq<Batch>)
    requires forall i :: 0 <= i < |bs| ==> Valid(bs[i].from) && Valid(bs[i].to)
    ensures BatchQueries(bs)[..|bs|] == BatchQueries(bs)
    ensures BatchResults(query, detail, bs)[..|bs|] == BatchResults(query, detail, bs)
  {
  }

  /** Every item of every window is a refined Kaohsiung permit. */
  lemma BatchResultsItems(query: (string, string) -> Result<Json>, detail: Json -> Result<Json>, bs: seq<Batch>)
    requires forall i :: 0 <= i < |bs| ==> Valid(bs[i].from) && Valid(bs[i].to)
    ensures forall it :: it in Flatten(BatchResults(query, detail, bs)) ==> KaohsiungItem(it)
  {
    var parts := BatchResults(query, detail, bs);
    forall it | it in Flatten(parts)
      ensures KaohsiungItem(it)
    {
      var i :| 0 <= i < |parts| && it in parts[i];
      var b := bs[i];
      var dates := QueryDates(b);
      assert parts[i] == BatchItems(query(dates.0, dates.1), detail);
    }
  }
}

=== FILE: mcgbm_crawler.dfy ===
/** `MCGBMCrawler.fetch_data`: the open-data API of an MCGBM permit system
    read page by page, for every era year of the window and both permit
    kinds. The HTTP round trip is the `fetch` parameter: it maps the URL to
    the decoded body, or to `Raised` for an HTTP or JSON decoding error. */
module McgbmCrawler {
  import opened Common
  import opened Text
  import opened Dates
  import opened RocDates
  import opened OrderedDict
  import opened PyJson
  import opened Classify
  import opened Records
  import opened McgbmRefiner
  import opened Crawl

  const OpenData: string := "d=OPENDATA"
  const BuildLic: string := "c=BUILDLIC"
  const StartName: string := "Start="
  const KindName: string := "執照類別="
  const YearName: string := "發照日期="
  const YearUnit: string := "年"

  /** The parameters of `generate_url_params(license_type, start, year)`. */
  function QueryParams(kind: string, start: int, year: int): (ps: seq<string>)
    ensures |ps| == 5
  {
    [OpenData, BuildLic, StartName + IntToString(start), KindName + kind, YearName + IntToString(year) + YearUnit]
  }

  /** `generate_url_params(license_type, start, year)`. */
  function UrlParams(kind: string, start: int, year: int): string {
    Join("&", QueryParams(kind, start, year))
  }

  /** The query string splits back into its five parameters, so the server
      reads the page offset, the kind and the era year it was asked for,
      as long as the kind holds no `&`. */
  lemma UrlParamsSplit(kind: string, start: int, year: int)
    requires '&' !in kind
    ensures Split(UrlParams(kind, start, year), "&") == QueryParams(kind, start, year)
  {
    ParamsWithoutAmpersand(kind, start, year);
    SplitJoin(QueryParams(kind, start, year), '&');
    assert "&" == ['&'];
  }

  lemma ParamsWithoutAmpersand(kind: string, start: int, year: int)
    requires '&' !in kind
    ensures forall i :: 0 <= i < 5 ==> '&' !in QueryParams(kind, start, year)[i]
  {
    var a := IntToString(start);
    var b := IntToString(year);
    IntWithoutAmpersand(start);
    IntWithoutAmpersand(year);
    NamesWithoutAmpersand();
    NoAmpersand(StartName, a);
    NoAmpersand(KindName, kind);
    NoAmpersand(YearName, b);
    NoAmpersand(YearName + b, YearUnit);
  }

  lemma NamesWithoutAmpersand()
    ensures '&' !in OpenData && '&' !in BuildLic && '&' !in StartName
    ensures '&' !in KindName && '&' !in YearName && '&' !in YearUnit
  {
  }

  lemma IntWithoutAmpersand(i: int)
    ensures '&' !in IntToString(i)
  {
  }

  lemma NoAmpersand(a: string, b: string)
    requires '&' !in a && '&' !in b
    ensures '&' !in a + b
  {
  }

  /** Rows per page; a shorter page is the last one. */
  const PageSize: nat := 100

  /** Pages per kind at most. */
  const Pages: nat := 50

  /** `range(1, 5000, 100)`: the offsets a kind is read at. */
  function Offsets(): (r: seq<int>)
    ensures |r| == Pages
    ensures forall i :: 0 <= i < |r| ==> r[i] == 1 + i * PageSize
  {
    PyRange(1, 5000, PageSize)
  }

  /** The two kinds each year is read for, in order. */
  const Kinds: seq<string> := [Construction, Occupancy]

  /** The record's `發照日期` parses to `d`. */
  predicate IssuedOn(rec: Record, d: Date) {
    var v := GetOr(rec, "發照日期", JNull);
    v.JStr? && TwStrToDate(v.s) == Some(d)
  }

  /** A yielded item: in the window, with its issue date, its identifier and
      the canonical columns. */
  predicate McgbmItem(it: Item, start: Date, end: Date) {
    && InWindow(it.date, start, end)
    && IssuedOn(it.data, it.date)
    && Get(it.data, "_id") == Some(it.key)
    && Keys(it.data) == CanonicalKeys && WellFormed(it.data)
  }

  /** The record's issue date, parsed, falls in the window. */
  predicate IssuedInWindow(rec: Record, start: Date, end: Date) {
    var v := GetOr(rec, "發照日期", JNull);
    v.JStr? && TwStrToDate(v.s).Some? && InWindow(TwStrToDate(v.s).value, start, end)
  }

  /** The body of the row loop: a row that fails to refine or to date is
      skipped; a refined row is yielded when its issue date is in the window. */
  function RowStep(row: Json, start: Date, end: Date): (s: Step<Item>)
    ensures !s.Halt?
    ensures s.Yield? <==> RefineMcgbm(row).Ok? && IssuedInWindow(RefineMcgbm(row).value, start, end)
    ensures s.Yield? ==> McgbmItem(s.item, start, end) && s.item.data == RefineMcgbm(row).value
  {
    match RefineMcgbm(row)
    case Raised => Skip
    case Ok(rec) => DatedStep(rec, start, end)
  }

  /** The dating half of the row loop: `tw_str_to_date(refined_data["發照日期"])`
      and the window test. */
  function DatedStep(rec: Record, start: Date, end: Date): (s: Step<Item>)
    ensures !s.Halt?
    ensures s.Yield? <==> IssuedInWindow(rec, start, end)
    ensures s.Yield? ==>
      && s.item.data == rec && InWindow(s.item.date, start, end)
      && IssuedOn(rec, s.item.date) && s.item.key == GetOr(rec, "_id", JNull)
  {
    var issued := GetOr(rec, "發照日期", JNull);
    match TwStrToDateJ(issued)
    case Ok(Some(d)) =>
      if InWindow(d, start, end) then Yield(Item(d, GetOr(rec, "_id", JNull), rec)) else Skip
    case _ => Skip
  }

  /** The row loop's body and its item test as functions of the row. */
  function RowStepper(start: Date, end: Date): Json -> Step<Item> {
    (row: Json) => RowStep(row, start, end)
  }

  function ItemTest(start: Date, end: Date): Item -> bool {
    (it: Item) => McgbmItem(it, start, end)
  }

  /** The row loop's body never raises out of the loop, and every item it
      yields is an MCGBM item of the window. */
  lemma StepperYieldsItems(start: Date, end: Date)
    ensures forall row :: !RowStepper(start, end)(row).Halt?
    ensures forall row :: RowStepper(start, end)(row).Yield? ==> ItemTest(start, end)(RowStepper(start, end)(row).item)
  {
    forall row
      ensures !RowStepper(start, end)(row).Halt?
      ensures RowStepper(start, end)(row).Yield? ==> ItemTest(start, end)(RowStepper(start, end)(row).item)
    {
      assert RowStepper(start, end)(row) == RowStep(row, start, end);
    }
  }

  /** `data.get('data', [])`, read as the rows to loop over: falsy rows end
      the kind like an empty page; rows that are not iterable raise, and so
      does a body that is not a dict. */
  function PageRows(body: Json): (r: Result<seq<Json>>)
    ensures r.Raised? <==> !body.JObj? || (Truthy(GetOr(body.fields, "data", JList([]))) && IterJ(GetOr(body.fields, "data", JList([]))).Raised?)
    ensures r.Ok? ==> |r.value| == 0 || Truthy(GetOr(body.fields, "data", JList([])))
  {
    var rows :- GetJ(body, "data", JList([]));
    if !Truthy(rows) then Ok([]) else IterJ(rows)
  }

  /** How the page loop goes on after a page. */
  datatype Flow = Next | Stop | Abort

  datatype PageResult = PageResult(items: seq<Item>, flow: Flow)

  /** One page: an HTTP or decoding error ends the kind; an exception from
      reading the rows escapes the whole crawl; a short page is the last. */
  function ReadPage(body: Result<Json>, start: Date, end: Date): (p: PageResult)
    ensures body.Raised? ==> p == PageResult([], Stop)
    ensures p.flow == Abort <==> body.Ok? && PageRows(body.value).Raised?
    ensures p.flow == Abort ==> p.items == []
    ensures p.flow == Next <==> body.Ok? && PageRows(body.value).Ok? && |PageRows(body.value).value| >= PageSize
    ensures forall it :: it in p.items ==> McgbmItem(it, start, end)
    ensures body.Ok? && PageRows(body.value).Ok? ==> var rows := PageRows(body.value).value;
      forall i :: 0 <= i < |rows| && RowStepper(start, end)(rows[i]).Yield? ==> RowStepper(start, end)(rows[i]).item in p.items
  {
    match body
    case Raised => PageResult([], Stop)
    case Ok(v) =>
      match PageRows(v)
      case Raised => PageResult([], Abort)
      case Ok(rows) =>
        var f := RowStepper(start, end);
        var items := Harvest(rows, f);
        StepperYieldsItems(start, end);
        HarvestKeeps(rows, f, ItemTest(start, end));
        assert forall i :: 0 <= i < |rows| ==> !f(rows[i]).Halt?;
        PageResult(items, if |rows| < PageSize then Stop else Next)
  }

  /** One pass of the page loop: an era year and a permit kind. */
  datatype Job = Job(year: int, kind: string)

  /** The year and kind loops flattened: both kinds of the first year,
      then both of the next, up to the last year. */
  function Jobs(first: int, last: int): (js: seq<Job>)
    ensures |js| == if last < first then 0 else 2 * (last - first + 1)
    ensures forall i :: 0 <= i < |js| ==> js[i] == Job(first + i / 2, Kinds[i % 2])
    decreases last - first
  {
    if last < first then []
    else
      var rest := Jobs(first + 1, last);
      var js := [Job(first, Kinds[0]), Job(first, Kinds[1])] + rest;
      assert forall i :: 2 <= i < |js| ==> js[i] == rest[i - 2];
      js
  }

  /** The request of page `p` of a job: the `p`-th offset of `Offsets`. */
  function PageUrl(baseUrl: string, job: Job, p: nat): string
    requires p < Pages
  {
    baseUrl + UrlParams(job.kind, 1 + p * PageSize, job.year)
  }

  /** What a stretch of the crawl produced: the items yielded, the URLs
      requested, and whether an exception escaped. */
  datatype Run = Run(items: seq<Item>, urls: seq<string>, aborted: bool)

  /** The items and requests of `a` followed by those of `b`, which decides
      the outcome. */
  function Then(a: Run, b: Run): (r: Run)
    ensures |r.urls| == |a.urls| + |b.urls|
  {
    Run(a.items + b.items, a.urls + b.urls, b.aborted)
  }

  /** Nothing before or after a run leaves it as it is. */
  lemma ThenNothing(a: Run)
    ensures Then(Run([], [], false), a) == a
    ensures Then(a, Run([], [], false)) == Run(a.items, a.urls, false)
  {
    assert [] + a.items == a.items && [] + a.urls == a.urls;
    assert a.items + [] == a.items && a.urls + [] == a.urls;
  }

  lemma ThenAssoc(a: Run, b: Run, c: Run)
    ensures Then(Then(a, b), c) == Then(a, Then(b, c))
  {
    assert (a.items + b.items) + c.items == a.items + (b.items + c.items);
    assert (a.urls + b.urls) + c.urls == a.urls + (b.urls + c.urls);
  }

  /** The page loop from page `p` on, given each page's request and what
      reading it gives: a full page leads on to the next; any other page is
      the last, and aborts the crawl when it raised. */
  function Walk(urls: seq<string>, pages: seq<PageResult>, p: nat): (r: Run)
    requires |urls| == |pages| && p <= |pages|
    ensures |r.urls| <= |pages| - p
    ensures p < |pages| ==> |r.urls| >= 1 && r.urls[0] == urls[p]
    ensures forall it :: it in r.items ==> exists q :: p <= q < |pages| && it in pages[q].items
    decreases |pages| - p
  {
    if p == |pages| then Run([], [], false)
    else if pages[p].flow == Next then
      var rest := Walk(urls, pages, p + 1);
      var r := Then(Run(pages[p].items, [urls[p]], false), rest);
      assert forall it :: it in r.items ==> it in pages[p].items || it in rest.items;
      r
    else Run(pages[p].items, [urls[p]], pages[p].flow == Abort)
  }

  /** Pages `p` to `k - 1` full and page `k` not: exactly those pages are
      requested, and the loop aborts exactly when page `k` raised. */
  lemma {:induction false} WalkStops(urls: seq<string>, pages: seq<PageResult>, p: nat, k: nat)
    requires |urls| == |pages| && p <= k < |pages|
    requires forall q :: p <= q < k ==> pages[q].flow == Next
    requires pages[k].flow != Next
    ensures Walk(urls, pages, p).urls == urls[p..k + 1]
    ensures Walk(urls, pages, p).aborted <==> pages[k].flow == Abort
    decreases k - p
  {
    if p < k {
      WalkStops(urls, pages, p + 1, k);
      assert urls[p..k + 1] == [urls[p]] + urls[p + 1..k + 1];
    }
  }

  /** Every page full: all of them are requested and nothing aborts. */
  lemma {:induction false} WalkFull(urls: seq<string>, pages: seq<PageResult>, p: nat)
    requires |urls| == |pages| && p <= |pages|
    requires forall q :: p <= q < |pages| ==> pages[q].flow == Next
    ensures Walk(urls, pages, p).urls == urls[p..]
    ensures !Walk(urls, pages, p).aborted
    decreases |pages| - p
  {
    if p < |pages| {
      WalkFull(urls, pages, p + 1);
      assert urls[p..] == [urls[p]] + urls[p + 1..];
    }
  }

  /** The jobs' runs in turn, until one lets an exception escape. */
  function Chain(runs: seq<Run>): (r: Run)
    ensures forall it :: it in r.items ==> exists j :: 0 <= j < |runs| && it in runs[j].items
    decreases |runs|
  {
    if runs == [] then Run([], [], false)
    else if runs[0].aborted then runs[0]
    else
      var rest := Chain(runs[1..]);
      assert forall j :: 0 <= j < |rest.items| ==> rest.items[j] in rest.items;
      forall it | it in rest.items
        ensures exists j :: 0 <= j < |runs| && it in runs[j].items
      {
        var j :| 0 <= j < |runs[1..]| && it in runs[1..][j].items;
        assert runs[j + 1] == runs[1..][j];
      }
      Then(runs[0], rest)
  }

  /** The chain aborts exactly when some run does: the runs before the
      first such run all complete. */
  lemma {:induction false} ChainAborted(runs: seq<Run>)
    ensures Chain(runs).aborted <==> exists j :: 0 <= j < |runs| && runs[j].aborted
    decreases |runs|
  {
    if runs != [] && !runs[0].aborted {
      ChainAborted(runs[1..]);
      forall j | 0 <= j < |runs| && runs[j].aborted
        ensures exists i :: 0 <= i < |runs[1..]| && runs[1..][i].aborted
      {
        assert runs[1..][j - 1] == runs[j];
      }
      forall i | 0 <= i < |runs[1..]| && runs[1..][i].aborted
        ensures exists j :: 0 <= j < |runs| && runs[j].aborted
      {
        assert runs[i + 1] == runs[1..][i];
      }
    }
  }

  /** Once a run aborts, nothing after it is run: the chain is that of the
      runs up to and including it. */
  lemma {:induction false} ChainSticks(runs: seq<Run>, i: nat)
    requires i < |runs| && runs[i].aborted
    ensures Chain(runs) == Chain(runs[..i + 1])
    ensures Chain(runs).aborted
    decreases i
  {
    if i > 0 && !runs[0].aborted {
      assert runs[1..][i - 1] == runs[i];
      ChainSticks(runs[1..], i - 1);
      assert runs[..i + 1][1..] == runs[1..][..i];
    }
  }

  /** No run aborts: every run's requests, one after the other. */
  lemma {:induction false} ChainComplete(runs: seq<Run>, j: nat)
    requires j < |runs| && forall i :: 0 <= i < |runs| ==> !runs[i].aborted
    ensures |Chain(runs).urls| >= |runs[j].urls|
    ensures !Chain(runs).aborted
    decreases |runs|
  {
    if j > 0 {
      assert runs[1..][j - 1] == runs[j];
      ChainComplete(runs[1..], j - 1);
    } else if |runs| > 1 {
      ChainComplete(runs[1..], 0);
    }
  }

  /** The requests of one job's pages. */
  function KindUrls(baseUrl: string, job: Job): (us: seq<string>)
    ensures |us| == Pages
  {
    seq(Pages, q requires 0 <= q < Pages => PageUrl(baseUrl, job, q))
  }

  /** What reading each of the requests gives. */
  function KindPages(fetch: string -> Result<Json>, urls: seq<string>, start: Date, end: Date): (ps: seq<PageResult>)
    ensures |ps| == |urls|
  {
    seq(|urls|, q requires 0 <= q < |urls| => ReadPage(fetch(urls[q]), start, end))
  }

  /** The page loop of one job. */
  function ReadKindRun(fetch: string -> Result<Json>, baseUrl: string, job: Job, start: Date, end: Date): (r: Run)
    ensures |r.urls| <= Pages
  {
    var urls := KindUrls(baseUrl, job);
    Walk(urls, KindPages(fetch, urls, start, end), 0)
  }

  /** Every job of the window, in order. */
  function JobRuns(fetch: string -> Result<Json>, baseUrl: string, jobs: seq<Job>, start: Date, end: Date): (runs: seq<Run>)
    ensures |runs| == |jobs|
  {
    seq(|jobs|, j requires 0 <= j < |jobs| => ReadKindRun(fetch, baseUrl, jobs[j], start, end))
  }

  /** Every item a job yields is an MCGBM item of the window. */
  lemma KindItems(fetch: string -> Result<Json>, baseUrl: string, job: Job, start: Date, end: Date)
    ensures forall it :: it in ReadKindRun(fetch, baseUrl, job, start, end).items ==> McgbmItem(it, start, end)
  {
    var urls := KindUrls(baseUrl, job);
    var pages := KindPages(fetch, urls, start, end);
    forall it | it in Walk(urls, pages, 0).items
      ensures McgbmItem(it, start, end)
    {
      var q :| 0 <= q < |pages| && it in pages[q].items;
      assert pages[q] == ReadPage(fetch(urls[q]), start, end);
    }
  }

  /** Every item of the whole crawl is an MCGBM item of the window. */
  lemma CrawlItems(fetch: string -> Result<Json>, baseUrl: string, jobs: seq<Job>, start: Date, end: Date)
    ensures forall it :: it in Chain(JobRuns(fetch, baseUrl, jobs, start, end)).items ==> McgbmItem(it, start, end)
  {
    var runs := JobRuns(fetch, baseUrl, jobs, start, end);
    forall j | 0 <= j < |runs|
      ensures forall it :: it in runs[j].items ==> McgbmItem(it, start, end)
    {
      KindItems(fetch, baseUrl, jobs[j], start, end);
    }
    ChainItems(runs, start, end);
  }

  /** Every item of the chained runs is an MCGBM item of the window. */
  lemma {:induction false} ChainItems(runs: seq<Run>, start: Date, end: Date)
    requires forall j :: 0 <= j < |runs| ==> forall it :: it in runs[j].items ==> McgbmItem(it, start, end)
    ensures forall it :: it in Chain(runs).items ==> McgbmItem(it, start, end)
    decreases |runs|
  {
    if runs != [] && !runs[0].aborted {
      assert forall j :: 0 <= j < |runs[1..]| ==> runs[1..][j] == runs[j + 1];
      ChainItems(runs[1..], start, end);
    }
  }

  /** A job whose pages before `k` are full and whose page `k` is not
      requests exactly the pages up to `k`, and aborts exactly when page
      `k` raises out of the loop. */
  lemma KindStops(fetch: string -> Result<Json>, baseUrl: string, job: Job, start: Date, end: Date, k: nat)
    requires k < Pages
    requires forall q :: 0 <= q < k ==> ReadPage(fetch(PageUrl(baseUrl, job, q)), start, end).flow == Next
    requires ReadPage(fetch(PageUrl(baseUrl, job, k)), start, end).flow != Next
    ensures |ReadKindRun(fetch, baseUrl, job, start, end).urls| == k + 1
    ensures forall q :: 0 <= q <= k ==> ReadKindRun(fetch, baseUrl, job, start, end).urls[q] == PageUrl(baseUrl, job, q)
    ensures ReadKindRun(fetch, baseUrl, job, start, end).aborted <==>
      ReadPage(fetch(PageUrl(baseUrl, job, k)), start, end).flow == Abort
  {
    var urls := KindUrls(baseUrl, job);
    var pages := KindPages(fetch, urls, start, end);
    forall q | 0 <= q <= k
      ensures pages[q] == ReadPage(fetch(PageUrl(baseUrl, job, q)), start, end)
    {
      assert urls[q] == PageUrl(baseUrl, job, q);
    }
    WalkStops(urls, pages, 0, k);
    assert ReadKindRun(fetch, baseUrl, job, start, end) == Walk(urls, pages, 0);
  }

  /** `fetch_data`: every item yielded, the running count, the URLs
      requested, and whether an exception escaped the generator. */
  method FetchData(fetch: string -> Result<Json>, baseUrl: string, start: Date, end: Date)
    returns (items: seq<Item>, count: nat, urls: seq<string>, aborted: bool)
    requires Valid(start) && Valid(end)
    ensures count == |items|
    ensures Run(items, urls, aborted) ==
      Chain(JobRuns(fetch, baseUrl, Jobs(start.year - EraOffset, end.year - EraOffset), start, end))
    ensures forall it :: it in items ==> McgbmItem(it, start, end)
  {
    var jobs := Jobs(start.year - EraOffset, end.year - EraOffset);
    items, urls, aborted := CrawlJobs(fetch, baseUrl, jobs, start, end);
    count := |items|;
    CrawlItems(fetch, baseUrl, jobs, start, end);
  }

  /** The year and kind loops: the jobs in turn, until one aborts. */
  method CrawlJobs(fetch: string -> Result<Json>, baseUrl: string, jobs: seq<Job>, start: Date, end: Date)
    returns (items: seq<Item>, urls: seq<string>, aborted: bool)
    ensures Run(items, urls, aborted) == Chain(JobRuns(fetch, baseUrl, jobs, start, end))
  {
    var runs := JobRuns(fetch, baseUrl, jobs, start, end);
    items := [];
    urls := [];
    aborted := false;
    var j := 0;
    ThenNothing(Chain(runs));
    while j < |jobs|
      invariant j <= |jobs|
      invariant Then(Run(items, urls, false), Chain(runs[j..])) == Chain(runs)
      decreases |jobs| - j
    {
      var found, requested, raised := ReadKind(fetch, baseUrl, jobs[j], start, end);
      assert runs[j] == Run(found, requested, raised);
      JobStep(runs, j, Run(items, urls, false));
      items := items + found;
      urls := urls + requested;
      if raised {
        aborted := true;
        return;
      }
      j := j + 1;
    }
    assert runs[j..] == [];
    ThenNothing(Run(items, urls, false));
  }

  /** One more job: one that completes hands on to the next; one that
      aborts ends the crawl. */
  lemma JobStep(runs: seq<Run>, j: nat, acc: Run)
    requires j < |runs| && !acc.aborted
    ensures !runs[j].aborted ==>
      Then(acc, Chain(runs[j..])) == Then(Then(acc, Run(runs[j].items, runs[j].urls, false)), Chain(runs[j + 1..]))
    ensures runs[j].aborted ==> Then(acc, Chain(runs[j..])) == Then(acc, runs[j])
  {
    assert runs[j..][0] == runs[j] && runs[j..][1..] == runs[j + 1..];
    if !runs[j].aborted {
      ThenAssoc(acc, runs[j], Chain(runs[j + 1..]));
    }
  }

  /** The page loop of one job. */
  method ReadKind(fetch: string -> Result<Json>, baseUrl: string, job: Job, start: Date, end: Date)
    returns (items: seq<Item>, urls: seq<string>, aborted: bool)
    ensures Run(items, urls, aborted) == ReadKindRun(fetch, baseUrl, job, start, end)
  {
    var us := KindUrls(baseUrl, job);
    var ps := KindPages(fetch, us, start, end);
    items, urls, aborted := WalkPages(us, ps);
  }

  /** The page loop over given requests and what reading each gives. */
  method WalkPages(us: seq<string>, ps: seq<PageResult>)
    returns (items: seq<Item>, urls: seq<string>, aborted: bool)
    requires |us| == |ps|
    ensures Run(items, urls, aborted) == Walk(us, ps, 0)
  {
    items := [];
    urls := [];
    aborted := false;
    var p := 0;
    ThenNothing(Walk(us, ps, 0));
    while p < |ps|
      invariant p <= |ps|
      invariant Then(Run(items, urls, false), Walk(us, ps, p)) == Walk(us, ps, 0)
      decreases |ps| - p
    {
      var url := us[p];
      var page := ps[p];
      PageStep(us, ps, p, Run(items, urls, false));
      items := items + page.items;
      urls := urls + [url];
      if page.flow != Next {
        aborted := page.flow == Abort;
        return;
      }
      p := p + 1;
    }
    ThenNothing(Run(items, urls, false));
  }

  /** One more page: a full page hands on to the rest of the loop; any
      other page ends the job with its own outcome. */
  lemma PageStep(urls: seq<string>, pages: seq<PageResult>, p: nat, acc: Run)
    requires |urls| == |pages| && p < |pages| && !acc.aborted
    ensures pages[p].flow == Next ==>
      Then(acc, Walk(urls, pages, p)) == Then(Then(acc, Run(pages[p].items, [urls[p]], false)), Walk(urls, pages, p + 1))
    ensures pages[p].flow != Next ==>
      Then(acc, Walk(urls, pages, p)) == Then(acc, Run(pages[p].items, [urls[p]], pages[p].flow == Abort))
  {
    if pages[p].flow == Next {
      ThenAssoc(acc, Run(pages[p].items, [urls[p]], false), Walk(urls, pages, p + 1));
    }
  }
}

=== FILE: nbupic_crawler.dfy ===
/** `NBUPICCrawler.fetch_data`: an NBUPIC permit system queried day by day.
    The start page carries a query identifier and a request key; each day's
    result list names the permits through `run_button('<key>')` calls, and
    each permit's licence page is parsed and refined and its schedule page
    fills in the progress columns. The HTTP round trips are parameters, each
    giving `Raised` where the round trip raises: the start page text, the
    day's query and its enlarged repetition (by form), and the licence and
    schedule pages of a key (as their parsed header blocks). The day's first
    query is sent without a status check, so only a transport error makes it
    raise; the other requests also raise on an error status. */
module NbupicCrawler {
  import opened Common
  import opened Text
  import opened Dates
  import opened RocDates
  import opened DateRange
  import opened OrderedDict
  import opened PyJson
  import opened Classify
  import opened Scan
  import opened Records
  import opened NbupicParser
  import opened NbupicRefiner
  import opened Crawl

  const QueryField: string := "name=\"frm_query_para_PRIMARYID\""
  const ValueOpen: string := "value=\""
  const Quote: string := "\""
  const PkeyOpen: string := "sidjphumrsqf=\""
  const RunButton: string := "run_button('"
  const Apostrophe: string := "'"

  predicate NotQuote(c: char) {
    c != '"'
  }

  predicate NotApostrophe(c: char) {
    c != '\''
  }

  /** `re.search(r'name="frm_query_para_PRIMARYID"\s+value="([^"]+)"', text)`. */
  function QueryId(s: string): (r: Option<string>)
    ensures r.Some? ==> |r.value| >= 1 && '"' !in r.value
  {
    SpacedSearch(s, QueryField, ValueOpen, NotQuote, Quote)
  }

  /** An input element laid out with white space between its name and
      value yields its value as the query identifier, whatever follows. */
  lemma QueryIdOfField(gap: string, id: string, rest: string)
    requires |gap| >= 1 && forall c :: c in gap ==> IsSpace(c)
    requires |id| >= 1 && '"' !in id
    ensures QueryId(QueryField + gap + ValueOpen + id + Quote + rest) == Some(id)
  {
    assert !IsSpace(ValueOpen[0]) && !NotQuote(Quote[0]);
    SpacedSearchOf(QueryField, gap, ValueOpen, id, Quote, rest, NotQuote);
  }

  /** `re.search(r'sidjphumrsqf="([^"]+)"', text)`. */
  function RequestKey(s: string): (r: Option<string>)
    ensures r.Some? ==> |r.value| >= 1 && '"' !in r.value
  {
    Search(s, PkeyOpen, NotQuote, Quote)
  }

  /** `re.findall(r"run_button\('([^']+)'", text)`: the permit keys of a
      result list, in order. */
  function RunButtonKeys(s: string): (r: seq<string>)
    ensures forall k :: k in r ==> |k| >= 1 && '\'' !in k
  {
    FindAll(s, RunButton, NotApostrophe, Apostrophe)
  }

  /** A result list with one button yields that button's key. */
  lemma RunButtonKeysOne(key: string)
    requires |key| >= 1 && '\'' !in key
    ensures RunButtonKeys(RunButton + key + Apostrophe) == [key]
  {
    assert !NotApostrophe(Apostrophe[0]);
    FindAllOne(RunButton, key, Apostrophe, NotApostrophe);
  }

  /** The varying fields of the day's query form; the other six fields
      (`Qry_QryType` 5, blank year and image code, `null` sort keys,
      `fromajax` and the button caption) are constants. */
  datatype QueryForm = QueryForm(unit: string, rocDate: string, date: string, primaryId: string)

  /** `cur_date.strftime('%Y%m%d')`: from year 1000 on, eight digits that
      read back as the year, the month and the day. */
  function Ymd(d: Date): (r: string)
    requires Valid(d)
    ensures 1000 <= d.year <= MaxYear ==> |r| == 8 && AllDigits(r)
    ensures 1000 <= d.year <= MaxYear ==>
      DigitsValue(r[..4]) == d.year && DigitsValue(r[4..6]) == d.month && DigitsValue(r[6..]) == d.day
  {
    EightDigits(d.year, d.month, d.day);
    IntToString(d.year) + Pad2(d.month) + Pad2(d.day)
  }

  lemma EightDigits(y: int, m: nat, d: nat)
    requires m < 100 && d < 100
    ensures var r := IntToString(y) + Pad2(m) + Pad2(d);
      1000 <= y <= MaxYear ==>
      && |r| == 8 && AllDigits(r)
      && DigitsValue(r[..4]) == y && DigitsValue(r[4..6]) == m && DigitsValue(r[6..]) == d
  {
    if 1000 <= y <= MaxYear {
      var a, b, c := IntToString(y), Pad2(m), Pad2(d);
      FourDigits(y);
      var r := a + b + c;
      assert r[..4] == a && r[4..6] == b && r[6..] == c;
      forall i | 0 <= i < |r| ensures IsDigit(r[i]) {
        if i < 4 {
          assert r[i] == a[i];
        } else if i < 6 {
          assert r[i] == b[i - 4];
        } else {
          assert r[i] == c[i - 6];
        }
      }
    }
  }

  /** The query form of one day: the organ, the slashed ROC date, the
      `%Y%m%d` date and the query id. */
  function QueryFormOf(organ: string, day: Date, queryId: string): (f: QueryForm)
    requires Valid(day)
    ensures f.unit == organ && f.primaryId == queryId
    ensures f.rocDate == TwYearFormat(day, true)
    ensures f.date == IntToString(day.year) + Pad2(day.month) + Pad2(day.day)
  {
    QueryForm(organ, TwYearFormat(day, true), Ymd(day), queryId)
  }

  /** The server reads the era date of the form back as the day queried. */
  lemma QueryFormDate(organ: string, day: Date, queryId: string)
    requires Valid(day) && EraOffset <= day.year <= MaxYear
    ensures TwStrToDate(QueryFormOf(organ, day, queryId).rocDate) == Some(day)
  {
    TwRoundTrip(day);
  }

  /** From year 1000 on, the `Qry_regdat` field is eight digits that read
      back as the day queried. */
  lemma QueryFormYmd(organ: string, day: Date, queryId: string)
    requires Valid(day) && 1000 <= day.year <= MaxYear
    ensures var t := QueryFormOf(organ, day, queryId).date;
      && |t| == 8 && AllDigits(t)
      && DigitsValue(t[..4]) == day.year && DigitsValue(t[4..6]) == day.month && DigitsValue(t[6..]) == day.day
  {
  }

  /** A yielded item: dated by the day queried, keyed by a button key, and
      holding a refined permit (never `其它`) over the canonical columns. */
  predicate NbupicItem(it: Item, start: Date, end: Date) {
    && InWindow(it.date, start, end)
    && it.key.JStr? && |it.key.s| >= 1 && '\'' !in it.key.s
    && Keys(it.data) == CanonicalKeys && WellFormed(it.data)
    && Get(it.data, "_id") == Some(it.key)
    && (Get(it.data, "執照類別") == Some(JStr(Construction)) || Get(it.data, "執照類別") == Some(JStr(Occupancy)))
  }

  /** The body of the key loop: a failed page, a refiner exception or a
      `其它` permit is skipped; a refined permit gets its progress columns
      from the schedule page. */
  function KeyStep(key: string, day: Date, licence: string -> Result<seq<MainHeader>>,
                   schedule: string -> Result<seq<MainHeader>>): (s: Step<Item>)
    ensures !s.Halt?
    ensures s.Yield? ==> s.item.date == day && s.item.key == JStr(key)
    ensures s.Yield? ==>
      && licence(key).Ok? && schedule(key).Ok?
      && var refined := RefineNbupic(ParseHtml(licence(key).value), key);
      && refined.Ok? && refined.value.Some?
      && s.item.data == WithProgress(refined.value.value, ParseAdditional(schedule(key).value))
  {
    match licence(key)
    case Raised => Skip
    case Ok(page) =>
      match RefineNbupic(ParseHtml(page), key)
      case Ok(Some(rec)) =>
        (match schedule(key)
         case Raised => Skip
         case Ok(sched) => Yield(Item(day, JStr(key), WithProgress(rec, ParseAdditional(sched)))))
      case _ => Skip
  }

  /** The progress columns of a yielded permit are the schedule page's
      values, blank where the page lacks them; every other column is the
      refiner's. */
  lemma KeyStepProgress(key: string, day: Date, licence: string -> Result<seq<MainHeader>>,
                        schedule: string -> Result<seq<MainHeader>>, k: string)
    requires KeyStep(key, day, licence, schedule).Yield?
    ensures var data := KeyStep(key, day, licence, schedule).item.data;
      var refined := RefineNbupic(ParseHtml(licence(key).value), key).value.value;
      && (k in ProgressKeys ==> Get(data, k) == Some(GetOr(ParseAdditional(schedule(key).value), k, JStr(""))))
      && (k !in ProgressKeys ==> Get(data, k) == Get(refined, k))
  {
  }

  lemma NotProgress()
    ensures "_id" !in ProgressKeys && "執照類別" !in ProgressKeys
  {
  }

  /** Every item the key loop yields for a key of the list is a refined
      permit in the window. */
  lemma KeyItem(key: string, day: Date, start: Date, end: Date, licence: string -> Result<seq<MainHeader>>,
                schedule: string -> Result<seq<MainHeader>>)
    requires |key| >= 1 && '\'' !in key && InWindow(day, start, end)
    ensures KeyStep(key, day, licence, schedule).Yield? ==> NbupicItem(KeyStep(key, day, licence, schedule).item, start, end)
  {
    var s := KeyStep(key, day, licence, schedule);
    if s.Yield? {
      NotProgress();
      KeyStepProgress(key, day, licence, schedule, "_id");
      KeyStepProgress(key, day, licence, schedule, "執照類別");
      CanonicalDistinct();
    }
  }

  /** The key loop's body as a function of the key. */
  function KeyStepOf(day: Date, licence: string -> Result<seq<MainHeader>>,
                     schedule: string -> Result<seq<MainHeader>>): (f: string -> Step<Item>)
    ensures forall k :: f(k) == KeyStep(k, day, licence, schedule)
  {
    (k: string) => KeyStep(k, day, licence, schedule)
  }

  /** A key whose licence page fails, or whose permit the refiner rejects
      or classifies as `其它`, is skipped before its schedule page is
      requested: the outcome is the same whatever that page would say. */
  lemma NoScheduleWithoutPermit(key: string, day: Date, licence: string -> Result<seq<MainHeader>>)
    requires licence(key).Raised? || !RefineNbupic(ParseHtml(licence(key).value), key).Ok?
      || RefineNbupic(ParseHtml(licence(key).value), key).value.None?
    ensures forall schedule :: KeyStep(key, day, licence, schedule) == Skip
  {
  }

  /** One day: a failed query or a failed enlarged query loses the day;
      otherwise every key of the result list is tried. */
  function DayItems(form: QueryForm, day: Date, search: QueryForm -> Result<string>,
                    expand: QueryForm -> Result<string>, licence: string -> Result<seq<MainHeader>>,
                    schedule: string -> Result<seq<MainHeader>>): (r: seq<Item>)
    ensures search(form).Raised? || expand(form).Raised? ==> r == []
    ensures forall it :: it in r ==>
      && it.date == day
      && exists k :: k in RunButtonKeys(expand(form).value) && KeyStep(k, day, licence, schedule) == Yield(it)
  {
    if search(form).Raised? then []
    else
      match expand(form)
      case Raised => []
      case Ok(text) =>
        var keys := RunButtonKeys(text);
        var f := KeyStepOf(day, licence, schedule);
        var items := Harvest(keys, f);
        forall it | it in items
          ensures it.date == day && exists k :: k in keys && KeyStep(k, day, licence, schedule) == Yield(it)
        {
          var i :| 0 <= i < |keys| && f(keys[i]) == Yield(it);
          assert keys[i] in keys;
        }
        items
  }

  /** Every item of a day in the window is a refined permit of the window. */
  lemma DayItemsInWindow(form: QueryForm, day: Date, start: Date, end: Date, search: QueryForm -> Result<string>,
                         expand: QueryForm -> Result<string>, licence: string -> Result<seq<MainHeader>>,
                         schedule: string -> Result<seq<MainHeader>>)
    requires InWindow(day, start, end)
    ensures forall it :: it in DayItems(form, day, search, expand, licence, schedule) ==> NbupicItem(it, start, end)
  {
    forall it | it in DayItems(form, day, search, expand, licence, schedule)
      ensures NbupicItem(it, start, end)
    {
      var k :| k in RunButtonKeys(expand(form).value) && KeyStep(k, day, licence, schedule) == Yield(it);
      KeyItem(k, day, start, end, licence, schedule);
    }
  }

  /** Two items of one day come in the order of their keys in the result
      list. */
  lemma {:induction false} DayItemsInOrder(form: QueryForm, day: Date, search: QueryForm -> Result<string>,
                                           expand: QueryForm -> Result<string>,
                                           licence: string -> Result<seq<MainHeader>>,
                                           schedule: string -> Result<seq<MainHeader>>, a: nat, b: nat)
    requires a < b < |DayItems(form, day, search, expand, licence, schedule)|
    ensures search(form).Ok? && expand(form).Ok?
    ensures var keys := RunButtonKeys(expand(form).value);
      var r := DayItems(form, day, search, expand, licence, schedule);
      exists i, j :: 0 <= i < j < |keys|
        && KeyStep(keys[i], day, licence, schedule) == Yield(r[a])
        && KeyStep(keys[j], day, licence, schedule) == Yield(r[b])
  {
    var keys := RunButtonKeys(expand(form).value);
    var f := KeyStepOf(day, licence, schedule);
    HarvestInOrder(keys, f, a, b);
  }

  /** The query form of each day of a window, in order. */
  function DayForms(organ: string, days: seq<Date>, queryId: string): (fs: seq<QueryForm>)
    requires forall i :: 0 <= i < |days| ==> Valid(days[i])
  {
    seq(|days|, i requires 0 <= i < |days| => QueryFormOf(organ, days[i], queryId))
  }

  /** What each day yields, day by day. */
  function DayResults(organ: string, days: seq<Date>, queryId: string, search: QueryForm -> Result<string>,
                      expand: QueryForm -> Result<string>, licence: string -> Result<seq<MainHeader>>,
                      schedule: string -> Result<seq<MainHeader>>): (parts: seq<seq<Item>>)
    requires forall i :: 0 <= i < |days| ==> Valid(days[i])
  {
    seq(|days|, i requires 0 <= i < |days| =>
      DayItems(QueryFormOf(organ, days[i], queryId), days[i], search, expand, licence, schedule))
  }

  /** `fetch_data`: nothing when the start page fails or lacks the query
      identifier or the request key; otherwise one query form for every
      day of the window, in order, and the items of each day after those
      of the day before. */
  method FetchData(organ: string, init: Result<string>, search: QueryForm -> Result<string>,
                   expand: QueryForm -> Result<string>, licence: string -> Result<seq<MainHeader>>,
                   schedule: string -> Result<seq<MainHeader>>, start: Date, end: Date)
    returns (items: seq<Item>, count: nat, forms: seq<QueryForm>)
    requires Valid(start) && Valid(end)
    ensures count == |items|
    ensures init.Raised? ==> items == [] && forms == []
    ensures init.Ok? && (QueryId(init.value).None? || RequestKey(init.value).None?) ==> items == [] && forms == []
    ensures init.Ok? && QueryId(init.value).Some? && RequestKey(init.value).Some? ==> (
      && forms == DayForms(organ, GenerateDates(start, end, 1), QueryId(init.value).value)
      && items == Flatten(DayResults(organ, GenerateDates(start, end, 1), QueryId(init.value).value,
                                     search, expand, licence, schedule)))
    ensures forall it :: it in items ==> NbupicItem(it, start, end)
  {
    items := [];
    count := 0;
    forms := [];
    if init.Raised? {
      return;
    }
    var queryId := QueryId(init.value);
    var pkey := RequestKey(init.value);
    if queryId.None? || pkey.None? {
      return;
    }
    var days := GenerateDates(start, end, 1);
    items, count, forms := CrawlDays(organ, queryId.value, search, expand, licence, schedule, days);
    DayResultsInWindow(organ, queryId.value, search, expand, licence, schedule, start, end);
  }

  /** The day loop: one query form per day, in order. */
  method CrawlDays(organ: string, queryId: string, search: QueryForm -> Result<string>,
                   expand: QueryForm -> Result<string>, licence: string -> Result<seq<MainHeader>>,
                   schedule: string -> Result<seq<MainHeader>>, days: seq<Date>)
    returns (items: seq<Item>, count: nat, forms: seq<QueryForm>)
    requires forall i :: 0 <= i < |days| ==> Valid(days[i])
    ensures count == |items|
    ensures forms == DayForms(organ, days, queryId)
    ensures items == Flatten(DayResults(organ, days, queryId, search, expand, licence, schedule))
  {
    items := [];
    forms := [];
    for i := 0 to |days|
      invariant forms == DayForms(organ, days, queryId)[..i]
      invariant items == Flatten(DayResults(organ, days, queryId, search, expand, licence, schedule)[..i])
    {
      var form := QueryFormOf(organ, days[i], queryId);
      var found := DayItems(form, days[i], search, expand, licence, schedule);
      DayStep(organ, queryId, search, expand, licence, schedule, days, i, items, forms);
      items := items + found;
      forms := forms + [form];
    }
    count := |items|;
    DaysDone(organ, queryId, search, expand, licence, schedule, days);
  }

  /** One more day: its form and its items come after the earlier ones. */
  lemma DayStep(organ: string, queryId: string, search: QueryForm -> Result<string>,
                expand: QueryForm -> Result<string>, licence: string -> Result<seq<MainHeader>>,
                schedule: string -> Result<seq<MainHeader>>, days: seq<Date>, i: nat,
                items: seq<Item>, forms: seq<QueryForm>)
    requires forall i :: 0 <= i < |days| ==> Valid(days[i])
    requires i < |days|
    requires items == Flatten(DayResults(organ, days, queryId, search, expand, licence, schedule)[..i])
    requires forms == DayForms(organ, days, queryId)[..i]
    ensures items + DayItems(QueryFormOf(organ, days[i], queryId), days[i], search, expand, licence, schedule) ==
      Flatten(DayResults(organ, days, queryId, search, expand, licence, schedule)[..i + 1])
    ensures forms + [QueryFormOf(organ, days[i], queryId)] == DayForms(organ, days, queryId)[..i + 1]
  {
    FlattenSnoc(DayResults(organ, days, queryId, search, expand, licence, schedule), i);
    PrefixSnoc(DayForms(organ, days, queryId), i);
  }

  lemma DaysDone(organ: string, queryId: string, search: QueryForm -> Result<string>,
                 expand: QueryForm -> Result<string>, licence: string -> Result<seq<MainHeader>>,
                 schedule: string -> Result<seq<MainHeader>>, days: seq<Date>)
    requires forall i :: 0 <= i < |days| ==> Valid(days[i])
    ensures DayForms(organ, days, queryId)[..|days|] == DayForms(organ, days, queryId)
    ensures DayResults(organ, days, queryId, search, expand, licence, schedule)[..|days|] ==
      DayResults(organ, days, queryId, search, expand, licence, schedule)
  {
  }

  /** Every item of every day of the window is a refined permit of the
      window. */
  lemma DayResultsInWindow(organ: string, queryId: string, search: QueryForm -> Result<string>,
                           expand: QueryForm -> Result<string>, licence: string -> Result<seq<MainHeader>>,
                           schedule: string -> Result<seq<MainHeader>>, start: Date, end: Date)
    requires Valid(start) && Valid(end)
    ensures var days := GenerateDates(start, end, 1);
      forall it :: it in Flatten(DayResults(organ, days, queryId, search, expand, licence, schedule)) ==>
        NbupicItem(it, start, end)
  {
    var days := GenerateDates(start, end, 1);
    var parts := DayResults(organ, days, queryId, search, expand, licence, schedule);
    forall it | it in Flatten(parts)
      ensures NbupicItem(it, start, end)
    {
      var i :| 0 <= i < |parts| && it in parts[i];
      GenerateDatesSpacing(start, end, 1, i);
      var form := QueryFormOf(organ, days[i], queryId);
      assert parts[i] == DayItems(form, days[i], search, expand, licence, schedule);
      DayItemsInWindow(form, days[i], start, end, search, expand, licence, schedule);
    }
  }
}

=== FILE: nbupic_parse.dfy ===
/** `parse_html_bs4` and `parse_additional_bs4`: the NBUPIC licence and
    schedule pages read into dicts. The page is given already divided into
    its `div.main-header` blocks; each block lists its `td` cells, its `h2`
    title, its `thead th` column headings and its `tbody` row groups, every
    element as the text fragments it contains. */
module NbupicParser {
  import opened Common
  import opened Text
  import opened OrderedDict
  import opened PyJson
  import opened Clean

  /** An element, as the text fragments below it in document order. */
  datatype Cell = Cell(fragments: seq<string>)

  /** One `div.main-header` block. A row group is a list of rows, a row the
      list of its `td` cells. */
  datatype MainHeader = MainHeader(
    cells: seq<Cell>, title: Option<Cell>, columns: seq<Cell>, bodies: seq<seq<seq<Cell>>>)

  function Concat(parts: seq<string>): string {
    if parts == [] then "" else parts[0] + Concat(parts[1..])
  }

  /** `get_text()`: every fragment, joined. */
  function GetText(c: Cell): string {
    Concat(c.fragments)
  }

  /** The fragments `get_text(strip=True)` keeps: each stripped, the blank
      ones dropped. */
  function StrippedParts(fs: seq<string>): (r: seq<string>)
    ensures forall i :: 0 <= i < |r| ==> r[i] != [] && IsStripped(r[i])
    ensures |r| <= |fs|
  {
    if fs == [] then []
    else
      var s := Strip(fs[0]);
      if s == [] then StrippedParts(fs[1..]) else [s] + StrippedParts(fs[1..])
  }

  /** `get_text(strip=True)`. */
  function StrippedText(c: Cell): string {
    Concat(StrippedParts(c.fragments))
  }

  /** Fragments that are all blank read as the empty text once stripped. */
  lemma {:induction false} StrippedBlank(fs: seq<string>)
    requires forall i :: 0 <= i < |fs| ==> forall j :: 0 <= j < |fs[i]| ==> IsSpace(fs[i][j])
    ensures StrippedParts(fs) == []
  {
    if fs != [] {
      StrippedBlank(fs[1..]);
    }
  }

  /** `clean_key(el.get_text())`. */
  function CleanText(c: Cell): string {
    CleanKey(Some(GetText(c)))
  }

  /** The (key, value) pairs of the cells taken two at a time, a trailing
      odd cell ignored; `strip` selects `get_text(strip=True)` for values. */
  function Pairs(cells: seq<Cell>, strip: bool): (r: seq<(string, string)>)
    ensures |r| == |cells| / 2
    decreases |cells|
  {
    if |cells| < 2 then []
    else
      var v := if strip then StrippedText(cells[1]) else GetText(cells[1]);
      [(CleanText(cells[0]), CleanKey(Some(v)))] + Pairs(cells[2..], strip)
  }

  /** `parsed_data[key] = value` for each pair in turn. */
  function Assign(d: Dict<Json>, ps: seq<(string, string)>): (r: Dict<Json>)
    ensures WellFormed(d) ==> WellFormed(r)
    decreases |ps|
  {
    if ps == [] then d
    else
      var last := ps[|ps| - 1];
      Set(Assign(d, ps[..|ps| - 1]), last.0, JStr(last.1))
  }

  /** The value of the last pair with key `k`, if any. */
  function LastWith(ps: seq<(string, string)>, k: string): (r: Option<string>)
    ensures r.None? <==> forall j :: 0 <= j < |ps| ==> ps[j].0 != k
    ensures r.Some? ==> exists j :: 0 <= j < |ps| && ps[j] == (k, r.value)
    decreases |ps|
  {
    if ps == [] then None
    else if ps[|ps| - 1].0 == k then Some(ps[|ps| - 1].1)
    else
      var r := LastWith(ps[..|ps| - 1], k);
      assert forall j :: 0 <= j < |ps| - 1 ==> ps[..|ps| - 1][j] == ps[j];
      r
  }

  /** After the assignments a key holds the value of its last pair; keys
      that no pair names keep their earlier value. */
  lemma {:induction false} AssignGet(d: Dict<Json>, ps: seq<(string, string)>, k: string)
    ensures Get(Assign(d, ps), k) == match LastWith(ps, k) case Some(v) => Some(JStr(v)) case None => Get(d, k)
    decreases |ps|
  {
    if ps != [] {
      AssignGet(d, ps[..|ps| - 1], k);
    }
  }

  /** `dict(zip(detail_keys, detail_cols))` for one `tr`, or nothing when
      either list is empty. */
  function RowDict(keys: seq<string>, tr: seq<Cell>): (r: Option<Json>)
    ensures r.Some? <==> keys != [] && |tr| >= 2
    ensures r.Some? ==> r.value.JObj? && WellFormed(r.value.fields)
    ensures r.Some? ==> forall k :: HasKey(r.value.fields, k) ==> k in keys
  {
    var cols := if tr == [] then [] else tr[1..];
    var vals := seq(|cols|, i requires 0 <= i < |cols| => JStr(CleanText(cols[i])));
    if keys != [] && vals != [] then Some(JObj(FromPairs(keys, vals))) else None
  }

  /** The row dicts of one `tbody`, rows without cells skipped. */
  function BodyRows(keys: seq<string>, body: seq<seq<Cell>>): (r: seq<Json>)
    ensures |r| <= |body|
    ensures keys == [] ==> r == []
    ensures forall i :: 0 <= i < |r| ==> r[i].JObj?
    decreases |body|
  {
    if body == [] then []
    else
      var rest := BodyRows(keys, body[1..]);
      match RowDict(keys, body[0])
      case Some(row) => [row] + rest
      case None => rest
  }

  /** The block's key: its cleaned `h2`, or empty without one. */
  function TitleKey(h: MainHeader): string {
    match h.title
    case Some(t) => CleanText(t)
    case None => ""
  }

  /** The block's column keys, the first heading dropped. */
  function DetailKeys(h: MainHeader): (r: seq<string>)
    ensures |r| == if h.columns == [] then 0 else |h.columns| - 1
  {
    var all := seq(|h.columns|, i requires 0 <= i < |h.columns| => CleanText(h.columns[i]));
    if all == [] then [] else all[1..]
  }

  /** The `tbody` loop: each row group assigns the key again. */
  function Bodies(d: Dict<Json>, key: string, keys: seq<string>, bodies: seq<seq<seq<Cell>>>): (r: Dict<Json>)
    decreases |bodies|
  {
    if bodies == [] then d
    else
      var d' := if key != "" then Set(d, key, JList(BodyRows(keys, bodies[0]))) else d;
      Bodies(d', key, keys, bodies[1..])
  }

  /** Only the last row group survives. */
  lemma {:induction false} BodiesLast(d: Dict<Json>, key: string, keys: seq<string>, bodies: seq<seq<seq<Cell>>>)
    ensures Bodies(d, key, keys, bodies) ==
      if key == "" || bodies == [] then d else Set(d, key, JList(BodyRows(keys, bodies[|bodies| - 1])))
    decreases |bodies|
  {
    if bodies != [] && key != "" {
      var v0 := JList(BodyRows(keys, bodies[0]));
      BodiesLast(Set(d, key, v0), key, keys, bodies[1..]);
      if |bodies| > 1 {
        var vl := JList(BodyRows(keys, bodies[|bodies| - 1]));
        SetTwice(d, key, v0, vl);
        assert bodies[1..][|bodies[1..]| - 1] == bodies[|bodies| - 1];
      }
    } else if bodies != [] {
      BodiesLast(d, key, keys, bodies[1..]);
    }
  }

  /** Whether a later block assigns key `k`: it is titled `k` (not empty)
      and has a row group. */
  predicate Assigns(h: MainHeader, k: string) {
    k != "" && TitleKey(h) == k && h.bodies != []
  }

  /** The rows a block assigns: those of its last row group. */
  function SectionRows(h: MainHeader): seq<Json>
    requires h.bodies != []
  {
    BodyRows(DetailKeys(h), h.bodies[|h.bodies| - 1])
  }

  /** The later blocks processed in order. */
  function Details(d: Dict<Json>, hs: seq<MainHeader>): (r: Dict<Json>)
    ensures WellFormed(d) ==> WellFormed(r)
    decreases |hs|
  {
    if hs == [] then d
    else
      var h := hs[|hs| - 1];
      var before := Details(d, hs[..|hs| - 1]);
      BodiesLast(before, TitleKey(h), DetailKeys(h), h.bodies);
      Bodies(before, TitleKey(h), DetailKeys(h), h.bodies)
  }

  /** `Assigns` for a fixed key, as a test on blocks. */
  function AssignsKey(k: string): MainHeader -> bool {
    (h: MainHeader) => Assigns(h, k)
  }

  /** The rows of the last block that assigns key `k`, if any. */
  function LastSection(hs: seq<MainHeader>, k: string): Option<seq<Json>> {
    match LastWhere(hs, AssignsKey(k))
    case None => None
    case Some(j) => Some(SectionRows(hs[j]))
  }

  /** No block's rows stand for a key exactly when no block assigns it. */
  lemma LastSectionNone(hs: seq<MainHeader>, k: string)
    ensures LastSection(hs, k).None? <==> forall j :: 0 <= j < |hs| ==> !Assigns(hs[j], k)
  {
    var p := AssignsKey(k);
    assert forall j :: 0 <= j < |hs| ==> p(hs[j]) == Assigns(hs[j], k);
  }

  /** The last block decides when it assigns the key; otherwise the blocks
      before it do. */
  lemma LastSectionStep(hs: seq<MainHeader>, k: string)
    requires hs != []
    ensures LastSection(hs, k) ==
      if Assigns(hs[|hs| - 1], k) then Some(SectionRows(hs[|hs| - 1])) else LastSection(hs[..|hs| - 1], k)
  {
    var p := AssignsKey(k);
    assert p(hs[|hs| - 1]) == Assigns(hs[|hs| - 1], k);
    match LastWhere(hs[..|hs| - 1], p)
    case None =>
    case Some(j) =>
      assert hs[..|hs| - 1][j] == hs[j];
  }

  lemma {:induction false} DetailsGet(d: Dict<Json>, hs: seq<MainHeader>, k: string)
    ensures Get(Details(d, hs), k) == match LastSection(hs, k) case Some(rows) => Some(JList(rows)) case None => Get(d, k)
    decreases |hs|
  {
    if hs != [] {
      var h := hs[|hs| - 1];
      DetailsGet(d, hs[..|hs| - 1], k);
      LastSectionStep(hs, k);
      BodiesLast(Details(d, hs[..|hs| - 1]), TitleKey(h), DetailKeys(h), h.bodies);
    }
  }

  /** `parse_html_bs4`: the label/value pairs of the first block, then one
      list of row dicts per titled later block. */
  function ParseHtml(headers: seq<MainHeader>): (r: Dict<Json>)
    ensures headers == [] ==> r == []
    ensures WellFormed(r)
  {
    if headers == [] then []
    else Details(Assign([], Pairs(headers[0].cells, false)), headers[1..])
  }

  /** A key of the parsed page holds the rows of the last later block
      titled with it; otherwise the value of the last first-block pair
      labelled with it; otherwise it is absent. */
  lemma ParseHtmlGet(headers: seq<MainHeader>, k: string)
    requires headers != []
    ensures Get(ParseHtml(headers), k) ==
      match LastSection(headers[1..], k)
      case Some(rows) => Some(JList(rows))
      case None =>
        match LastWith(Pairs(headers[0].cells, false), k)
        case Some(v) => Some(JStr(v))
        case None => None
  {
    var basic := Pairs(headers[0].cells, false);
    DetailsGet(Assign([], basic), headers[1..], k);
    AssignGet([], basic, k);
  }

  /** `parse_additional_bs4`: the label/value pairs of the first block,
      values read with `strip=True`. */
  function ParseAdditional(headers: seq<MainHeader>): (r: Dict<Json>)
    ensures headers == [] ==> r == []
    ensures WellFormed(r)
    ensures forall i :: 0 <= i < |r| ==> r[i].val.JStr?
  {
    if headers == [] then [] else AssignStrings(Pairs(headers[0].cells, true))
  }

  function AssignStrings(ps: seq<(string, string)>): (r: Dict<Json>)
    ensures WellFormed(r) && r == Assign([], ps)
    ensures forall i :: 0 <= i < |r| ==> r[i].val.JStr?
    decreases |ps|
  {
    if ps == [] then []
    else
      var before := AssignStrings(ps[..|ps| - 1]);
      var last := ps[|ps| - 1];
      SetStrings(before, last.0, last.1);
      Set(before, last.0, JStr(last.1))
  }

  /** Assigning a string keeps every value of a dict of strings a string. */
  lemma SetStrings(d: Dict<Json>, k: string, s: string)
    requires forall i :: 0 <= i < |d| ==> d[i].val.JStr?
    ensures forall i :: 0 <= i < |Set(d, k, JStr(s))| ==> Set(d, k, JStr(s))[i].val.JStr?
  {
    match IndexOf(d, k)
    case None =>
    case Some(j) =>
  }

  lemma ParseAdditionalGet(headers: seq<MainHeader>, k: string)
    requires headers != []
    ensures Get(ParseAdditional(headers), k) ==
      match LastWith(Pairs(headers[0].cells, true), k)
      case Some(v) => Some(JStr(v))
      case None => None
  {
    AssignGet([], Pairs(headers[0].cells, true), k);
  }
}

=== FILE: numbers.dfy ===
/** The number conversions the normalisers apply to decoded values:
    Python `int(str)`, `safe_int` and `round(float(x))`. */
module Numbers {
  import opened Common
  import opened Text
  import opened PyJson

  /** Python `int(s)` on a string: surrounding white space is ignored, an
      optional sign precedes the digits, and single underscores may group
      them (PEP 515); `None` where Python raises. */
  function PyInt(s: string): (r: Option<int>)
    ensures AllDigits(s) && |s| >= 1 ==> r == Some(DigitsValue(s) as int)
  {
    if AllDigits(s) && |s| >= 1 then
      assert IsStripped(s);
      StripStripped(s);
      Some(DigitsValue(s) as int)
    else ParseInt(Strip(s))
  }

  /** `int(str(i)) == i` for every integer. */
  lemma PyIntOfString(i: int)
    ensures PyInt(IntToString(i)) == Some(i)
  {
    if i < 0 {
      PyIntOfNegative(i);
    }
  }

  lemma PyIntOfNegative(i: int)
    requires i < 0
    ensures PyInt(IntToString(i)) == Some(i)
  {
    var r := IntToString(i);
    NegativeText(r);
  }

  /** A minus sign followed by digits reads as the negated digits. */
  lemma NegativeText(r: string)
    requires |r| >= 2 && r[0] == '-' && AllDigits(r[1..])
    ensures PyInt(r) == Some(-(DigitsValue(r[1..]) as int))
  {
    assert !IsDigit(r[0]);
    DigitsGrouped(r[1..]);
    NegativeStripped(r);
    PyIntStripped(r);
  }

  /** Python's `int` on a string with no surrounding white space is the
      signed reading of the string itself. */
  lemma PyIntStripped(r: string)
    requires IsStripped(r)
    ensures PyInt(r) == ParseInt(r)
  {
    StripStripped(r);
  }

  lemma NegativeStripped(r: string)
    requires |r| >= 2 && r[0] == '-' && AllDigits(r[1..])
    ensures IsStripped(r)
  {
    assert r[|r| - 1] == r[1..][|r| - 2];
    assert IsDigit(r[|r| - 1]);
  }

  /** `safe_int(val)`: falsy values give 0; a string is read as an integer
      once a trailing 棟, 層 or 戶 is dropped; every failure (an unparsable
      string, a value without `.endswith`) gives 0. */
  function SafeInt(v: Json): (r: int)
    ensures !v.JStr? ==> r == 0
    ensures v.JStr? && AllDigits(v.s) && |v.s| >= 1 ==> r == DigitsValue(v.s)
  {
    if !Truthy(v) then 0
    else if v.JStr? then
      var s := v.s;
      var body := if EndsWith(s, "棟") || EndsWith(s, "層") || EndsWith(s, "戶") then s[..|s| - 1] else s;
      assert AllDigits(s) ==> IsDigit(s[|s| - 1]);
      assert AllDigits(s) ==> body == s;
      PyInt(body).GetOr(0)
    else 0
  }

  /** The unit-suffixed counts of the open-data rows: `12層` reads as 12. */
  lemma SafeIntSuffix(d: string, unit: char)
    requires AllDigits(d) && |d| >= 1
    requires unit == '棟' || unit == '層' || unit == '戶'
    ensures SafeInt(JStr(d + [unit])) == DigitsValue(d)
  {
    var s := d + [unit];
    assert s[..|s| - 1] == d;
    assert EndsWith(s, [unit]) by {
      assert s[|s| - 1..] == [unit];
    }
    assert Truthy(JStr(s));
  }

  function Pow10(n: nat): (p: nat)
    ensures p >= 1
  {
    if n == 0 then 1 else 10 * Pow10(n - 1)
  }

  /** `n` digits denote a number below `10^n`. */
  lemma {:induction false} DigitsBelowPow10(d: string)
    requires AllDigits(d)
    ensures DigitsValue(d) < Pow10(|d|)
    decreases |d|
  {
    if d != [] {
      var p := d[..|d| - 1];
      assert AllDigits(p) by {
        forall i | 0 <= i < |p| ensures IsDigit(p[i]) { assert p[i] == d[i]; }
      }
      DigitsBelowPow10(p);
      assert DigitsValue(d) == DigitsValue(p) * 10 + DigitValue(d[|d| - 1]);
      assert DigitsValue(p) * 10 <= (Pow10(|p|) - 1) * 10;
    }
  }

  /** The magnitude `whole.frac` rounded to the nearest integer, halves to
      the even neighbour (Python's `round`). */
  function RoundHalfEven(whole: nat, frac: nat, scale: nat): (r: nat)
    requires scale >= 1 && frac < scale
    ensures 2 * frac < scale ==> r == whole
    ensures 2 * frac > scale ==> r == whole + 1
    ensures 2 * frac == scale ==> r % 2 == 0 && (r == whole || r == whole + 1)
  {
    if 2 * frac > scale then whole + 1
    else if 2 * frac == scale then (if whole % 2 == 0 then whole else whole + 1)
    else whole
  }

  /** The rounded value lies within half a unit of `whole.frac`:
      `|r * scale - (whole * scale + frac)| <= scale / 2`. */
  lemma RoundHalfEvenNearest(whole: nat, frac: nat, scale: nat)
    requires scale >= 1 && frac < scale
    ensures var r := RoundHalfEven(whole, frac, scale);
      2 * (whole * scale + frac) - scale <= 2 * r * scale <= 2 * (whole * scale + frac) + scale
  {
    var r := RoundHalfEven(whole, frac, scale);
    if r == whole + 1 {
      assert r * scale == whole * scale + scale;
    }
  }

  /** The position of the first `.` of a text, or its length when it has
      none. */
  function DotIndex(s: string): (n: nat)
    ensures n <= |s|
    ensures n < |s| ==> s[n] == '.'
    ensures forall i :: 0 <= i < n ==> s[i] != '.'
  {
    if s == [] || s[0] == '.' then 0 else 1 + DotIndex(s[1..])
  }

  /** An optional digit part of a decimal literal: empty, or grouped. */
  predicate DigitPart(p: string) {
    p == [] || Grouped(p)
  }

  lemma PartDigits(p: string)
    requires DigitPart(p)
    ensures AllDigits(Ungroup(p))
  {
    if p != [] {
      GroupedDigits(p);
    }
  }

  /** An unsigned decimal literal `[digits] [. [digits]]` with at least one
      digit, each digit part grouped as PEP 515 allows, rounded
      half-to-even. */
  function RoundUnsigned(body: string): (r: Option<nat>)
    ensures r.Some? ==> |body| >= 1
  {
    var w := DotIndex(body);
    var whole := body[..w];
    var frac := if w < |body| then body[w + 1..] else [];
    if DigitPart(whole) && DigitPart(frac) && (whole != [] || frac != []) then
      PartDigits(whole);
      PartDigits(frac);
      var wd, fd := Ungroup(whole), Ungroup(frac);
      DigitsBelowPow10(fd);
      Some(RoundHalfEven(DigitsValue(wd), DigitsValue(fd), Pow10(|fd|)))
    else None
  }

  /** A decimal literal `[sign] [digits] [. [digits]]` as Python's `float()`
      accepts it after stripping white space, rounded half-to-even. `None`
      for anything else, including exponents and `inf`/`nan`, which the
      model does not cover. */
  function RoundDecimal(s: string): (r: Option<int>)
    ensures AllDigits(s) && |s| >= 1 ==> r == Some(DigitsValue(s) as int)
  {
    if AllDigits(s) && |s| >= 1 then Some(DigitsValue(s) as int)
    else
      var neg := |s| >= 1 && s[0] == '-';
      var body := if |s| >= 1 && (s[0] == '-' || s[0] == '+') then s[1..] else s;
      match RoundUnsigned(body)
      case Some(m) => Some(if neg then -(m as int) else m as int)
      case None => None
  }

  /** A literal starting with a digit has no sign to read. */
  lemma RoundDecimalUnsigned(s: string, m: nat)
    requires |s| >= 1 && IsDigit(s[0]) && !AllDigits(s)
    requires RoundUnsigned(s) == Some(m)
    ensures RoundDecimal(s) == Some(m as int)
  {
  }

  /** `round(float(v))` inside `try`, with the empty string on failure:
      integers stay, booleans become 0 or 1, strings are read as decimals,
      and every other value fails. */
  function FloatRound(v: Json): (r: Json)
    ensures r.JInt? || r == JStr("")
    ensures v.JInt? ==> r == v
    ensures v.JNull? || v.JList? || v.JObj? ==> r == JStr("")
  {
    match v
    case JInt(i) => JInt(i)
    case JBool(b) => JInt(if b then 1 else 0)
    case JStr(s) =>
      (match RoundDecimal(Strip(s))
       case Some(i) => JInt(i)
       case None => JStr(""))
    case _ => JStr("")
  }

  /** A price written `whole.frac` becomes the integer nearest its exact
      value `v = whole + frac / 10^|frac|`, within half a unit:
      `|m - v| <= 1/2`, scaled by `10^|frac|`. */
  lemma FloatRoundNearest(whole: string, frac: string)
    requires AllDigits(whole) && |whole| >= 1 && AllDigits(frac)
    ensures FloatRound(JStr(whole + (['.'] + frac))).JInt?
    ensures var m := FloatRound(JStr(whole + (['.'] + frac))).i;
      var scale := Pow10(|frac|);
      var v := DigitsValue(whole) * scale + DigitsValue(frac);
      2 * v - scale <= 2 * m * scale <= 2 * v + scale
  {
    var s := whole + (['.'] + frac);
    RoundDecimalPoint(whole, frac);
    RoundHalfEvenNearest(DigitsValue(whole), DigitsValue(frac), Pow10(|frac|));
    assert !IsSpace(s[0]) by {
      assert s[0] == whole[0];
    }
    assert !IsSpace(s[|s| - 1]) by {
      if frac == [] {
        assert s[|s| - 1] == '.';
      } else {
        assert s[|s| - 1] == frac[|frac| - 1];
      }
    }
    FloatRoundStripped(s, RoundHalfEven(DigitsValue(whole), DigitsValue(frac), Pow10(|frac|)) as int);
  }

  /** Half-way prices round to the even neighbour: `2.5` gives 2 and `3.5`
      gives 4. */
  lemma FloatRoundHalves(a: string, b: string)
    requires a == "2.5" && b == "3.5"
    ensures FloatRound(JStr(a)) == JInt(2)
    ensures FloatRound(JStr(b)) == JInt(4)
  {
    HalfPrice(a, '2', 2);
    HalfPrice(b, '3', 4);
  }

  lemma HalfPrice(s: string, d: char, want: nat)
    requires '0' <= d <= '9' && s == [d, '.', '5']
    requires want == RoundHalfEven(DigitValue(d), 5, 10)
    ensures FloatRound(JStr(s)) == JInt(want)
  {
    HalfDecimal(s, d, want);
    assert !IsSpace(s[0]) && !IsSpace(s[2]);
    FloatRoundStripped(s, want);
  }

  lemma FloatRoundStripped(s: string, n: int)
    requires IsStripped(s) && RoundDecimal(s) == Some(n)
    ensures FloatRound(JStr(s)) == JInt(n)
  {
    StripStripped(s);
  }

  lemma HalfDecimal(s: string, d: char, want: nat)
    requires '0' <= d <= '9' && s == [d, '.', '5']
    requires want == RoundHalfEven(DigitValue(d), 5, 10)
    ensures RoundDecimal(s) == Some(want)
  {
    assert s == [d] + (['.'] + ['5']);
    assert DigitsValue([d]) == DigitValue(d) by {
      assert [d][..0] == [];
    }
    assert DigitsValue(['5']) == 5 by {
      assert ['5'][..0] == [];
    }
    RoundDecimalPoint([d], ['5']);
  }

  /** An unsigned `whole.frac` literal rounds its exact value. */
  lemma RoundDecimalPoint(whole: string, frac: string)
    requires AllDigits(whole) && |whole| >= 1 && AllDigits(frac)
    ensures DigitsValue(frac) < Pow10(|frac|)
    ensures RoundDecimal(whole + (['.'] + frac)) == Some(RoundHalfEven(DigitsValue(whole), DigitsValue(frac), Pow10(|frac|)) as int)
  {
    DigitsBelowPow10(frac);
    var s := whole + (['.'] + frac);
    var m := RoundHalfEven(DigitsValue(whole), DigitsValue(frac), Pow10(|frac|));
    UnsignedPoint(whole, frac);
    assert s[0] == whole[0];
    assert !AllDigits(s) by {
      assert s[|whole|] == '.';
    }
    RoundDecimalUnsigned(s, m);
  }

  lemma UnsignedPoint(whole: string, frac: string)
    requires AllDigits(whole) && |whole| >= 1 && AllDigits(frac)
    ensures DigitsValue(frac) < Pow10(|frac|)
    ensures RoundUnsigned(whole + (['.'] + frac)) == Some(RoundHalfEven(DigitsValue(whole), DigitsValue(frac), Pow10(|frac|)))
  {
    var s := whole + (['.'] + frac);
    DigitsBelowPow10(frac);
    DotAfterDigits(whole, frac);
    assert s[..|whole|] == whole;
    assert s[|whole| + 1..] == frac;
    DigitsGrouped(whole);
    if frac != [] {
      DigitsGrouped(frac);
    }
  }

  lemma DotAfterDigits(whole: string, frac: string)
    requires AllDigits(whole)
    ensures DotIndex(whole + (['.'] + frac)) == |whole|
  {
    var s := whole + (['.'] + frac);
    assert s[|whole|] == '.';
    forall i | 0 <= i < |whole| ensures s[i] != '.' {
      assert s[i] == whole[i];
    }
  }

  /** PEP 515 in `int()`: digits with one underscore between two groups,
      such as `1_000`, read as the digits run together. */
  lemma PyIntGrouped(a: string, b: string)
    requires AllDigits(a) && |a| >= 1 && AllDigits(b) && |b| >= 1
    ensures AllDigits(a + b)
    ensures PyInt(a + "_" + b) == Some(DigitsValue(a + b) as int)
  {
    var s := a + "_" + b;
    GroupedUnderscore(a, b);
    assert IsStripped(s) by {
      assert s[0] == a[0] && s[|s| - 1] == b[|b| - 1];
      assert IsDigit(s[0]) && IsDigit(s[|s| - 1]);
    }
    PyIntStripped(s);
    assert ParseInt(s) == Some(GroupedValue(s) as int);
  }

  /** The grouped numeral `a_b` of two digit strings has the digits of both. */
  lemma GroupedUnderscore(a: string, b: string)
    requires AllDigits(a) && |a| >= 1 && AllDigits(b) && |b| >= 1
    ensures AllDigits(a + b) && Grouped(a + "_" + b) && Ungroup(a + "_" + b) == a + b
  {
    DigitsGrouped(a);
    DigitsGrouped(b);
    GroupedJoin(a, b);
  }

  /** `safe_int("1_000")` is 1000: the grouping reaches the count columns. */
  lemma SafeIntGrouped(a: string, b: string)
    requires AllDigits(a) && |a| >= 1 && AllDigits(b) && |b| >= 1
    ensures AllDigits(a + b)
    ensures SafeInt(JStr(a + "_" + b)) == DigitsValue(a + b)
  {
    var s := a + "_" + b;
    PyIntGrouped(a, b);
    var n := DigitsValue(a + b);
    assert PyInt(s) == Some(n as int);
    assert IsDigit(s[|s| - 1]) by {
      assert s[|s| - 1] == b[|b| - 1];
    }
    SafeIntUnsuffixed(s);
    assert PyInt(s).GetOr(0) == n;
  }

  /** A text ending in a digit has no unit suffix to drop. */
  lemma SafeIntUnsuffixed(s: string)
    requires |s| >= 1 && IsDigit(s[|s| - 1])
    ensures SafeInt(JStr(s)) == PyInt(s).GetOr(0)
  {
    var last := s[|s| - 1..];
    assert last == [s[|s| - 1]];
    assert last != "棟" && last != "層" && last != "戶";
    assert Truthy(JStr(s));
  }

  /** `round(float("1_000"))` is 1000: `float()` takes the same grouping. */
  lemma FloatRoundGrouped(a: string, b: string)
    requires AllDigits(a) && |a| >= 1 && AllDigits(b) && |b| >= 1
    ensures AllDigits(a + b)
    ensures FloatRound(JStr(a + "_" + b)) == JInt(DigitsValue(a + b))
  {
    var s := a + "_" + b;
    GroupedUnderscore(a, b);
    RoundDecimalGrouped(s);
    assert s[0] == a[0] && s[|s| - 1] == b[|b| - 1];
    FloatRoundStripped(s, DigitsValue(a + b));
  }

  /** `float()` of any grouped numeral without sign or point is its value. */
  lemma RoundDecimalGrouped(s: string)
    requires Grouped(s)
    ensures RoundDecimal(s) == Some(GroupedValue(s) as int)
  {
    if AllDigits(s) {
      DigitsGrouped(s);
    } else {
      UnsignedGrouped(s);
      RoundDecimalUnsigned(s, GroupedValue(s));
    }
  }

  lemma UnsignedGrouped(s: string)
    requires Grouped(s)
    ensures RoundUnsigned(s) == Some(GroupedValue(s))
  {
    GroupedNoDot(s);
    assert DotIndex(s) == |s|;
    assert s[..|s|] == s;
  }

  lemma {:induction false} GroupedNoDot(s: string)
    requires Grouped(s)
    ensures '.' !in s
    decreases |s|
  {
    assert s == [s[0]] + s[1..];
    if |s| > 1 {
      if s[1] == '_' {
        GroupedNoDot(s[2..]);
        assert s[1..] == [s[1]] + s[2..];
      } else {
        GroupedNoDot(s[1..]);
      }
    }
  }
}

=== FILE: odict.dfy ===
/** Python `dict` with string keys: an insertion-ordered sequence of entries.
    Assignment to a present key keeps its position; a new key goes last. */
module OrderedDict {
  import opened Common

  datatype Entry<V> = Entry(key: string, val: V)

  type Dict<V> = seq<Entry<V>>

  function Keys<V>(d: Dict<V>): (ks: seq<string>)
    ensures |ks| == |d|
    ensures forall i :: 0 <= i < |d| ==> ks[i] == d[i].key
  {
    seq(|d|, i requires 0 <= i < |d| => d[i].key)
  }

  function Values<V>(d: Dict<V>): (vs: seq<V>)
    ensures |vs| == |d|
    ensures forall i :: 0 <= i < |d| ==> vs[i] == d[i].val
  {
    seq(|d|, i requires 0 <= i < |d| => d[i].val)
  }

  predicate Distinct(ks: seq<string>) {
    forall i, j :: 0 <= i < j < |ks| ==> ks[i] != ks[j]
  }

  /** Every real Python dict has pairwise distinct keys. */
  predicate WellFormed<V>(d: Dict<V>) {
    Distinct(Keys(d))
  }

  predicate HasKey<V>(d: Dict<V>, k: string) {
    k in Keys(d)
  }

  /** Position of `k`, if present (the first one, should there be several). */
  function IndexOf<V>(d: Dict<V>, k: string): (r: Option<nat>)
    ensures r.None? <==> !HasKey(d, k)
    ensures r.Some? ==> r.value < |d| && d[r.value].key == k
    ensures r.Some? ==> forall j :: 0 <= j < r.value ==> d[j].key != k
  {
    if d == [] then None
    else if d[0].key == k then Some(0)
    else
      HasKeyCons(d, k);
      match IndexOf(d[1..], k)
      case None => None
      case Some(j) =>
        assert forall i :: 1 <= i <= j ==> d[i] == d[1..][i - 1];
        Some(j + 1)
  }

  lemma KeysCons<V>(d: Dict<V>)
    requires d != []
    ensures Keys(d) == [d[0].key] + Keys(d[1..])
  {
  }

  lemma HasKeyCons<V>(d: Dict<V>, k: string)
    requires d != []
    ensures HasKey(d, k) <==> d[0].key == k || HasKey(d[1..], k)
  {
    KeysCons(d);
  }

  /** A dict's tail is a dict, and does not hold the first key. */
  lemma WellFormedTail<V>(d: Dict<V>)
    requires d != [] && WellFormed(d)
    ensures WellFormed(d[1..]) && !HasKey(d[1..], d[0].key)
  {
    KeysCons(d);
    var ks := Keys(d[1..]);
    assert forall i :: 0 <= i < |ks| ==> ks[i] == Keys(d)[i + 1];
  }

  /** An entry before a dict that lacks its key makes a dict. */
  lemma WellFormedCons<V>(e: Entry<V>, d: Dict<V>)
    requires WellFormed(d) && !HasKey(d, e.key)
    ensures WellFormed([e] + d)
  {
    var r := [e] + d;
    assert r[1..] == d;
    KeysCons(r);
  }

  /** `d.get(k)`. */
  function Get<V>(d: Dict<V>, k: string): (r: Option<V>)
    ensures r.None? <==> !HasKey(d, k)
  {
    match IndexOf(d, k)
    case None => None
    case Some(i) => Some(d[i].val)
  }

  /** `d.get(k, default)`. */
  function GetOr<V>(d: Dict<V>, k: string, default: V): V {
    Get(d, k).GetOr(default)
  }

  /** `d[k] = v`. */
  function Set<V>(d: Dict<V>, k: string, v: V): (r: Dict<V>)
    ensures Get(r, k) == Some(v)
    ensures forall k' :: k' != k ==> Get(r, k') == Get(d, k')
    ensures HasKey(d, k) ==> Keys(r) == Keys(d)
    ensures !HasKey(d, k) ==> Keys(r) == Keys(d) + [k]
    ensures WellFormed(d) ==> WellFormed(r)
  {
    match IndexOf(d, k)
    case None =>
      var r := d + [Entry(k, v)];
      assert Keys(r) == Keys(d) + [k];
      assert IndexOf(r, k) == Some(|d|) by {
        IndexOfAppend(d, Entry(k, v), k);
      }
      forall k' | k' != k
        ensures Get(r, k') == Get(d, k')
      {
        IndexOfAppend(d, Entry(k, v), k');
      }
      r
    case Some(i) =>
      var r := d[i := Entry(k, v)];
      assert Keys(r) == Keys(d);
      forall k' | k' != k
        ensures Get(r, k') == Get(d, k')
      {
        IndexOfUpdate(d, i, v, k');
      }
      IndexOfUpdate(d, i, v, k);
      r
  }

  lemma IndexOfAppend<V>(d: Dict<V>, e: Entry<V>, k: string)
    ensures IndexOf(d + [e], k) == if HasKey(d, k) then IndexOf(d, k) else if e.key == k then Some(|d|) else None
  {
    var r := d + [e];
    assert Keys(r) == Keys(d) + [e.key];
    match IndexOf(d, k)
    case Some(i) =>
      assert r[i] == d[i];
      IndexOfUnique(r, k, i);
    case None =>
      if e.key == k {
        IndexOfUnique(r, k, |d|);
      }
  }

  lemma IndexOfUpdate<V>(d: Dict<V>, i: nat, v: V, k: string)
    requires i < |d|
    ensures IndexOf(d[i := Entry(d[i].key, v)], k) == IndexOf(d, k)
  {
    var r := d[i := Entry(d[i].key, v)];
    assert Keys(r) == Keys(d);
    match IndexOf(d, k)
    case Some(j) =>
      IndexOfUnique(r, k, j);
    case None =>
  }

  /** The first position holding `k` is what `IndexOf` finds. */
  lemma IndexOfUnique<V>(d: Dict<V>, k: string, i: nat)
    requires i < |d| && d[i].key == k
    requires forall j :: 0 <= j < i ==> d[j].key != k
    ensures IndexOf(d, k) == Some(i)
  {
    var r := IndexOf(d, k);
    assert HasKey(d, k) by {
      assert Keys(d)[i] == k;
    }
  }

  lemma IndexOfCons<V>(e: Entry<V>, d: Dict<V>, k: string)
    ensures IndexOf([e] + d, k) == if e.key == k then Some(0) else match IndexOf(d, k) case None => None case Some(j) => Some(j + 1)
  {
    assert ([e] + d)[1..] == d;
  }

  /** `d.pop(k, None)` / `del d[k]` on a dict: every entry under `k` goes,
      the others stay in order. */
  function Remove<V>(d: Dict<V>, k: string): (r: Dict<V>)
    ensures !HasKey(r, k)
    ensures forall k' :: HasKey(r, k') ==> HasKey(d, k')
    ensures WellFormed(d) ==> WellFormed(r)
    decreases |d|
  {
    if d == [] then []
    else
      var rest := Remove(d[1..], k);
      forall k' ensures HasKey(d, k') <==> d[0].key == k' || HasKey(d[1..], k') {
        HasKeyCons(d, k');
      }
      if d[0].key == k then
        assert WellFormed(d) ==> WellFormed(rest) by {
          if WellFormed(d) { WellFormedTail(d); }
        }
        rest
      else
        var r := [d[0]] + rest;
        assert r[1..] == rest;
        forall k' ensures HasKey(r, k') <==> d[0].key == k' || HasKey(rest, k') {
          HasKeyCons(r, k');
        }
        assert WellFormed(d) ==> WellFormed(r) by {
          if WellFormed(d) {
            WellFormedTail(d);
            WellFormedCons(d[0], rest);
          }
        }
        r
  }

  /** Removing `k` leaves every other key's value as it was. */
  lemma {:induction false} RemoveGet<V>(d: Dict<V>, k: string, k': string)
    requires k' != k
    ensures Get(Remove(d, k), k') == Get(d, k')
  {
    if d != [] {
      var rest := Remove(d[1..], k);
      RemoveGet(d[1..], k, k');
      assert d == [d[0]] + d[1..];
      IndexOfCons(d[0], d[1..], k');
      if d[0].key != k {
        IndexOfCons(d[0], rest, k');
      }
    }
  }

  /** `{**a, **b}`: `a`'s entries, then each entry of `b` assigned in turn,
      so `b` wins wherever both have a key. */
  function Merge<V>(a: Dict<V>, b: Dict<V>): (r: Dict<V>)
    ensures WellFormed(a) ==> WellFormed(r)
    ensures forall k :: HasKey(r, k) <==> HasKey(a, k) || HasKey(b, k)
    decreases |b|
  {
    if b == [] then a
    else
      assert Keys(b) == [b[0].key] + Keys(b[1..]);
      Merge(Set(a, b[0].key, b[0].val), b[1..])
  }

  /** Lookup in a merge takes `b`'s value when `b` has the key, else `a`'s. */
  lemma {:induction false} MergeGet<V>(a: Dict<V>, b: Dict<V>, k: string)
    requires WellFormed(b)
    ensures Get(Merge(a, b), k) == if HasKey(b, k) then Get(b, k) else Get(a, k)
    decreases |b|
  {
    if b != [] {
      var a' := Set(a, b[0].key, b[0].val);
      WellFormedTail(b);
      MergeGet(a', b[1..], k);
      HasKeyCons(b, k);
      GetCons(b, k);
    }
  }

  /** Lookup in a nonempty dict: the first entry, or the tail. */
  lemma GetCons<V>(d: Dict<V>, k: string)
    requires d != []
    ensures Get(d, k) == if d[0].key == k then Some(d[0].val) else Get(d[1..], k)
  {
    assert [d[0]] + d[1..] == d;
    IndexOfCons(d[0], d[1..], k);
  }

  /** Assigning a key twice leaves only the second value, in the place the
      first assignment gave the key. */
  lemma SetTwice<V>(d: Dict<V>, k: string, v1: V, v2: V)
    ensures Set(Set(d, k, v1), k, v2) == Set(d, k, v2)
  {
    match IndexOf(d, k)
    case None => SetTwiceNew(d, k, v1, v2);
    case Some(i) => SetTwiceOld(d, k, v1, v2, i);
  }

  lemma SetTwiceNew<V>(d: Dict<V>, k: string, v1: V, v2: V)
    requires IndexOf(d, k).None?
    ensures Set(Set(d, k, v1), k, v2) == Set(d, k, v2)
  {
    IndexOfAppend(d, Entry(k, v1), k);
    assert IndexOf(Set(d, k, v1), k) == Some(|d|);
  }

  lemma SetTwiceOld<V>(d: Dict<V>, k: string, v1: V, v2: V, i: nat)
    requires IndexOf(d, k) == Some(i)
    ensures Set(Set(d, k, v1), k, v2) == Set(d, k, v2)
  {
    IndexOfUpdate(d, i, v1, k);
    assert IndexOf(Set(d, k, v1), k) == Some(i);
  }

  /** `dict(zip(ks, vs))`: pairs up to the shorter list, later duplicates
      overwriting earlier ones in place. */
  function FromPairs<V>(ks: seq<string>, vs: seq<V>): (r: Dict<V>)
    ensures WellFormed(r)
    ensures forall k :: HasKey(r, k) <==> k in ks[..Min(|ks|, |vs|)]
    decreases |ks|
  {
    FromPairsInto([], ks, vs)
  }

  function FromPairsInto<V>(acc: Dict<V>, ks: seq<string>, vs: seq<V>): (r: Dict<V>)
    requires WellFormed(acc)
    ensures WellFormed(r)
    ensures forall k :: HasKey(r, k) <==> HasKey(acc, k) || k in ks[..Min(|ks|, |vs|)]
    decreases |ks|
  {
    if ks == [] || vs == [] then acc
    else
      var acc' := Set(acc, ks[0], vs[0]);
      var r := FromPairsInto(acc', ks[1..], vs[1..]);
      PairedKeys(ks, vs);
      forall k ensures HasKey(acc', k) <==> HasKey(acc, k) || k == ks[0] {
        SetHasKey(acc, ks[0], vs[0], k);
      }
      r
  }

  /** The keys `zip` pairs up: the first, then those of the tails. */
  lemma PairedKeys<V>(ks: seq<string>, vs: seq<V>)
    requires ks != [] && vs != []
    ensures forall k :: k in ks[..Min(|ks|, |vs|)] <==> k == ks[0] || k in ks[1..][..Min(|ks[1..]|, |vs[1..]|)]
  {
    var n := Min(|ks|, |vs|);
    assert Min(|ks[1..]|, |vs[1..]|) == n - 1;
    assert ks[..n] == [ks[0]] + ks[1..][..n - 1];
  }

  /** After `d[k] = v` the keys are the old ones and `k`. */
  lemma SetHasKey<V>(d: Dict<V>, k: string, v: V, k': string)
    ensures HasKey(Set(d, k, v), k') <==> HasKey(d, k') || k' == k
  {
    if !HasKey(d, k) {
      assert Keys(d) + [k] == Keys(Set(d, k, v));
    }
  }

  /** Keys outside the assigned ones keep their values. */
  lemma {:induction false} FromPairsIntoOther<V>(acc: Dict<V>, ks: seq<string>, vs: seq<V>, k: string)
    requires WellFormed(acc) && k !in ks
    ensures Get(FromPairsInto(acc, ks, vs), k) == Get(acc, k)
    decreases |ks|
  {
    if ks != [] && vs != [] {
      FromPairsIntoOther(Set(acc, ks[0], vs[0]), ks[1..], vs[1..], k);
    }
  }

  /** With distinct keys, each paired key reads back its own value. */
  lemma {:induction false} FromPairsIntoGet<V>(acc: Dict<V>, ks: seq<string>, vs: seq<V>, i: nat)
    requires WellFormed(acc) && Distinct(ks) && i < |ks| && i < |vs|
    ensures Get(FromPairsInto(acc, ks, vs), ks[i]) == Some(vs[i])
    decreases |ks|, 1
  {
    if i == 0 {
      FromPairsIntoStep(acc, ks, vs);
      FromPairsIntoOther(Set(acc, ks[0], vs[0]), ks[1..], vs[1..], ks[0]);
    } else {
      FromPairsIntoGetLater(acc, ks, vs, i);
    }
  }

  lemma {:induction false} FromPairsIntoGetLater<V>(acc: Dict<V>, ks: seq<string>, vs: seq<V>, i: nat)
    requires WellFormed(acc) && Distinct(ks) && 0 < i < |ks| && i < |vs|
    ensures Get(FromPairsInto(acc, ks, vs), ks[i]) == Some(vs[i])
    decreases |ks|, 0
  {
    var acc' := Set(acc, ks[0], vs[0]);
    FromPairsIntoStep(acc, ks, vs);
    assert WellFormed(acc') && Distinct(ks[1..]);
    assert i - 1 < |ks[1..]| && i - 1 < |vs[1..]|;
    FromPairsIntoGet(acc', ks[1..], vs[1..], i - 1);
    assert ks[1..][i - 1] == ks[i] && vs[1..][i - 1] == vs[i];
  }

  /** One step of `dict(zip(ks, vs))` with distinct keys: the first pair is
      assigned, and the rest of the keys are distinct and differ from it. */
  lemma FromPairsIntoStep<V>(acc: Dict<V>, ks: seq<string>, vs: seq<V>)
    requires WellFormed(acc) && Distinct(ks) && ks != [] && vs != []
    ensures WellFormed(Set(acc, ks[0], vs[0])) && Get(Set(acc, ks[0], vs[0]), ks[0]) == Some(vs[0])
    ensures FromPairsInto(acc, ks, vs) == FromPairsInto(Set(acc, ks[0], vs[0]), ks[1..], vs[1..])
    ensures Distinct(ks[1..]) && ks[0] !in ks[1..]
  {
    DistinctTail(ks);
  }

  lemma DistinctTail(ks: seq<string>)
    requires ks != [] && Distinct(ks)
    ensures Distinct(ks[1..]) && ks[0] !in ks[1..]
  {
    assert forall j :: 0 <= j < |ks[1..]| ==> ks[1..][j] == ks[j + 1];
  }

  /** `dict(zip(ks, vs))` with distinct keys maps each key to its partner. */
  lemma FromPairsGet<V>(ks: seq<string>, vs: seq<V>, i: nat)
    requires Distinct(ks) && i < |ks| && i < |vs|
    ensures Get(FromPairs(ks, vs), ks[i]) == Some(vs[i])
  {
    FromPairsIntoGet([], ks, vs, i);
  }

  /** A looked-up value is stored as an entry of the dict. */
  lemma GetEntry<V>(d: Dict<V>, k: string, v: V)
    requires Get(d, k) == Some(v)
    ensures Entry(k, v) in d
  {
    var i := IndexOf(d, k).value;
    assert d[i] == Entry(k, v);
  }

  /** Every entry after `d[k] = v` is an old entry or the new one. */
  lemma SetEntries<V>(d: Dict<V>, k: string, v: V)
    ensures forall e :: e in Set(d, k, v) ==> e in d || e == Entry(k, v)
  {
    match IndexOf(d, k)
    case None =>
    case Some(i) =>
      forall e | e in Set(d, k, v)
        ensures e in d || e == Entry(k, v)
      {
        var j :| 0 <= j < |d| && Set(d, k, v)[j] == e;
        if j != i {
          assert e == d[j];
        }
      }
  }

  /** A dict literal: the keys in the written order with their values. */
  function Literal<V>(ks: seq<string>, vs: seq<V>): (r: Dict<V>)
    requires |ks| == |vs|
    ensures Keys(r) == ks && Values(r) == vs
  {
    seq(|ks|, i requires 0 <= i < |ks| => Entry(ks[i], vs[i]))
  }

  /** In a dict literal with distinct keys, each key reads back its value. */
  lemma LiteralGet<V>(ks: seq<string>, vs: seq<V>, i: nat)
    requires |ks| == |vs| && Distinct(ks) && i < |ks|
    ensures Get(Literal(ks, vs), ks[i]) == Some(vs[i])
  {
    IndexOfUnique(Literal(ks, vs), ks[i], i);
  }
}

=== FILE: records.dfy ===
/** The normalised permit record every refiner emits: an ordered dict from
    the spreadsheet's column names to decoded values. */
module Records {
  import opened Common
  import opened OrderedDict
  import opened PyJson

  type Record = Dict<Json>

  /** The 41 column names, in the order of `CELL_LENGTH_MAPPING`; the
      MCGBM, NBUPIC and Hsinchu County refiners emit exactly these. */
  const CanonicalKeys: seq<string> := [
    "_id", "發照日期", "執照類別", "使照掛號日期", "開工日期", "竣工日期", "竣工期限",
    "竣工展期至", "申報進度", "核發執照字號", "原領執照字號", "變更設計次數", "基地面積",
    "建築面積", "總樓地板面積", "設計建蔽率", "設計容積率", "建築物高度", "地下避難面積",
    "法定空地面積", "建造類別", "構造別", "棟數", "幢數", "地上層數", "地下層數", "戶數",
    "起造人代表人", "設計人", "設計人事務所", "監造人", "監造人事務所", "承造人",
    "承造人營造廠", "土地使用分區", "建築物用途", "工程造價", "樓層概要", "地號", "門牌",
    "備註資料"]

  /** Position of `竣工期限` among the canonical keys. */
  const DeadlineIndex: nat := 6

  /** The Kaohsiung refiner's 40 keys: the canonical ones without `竣工期限`. */
  const KaohsiungKeys: seq<string> := CanonicalKeys[..DeadlineIndex] + CanonicalKeys[DeadlineIndex + 1..]

  /** The column widths of `CELL_LENGTH_MAPPING`, key by key. */
  const CanonicalWidths: seq<nat> := [
    10, 15, 10, 15, 15, 15, 20, 20, 20, 35, 35, 15, 15, 15, 15, 15, 15, 15, 15, 15, 10, 18,
    10, 10, 10, 10, 10, 20, 15, 20, 15, 20, 20, 20, 25, 25, 15, 25, 25, 25, 25]

  lemma KeyCounts()
    ensures |CanonicalKeys| == 41 && |CanonicalWidths| == 41 && |KaohsiungKeys| == 40
    ensures CanonicalKeys[DeadlineIndex] == "竣工期限"
  {
  }

  /** The columns the refiners address by name: the identifier, issue date
      and kind, the progress columns, the completion and new-licence
      columns, the building area and the applicant. */
  lemma ColumnNames()
    ensures CanonicalKeys[0] == "_id"
    ensures CanonicalKeys[1] == "發照日期"
    ensures CanonicalKeys[2] == "執照類別"
    ensures CanonicalKeys[13] == "建築面積"
    ensures CanonicalKeys[3] == "使照掛號日期"
    ensures CanonicalKeys[4] == "開工日期"
    ensures CanonicalKeys[6] == "竣工期限"
    ensures CanonicalKeys[7] == "竣工展期至"
    ensures CanonicalKeys[8] == "申報進度"
    ensures CanonicalKeys[5] == "竣工日期"
    ensures CanonicalKeys[9] == "核發執照字號"
    ensures CanonicalKeys[27] == "起造人代表人"
  {
  }

  /** The column names are pairwise distinct, so every refined record is a
      well-formed dict. */
  lemma CanonicalDistinct()
    ensures Distinct(CanonicalKeys)
  {
    DistinctFrom0();
    DistinctFrom2();
    DistinctFrom4();
    DistinctFrom6();
    DistinctFrom8();
    DistinctFrom10();
    DistinctFrom15();
    DistinctFrom20();
    DistinctFrom25();
    DistinctFrom30();
    DistinctFrom35();
  }

  /** Keys from position `lo` (inclusive) to `hi` differ from every later key;
      two names of equal length differ in their first, second, third or last
      character. */
  lemma DistinctFrom0()
    ensures forall i, j | 0 <= i < 2 && i < j < 41 :: CanonicalKeys[i] != CanonicalKeys[j]
  {
    forall i, j | 0 <= i < 2 && i < j < 41 ensures CanonicalKeys[i] != CanonicalKeys[j] {
      var a, b := CanonicalKeys[i], CanonicalKeys[j];
      if |a| == |b| {
        assert CharAt(a, 0) != CharAt(b, 0) || CharAt(a, 1) != CharAt(b, 1) || CharAt(a, 2) != CharAt(b, 2) || CharAt(a, |a| - 1) != CharAt(b, |b| - 1);
      }
    }
  }

  lemma DistinctFrom2()
    ensures forall i, j | 2 <= i < 4 && i < j < 41 :: CanonicalKeys[i] != CanonicalKeys[j]
  {
    forall i, j | 2 <= i < 4 && i < j < 41 ensures CanonicalKeys[i] != CanonicalKeys[j] {
      var a, b := CanonicalKeys[i], CanonicalKeys[j];
      if |a| == |b| {
        assert CharAt(a, 0) != CharAt(b, 0) || CharAt(a, 1) != CharAt(b, 1) || CharAt(a, 2) != CharAt(b, 2) || CharAt(a, |a| - 1) != CharAt(b, |b| - 1);
      }
    }
  }

  lemma DistinctFrom4()
    ensures forall i, j | 4 <= i < 6 && i < j < 41 :: CanonicalKeys[i] != CanonicalKeys[j]
  {
    forall i, j | 4 <= i < 6 && i < j < 41 ensures CanonicalKeys[i] != CanonicalKeys[j] {
      var a, b := CanonicalKeys[i], CanonicalKeys[j];
      if |a| == |b| {
        assert CharAt(a, 0) != CharAt(b, 0) || CharAt(a, 1) != CharAt(b, 1) || CharAt(a, 2) != CharAt(b, 2) || CharAt(a, |a| - 1) != CharAt(b, |b| - 1);
      }
    }
  }

  lemma DistinctFrom6()
    ensures forall i, j | 6 <= i < 8 && i < j < 41 :: CanonicalKeys[i] != CanonicalKeys[j]
  {
    forall i, j | 6 <= i < 8 && i < j < 41 ensures CanonicalKeys[i] != CanonicalKeys[j] {
      var a, b := CanonicalKeys[i], CanonicalKeys[j];
      if |a| == |b| {
        assert CharAt(a, 0) != CharAt(b, 0) || CharAt(a, 1) != CharAt(b, 1) || CharAt(a, 2) != CharAt(b, 2) || CharAt(a, |a| - 1) != CharAt(b, |b| - 1);
      }
    }
  }

  lemma DistinctFrom8()
    ensures forall i, j | 8 <= i < 10 && i < j < 41 :: CanonicalKeys[i] != CanonicalKeys[j]
  {
    forall i, j | 8 <= i < 10 && i < j < 41 ensures CanonicalKeys[i] != CanonicalKeys[j] {
      var a, b := CanonicalKeys[i], CanonicalKeys[j];
      if |a| == |b| {
        assert CharAt(a, 0) != CharAt(b, 0) || CharAt(a, 1) != CharAt(b, 1) || CharAt(a, 2) != CharAt(b, 2) || CharAt(a, |a| - 1) != CharAt(b, |b| - 1);
      }
    }
  }

  lemma DistinctFrom10()
    ensures forall i, j | 10 <= i < 15 && i < j < 41 :: CanonicalKeys[i] != CanonicalKeys[j]
  {
    forall i, j | 10 <= i < 15 && i < j < 41 ensures CanonicalKeys[i] != CanonicalKeys[j] {
      var a, b := CanonicalKeys[i], CanonicalKeys[j];
      if |a| == |b| {
        assert CharAt(a, 0) != CharAt(b, 0) || CharAt(a, 1) != CharAt(b, 1) || CharAt(a, 2) != CharAt(b, 2) || CharAt(a, |a| - 1) != CharAt(b, |b| - 1);
      }
    }
  }

  lemma DistinctFrom15()
    ensures forall i, j | 15 <= i < 20 && i < j < 41 :: CanonicalKeys[i] != CanonicalKeys[j]
  {
    forall i, j | 15 <= i < 20 && i < j < 41 ensures CanonicalKeys[i] != CanonicalKeys[j] {
      var a, b := CanonicalKeys[i], CanonicalKeys[j];
      if |a| == |b| {
        assert CharAt(a, 0) != CharAt(b, 0) || CharAt(a, 1) != CharAt(b, 1) || CharAt(a, 2) != CharAt(b, 2) || CharAt(a, |a| - 1) != CharAt(b, |b| - 1);
      }
    }
  }

  lemma DistinctFrom20()
    ensures forall i, j | 20 <= i < 25 && i < j < 41 :: CanonicalKeys[i] != CanonicalKeys[j]
  {
    forall i, j | 20 <= i < 25 && i < j < 41 ensures CanonicalKeys[i] != CanonicalKeys[j] {
      var a, b := CanonicalKeys[i], CanonicalKeys[j];
      if |a| == |b| {
        assert CharAt(a, 0) != CharAt(b, 0) || CharAt(a, 1) != CharAt(b, 1) || CharAt(a, 2) != CharAt(b, 2) || CharAt(a, |a| - 1) != CharAt(b, |b| - 1);
      }
    }
  }

  lemma DistinctFrom25()
    ensures forall i, j | 25 <= i < 30 && i < j < 41 :: CanonicalKeys[i] != CanonicalKeys[j]
  {
    forall i, j | 25 <= i < 30 && i < j < 41 ensures CanonicalKeys[i] != CanonicalKeys[j] {
      var a, b := CanonicalKeys[i], CanonicalKeys[j];
      if |a| == |b| {
        assert CharAt(a, 0) != CharAt(b, 0) || CharAt(a, 1) != CharAt(b, 1) || CharAt(a, 2) != CharAt(b, 2) || CharAt(a, |a| - 1) != CharAt(b, |b| - 1);
      }
    }
  }

  lemma DistinctFrom30()
    ensures forall i, j | 30 <= i < 35 && i < j < 41 :: CanonicalKeys[i] != CanonicalKeys[j]
  {
    forall i, j | 30 <= i < 35 && i < j < 41 ensures CanonicalKeys[i] != CanonicalKeys[j] {
      var a, b := CanonicalKeys[i], CanonicalKeys[j];
      if |a| == |b| {
        assert CharAt(a, 0) != CharAt(b, 0) || CharAt(a, 1) != CharAt(b, 1) || CharAt(a, 2) != CharAt(b, 2) || CharAt(a, |a| - 1) != CharAt(b, |b| - 1);
      }
    }
  }

  lemma DistinctFrom35()
    ensures forall i, j | 35 <= i < 41 && i < j < 41 :: CanonicalKeys[i] != CanonicalKeys[j]
  {
    forall i, j | 35 <= i < 41 && i < j < 41 ensures CanonicalKeys[i] != CanonicalKeys[j] {
      var a, b := CanonicalKeys[i], CanonicalKeys[j];
      if |a| == |b| {
        assert CharAt(a, 0) != CharAt(b, 0) || CharAt(a, 1) != CharAt(b, 1) || CharAt(a, 2) != CharAt(b, 2) || CharAt(a, |a| - 1) != CharAt(b, |b| - 1);
      }
    }
  }

  /** A record written as the canonical keys paired with 41 values is a
      well-formed dict whose every column holds its own value. */
  lemma CanonicalRecord(vs: seq<Json>, i: nat)
    requires |vs| == |CanonicalKeys| && i < |CanonicalKeys|
    ensures Keys(Literal(CanonicalKeys, vs)) == CanonicalKeys
    ensures WellFormed(Literal(CanonicalKeys, vs))
    ensures Get(Literal(CanonicalKeys, vs), CanonicalKeys[i]) == Some(vs[i])
  {
    CanonicalDistinct();
    LiteralGet(CanonicalKeys, vs, i);
  }

  /** The Kaohsiung record literal has the same properties over its 40
      columns. */
  lemma KaohsiungRecord(vs: seq<Json>, i: nat)
    requires |vs| == |KaohsiungKeys| && i < |KaohsiungKeys|
    ensures Keys(Literal(KaohsiungKeys, vs)) == KaohsiungKeys
    ensures WellFormed(Literal(KaohsiungKeys, vs))
    ensures Get(Literal(KaohsiungKeys, vs), KaohsiungKeys[i]) == Some(vs[i])
  {
    KaohsiungKeysShape();
    LiteralGet(KaohsiungKeys, vs, i);
  }

  /** The leading Kaohsiung columns are the canonical ones. */
  lemma KaohsiungLeadingColumns()
    ensures KaohsiungKeys[0] == "_id" && KaohsiungKeys[1] == "發照日期" && KaohsiungKeys[2] == "執照類別"
  {
    ColumnNames();
    assert KaohsiungKeys[0] == CanonicalKeys[0] && KaohsiungKeys[1] == CanonicalKeys[1]
      && KaohsiungKeys[2] == CanonicalKeys[2];
  }

  /** The character at `p`, or a space past either end. */
  function CharAt(s: string, p: int): (c: char)
    ensures 0 <= p < |s| ==> c == s[p]
  {
    if 0 <= p < |s| then s[p] else ' '
  }

  /** The Kaohsiung keys are distinct and lack `竣工期限`. */
  lemma KaohsiungKeysShape()
    ensures Distinct(KaohsiungKeys)
    ensures CanonicalKeys[DeadlineIndex] !in KaohsiungKeys
  {
    CanonicalDistinct();
    KaohsiungIndex();
  }

  /** Kaohsiung column `i` is canonical column `i`, or `i + 1` from the
      deadline column on. */
  lemma KaohsiungIndex()
    ensures |KaohsiungKeys| == |CanonicalKeys| - 1
    ensures forall i :: 0 <= i < |KaohsiungKeys| ==>
      KaohsiungKeys[i] == CanonicalKeys[if i < DeadlineIndex then i else i + 1]
  {
  }
}

=== FILE: refine_hsinchu.dfy ===
/** `hc_parse_html_bs4` and `refine_hsinchu_county`: a Hsinchu County
    detail page (its key/value pairs and its tables) turned into the
    canonical record. Pages whose new licence number names no permit kind
    give `None`; every other page is refined, since every value involved is
    text. */
module HsinchuRefiner {
  import opened Common
  import opened Text
  import opened OrderedDict
  import opened PyJson
  import opened Clean
  import opened Classify
  import opened Extract
  import opened Records
  import opened Fields
  import opened HsinchuSections
  import opened HsinchuTables

  /** The parsed page: `key_value_pairs` and `tabular_data`. */
  datatype Page = Page(pairs: Dict<string>, tables: Dict<seq<Row>>)

  /** `hc_parse_html_bs4`, given the page's heading blocks and tables. */
  function ParsePage(sections: seq<seq<Span>>, tables: seq<Table>): (p: Page)
    ensures WellFormed(p.pairs) && WellFormed(p.tables) && ValidData(p.tables)
    ensures !HasKey(p.pairs, NumberKey)
  {
    Page(SectionInfo(sections), TableData(tables))
  }

  /** `kv.get(k, '')`. */
  function Pair(p: Page, k: string): string {
    GetOr(p.pairs, k, "")
  }

  /** `clean_key(x)` as a record value. */
  function Cleaned(x: string): Json {
    JStr(CleanKey(Some(x)))
  }

  /** The applicant, followed by ` (office)` when the page names the
      applicant's office. */
  function Applicant(p: Page): (r: string)
    ensures !HasKey(p.pairs, "起造人-姓名-事務所") ==> r == Pair(p, "起造人-姓名")
    ensures HasKey(p.pairs, "起造人-姓名-事務所") ==>
      r == Pair(p, "起造人-姓名") + " (" + Pair(p, "起造人-姓名-事務所") + ")"
  {
    var name := Pair(p, "起造人-姓名");
    if HasKey(p.pairs, "起造人-姓名-事務所") then name + " (" + Pair(p, "起造人-姓名-事務所") + ")" else name
  }

  /** The `、`-separated usage labels of every floor row, a row without the
      column contributing the empty label. */
  function FloorLabels(rows: seq<Row>): (r: seq<string>)
    ensures forall i, x :: 0 <= i < |rows| && x in Split(GetOr(rows[i], "使用類組", ""), "、") ==> x in r
    ensures forall x :: x in r ==> exists i :: 0 <= i < |rows| && x in Split(GetOr(rows[i], "使用類組", ""), "、")
    decreases |rows|
  {
    if rows == [] then []
    else
      var rest := FloorLabels(rows[1..]);
      assert forall i :: 1 <= i < |rows| ==> rows[i] == rows[1..][i - 1];
      Split(GetOr(rows[0], "使用類組", ""), "、") + rest
  }

  /** `str(list(building_usage))`: each label once. */
  function UsageOf(p: Page): (r: string)
    ensures !HasKey(p.tables, "樓層概要資料") ==> r == "[]"
  {
    if HasKey(p.tables, "樓層概要資料") then UsageText(FloorLabels(GetOr(p.tables, "樓層概要資料", [])))
    else
      assert Dedup([]) == [];
      UsageText([])
  }

  /** A table row as the dict Python renders. */
  function RowJson(row: Row): (j: Json)
    ensures j.JObj? && Keys(j.fields) == Keys(row)
  {
    JObj(seq(|row|, i requires 0 <= i < |row| => Entry(row[i].key, JStr(row[i].val))))
  }

  function RowsJson(rows: seq<Row>): (j: Json)
    ensures j.JList? && |j.items| == |rows|
  {
    JList(seq(|rows|, i requires 0 <= i < |rows| => RowJson(rows[i])))
  }

  /** `str(td['樓層概要資料'])`, or the empty string without that table. */
  function FloorInfo(p: Page): (r: string)
    ensures !HasKey(p.tables, "樓層概要資料") ==> r == ""
    ensures HasKey(p.tables, "樓層概要資料") ==> |r| >= 2 && r[0] == '['
  {
    if HasKey(p.tables, "樓層概要資料") then
      var rows := GetOr(p.tables, "樓層概要資料", []);
      var s := Repr(RowsJson(rows));
      assert s == "[" + Join(", ", seq(|rows|, i requires 0 <= i < |rows| => Repr(RowsJson(rows).items[i]))) + "]";
      s
    else ""
  }

  /** `str([{i: n.get("內容", "")} for i, n in enumerate(rows)])`. */
  function NoteList(rows: seq<Row>): (r: string)
    ensures |r| >= 2 && r[0] == '[' && r[|r| - 1] == ']'
  {
    Bracket("[", seq(|rows|, i requires 0 <= i < |rows| => "{" + IntToString(i) + ": " + ReprStr(GetOr(rows[i], "內容", "")) + "}"), "]")
  }

  /** The remarks column: the numbered remark texts, or the empty string
      without a remarks table. */
  function NoteOf(p: Page): (r: string)
    ensures !HasKey(p.tables, "備註資料") ==> r == ""
  {
    if HasKey(p.tables, "備註資料") then NoteList(GetOr(p.tables, "備註資料", [])) else ""
  }

  /** Columns 0 to 10: identifier, issue date, kind, the start and
      completion dates between blank progress fields, licence numbers. */
  function HsinchuLicence(id: Json, issued: Json, kind: Json, start: Json, end: Json, number: Json, original: Json): (vs: seq<Json>)
    ensures |vs| == 11
    ensures vs[0] == id && vs[2] == kind && vs[4] == start && vs[5] == end && vs[9] == number
  {
    var dash := JStr("-");
    [id, issued, kind, dash, start, end, dash, dash, dash, number, original]
  }

  /** Columns 11 to 26: areas, height, shelter and open space, kinds and
      the parsed counts. */
  function HsinchuSizes(p: Page, n: BuildingCounts): (vs: seq<Json>)
    ensures |vs| == 16
  {
    var dash := JStr("-");
    [dash, Cleaned(Pair(p, "基地概要-基地面積-退縮地-合計")), Cleaned(Pair(p, "建物概要-建築面積-騎樓面積-其他")),
     Cleaned(Pair(p, "建物概要-設計建蔽率-總樓地板面積")), dash, dash,
     Cleaned(Pair(p, "建物概要-設計容積率-建物高度")), Cleaned(Pair(p, "建物概要-防空避難面積-地上-地下")),
     Cleaned(Pair(p, "建物概要-層棧戶數-法定空地面積")), Cleaned(Pair(p, "建物概要-建造類別")),
     Cleaned(Pair(p, "建物概要-建造類別-構造種類")),
     JInt(n.buildings), JInt(n.heads), JInt(n.floors), JInt(n.basements), JInt(n.units)]
  }

  /** Columns 27 to 34: the parties, their offices and the zoning. */
  function HsinchuParties(applicant: Json, p: Page): (vs: seq<Json>)
    ensures |vs| == 8 && vs[0] == applicant
  {
    [applicant, Cleaned(Pair(p, "設計人-姓名")), Cleaned(Pair(p, "設計人-姓名-事務所")),
     Cleaned(Pair(p, "監造人-姓名")), Cleaned(Pair(p, "監造人-姓名-事務所")),
     Cleaned(Pair(p, "承造人-姓名")), Cleaned(Pair(p, "承造人-姓名-營造廠")), Cleaned(Pair(p, "基地概要-使用分區"))]
  }

  /** Columns 35 to 40: usage, cost, floors, land number, address, remarks. */
  function HsinchuSummaries(p: Page): (vs: seq<Json>)
    ensures |vs| == 6
  {
    [Cleaned(UsageOf(p)), ExtractNumericalValue(Pair(p, "建物概要-工程造價")), Cleaned(FloorInfo(p)),
     Cleaned(Pair(p, "基地概要-地號")), Cleaned(Pair(p, "基地概要-地址")), Cleaned(NoteOf(p))]
  }

  /** The four column groups laid end to end. */
  function Columns(licence: seq<Json>, sizes: seq<Json>, parties: seq<Json>, summaries: seq<Json>): (vs: seq<Json>)
    requires |licence| == 11 && |sizes| == 16 && |parties| == 8 && |summaries| == 6
    ensures |vs| == 41
    ensures forall i :: 0 <= i < 11 ==> vs[i] == licence[i]
    ensures vs[27] == parties[0]
  {
    var front := licence + sizes;
    var back := parties + summaries;
    assert (front + back)[27] == back[0];
    front + back
  }

  /** The start and completion dates: blank for a construction permit. */
  function Dates(p: Page, kind: string): (r: (string, string))
    ensures kind == Construction ==> r == ("", "")
  {
    if kind == Construction then ("", "")
    else (Pair(p, "建築執照-開工日期"), Pair(p, "建築執照-開工日期-竣工日期"))
  }

  /** The 41 values of the record literal for a permit of kind `kind`. */
  function HsinchuValues(p: Page, key: Json, kind: string): (vs: seq<Json>)
    ensures |vs| == 41
    ensures vs[0] == key && vs[2] == JStr(kind) && vs[9] == JStr(Pair(p, NewLicence))
    ensures vs[27] == Cleaned(Applicant(p))
    ensures vs[4] == Cleaned(Dates(p, kind).0) && vs[5] == Cleaned(Dates(p, kind).1)
  {
    var dates := Dates(p, kind);
    var licence := HsinchuLicence(key, Cleaned(Pair(p, "建物概要-發照日期")), JStr(kind),
      Cleaned(dates.0), Cleaned(dates.1), JStr(Pair(p, NewLicence)), JStr(Pair(p, OldLicence)));
    var n := ParseBuildingInfo(Pair(p, "建物概要-層棧戶數"));
    Columns(licence, HsinchuSizes(p, n), HsinchuParties(Cleaned(Applicant(p)), p), HsinchuSummaries(p))
  }

  /** `refine_hsinchu_county(data, index_key)`: `None` exactly when the new
      licence number classifies as `其它`; construction permits leave the
      start and completion dates blank. */
  function RefineHsinchu(p: Page, key: Json): (r: Option<Record>)
    ensures r.None? <==> CheckLicenseType(Pair(p, NewLicence)) == Other
    ensures r.Some? ==> var rec := r.value; var kind := CheckLicenseType(Pair(p, NewLicence));
      && Keys(rec) == CanonicalKeys && WellFormed(rec)
      && Get(rec, "_id") == Some(key)
      && Get(rec, "執照類別") == Some(JStr(kind))
      && Get(rec, NewLicence) == Some(JStr(Pair(p, NewLicence)))
      && Get(rec, "起造人代表人") == Some(Cleaned(Applicant(p)))
      && (kind == Construction ==> Get(rec, "開工日期") == Some(JStr("")) && Get(rec, "竣工日期") == Some(JStr("")))
  {
    var kind := CheckLicenseType(Pair(p, NewLicence));
    if kind == Other then None
    else
      var vs := HsinchuValues(p, key, kind);
      HsinchuRecord(vs);
      assert Cleaned("") == JStr("") by {
        CleanKeyBlank("");
      }
      Some(Literal(CanonicalKeys, vs))
  }

  /** The record literal is a well-formed dict over the canonical columns
      holding the identifier, the kind, the dates, the licence number and
      the applicant. */
  lemma HsinchuRecord(vs: seq<Json>)
    requires |vs| == 41
    ensures var r := Literal(CanonicalKeys, vs);
      && Keys(r) == CanonicalKeys && WellFormed(r)
      && Get(r, "_id") == Some(vs[0]) && Get(r, "執照類別") == Some(vs[2])
      && Get(r, "開工日期") == Some(vs[4]) && Get(r, "竣工日期") == Some(vs[5])
      && Get(r, NewLicence) == Some(vs[9]) && Get(r, "起造人代表人") == Some(vs[27])
  {
    ColumnNames();
    CanonicalRecord(vs, 0);
    CanonicalRecord(vs, 2);
    CanonicalRecord(vs, 4);
    CanonicalRecord(vs, 5);
    CanonicalRecord(vs, 9);
    CanonicalRecord(vs, 27);
  }
}

=== FILE: refine_kaohsiung.dfy ===
/** `refine_kaohsiung_json`: a Kaohsiung permit detail turned into a
    40-column record (the canonical columns without `竣工期限`). Only the
    two licence-number titles are kept; every other detail gives `None`. */
module KaohsiungRefiner {
  import opened Common
  import opened Text
  import opened OrderedDict
  import opened PyJson
  import opened Clean
  import opened Classify
  import opened Extract
  import opened Records
  import opened Fields

  /** The titles of the two licence-number details. */
  predicate IsLicenceTitle(v: Json) {
    v == JStr("建造執照號碼") || v == JStr("使用執照號碼")
  }

  /** The kind a licence-number title names. */
  function TitleKind(v: Json): (k: string)
    requires IsLicenceTitle(v)
    ensures k == Construction || k == Occupancy
  {
    if v == JStr("建造執照號碼") then Construction else Occupancy
  }

  /** The keys of one `樓層概要` entry and the detail fields they copy. */
  const FloorColumns: seq<string> := ["棟別", "層別", "樓層高度", "申請面積", "陽台面積", "露台面積", "使用類組"]
  const FloorSources: seq<string> := [
    "building_no", "story_code", "story_height", "story_area", "veranda_area", "terrace_area", "usage_code_desc"]

  /** One floor of `stair` as the seven-key dict the refiner builds. */
  function FloorRow(ld: Json): (r: Result<Json>)
    ensures r.Ok? <==> ld.JObj?
    ensures r.Ok? ==> r.value.JObj? && Keys(r.value.fields) == FloorColumns
  {
    if !ld.JObj? then Raised
    else
      var vs := seq(|FloorSources|, i requires 0 <= i < |FloorSources| => Field(ld.fields, FloorSources[i]));
      Ok(JObj(Literal(FloorColumns, vs)))
  }

  function FloorRows(lds: seq<Json>): (r: Result<seq<Json>>)
    ensures r.Ok? <==> forall i :: 0 <= i < |lds| ==> lds[i].JObj?
    ensures r.Ok? ==> |r.value| == |lds| && forall i :: 0 <= i < |lds| ==> FloorRow(lds[i]) == Ok(r.value[i])
    decreases |lds|
  {
    if lds == [] then Ok([])
    else
      var rest := FloorRows(lds[1..]);
      assert forall i :: 1 <= i < |lds| ==> lds[i] == lds[1..][i - 1];
      var row := FloorRow(lds[0]);
      if row.Raised? || rest.Raised? then Raised
      else Ok([row.value] + rest.value)
  }

  /** `str(floor_info)`: the repr of the floor dicts when `stair` is
      present, otherwise of the empty list. */
  function FloorInfo(f: Dict<Json>): (r: Result<string>)
    ensures !HasKey(f, "stair") ==> r == Ok("[]")
  {
    if HasKey(f, "stair") then
      var lds :- IterJ(GetOr(f, "stair", JNull));
      var rows :- FloorRows(lds);
      Ok(Repr(JList(rows)))
    else Ok("[]")
  }

  /** `f"{dist}{section}{road}地號"` for one `lan_data` entry. */
  function LandName(ld: Json): (r: Result<string>)
    ensures r.Ok? <==> ld.JObj?
    ensures r.Ok? ==> EndsWith(r.value, "地號")
  {
    if !ld.JObj? then Raised
    else
      var d := ld.fields;
      var head := Str(Field(d, "dist")) + Str(Field(d, "section")) + Str(Field(d, "road"));
      assert (head + "地號")[|head|..] == "地號";
      Ok(head + "地號")
  }

  function LandNames(lds: seq<Json>): (r: Result<seq<string>>)
    ensures r.Ok? <==> forall i :: 0 <= i < |lds| ==> lds[i].JObj?
    ensures r.Ok? ==> |r.value| == |lds| && forall i :: 0 <= i < |lds| ==> EndsWith(r.value[i], "地號")
    decreases |lds|
  {
    if lds == [] then Ok([])
    else
      var rest := LandNames(lds[1..]);
      assert forall i :: 1 <= i < |lds| ==> lds[i] == lds[1..][i - 1];
      var name := LandName(lds[0]);
      if name.Raised? || rest.Raised? then Raised
      else Ok([name.value] + rest.value)
  }

  /** `land_no`: the first space-separated word of a truthy `lan`, replaced
      by the list of formatted `lan_data` entries when that key is present. */
  function LandNo(f: Dict<Json>): (r: Result<string>)
    ensures r.Ok? && HasKey(f, "lan_data") ==> |r.value| >= 2 && r.value[0] == '['
    ensures !HasKey(f, "lan_data") && !Truthy(GetOr(f, "lan", JNull)) ==> r == Ok("")
  {
    var lan := GetOr(f, "lan", JNull);
    var first :- if Truthy(lan) then
        var parts :- SplitJ(lan, " ");
        Ok(parts[0])
      else Ok("");
    if HasKey(f, "lan_data") then
      var lds :- IterJ(GetOr(f, "lan_data", JNull));
      var names :- LandNames(lds);
      Ok(StrList(names))
    else Ok(first)
  }

  /** A `lan` string keeps only its text before the first space. */
  lemma LandNoFirstWord(f: Dict<Json>, a: string, b: string)
    requires !HasKey(f, "lan_data") && ' ' !in a
    requires Get(f, "lan") == Some(JStr(a + " " + b))
    ensures LandNo(f) == Ok(a)
  {
    SplitHead(a, ' ', b);
  }

  /** `str(addr)`: the repr of the `p01addr` addresses when that key is
      present, otherwise `str` of the `addr` field. */
  function AddrText(f: Dict<Json>): (r: Result<string>)
    ensures !HasKey(f, "p01addr") ==> r == Ok(Str(Field(f, "addr")))
  {
    if HasKey(f, "p01addr") then
      var items :- IterJ(GetOr(f, "p01addr", JNull));
      var addrs :- AddrValues(items);
      Ok(Repr(JList(addrs)))
    else Ok(Str(Field(f, "addr")))
  }

  function AddrValues(items: seq<Json>): (r: Result<seq<Json>>)
    ensures r.Ok? <==> forall i :: 0 <= i < |items| ==> items[i].JObj?
    ensures r.Ok? ==> |r.value| == |items|
    decreases |items|
  {
    if items == [] then Ok([])
    else
      var rest := AddrValues(items[1..]);
      assert forall i :: 1 <= i < |items| ==> items[i] == items[1..][i - 1];
      var v := GetJ(items[0], "addr", JStr(""));
      if v.Raised? || rest.Raised? then Raised
      else Ok([v.value] + rest.value)
  }

  /** Python can put only hashable values into a set: not lists, not dicts. */
  predicate Hashable(v: Json) {
    !v.JList? && !v.JObj?
  }

  /** `{m.get("dese", "")}`: the repr of a one-element set. */
  function NotePart(m: Json): (r: Result<string>)
    ensures r.Ok? <==> m.JObj? && Hashable(Field(m.fields, "dese"))
    ensures r.Ok? ==> r.value == "{" + Repr(Field(m.fields, "dese")) + "}"
  {
    var v :- GetJ(m, "dese", JStr(""));
    if Hashable(v) then Ok("{" + Repr(v) + "}") else Raised
  }

  function NoteParts(ms: seq<Json>): (r: Result<seq<string>>)
    ensures r.Ok? <==> forall i :: 0 <= i < |ms| ==> NotePart(ms[i]).Ok?
    ensures r.Ok? ==> |r.value| == |ms| && forall i :: 0 <= i < |ms| ==> NotePart(ms[i]) == Ok(r.value[i])
    decreases |ms|
  {
    if ms == [] then Ok([])
    else
      var rest := NoteParts(ms[1..]);
      assert forall i :: 1 <= i < |ms| ==> ms[i] == ms[1..][i - 1];
      var part := NotePart(ms[0]);
      if part.Raised? || rest.Raised? then Raised
      else Ok([part.value] + rest.value)
  }

  /** `str(note)`: the list of one-element sets of `memo_seq`, or empty. */
  function NoteText(f: Dict<Json>): (r: Result<string>)
    ensures !HasKey(f, "memo_seq") ==> r == Ok("")
  {
    if HasKey(f, "memo_seq") then
      var ms :- IterJ(GetOr(f, "memo_seq", JNull));
      var parts :- NoteParts(ms);
      Ok(Bracket("[", parts, "]"))
    else Ok("")
  }

  /** The 23 detail fields passed through `clean_key`, in column order. */
  const KaohsiungCleaned: seq<string> := [
    "IDlicedate", "commence_date", "complete_date", "license_desc", "license_desc_old",
    "base_area_total", "building_area_other", "total_con_area", "coverrate", "spacerate",
    "buildheight", "airraid_d_area", "openspace", "buildcategory", "buildkind",
    "bmp01_name", "bmp02_name", "p02_officename", "bmp03_name", "p03_officename",
    "bmp04_boss", "p04_companyname", "lanusage"]

  /** The rendered summary columns, each still to be cleaned. */
  datatype Summaries = Summaries(usage: string, price: Json, floors: string, land: string, addr: string, note: string)

  /** The 40 values of the record literal, in column order, given the
      cleaned detail fields `c`. */
  function KaohsiungValues(id: Json, kind: string, c: seq<string>, n: BuildingCounts, s: Summaries): (vs: seq<Json>)
    requires |c| == 23
    ensures |vs| == 40
    ensures vs[0] == id && vs[1] == JStr(c[0]) && vs[2] == JStr(kind)
  {
    var licence := KaohsiungLicence(id, kind, c);
    assert licence[0] == id && licence[1] == JStr(c[0]) && licence[2] == JStr(kind);
    licence + (KaohsiungSizes(c, n) + (KaohsiungParties(c) + KaohsiungSummaries(s)))
  }

  /** Columns 0 to 10: the identifier, the permit and its dates. */
  function KaohsiungLicence(id: Json, kind: string, c: seq<string>): (vs: seq<Json>)
    requires |c| == 23
    ensures |vs| == 11
  {
    var dash := JStr("-");
    [id, JStr(c[0]), JStr(kind), dash, JStr(c[1]), JStr(c[2]), dash, dash, JStr(c[3]), JStr(c[4]), dash]
  }

  /** Columns 11 to 25: areas, rates, kinds and the parsed counts. */
  function KaohsiungSizes(c: seq<string>, n: BuildingCounts): (vs: seq<Json>)
    requires |c| == 23
    ensures |vs| == 15
  {
    [JStr(c[5]), JStr(c[6]), JStr(c[7]), JStr(c[8]), JStr(c[9]), JStr(c[10]), JStr(c[11]),
     JStr(c[12]), JStr(c[13]), JStr(c[14]),
     JInt(n.buildings), JInt(n.heads), JInt(n.floors), JInt(n.basements), JInt(n.units)]
  }

  /** Columns 26 to 33: the parties, their offices and the zoning. */
  function KaohsiungParties(c: seq<string>): (vs: seq<Json>)
    requires |c| == 23
    ensures |vs| == 8
  {
    [JStr(c[15]), JStr(c[16]), JStr(c[17]), JStr(c[18]), JStr(c[19]), JStr(c[20]), JStr(c[21]), JStr(c[22])]
  }

  /** Columns 34 to 39: usage, cost and the cleaned summaries. */
  function KaohsiungSummaries(s: Summaries): (vs: seq<Json>)
    ensures |vs| == 6
  {
    [JStr(CleanKey(Some(s.usage))), s.price, JStr(CleanKey(Some(s.floors))),
     JStr(CleanKey(Some(s.land))), JStr(CleanKey(Some(s.addr))), JStr(CleanKey(Some(s.note)))]
  }

  /** Everything the refiner renders before the record literal, or
      `Raised` where Python raises on the way. */
  function KaohsiungSummaryOf(f: Dict<Json>): (r: Result<Summaries>)
  {
    var lds :- IterJ(GetOr(f, "stair", JList([])));
    var labels :- LabelsOf(lds, "usage_code_desc");
    var price :- ExtractNumericalValueJ(Field(f, "price"));
    var floors :- FloorInfo(f);
    var land :- LandNo(f);
    var addr :- AddrText(f);
    var note :- NoteText(f);
    Ok(Summaries(UsageText(labels), price, floors, land, addr, note))
  }

  /** `refine_kaohsiung_json(data, index_key)`: `Ok(None)` for a detail
      that is not a licence number, `Raised` where Python raises. */
  function RefineKaohsiung(data: Json, indexKey: Json): (r: Result<Option<Record>>)
    ensures !data.JObj? ==> r.Raised?
    ensures r.Ok? ==> (r.value.Some? <==> IsLicenceTitle(GetOr(data.fields, "title", JNull)))
    ensures data.JObj? && Field(data.fields, "title").JStr? && !IsLicenceTitle(Field(data.fields, "title")) ==> r == Ok(None)
    ensures r.Ok? && r.value.Some? ==> var rec := r.value.value;
      && Keys(rec) == KaohsiungKeys && WellFormed(rec)
      && Get(rec, "_id") == Some(indexKey)
      && Get(rec, "執照類別") == Some(JStr(TitleKind(GetOr(data.fields, "title", JNull))))
  {
    if !data.JObj? then Raised
    else
      var f := data.fields;
      var kind :- CheckLicenseTypeJ(Field(f, "title"));
      var title := GetOr(f, "title", JNull);
      TitleGate(f);
      TitleOther(f);
      if kind != Construction && kind != Occupancy then Ok(None)
      else if !IsLicenceTitle(title) then Ok(None)
      else
        var floor :- CleanJ(Field(f, "buildfloor"));
        var s :- KaohsiungSummaryOf(f);
        var c :- CleanFields(f, KaohsiungCleaned);
        var vs := KaohsiungValues(indexKey, kind, c, ParseBuildingInfo(floor), s);
        KaohsiungRecordOf(vs);
        Ok(Some(Literal(KaohsiungKeys, vs)))
  }

  /** Whether the title passes the kind test decides nothing on its own: a
      licence-number title is always one of the two kinds, and names it. */
  lemma TitleGate(f: Dict<Json>)
    ensures IsLicenceTitle(GetOr(f, "title", JNull)) ==>
      CheckLicenseTypeJ(Field(f, "title")) == Ok(TitleKind(GetOr(f, "title", JNull)))
  {
    if IsLicenceTitle(GetOr(f, "title", JNull)) {
      assert HasKey(f, "title");
      assert Field(f, "title") == GetOr(f, "title", JNull);
      TitleKinds("建造執照號碼", "使用執照號碼");
    }
  }

  /** A title read as a string that is no licence number means the raw
      title is none either: a missing title reads as the empty string. */
  lemma TitleOther(f: Dict<Json>)
    ensures Field(f, "title").JStr? && !IsLicenceTitle(Field(f, "title")) ==> !IsLicenceTitle(GetOr(f, "title", JNull))
  {
    if !HasKey(f, "title") {
      assert GetOr(f, "title", JNull) == JNull;
    }
  }

  /** The record literal is a well-formed dict over the Kaohsiung columns
      holding the identifier and the kind. */
  lemma KaohsiungRecordOf(vs: seq<Json>)
    requires |vs| == 40
    ensures var r := Literal(KaohsiungKeys, vs);
      Keys(r) == KaohsiungKeys && WellFormed(r)
      && Get(r, "_id") == Some(vs[0]) && Get(r, "執照類別") == Some(vs[2])
  {
    KeyCounts();
    KaohsiungLeadingColumns();
    KaohsiungRecord(vs, 0);
    KaohsiungRecord(vs, 2);
  }
}

=== FILE: refine_mcgbm.dfy ===
/** `refine_mcbgm`: one open-data row of the MCGBM permit system turned into
    the canonical record. The refiner never filters: every row that does not
    make Python raise is refined, whatever its permit kind. */
module McgbmRefiner {
  import opened Common
  import opened Text
  import opened OrderedDict
  import opened PyJson
  import opened Clean
  import opened Classify
  import opened Numbers
  import opened Records
  import opened Fields

  /** The labels of `建築物用途` (split at `, `) and of the floor summaries'
      `樓層用途` entries, each label once. */
  function BuildingUsage(f: Dict<Json>): (r: Result<string>)
  {
    var own :- if HasKey(f, "建築物用途") then SplitJ(GetOr(f, "建築物用途", JNull), ", ") else Ok([]);
    var floors :- IterJ(GetOr(f, "樓層概要", JList([])));
    var more :- LabelsWhere(floors, "樓層用途");
    Ok(UsageText(own + more))
  }

  /** `clean_key(str(data.get(k, [])))`. */
  function CleanedRepr(f: Dict<Json>, k: string): string {
    CleanKey(Some(Str(GetOr(f, k, JList([])))))
  }

  /** The ten text fields passed through `clean_key`, in column order:
      issue date, start, completion, new and original licence numbers,
      applicant, designer, supervisor, contractor and zoning. */
  const McgbmCleaned: seq<string> := [
    "發照日期", "實際開工日期", "竣工日期", "核發執照字號", "原領執照字號",
    "起造人代表人", "設計人", "監造人", "承造人", "土地使用分區"]

  /** The 41 values of the record literal, in column order, given the
      cleaned text fields `c`. */
  function McgbmValues(f: Dict<Json>, kind: string, usage: string, id: Json, c: seq<string>): (vs: seq<Json>)
    requires |c| == 10
    ensures |vs| == 41
    ensures vs[1] == JStr(c[0]) && vs[2] == JStr(kind)
  {
    var licence := McgbmLicence(kind, id, c);
    assert licence[1] == JStr(c[0]) && licence[2] == JStr(kind);
    licence + (McgbmSizes(f) + (McgbmParties(c) + McgbmSummaries(f, usage)))
  }

  /** Columns 0 to 10: the identifier, the permit and its dates. */
  function McgbmLicence(kind: string, id: Json, c: seq<string>): (vs: seq<Json>)
    requires |c| == 10
    ensures |vs| == 11
  {
    var dash := JStr("-");
    [id, JStr(c[0]), JStr(kind), dash, JStr(c[1]), JStr(c[2]), dash, dash, dash, JStr(c[3]), JStr(c[4])]
  }

  /** Columns 11 to 26: design changes, areas, kinds and counts. */
  function McgbmSizes(f: Dict<Json>): (vs: seq<Json>)
    ensures |vs| == 16
  {
    var dash := JStr("-");
    [JInt(SafeInt(JStr(Str(GetOr(f, "變更設計次數", JInt(0)))))), Field(f, "基地面積"),
     Field(f, "建築面積"), Field(f, "總樓地板面積"), dash, dash, Field(f, "建築物高度"), Field(f, "地下避難面積"),
     Field(f, "法定空地面積"), Field(f, "建造類別"), Field(f, "構造別"),
     JInt(SafeInt(Field(f, "棟數"))), dash, JInt(SafeInt(Field(f, "地上層數"))),
     JInt(SafeInt(Field(f, "地下層數"))), JInt(SafeInt(Field(f, "戶數")))]
  }

  /** Columns 27 to 34: the parties and the zoning. */
  function McgbmParties(c: seq<string>): (vs: seq<Json>)
    requires |c| == 10
    ensures |vs| == 8
  {
    var dash := JStr("-");
    [JStr(c[5]), JStr(c[6]), dash, JStr(c[7]), dash, JStr(c[8]), dash, JStr(c[9])]
  }

  /** Columns 35 to 40: usage, cost and the rendered summaries. */
  function McgbmSummaries(f: Dict<Json>, usage: string): (vs: seq<Json>)
    ensures |vs| == 6
  {
    [JStr(CleanKey(Some(usage))), FloatRound(Field(f, "工程造價")),
     JStr(CleanedRepr(f, "樓層概要")), JStr(CleanedRepr(f, "地號")), JStr(CleanedRepr(f, "門牌")),
     JStr("-")]
  }

  /** The conditions under which `refine_mcbgm` does not raise: a label
      `in` can search, floor summaries it can iterate and read, an `_id`
      with `.get`, and text fields `clean_key` accepts. */
  predicate McgbmReadable(f: Dict<Json>) {
    && CheckLicenseTypeJ(Field(f, "執照類別")).Ok?
    && BuildingUsage(f).Ok?
    && GetOr(f, "_id", JObj([])).JObj?
    && CleanFields(f, McgbmCleaned).Ok?
  }

  /** `refine_mcbgm(data)`: `Raised` where Python raises (a row that is not
      a dict, a label of the wrong type, an `_id` that is not a dict). */
  function RefineMcgbm(data: Json): (r: Result<Record>)
    ensures r.Ok? <==> data.JObj? && McgbmReadable(data.fields)
    ensures r.Ok? ==> Keys(r.value) == CanonicalKeys && WellFormed(r.value)
    ensures r.Ok? ==> Get(r.value, "_id").Some?
    ensures r.Ok? ==> exists k :: IsKind(k) && Get(r.value, "執照類別") == Some(JStr(k))
    ensures r.Ok? && Field(data.fields, "執照類別").JStr? ==>
      Get(r.value, "執照類別") == Some(JStr(CheckLicenseType(Field(data.fields, "執照類別").s)))
    ensures r.Ok? ==> var issued := CleanJ(Field(data.fields, "發照日期"));
      issued.Ok? && Get(r.value, "發照日期") == Some(JStr(issued.value))
  {
    if !data.JObj? then Raised
    else
      var f := data.fields;
      var kind :- CheckLicenseTypeJ(Field(f, "執照類別"));
      var usage :- BuildingUsage(f);
      var id :- GetJ(GetOr(f, "_id", JObj([])), "$oid", JStr(""));
      var c :- CleanFields(f, McgbmCleaned);
      assert McgbmCleaned[0] == "發照日期";
      var vs := McgbmValues(f, kind, usage, id, c);
      McgbmRecord(vs);
      Ok(Literal(CanonicalKeys, vs))
  }

  /** The record literal of `refine_mcbgm` is a well-formed dict over the
      canonical columns holding the identifier, the issue date and the kind. */
  lemma McgbmRecord(vs: seq<Json>)
    requires |vs| == 41
    ensures var r := Literal(CanonicalKeys, vs);
      Keys(r) == CanonicalKeys && WellFormed(r)
      && Get(r, "_id") == Some(vs[0])
      && Get(r, "發照日期") == Some(vs[1]) && Get(r, "執照類別") == Some(vs[2])
  {
    ColumnNames();
    CanonicalRecord(vs, 0);
    CanonicalRecord(vs, 1);
    CanonicalRecord(vs, 2);
  }

  /** The shape of an open-data row: every value a string, except `_id`,
      which is a dict holding `$oid`. */
  predicate TextRow(f: Dict<Json>) {
    forall i :: 0 <= i < |f| ==> if f[i].key == "_id" then f[i].val.JObj? else f[i].val.JStr?
  }

  lemma TextRowField(f: Dict<Json>, k: string)
    requires TextRow(f) && k != "_id"
    ensures Field(f, k).JStr?
  {
    match IndexOf(f, k)
    case None =>
    case Some(i) =>
  }

  lemma TextRowId(f: Dict<Json>)
    requires TextRow(f)
    ensures GetOr(f, "_id", JObj([])).JObj?
  {
    match IndexOf(f, "_id")
    case None =>
    case Some(i) =>
  }

  /** `refine_mcbgm` never filters: every row of text fields is refined,
      whatever its permit kind, `其它` included. */
  lemma RefineMcgbmTotal(data: Json)
    requires data.JObj? && TextRow(data.fields)
    ensures RefineMcgbm(data).Ok?
  {
    var f := data.fields;
    assert CheckLicenseTypeJ(Field(f, "執照類別")).Ok? by {
      TextRowField(f, "執照類別");
    }
    TextRowUsage(f);
    TextRowId(f);
    assert CleanFields(f, McgbmCleaned).Ok? by {
      McgbmCleanedNames();
      TextRowCleanable(f, McgbmCleaned);
    }
  }

  lemma TextRowUsage(f: Dict<Json>)
    requires TextRow(f)
    ensures BuildingUsage(f).Ok?
  {
    if HasKey(f, "建築物用途") {
      TextRowField(f, "建築物用途");
    }
    var summary := GetOr(f, "樓層概要", JList([]));
    if HasKey(f, "樓層概要") {
      TextRowField(f, "樓層概要");
      LabelsWhereOfChars(IterJ(summary).value, "樓層用途");
    }
  }

  lemma McgbmCleanedNames()
    ensures forall i :: 0 <= i < |McgbmCleaned| ==> |McgbmCleaned[i]| >= 1 && McgbmCleaned[i][0] != '_'
  {
  }

  /** Every listed field of a row of text fields can be cleaned. */
  lemma TextRowCleanable(f: Dict<Json>, names: seq<string>)
    requires TextRow(f)
    requires forall i :: 0 <= i < |names| ==> |names[i]| >= 1 && names[i][0] != '_'
    ensures CleanFields(f, names).Ok?
  {
    forall i | 0 <= i < |names|
      ensures CleanJ(Field(f, names[i])).Ok?
    {
      TextRowField(f, names[i]);
    }
  }
}

=== FILE: refine_nbupic.dfy ===
/** `refine_nbupic`: a parsed NBUPIC licence page turned into the canonical
    record, and the crawler's overwrite of its five progress columns from
    the schedule page. Pages whose licence number names no permit kind give
    `None`. */
module NbupicRefiner {
  import opened Common
  import opened Text
  import opened OrderedDict
  import opened PyJson
  import opened Clean
  import opened Classify
  import opened Extract
  import opened Records
  import opened Fields

  /** The rendered columns: building usage, cost, floor summary, land
      number and address. */
  datatype Summaries = Summaries(usage: string, price: Json, floors: string, land: Json, addr: string)

  function NbupicSummaryOf(f: Dict<Json>): (r: Result<Summaries>)
  {
    var floors :- IterJ(GetOr(f, "樓層概要資料", JList([])));
    var labels :- LabelsWhere(floors, "使用類組");
    var price :- ExtractNumericalValueJ(Field(f, "工程造價"));
    Ok(Summaries(UsageText(labels), price, Str(GetOr(f, "樓層概要資料", JList([]))),
      Field(f, "地號"), Str(Field(f, "地址"))))
  }

  /** `data.get("建築面積(其他)", "") or data.get("建築面積", "")`. */
  function BuildingArea(f: Dict<Json>): (v: Json)
    ensures Truthy(Field(f, "建築面積(其他)")) ==> v == Field(f, "建築面積(其他)")
    ensures !Truthy(Field(f, "建築面積(其他)")) ==> v == Field(f, "建築面積")
  {
    var other := Field(f, "建築面積(其他)");
    if Truthy(other) then other else Field(f, "建築面積")
  }

  /** The 41 values of the record literal, in column order. */
  function NbupicValues(f: Dict<Json>, key: string, kind: string, n: BuildingCounts, s: Summaries): (vs: seq<Json>)
    ensures |vs| == 41
    ensures vs[0] == JStr(key) && vs[2] == JStr(kind) && vs[13] == BuildingArea(f)
  {
    var licence := NbupicLicence(JStr(key), Field(f, "發照日期"), JStr(kind), Field(f, "執照字號"), Field(f, "原領執照字號"));
    var rest := NbupicRest(f, n, s);
    assert (licence + rest)[0] == licence[0] && (licence + rest)[2] == licence[2];
    assert (licence + rest)[13] == rest[2];
    licence + rest
  }

  /** Columns 11 to 40, the building area third. */
  function NbupicRest(f: Dict<Json>, n: BuildingCounts, s: Summaries): (vs: seq<Json>)
    ensures |vs| == 30 && vs[2] == BuildingArea(f)
  {
    var sizes := NbupicSizes(Field(f, "基地面積(合計)"), BuildingArea(f), NbupicMeasures(f, n));
    sizes + (NbupicParties(f) + NbupicSummaries(s))
  }

  /** Columns 0 to 10: identifier, issue date, kind, blank progress fields,
      licence numbers. */
  function NbupicLicence(id: Json, issued: Json, kind: Json, number: Json, original: Json): (vs: seq<Json>)
    ensures |vs| == 11 && vs[0] == id && vs[2] == kind
  {
    var blank := JStr("");
    var dash := JStr("-");
    [id, issued, kind, blank, blank, dash, blank, blank, blank, number, original]
  }

  /** Columns 11 to 26: design changes, site and building area, then the
      measures. */
  function NbupicSizes(site: Json, area: Json, measures: seq<Json>): (vs: seq<Json>)
    requires |measures| == 13
    ensures |vs| == 16
  {
    [JStr("-"), site, area] + measures
  }

  /** Columns 14 to 26: floor area, rates, height, shelter and open space,
      kinds and the parsed counts. */
  function NbupicMeasures(f: Dict<Json>, n: BuildingCounts): (vs: seq<Json>)
    ensures |vs| == 13
  {
    [Field(f, "總樓地板面積"), Field(f, "設計建蔽率"), Field(f, "設計容積率"), Field(f, "建物高度"),
     Field(f, "防空避難面積(地下)"), Field(f, "法定空地面積"), Field(f, "建造類別"), Field(f, "構造種類"),
     JInt(n.buildings), JInt(n.heads), JInt(n.floors), JInt(n.basements), JInt(n.units)]
  }

  /** Columns 27 to 34: the parties, their offices and the zoning. */
  function NbupicParties(f: Dict<Json>): (vs: seq<Json>)
    ensures |vs| == 8
  {
    [Field(f, "起造人"), Field(f, "設計人(姓名)"), Field(f, "設計人(事務所)"), Field(f, "監造人(姓名)"),
     Field(f, "監造人(事務所)"), Field(f, "承造人(姓名)"), Field(f, "承造人( 營造廠 )"), Field(f, "使用分區")]
  }

  /** Columns 35 to 40: usage, cost, summaries and the blank remark. */
  function NbupicSummaries(s: Summaries): (vs: seq<Json>)
    ensures |vs| == 6
  {
    [JStr(s.usage), s.price, JStr(s.floors), s.land, JStr(s.addr), JStr("-")]
  }

  /** `refine_nbupic(data, index_key)`: `Ok(None)` exactly when the licence
      number classifies as `其它`, `Raised` where Python raises. */
  function RefineNbupic(f: Dict<Json>, key: string): (r: Result<Option<Record>>)
    ensures r.Ok? ==> (r.value.None? <==> CheckLicenseTypeJ(Field(f, "執照字號")) == Ok(Other))
    ensures Field(f, "執照字號").JStr? && CheckLicenseType(Field(f, "執照字號").s) == Other ==> r == Ok(None)
    ensures r.Ok? && r.value.Some? ==> var rec := r.value.value;
      && Keys(rec) == CanonicalKeys && WellFormed(rec)
      && Get(rec, "_id") == Some(JStr(key))
      && CheckLicenseTypeJ(Field(f, "執照字號")).Ok?
      && Get(rec, "執照類別") == Some(JStr(CheckLicenseTypeJ(Field(f, "執照字號")).value))
      && Get(rec, "建築面積") == Some(BuildingArea(f))
  {
    var kind :- CheckLicenseTypeJ(Field(f, "執照字號"));
    if kind == Other then Ok(None)
    else
      var n :- ParseBuildingInfoJ(Field(f, "層棧戶數"));
      var s :- NbupicSummaryOf(f);
      var vs := NbupicValues(f, key, kind, n, s);
      NbupicRecord(vs);
      Ok(Some(Literal(CanonicalKeys, vs)))
  }

  /** The record literal is a well-formed dict over the canonical columns
      holding the identifier, the kind and the building area. */
  lemma NbupicRecord(vs: seq<Json>)
    requires |vs| == 41
    ensures var r := Literal(CanonicalKeys, vs);
      Keys(r) == CanonicalKeys && WellFormed(r)
      && Get(r, "_id") == Some(vs[0]) && Get(r, "執照類別") == Some(vs[2]) && Get(r, "建築面積") == Some(vs[13])
  {
    ColumnNames();
    CanonicalRecord(vs, 0);
    CanonicalRecord(vs, 2);
    CanonicalRecord(vs, 13);
  }

  /** The five progress columns the schedule page supplies. */
  const ProgressKeys: seq<string> := ["使照掛號日期", "開工日期", "竣工期限", "竣工展期至", "申報進度"]

  /** `refined_data[k] = additional_data.get(k, '')` for each of `ks`. */
  function Overwrite(d: Record, ks: seq<string>, src: Dict<Json>): (r: Record)
    ensures forall k :: k !in ks ==> Get(r, k) == Get(d, k)
    ensures forall k :: k in ks ==> Get(r, k) == Some(GetOr(src, k, JStr("")))
    ensures (forall k :: k in ks ==> HasKey(d, k)) ==> Keys(r) == Keys(d)
    ensures WellFormed(d) ==> WellFormed(r)
    decreases |ks|
  {
    if ks == [] then d
    else
      var init := ks[..|ks| - 1];
      var last := ks[|ks| - 1];
      assert forall k :: k in ks <==> k in init || k == last by {
        assert ks == init + [last];
      }
      var before := Overwrite(d, init, src);
      Set(before, last, GetOr(src, last, JStr("")))
  }

  /** The crawler's progress merge: the five progress columns come from the
      schedule page (blank when missing), every other column is kept, and
      the record keeps its columns. */
  function WithProgress(rec: Record, additional: Dict<Json>): (r: Record)
    requires Keys(rec) == CanonicalKeys
    ensures Keys(r) == CanonicalKeys
    ensures forall k :: k !in ProgressKeys ==> Get(r, k) == Get(rec, k)
    ensures forall k :: k in ProgressKeys ==> Get(r, k) == Some(GetOr(additional, k, JStr("")))
  {
    ProgressCanonical();
    assert forall k :: k in ProgressKeys ==> HasKey(rec, k);
    Overwrite(rec, ProgressKeys, additional)
  }

  /** The progress columns are canonical columns. */
  lemma ProgressCanonical()
    ensures forall k :: k in ProgressKeys ==> k in CanonicalKeys
  {
    ColumnNames();
    assert ProgressKeys == [CanonicalKeys[3], CanonicalKeys[4], CanonicalKeys[6], CanonicalKeys[7], CanonicalKeys[8]];
  }
}

=== FILE: roc_dates.dfy ===
/** Republic-of-China era dates (`tw_str_to_date`, `tw_year_format`):
    an era year is the Gregorian year minus 1911. */
module RocDates {
  import opened Common
  import opened Text
  import opened Dates

  const EraOffset: int := 1911

  /** `tw_str_to_date`: the digit groups of `s` read as (era year, month[, day]);
      two groups give the first of the month, three or more use the first
      three; anything else, or an out-of-range date, gives `None`. */
  function TwStrToDate(s: string): (r: Option<Date>)
    ensures s == [] ==> r == None
    ensures |DigitGroups(s)| < 2 ==> r == None
    ensures r.Some? ==> Valid(r.value) && EraOffset <= r.value.year <= MaxYear
    ensures r.Some? && |DigitGroups(s)| == 2 ==> r.value.day == 1
    ensures r.Some? ==> r.value.year == DigitsValue(DigitGroups(s)[0]) + EraOffset
    ensures r.Some? ==> r.value.month == DigitsValue(DigitGroups(s)[1])
    ensures r.Some? && |DigitGroups(s)| >= 3 ==> r.value.day == DigitsValue(DigitGroups(s)[2])
  {
    if s == [] then None
    else
      var keys := DigitGroups(s);
      if |keys| == 2 then MakeDate(DigitsValue(keys[0]) + EraOffset, DigitsValue(keys[1]), 1)
      else if |keys| >= 3 then MakeDate(DigitsValue(keys[0]) + EraOffset, DigitsValue(keys[1]), DigitsValue(keys[2]))
      else None
  }

  /** `tw_year_format`: era year, zero-padded month and day, joined by `/`
      when `slash` holds and by nothing otherwise. */
  function TwYearFormat(d: Date, slash: bool): string
    requires Valid(d)
  {
    var sep := if slash then "/" else "";
    IntToString(d.year - EraOffset) + (sep + (Pad2(d.month) + (sep + Pad2(d.day))))
  }

  /** Parsing the slash form of a date from 1911 on gives the date back. */
  lemma TwRoundTrip(d: Date)
    requires Valid(d) && EraOffset <= d.year <= MaxYear
    ensures TwStrToDate(TwYearFormat(d, true)) == Some(d)
  {
    var a, b, c := IntToString(d.year - EraOffset), Pad2(d.month), Pad2(d.day);
    SlashText(d);
    SlashGroups(a, b, c);
    TwStrToDateOfKeys(a + ("/" + (b + ("/" + c))));
  }

  /** The slash rendering is the era year, month and day joined by `/`. */
  lemma SlashText(d: Date)
    requires Valid(d)
    ensures TwYearFormat(d, true) == IntToString(d.year - EraOffset) + ("/" + (Pad2(d.month) + ("/" + Pad2(d.day))))
  {
  }

  /** Three digit groups read as era year, month and day. */
  lemma TwStrToDateOfKeys(s: string)
    requires |DigitGroups(s)| == 3
    ensures TwStrToDate(s) == MakeDate(DigitsValue(DigitGroups(s)[0]) + EraOffset, DigitsValue(DigitGroups(s)[1]), DigitsValue(DigitGroups(s)[2]))
  {
    assert s != [] by {
      assert DigitGroups([]) == [];
    }
  }

  /** A leading minus sign is skipped like any other non-digit. */
  lemma TwStrToDateMinus(t: string)
    ensures TwStrToDate(['-'] + t) == TwStrToDate(t)
  {
    DigitGroupsSkip('-', t);
  }

  /** Three digit runs joined by `/` are three groups. */
  lemma SlashGroups(a: string, b: string, c: string)
    requires |a| >= 1 && AllDigits(a) && |b| >= 1 && AllDigits(b) && |c| >= 1 && AllDigits(c)
    ensures var g := DigitGroups(a + ("/" + (b + ("/" + c))));
      |g| == 3 && g[0] == a && g[1] == b && g[2] == c
  {
    SlashGroup(c);
    DigitGroupsOfDigitsThen(b, "/" + c);
    DigitGroupsSkip('/', b + ("/" + c));
    DigitGroupsOfDigitsThen(a, "/" + (b + ("/" + c)));
  }

  lemma SlashGroup(c: string)
    requires |c| >= 1 && AllDigits(c)
    ensures DigitGroups("/" + c) == [c]
  {
    DigitGroupsOfDigitsThen(c, "");
    assert c + "" == c;
    DigitGroupsSkip('/', c);
  }

  /** Without the slash the whole rendering is one digit group, so it never
      parses back. */
  lemma TwNoSlashDoesNotParse(d: Date)
    requires Valid(d) && EraOffset <= d.year
    ensures TwStrToDate(TwYearFormat(d, false)) == None
  {
    NoSlashText(d);
  }

  lemma NoSlashText(d: Date)
    requires Valid(d) && EraOffset <= d.year
    ensures |DigitGroups(TwYearFormat(d, false))| == 1
  {
    var a, b, c := IntToString(d.year - EraOffset), Pad2(d.month), Pad2(d.day);
    assert TwYearFormat(d, false) == a + b + c;
    OneGroup(a, b, c);
  }

  lemma OneGroup(a: string, b: string, c: string)
    requires |a| >= 1 && AllDigits(a) && AllDigits(b) && AllDigits(c)
    ensures |DigitGroups(a + b + c)| == 1
  {
    var t := a + b + c;
    assert AllDigits(t);
    DigitGroupsOfDigitsThen(t, "");
    assert t + "" == t;
  }

  /** Before 1911 the era year renders with a minus sign, which is not a
      digit: the parse reads the era year's magnitude as a positive era
      year, so the date lands as many years after 1911 as it was before. */
  lemma TwRoundTripNeedsEraYears(d: Date)
    requires Valid(d) && d.year < EraOffset
    ensures TwStrToDate(TwYearFormat(d, true)) == MakeDate(2 * EraOffset - d.year, d.month, d.day)
    ensures TwStrToDate(TwYearFormat(d, true)) != Some(d)
  {
    var a, b, c := NatToString(EraOffset - d.year), Pad2(d.month), Pad2(d.day);
    var t := a + ("/" + (b + ("/" + c)));
    MinusText(d);
    TwStrToDateMinus(t);
    assert TwStrToDate(TwYearFormat(d, true)) == TwStrToDate(t);
    SlashGroups(a, b, c);
    var g := DigitGroups(t);
    assert DigitsValue(g[0]) == EraOffset - d.year && DigitsValue(g[1]) == d.month && DigitsValue(g[2]) == d.day;
    TwStrToDateOfKeys(t);
    var r := MakeDate(2 * EraOffset - d.year, d.month, d.day);
    assert TwStrToDate(t) == r;
    assert r.Some? ==> r.value.year != d.year;
  }

  /** Before 1911 the slash rendering is a minus sign, then the era year's
      magnitude, month and day joined by `/`. */
  lemma MinusText(d: Date)
    requires Valid(d) && d.year < EraOffset
    ensures TwYearFormat(d, true) == ['-'] + (NatToString(EraOffset - d.year) + ("/" + (Pad2(d.month) + ("/" + Pad2(d.day)))))
  {
    var n, x := NatToString(EraOffset - d.year), "/" + (Pad2(d.month) + ("/" + Pad2(d.day)));
    calc {
      TwYearFormat(d, true);
    ==  { SlashText(d); }
      IntToString(d.year - EraOffset) + x;
    ==  { NegativeText(d.year - EraOffset); }
      ("-" + n) + x;
    ==  { MinusAssoc(n, x); }
      ['-'] + (n + x);
    }
  }

  lemma NegativeText(i: int)
    requires i < 0
    ensures IntToString(i) == "-" + NatToString(-i)
  {
  }

  lemma MinusAssoc(n: string, x: string)
    ensures ("-" + n) + x == ['-'] + (n + x)
  {
  }
}

=== FILE: scan.dfy ===
/** Regular-expression searches written as direct scans. Every pattern of
    the normalisers and crawlers has the shape `literal (class+) literal`
    where the closing literal cannot start inside the class, so a match at a
    position is decided by the maximal class run there; `re.search` is then
    the leftmost position that matches and `re.findall` restarts after
    each match. */
module Scan {
  import opened Common
  import opened Text

  /** Length of the run of characters of class `cls` starting at `i`. */
  function RunOf(s: string, cls: char -> bool, i: nat): (n: nat)
    requires i <= |s|
    ensures i + n <= |s|
    ensures forall k :: i <= k < i + n ==> cls(s[k])
    ensures i + n < |s| ==> !cls(s[i + n])
    decreases |s| - i
  {
    if i < |s| && cls(s[i]) then 1 + RunOf(s, cls, i + 1) else 0
  }

  /** A run is as long as the stretch of class characters that ends it. */
  lemma {:induction false} RunOfIs(s: string, cls: char -> bool, i: nat, j: nat)
    requires i <= j <= |s|
    requires forall k :: i <= k < j ==> cls(s[k])
    requires j == |s| || !cls(s[j])
    ensures RunOf(s, cls, i) == j - i
    decreases j - i
  {
    if i < j {
      RunOfIs(s, cls, i + 1, j);
    }
  }

  /** A match of `open (cls+) close` at position `i`: the captured group. */
  function GroupAt(s: string, open: string, cls: char -> bool, close: string, i: nat): (r: Option<string>)
    ensures r.Some? ==> OccursAt(s, open, i) && |r.value| >= 1
    ensures r.Some? ==> i + |open| + |r.value| + |close| <= |s|
    ensures r.Some? ==> forall c :: c in r.value ==> cls(c)
  {
    if OccursAt(s, open, i) then
      var j := i + |open|;
      var n := RunOf(s, cls, j);
      if n >= 1 && OccursAt(s, close, j + n) then
        var g := s[j..j + n];
        assert forall c :: c in g ==> cls(c) by {
          forall c | c in g ensures cls(c) {
            var k :| 0 <= k < |g| && g[k] == c;
            assert s[j + k] == c;
          }
        }
        Some(g)
      else None
    else None
  }

  /** The leftmost position in `[i, n]` where `m` matches. */
  function Leftmost<T>(m: nat -> Option<T>, i: nat, n: nat): (r: Option<nat>)
    ensures r.Some? ==> i <= r.value <= n && m(r.value).Some?
    ensures r.Some? ==> forall k :: i <= k < r.value ==> m(k).None?
    ensures r.None? ==> forall k :: i <= k <= n ==> m(k).None?
    decreases n + 1 - i
  {
    if i > n then None
    else if m(i).Some? then Some(i)
    else Leftmost(m, i + 1, n)
  }

  /** `k` is the leftmost position where the pattern matches. */
  predicate LeftmostMatch(s: string, open: string, cls: char -> bool, close: string, k: nat) {
    && k <= |s|
    && GroupAt(s, open, cls, close, k).Some?
    && forall k' :: 0 <= k' < k ==> GroupAt(s, open, cls, close, k').None?
  }

  /** Position of the leftmost match, if any. */
  function SearchPos(s: string, open: string, cls: char -> bool, close: string): (r: Option<nat>)
    ensures r.None? <==> forall k :: 0 <= k <= |s| ==> GroupAt(s, open, cls, close, k).None?
    ensures r.Some? ==> LeftmostMatch(s, open, cls, close, r.value)
  {
    var m := (k: nat) => GroupAt(s, open, cls, close, k);
    var r := Leftmost(m, 0, |s|);
    forall k | 0 <= k <= |s| && (r.None? || k < r.value)
      ensures GroupAt(s, open, cls, close, k).None?
    {
      assert m(k).None?;
    }
    if r.Some? then
      assert m(r.value).Some?;
      r
    else
      r
  }

  lemma LeftmostUnique(s: string, open: string, cls: char -> bool, close: string, k1: nat, k2: nat)
    requires LeftmostMatch(s, open, cls, close, k1) && LeftmostMatch(s, open, cls, close, k2)
    ensures k1 == k2
  {
  }

  /** `re.search(open + '(cls+)' + close, s).group(1)`, or `None`. */
  function Search(s: string, open: string, cls: char -> bool, close: string): (r: Option<string>)
    ensures r.None? <==> forall k :: 0 <= k <= |s| ==> GroupAt(s, open, cls, close, k).None?
    ensures forall k :: LeftmostMatch(s, open, cls, close, k) ==> r == GroupAt(s, open, cls, close, k)
  {
    match SearchPos(s, open, cls, close)
    case None => None
    case Some(k) =>
      forall k' | LeftmostMatch(s, open, cls, close, k')
        ensures k' == k
      {
        LeftmostUnique(s, open, cls, close, k, k');
      }
      GroupAt(s, open, cls, close, k)
  }

  /** The pattern `open (cls+) close` as a matcher over positions of `s`. */
  function Matcher(s: string, open: string, cls: char -> bool, close: string): nat -> Option<string> {
    (k: nat) => GroupAt(s, open, cls, close, k)
  }

  /** `findall` with matcher `m` over positions up to `n`, from `i`: the
      group of the leftmost match, then the search resumes `width`
      characters past that group. */
  function FindBy(m: nat -> Option<string>, n: nat, width: nat, i: nat): (r: seq<string>)
    requires width >= 1
    decreases n + 1 - i
  {
    match Leftmost(m, i, n)
    case None => []
    case Some(k) =>
      var g := m(k).value;
      [g] + FindBy(m, n, width, k + width + |g|)
  }

  /** `re.findall(open + '(cls+)' + close, s)`: the groups of the
      non-overlapping matches, left to right. */
  function FindAll(s: string, open: string, cls: char -> bool, close: string): (r: seq<string>)
    requires |open| + |close| >= 1
    ensures forall j :: 0 <= j < |r| ==> |r[j]| >= 1 && forall c :: c in r[j] ==> cls(c)
  {
    var m := Matcher(s, open, cls, close);
    forall k: nat | m(k).Some?
      ensures |m(k).value| >= 1 && forall c :: c in m(k).value ==> cls(c)
    {
      var g := GroupAt(s, open, cls, close, k);
      assert m(k) == g;
    }
    FindByRuns(m, |s|, |open| + |close|, 0, cls);
    FindBy(m, |s|, |open| + |close|, 0)
  }

  predicate IsPriceChar(c: char) {
    IsDigit(c) || c == ','
  }

  lemma AppendAssoc(p: string, a: string, b: string, c: string, d: string)
    ensures p + a + b + c + d == p + (a + b + c + d)
  {
  }

  /** A text starts with its own prefix. */
  lemma OccursPrefix(a: string, b: string)
    ensures OccursAt(a + b, a, 0)
  {
    assert (a + b)[..|a|] == a;
  }

  /** Between `pre` and a text that opens with a character outside the
      class, a stretch of class characters is the whole run. */
  lemma RunOfGap(pre: string, gap: string, post: string, cls: char -> bool)
    requires forall c :: c in gap ==> cls(c)
    requires |post| >= 1 && !cls(post[0])
    ensures RunOf(pre + gap + post, cls, |pre|) == |gap|
  {
    var s := pre + gap + post;
    forall k | |pre| <= k < |pre| + |gap|
      ensures cls(s[k])
    {
      assert s[k] == gap[k - |pre|];
    }
    assert s[|pre| + |gap|] == post[0];
    RunOfIs(s, cls, |pre|, |pre| + |gap|);
  }

  /** `open group close` laid out after `pre` matches there and captures
      `group`, whatever follows. */
  lemma GroupAtOf(pre: string, open: string, group: string, close: string, rest: string, cls: char -> bool)
    requires |group| >= 1 && forall c :: c in group ==> cls(c)
    requires |close| >= 1 && !cls(close[0])
    ensures GroupAt(pre + open + group + close + rest, open, cls, close, |pre|) == Some(group)
  {
    var s := pre + open + group + close + rest;
    var j := |pre| + |open|;
    assert s == (pre + open) + group + (close + rest);
    assert s[|pre|..j] == open;
    RunOfGap(pre + open, group, close + rest, cls);
    assert s[j + |group|..j + |group| + |close|] == close;
    assert s[j..j + |group|] == group;
  }

  /** A text that is one match of `open (cls+) close` gives that group
      alone to `findall`. */
  lemma FindAllOne(open: string, group: string, close: string, cls: char -> bool)
    requires |open| >= 1
    requires |group| >= 1 && forall c :: c in group ==> cls(c)
    requires |close| >= 1 && !cls(close[0])
    ensures FindAll(open + group + close, open, cls, close) == [group]
  {
    var s := open + group + close;
    var m := Matcher(s, open, cls, close);
    var w := |open| + |close|;
    GroupAtOne(open, group, close, cls);
    assert m(0) == Some(group);
    assert |s| == w + |group|;
    assert m(w + |group|).None?;
    FindByOne(m, w, group);
    FindAllBy(s, open, cls, close);
  }

  /** `findall` is the matcher's scan over the whole text. */
  lemma FindAllBy(s: string, open: string, cls: char -> bool, close: string)
    requires |open| + |close| >= 1
    ensures FindAll(s, open, cls, close) == FindBy(Matcher(s, open, cls, close), |s|, |open| + |close|, 0)
  {
  }

  /** One match of `open (cls+) close` matches at the start and nowhere at
      the end. */
  lemma GroupAtOne(open: string, group: string, close: string, cls: char -> bool)
    requires |open| >= 1
    requires |group| >= 1 && forall c :: c in group ==> cls(c)
    requires |close| >= 1 && !cls(close[0])
    ensures var s := open + group + close;
      GroupAt(s, open, cls, close, 0) == Some(group) && GroupAt(s, open, cls, close, |s|).None?
  {
    var s := open + group + close;
    GroupAtOf([], open, group, close, [], cls);
    assert [] + open == open;
    assert s + [] == s;
  }

  /** A matcher with one match, at the start, whose end is where the text
      ends, finds that group alone. */
  lemma FindByOne(m: nat -> Option<string>, width: nat, group: string)
    requires width >= 1
    requires m(0) == Some(group) && m(width + |group|).None?
    ensures FindBy(m, width + |group|, width, 0) == [group]
  {
    var n := width + |group|;
    FindByFirst(m, n, width, 0);
    FindByEnd(m, n, width, n);
  }

  /** When every match of `m` is a nonempty run of class characters, so
      is every group found. */
  lemma {:induction false} FindByRuns(m: nat -> Option<string>, n: nat, width: nat, i: nat, cls: char -> bool)
    requires width >= 1
    requires forall k :: m(k).Some? ==> |m(k).value| >= 1 && forall c :: c in m(k).value ==> cls(c)
    ensures forall j :: 0 <= j < |FindBy(m, n, width, i)| ==>
      |FindBy(m, n, width, i)[j]| >= 1 && forall c :: c in FindBy(m, n, width, i)[j] ==> cls(c)
    decreases n + 1 - i
  {
    match Leftmost(m, i, n)
    case None =>
    case Some(k) =>
      var g := m(k).value;
      var rest := FindBy(m, n, width, k + width + |g|);
      FindByRuns(m, n, width, k + width + |g|, cls);
      var r := FindBy(m, n, width, i);
      assert r == [g] + rest;
      assert |g| >= 1 && forall c :: c in g ==> cls(c);
      forall j | 0 <= j < |r|
        ensures |r[j]| >= 1 && forall c :: c in r[j] ==> cls(c)
      {
        if j > 0 {
          assert r[j] == rest[j - 1];
        }
      }
  }

  /** A match where the search starts is the first group found, and the
      search resumes after it. */
  lemma FindByFirst(m: nat -> Option<string>, n: nat, width: nat, i: nat)
    requires width >= 1 && i <= n && m(i).Some?
    ensures FindBy(m, n, width, i) == [m(i).value] + FindBy(m, n, width, i + width + |m(i).value|)
  {
    assert Leftmost(m, i, n) == Some(i);
  }

  /** Nothing is found where nothing matches. */
  lemma FindByEnd(m: nat -> Option<string>, n: nat, width: nat, i: nat)
    requires width >= 1
    requires forall k :: i <= k <= n ==> m(k).None?
    ensures FindBy(m, n, width, i) == []
  {
  }

  /** A match of `name\s+open(cls+)close` at position `i`: the captured
      group. The white-space run is maximal, which is how the regex matches
      when `open` starts with a character that is not white space. */
  function SpacedGroupAt(s: string, name: string, open: string, cls: char -> bool, close: string, i: nat): (r: Option<string>)
    ensures r.Some? ==> OccursAt(s, name, i) && |r.value| >= 1
    ensures r.Some? ==> forall c :: c in r.value ==> cls(c)
  {
    if OccursAt(s, name, i) then
      var j := i + |name|;
      var n := RunOf(s, IsSpace, j);
      if n >= 1 then GroupAt(s, open, cls, close, j + n) else None
    else None
  }

  /** `k` is the leftmost position where the spaced pattern matches. */
  predicate SpacedLeftmost(s: string, name: string, open: string, cls: char -> bool, close: string, k: nat) {
    && k <= |s|
    && SpacedGroupAt(s, name, open, cls, close, k).Some?
    && forall k' :: 0 <= k' < k ==> SpacedGroupAt(s, name, open, cls, close, k').None?
  }

  /** Position of the leftmost spaced match, if any. */
  function SpacedSearchPos(s: string, name: string, open: string, cls: char -> bool, close: string): (r: Option<nat>)
    ensures r.None? <==> forall k :: 0 <= k <= |s| ==> SpacedGroupAt(s, name, open, cls, close, k).None?
    ensures r.Some? ==> SpacedLeftmost(s, name, open, cls, close, r.value)
  {
    var m := SpacedMatcher(s, name, open, cls, close);
    var r := Leftmost(m, 0, |s|);
    forall k | 0 <= k <= |s| && (r.None? || k < r.value)
      ensures SpacedGroupAt(s, name, open, cls, close, k).None?
    {
      assert m(k).None?;
    }
    if r.Some? then
      assert m(r.value).Some?;
      r
    else
      r
  }

  /** The pattern `name\s+open (cls+) close` as a matcher over positions of `s`. */
  function SpacedMatcher(s: string, name: string, open: string, cls: char -> bool, close: string): nat -> Option<string> {
    (k: nat) => SpacedGroupAt(s, name, open, cls, close, k)
  }

  lemma SpacedLeftmostUnique(s: string, name: string, open: string, cls: char -> bool, close: string, k1: nat, k2: nat)
    requires SpacedLeftmost(s, name, open, cls, close, k1) && SpacedLeftmost(s, name, open, cls, close, k2)
    ensures k1 == k2
  {
  }

  /** `re.search(name + r'\s+' + open + '(cls+)' + close, s).group(1)`, or `None`. */
  function SpacedSearch(s: string, name: string, open: string, cls: char -> bool, close: string): (r: Option<string>)
    ensures r.None? <==> forall k :: 0 <= k <= |s| ==> SpacedGroupAt(s, name, open, cls, close, k).None?
    ensures forall k :: SpacedLeftmost(s, name, open, cls, close, k) ==> r == SpacedGroupAt(s, name, open, cls, close, k)
  {
    match SpacedSearchPos(s, name, open, cls, close)
    case None => None
    case Some(k) =>
      forall k' | SpacedLeftmost(s, name, open, cls, close, k')
        ensures k' == k
      {
        SpacedLeftmostUnique(s, name, open, cls, close, k, k');
      }
      SpacedGroupAt(s, name, open, cls, close, k)
  }

  /** A text that opens with `name`, white space, `open`, a group and
      `close` gives that group, whatever follows. */
  lemma SpacedSearchOf(name: string, gap: string, open: string, group: string, close: string, rest: string, cls: char -> bool)
    requires |gap| >= 1 && forall c :: c in gap ==> IsSpace(c)
    requires |open| >= 1 && !IsSpace(open[0])
    requires |group| >= 1 && forall c :: c in group ==> cls(c)
    requires |close| >= 1 && !cls(close[0])
    ensures SpacedSearch(name + gap + open + group + close + rest, name, open, cls, close) == Some(group)
  {
    var s := name + gap + open + group + close + rest;
    SpacedGroupAtOf(name, gap, open, group, close, rest, cls);
    assert SpacedLeftmost(s, name, open, cls, close, 0);
  }

  lemma SpacedGroupAtOf(name: string, gap: string, open: string, group: string, close: string, rest: string, cls: char -> bool)
    requires |gap| >= 1 && forall c :: c in gap ==> IsSpace(c)
    requires |open| >= 1 && !IsSpace(open[0])
    requires |group| >= 1 && forall c :: c in group ==> cls(c)
    requires |close| >= 1 && !cls(close[0])
    ensures SpacedGroupAt(name + gap + open + group + close + rest, name, open, cls, close, 0) == Some(group)
  {
    var s := name + gap + open + group + close + rest;
    var tail := open + group + close + rest;
    AppendAssoc(name + gap, open, group, close, rest);
    assert s == name + gap + tail;
    assert OccursAt(s, name, 0) by {
      assert name + gap + tail == name + (gap + tail);
      OccursPrefix(name, gap + tail);
    }
    assert RunOf(s, IsSpace, |name|) == |gap| by {
      RunOfGap(name, gap, tail, IsSpace);
    }
    assert GroupAt(s, open, cls, close, |name| + |gap|) == Some(group) by {
      GroupAtOf(name + gap, open, group, close, rest, cls);
    }
  }
}

=== FILE: sorting.dfy ===
/** Python's `list.sort(key=...)` for an integer key, here an insertion sort
    on sequences. Stability is not stated: the sheets it orders have distinct
    keys, so the order of equal keys never shows. */
module Sorting {

  predicate SortedBy<T>(xs: seq<T>, key: T -> int) {
    forall i, j :: 0 <= i < j < |xs| ==> key(xs[i]) <= key(xs[j])
  }

  predicate IncreasingBy<T>(xs: seq<T>, key: T -> int) {
    forall i, j :: 0 <= i < j < |xs| ==> key(xs[i]) < key(xs[j])
  }

  /** No two elements share a key. */
  predicate KeysDistinct<T>(xs: seq<T>, key: T -> int) {
    forall i, j :: 0 <= i < j < |xs| ==> key(xs[i]) != key(xs[j])
  }

  /** `x` placed before the first element whose key is not below its own. */
  function InsertBy<T>(x: T, xs: seq<T>, key: T -> int): (r: seq<T>)
    ensures multiset(r) == multiset(xs) + multiset{x}
    decreases |xs|
  {
    if xs == [] || key(x) <= key(xs[0]) then [x] + xs
    else
      assert xs == [xs[0]] + xs[1..];
      [xs[0]] + InsertBy(x, xs[1..], key)
  }

  /** The sorted sequence: each element inserted into the sorted rest, so
      that of two elements with equal keys the earlier stays first. */
  function SortBy<T>(xs: seq<T>, key: T -> int): (r: seq<T>)
    ensures multiset(r) == multiset(xs)
    decreases |xs|
  {
    if xs == [] then []
    else
      assert xs == [xs[0]] + xs[1..];
      InsertBy(xs[0], SortBy(xs[1..], key), key)
  }

  lemma {:induction false} InsertSorted<T>(x: T, xs: seq<T>, key: T -> int)
    requires SortedBy(xs, key)
    ensures SortedBy(InsertBy(x, xs, key), key)
    decreases |xs|
  {
    if xs != [] && key(x) > key(xs[0]) {
      var rest := xs[1..];
      InsertSorted(x, rest, key);
      var tail := InsertBy(x, rest, key);
      forall y | y in tail
        ensures key(xs[0]) <= key(y)
      {
        assert y in multiset(tail);
        if y != x {
          assert y in multiset(rest);
        }
      }
    }
  }

  /** The result is ordered by key and holds exactly the input's elements. */
  lemma {:induction false} SortSorted<T>(xs: seq<T>, key: T -> int)
    ensures SortedBy(SortBy(xs, key), key)
    ensures multiset(SortBy(xs, key)) == multiset(xs)
    decreases |xs|
  {
    if xs != [] {
      SortSorted(xs[1..], key);
      InsertSorted(xs[0], SortBy(xs[1..], key), key);
    }
  }

  /** An element whose key is below every key of an increasing sequence
      can lead it. */
  lemma ConsIncreasing<T>(a: T, tail: seq<T>, key: T -> int)
    requires IncreasingBy(tail, key)
    requires forall i :: 0 <= i < |tail| ==> key(a) < key(tail[i])
    ensures IncreasingBy([a] + tail, key)
  {
    var r := [a] + tail;
    forall i, j | 0 <= i < j < |r|
      ensures key(r[i]) < key(r[j])
    {
      assert r[j] == tail[j - 1];
      if i > 0 {
        assert r[i] == tail[i - 1];
      }
    }
  }

  lemma {:induction false} InsertIncreasing<T>(x: T, xs: seq<T>, key: T -> int)
    requires IncreasingBy(xs, key)
    requires forall y :: y in xs ==> key(y) != key(x)
    ensures IncreasingBy(InsertBy(x, xs, key), key)
    decreases |xs|
  {
    if xs == [] {
    } else if key(x) <= key(xs[0]) {
      assert key(x) != key(xs[0]) by { assert xs[0] in xs; }
      ConsIncreasing(x, xs, key);
    } else {
      var rest := xs[1..];
      assert forall y :: y in rest ==> y in xs;
      InsertIncreasing(x, rest, key);
      var tail := InsertBy(x, rest, key);
      forall i | 0 <= i < |tail|
        ensures key(xs[0]) < key(tail[i])
      {
        var y := tail[i];
        assert y in multiset(tail);
        if y != x {
          assert y in multiset(rest);
          var j :| 0 <= j < |rest| && rest[j] == y;
          assert xs[j + 1] == y;
        }
      }
      ConsIncreasing(xs[0], tail, key);
    }
  }

  /** When no two elements share a key, the keys of the result strictly
      increase. */
  lemma {:induction false} SortIncreasing<T>(xs: seq<T>, key: T -> int)
    requires KeysDistinct(xs, key)
    ensures IncreasingBy(SortBy(xs, key), key)
    decreases |xs|
  {
    if xs != [] {
      var rest := xs[1..];
      assert KeysDistinct(rest, key);
      SortIncreasing(rest, key);
      var sorted := SortBy(rest, key);
      forall y | y in sorted
        ensures key(y) != key(xs[0])
      {
        assert y in multiset(rest);
        var j :| 0 <= j < |rest| && rest[j] == y;
        assert xs[j + 1] == y;
      }
      InsertIncreasing(xs[0], sorted, key);
    }
  }
}

=== FILE: text.dfy ===
/** String primitives with Python `str` semantics: digits, decimal
    rendering, `startswith`/`in`, `replace`, `split`, `join`, `strip`. */
module Text {
  import opened Common

  /** The characters Python's `\d` and `int()` accept in this model: ASCII
      digits and full-width digits. */
  predicate IsDigit(c: char) {
    ('0' <= c <= '9') || ('\U{FF10}' <= c <= '\U{FF19}')
  }

  function DigitValue(c: char): (v: nat)
    requires IsDigit(c)
    ensures v < 10
  {
    if '0' <= c <= '9' then (c as int) - ('0' as int) else (c as int) - ('\U{FF10}' as int)
  }

  predicate AllDigits(s: string) {
    forall i :: 0 <= i < |s| ==> IsDigit(s[i])
  }

  /** Python `int(s)` of a string of digits. */
  function DigitsValue(s: string): nat
    requires AllDigits(s)
  {
    if s == [] then 0 else DigitsValue(s[..|s| - 1]) * 10 + DigitValue(s[|s| - 1])
  }

  lemma DigitsSnoc(s: string, c: char)
    requires AllDigits(s) && IsDigit(c)
    ensures AllDigits(s + [c]) && DigitsValue(s + [c]) == DigitsValue(s) * 10 + DigitValue(c)
  {
    assert (s + [c])[..|s|] == s;
  }

  function AsciiDigit(d: nat): (c: char)
    requires d < 10
    ensures IsDigit(c) && DigitValue(c) == d
  {
    ('0' as int + d) as char
  }

  /** Python `str(n)` for a non-negative integer. */
  function NatToString(n: nat): (r: string)
    ensures |r| >= 1 && AllDigits(r)
    ensures DigitsValue(r) == n
    ensures forall i :: 0 <= i < |r| ==> '0' <= r[i] <= '9'
  {
    if n < 10 then [AsciiDigit(n)]
    else
      var p := NatToString(n / 10);
      var r := p + [AsciiDigit(n % 10)];
      assert r[..|r| - 1] == p;
      r
  }

  /** Python `str(i)` / f"{i}" for any integer. */
  function IntToString(i: int): (r: string)
    ensures i >= 0 ==> AllDigits(r) && |r| >= 1 && DigitsValue(r) == i
    ensures i < 0 ==> |r| >= 2 && r[0] == '-' && AllDigits(r[1..]) && DigitsValue(r[1..]) == -i
    ensures forall k :: 0 <= k < |r| ==> r[k] != '&' && r[k] != '/'
  {
    if i < 0 then "-" + NatToString(-i) else NatToString(i)
  }

  lemma NatLength(n: nat)
    ensures n < 10 ==> |NatToString(n)| == 1
    ensures n >= 10 ==> |NatToString(n)| == |NatToString(n / 10)| + 1
  {
  }

  /** A year from 1000 to 9999 is written with four digits. */
  lemma FourDigits(y: int)
    requires 1000 <= y <= 9999
    ensures |IntToString(y)| == 4
  {
    NatLength(y);
    NatLength(y / 10);
    NatLength(y / 100);
    NatLength(y / 1000);
  }

  /** Python f"{n:02d}" for a non-negative integer below 100. */
  function Pad2(n: nat): (r: string)
    requires n < 100
    ensures |r| == 2 && AllDigits(r) && DigitsValue(r) == n
  {
    if n < 10 then
      var r := ['0', AsciiDigit(n)];
      assert r[..1] == ['0'] && ['0'][..0] == [];
      assert DigitsValue(r[..1]) == 0;
      r
    else
      assert |NatToString(n / 10)| == 1;
      NatToString(n)
  }

  /** A lower-case hex digit, as `format(n, "x")` writes them. */
  predicate IsHexDigit(c: char) {
    ('0' <= c <= '9') || ('a' <= c <= 'f')
  }

  function HexDigit(v: nat): (c: char)
    requires v < 16
    ensures IsHexDigit(c)
  {
    if v < 10 then ('0' as int + v) as char else ('a' as int + v - 10) as char
  }

  function Pow16(width: nat): (p: nat)
    ensures p >= 1
  {
    if width == 0 then 1 else 16 * Pow16(width - 1)
  }

  /** `format(n, "0<width>x")` for an `n` that fits: lower-case hex digits,
      zero-padded on the left. */
  function HexPad(n: nat, width: nat): (r: string)
    requires n < Pow16(width)
    ensures |r| == width
    ensures forall i :: 0 <= i < |r| ==> IsHexDigit(r[i])
  {
    if width == 0 then []
    else HexPad(n / 16, width - 1) + [HexDigit(n % 16)]
  }

  function HexDigitValue(c: char): (v: nat)
    requires IsHexDigit(c)
    ensures v < 16 && HexDigit(v) == c
  {
    if '0' <= c <= '9' then (c as int) - ('0' as int) else (c as int) - ('a' as int) + 10
  }

  /** The number a string of hex digits denotes. */
  function HexValue(s: string): (n: nat)
    requires forall i :: 0 <= i < |s| ==> IsHexDigit(s[i])
    ensures n < Pow16(|s|)
  {
    if s == [] then 0 else HexValue(s[..|s| - 1]) * 16 + HexDigitValue(s[|s| - 1])
  }

  /** Reading the padded digits back gives the number. */
  lemma {:induction false} HexRoundTrip(n: nat, width: nat)
    requires n < Pow16(width)
    ensures HexValue(HexPad(n, width)) == n
  {
    if width > 0 {
      var q, d := n / 16, n % 16;
      var p := HexPad(q, width - 1);
      HexRoundTrip(q, width - 1);
      var r := p + [HexDigit(d)];
      assert r[..|r| - 1] == p;
      assert HexDigitValue(HexDigit(d)) == d;
    }
  }

  /** The digit grouping of PEP 515 that `int()` and `float()` accept,
      `digit (["_"] digit)*`: digits with single underscores between them,
      so `1_000` but not `_1`, `1_` or `1__0`. */
  predicate Grouped(s: string)
    decreases |s|
  {
    && |s| >= 1 && IsDigit(s[0])
    && (|s| == 1 || (if s[1] == '_' then Grouped(s[2..]) else Grouped(s[1..])))
  }

  /** The digits of a numeral with its underscores dropped. */
  function Ungroup(s: string): (d: string)
    ensures |d| <= |s|
    ensures '_' !in d
    ensures '_' !in s ==> d == s
  {
    if s == [] then []
    else
      assert s == [s[0]] + s[1..];
      (if s[0] == '_' then [] else [s[0]]) + Ungroup(s[1..])
  }

  /** Dropping underscores commutes with concatenation. */
  lemma {:induction false} UngroupConcat(a: string, b: string)
    ensures Ungroup(a + b) == Ungroup(a) + Ungroup(b)
    decreases |a|
  {
    if a != [] {
      var s := a + b;
      var h: string := if a[0] == '_' then [] else [a[0]];
      assert s[0] == a[0] && s[1..] == a[1..] + b;
      assert Ungroup(s) == h + Ungroup(a[1..] + b);
      assert Ungroup(a) == h + Ungroup(a[1..]);
      UngroupConcat(a[1..], b);
      assert h + (Ungroup(a[1..]) + Ungroup(b)) == (h + Ungroup(a[1..])) + Ungroup(b);
    } else {
      assert a + b == b;
    }
  }

  /** The digits of a grouped numeral form a non-empty digit string. */
  lemma {:induction false} GroupedDigits(s: string)
    requires Grouped(s)
    ensures AllDigits(Ungroup(s)) && |Ungroup(s)| >= 1
    decreases |s|
  {
    var d := Ungroup(s);
    assert d == [s[0]] + Ungroup(s[1..]);
    if |s| > 1 {
      var t := if s[1] == '_' then s[2..] else s[1..];
      GroupedDigits(t);
      if s[1] == '_' {
        assert s[1..] == [s[1]] + s[2..];
        UngroupConcat([s[1]], s[2..]);
      }
      assert Ungroup(s[1..]) == Ungroup(t);
      forall i | 0 <= i < |d| ensures IsDigit(d[i]) {
        if i > 0 {
          assert d[i] == Ungroup(t)[i - 1];
        }
      }
    }
  }

  /** A non-empty digit string is a grouped numeral of itself. */
  lemma {:induction false} DigitsGrouped(s: string)
    requires AllDigits(s) && |s| >= 1
    ensures Grouped(s) && Ungroup(s) == s
    decreases |s|
  {
    assert '_' !in s by {
      forall i | 0 <= i < |s| ensures s[i] != '_' { assert IsDigit(s[i]); }
    }
    if |s| > 1 {
      assert IsDigit(s[1]);
      DigitsGrouped(s[1..]);
    }
  }

  /** The number a grouped numeral denotes. */
  function GroupedValue(s: string): nat
    requires Grouped(s)
  {
    GroupedDigits(s);
    DigitsValue(Ungroup(s))
  }

  /** Joining two grouped numerals with one underscore gives a grouped
      numeral whose digits are both parts' digits. */
  lemma GroupedJoin(a: string, b: string)
    requires Grouped(a) && Grouped(b)
    ensures Grouped(a + "_" + b)
    ensures Ungroup(a + "_" + b) == Ungroup(a) + Ungroup(b)
  {
    JoinGrouped(a, b);
    UngroupJoin(a, b);
  }

  /** An underscore between two parts leaves just their digits. */
  lemma UngroupJoin(a: string, b: string)
    ensures Ungroup(a + "_" + b) == Ungroup(a) + Ungroup(b)
  {
    var u: string := "_";
    var t := u + b;
    assert Ungroup(t) == Ungroup(b) by {
      assert t[0] == '_' && t[1..] == b;
    }
    UngroupConcat(a, t);
    assert a + "_" + b == a + t;
  }

  lemma {:induction false} JoinGrouped(a: string, b: string)
    requires Grouped(a) && Grouped(b)
    ensures Grouped(a + "_" + b)
    decreases |a|
  {
    var s := a + "_" + b;
    assert s[0] == a[0] && |s| > 1;
    if |a| == 1 {
      assert s[1] == '_' && s[2..] == b;
    } else if a[1] == '_' {
      assert Grouped(a[2..]);
      JoinGrouped(a[2..], b);
      assert s[1] == '_' && s[2..] == a[2..] + "_" + b;
    } else {
      assert Grouped(a[1..]);
      JoinGrouped(a[1..], b);
      assert s[1] == a[1] && s[1..] == a[1..] + "_" + b;
    }
  }

  /** Python `int(s)` of a string without surrounding white space: an
      optional sign followed by a grouped numeral; `None` where Python
      raises `ValueError`. */
  function ParseInt(s: string): (r: Option<int>)
    ensures r.Some? <==> Grouped(s) || (|s| >= 2 && (s[0] == '-' || s[0] == '+') && Grouped(s[1..]))
    ensures Grouped(s) ==> r == Some(GroupedValue(s) as int)
    ensures AllDigits(s) && |s| >= 1 ==> r == Some(DigitsValue(s) as int)
    ensures |s| >= 2 && s[0] == '-' && Grouped(s[1..]) ==> r == Some(-(GroupedValue(s[1..]) as int))
  {
    if AllDigits(s) && |s| >= 1 then
      DigitsGrouped(s);
      Some(DigitsValue(s) as int)
    else if |s| >= 2 && s[0] == '-' && Grouped(s[1..]) then Some(-(GroupedValue(s[1..]) as int))
    else if |s| >= 2 && s[0] == '+' && Grouped(s[1..]) then Some(GroupedValue(s[1..]) as int)
    else if Grouped(s) then Some(GroupedValue(s) as int)
    else None
  }

  predicate StartsWith(s: string, prefix: string) {
    |prefix| <= |s| && s[..|prefix|] == prefix
  }

  predicate EndsWith(s: string, suffix: string) {
    |suffix| <= |s| && s[|s| - |suffix|..] == suffix
  }

  /** Python `sub in s`. */
  predicate Contains(s: string, sub: string)
    decreases |s|
  {
    StartsWith(s, sub) || (|s| > 0 && Contains(s[1..], sub))
  }

  predicate OccursAt(s: string, sub: string, i: int) {
    0 <= i && i + |sub| <= |s| && s[i..i + |sub|] == sub
  }

  lemma {:induction false} ContainsIffOccurs(s: string, sub: string)
    ensures Contains(s, sub) <==> exists i :: OccursAt(s, sub, i)
    decreases |s|
  {
    if StartsWith(s, sub) {
      assert OccursAt(s, sub, 0);
    } else if |s| == 0 {
      assert |sub| > 0;
    } else {
      ContainsIffOccurs(s[1..], sub);
      if exists i :: OccursAt(s[1..], sub, i) {
        var i :| OccursAt(s[1..], sub, i);
        assert s[1..][i..i + |sub|] == s[i + 1..i + 1 + |sub|];
        assert OccursAt(s, sub, i + 1);
      }
      if exists i :: OccursAt(s, sub, i) {
        var i :| OccursAt(s, sub, i);
        assert i > 0;
        assert s[1..][i - 1..i - 1 + |sub|] == s[i..i + |sub|];
        assert OccursAt(s[1..], sub, i - 1);
      }
    }
  }

  /** A pattern whose first character never appears does not occur. */
  lemma {:induction false} NotContainsWithoutFirst(s: string, sub: string)
    requires |sub| > 0 && sub[0] !in s
    ensures !Contains(s, sub)
    decreases |s|
  {
    if s != [] {
      assert s[0] in s;
      if |sub| <= |s| {
        assert s[..|sub|][0] == s[0];
      }
      assert forall c :: c in s[1..] ==> c in s;
      NotContainsWithoutFirst(s[1..], sub);
    }
  }

  /** Text that contains a pattern still contains it with anything
      added on either side. */
  lemma ContainsInContext(a: string, s: string, b: string, sub: string)
    requires Contains(s, sub)
    ensures Contains(a + s + b, sub)
  {
    ContainsIffOccurs(s, sub);
    var i :| OccursAt(s, sub, i);
    var t := a + s + b;
    assert t[|a| + i..|a| + i + |sub|] == s[i..i + |sub|];
    assert OccursAt(t, sub, |a| + i);
    ContainsIffOccurs(t, sub);
  }

  /** A string contains itself. */
  lemma ContainsSelf(s: string)
    ensures Contains(s, s)
  {
    assert s[..|s|] == s;
  }

  /** Python `s.replace(pat, rep)`: non-overlapping occurrences, left to right. */
  function Replace(s: string, pat: string, rep: string): (r: string)
    requires |pat| > 0
    ensures forall c :: c in r ==> c in s || c in rep
    ensures |pat| == 1 && pat[0] !in rep ==> pat[0] !in r
    ensures !Contains(s, pat) ==> r == s
    decreases |s|
  {
    if |s| < |pat| then s
    else if s[..|pat|] == pat then rep + Replace(s[|pat|..], pat, rep)
    else
      var rest := Replace(s[1..], pat, rep);
      assert forall c :: c in [s[0]] + rest ==> c == s[0] || c in rest;
      [s[0]] + rest
  }

  /** Replacing a single character works one character at a time. */
  lemma ReplaceCharCons(c: char, t: string, p: char, rep: string)
    ensures Replace([c] + t, [p], rep) == (if c == p then rep else [c]) + Replace(t, [p], rep)
  {
    var s := [c] + t;
    assert s[..1] == [c] && s[1..] == t;
  }

  /** Replacing a single character distributes over concatenation. */
  lemma {:induction false} ReplaceCharConcat(a: string, b: string, p: char, rep: string)
    ensures Replace(a + b, [p], rep) == Replace(a, [p], rep) + Replace(b, [p], rep)
    decreases |a|
  {
    if a != [] {
      var t := a[1..];
      var h := if a[0] == p then rep else [a[0]];
      assert a + b == [a[0]] + (t + b);
      assert a == [a[0]] + t;
      ReplaceCharCons(a[0], t + b, p, rep);
      ReplaceCharCons(a[0], t, p, rep);
      ReplaceCharConcat(t, b, p, rep);
      assert Replace(a + b, [p], rep) == h + (Replace(t, [p], rep) + Replace(b, [p], rep));
      assert Replace(a, [p], rep) == h + Replace(t, [p], rep);
    } else {
      assert a + b == b;
    }
  }

  /** Python `s.split(sep)` with an explicit non-empty separator. */
  function Split(s: string, sep: string): (r: seq<string>)
    requires |sep| > 0
    ensures |r| >= 1
    decreases |s|
  {
    if |s| < |sep| then [s]
    else if s[..|sep|] == sep then [""] + Split(s[|sep|..], sep)
    else
      var rest := Split(s[1..], sep);
      [[s[0]] + rest[0]] + rest[1..]
  }

  /** Python `sep.join(parts)`. */
  function Join(sep: string, parts: seq<string>): string {
    if parts == [] then ""
    else if |parts| == 1 then parts[0]
    else parts[0] + sep + Join(sep, parts[1..])
  }

  /** Splitting and joining with the same separator gives the text back. */
  lemma {:induction false} JoinSplit(s: string, sep: string)
    requires |sep| > 0
    ensures Join(sep, Split(s, sep)) == s
    decreases |s|, 1
  {
    if |s| < |sep| {
    } else if s[..|sep|] == sep {
      JoinSplitAtSep(s, sep);
    } else {
      JoinSplitPastChar(s, sep);
    }
  }

  lemma {:induction false} JoinSplitAtSep(s: string, sep: string)
    requires |sep| > 0 && |s| >= |sep| && s[..|sep|] == sep
    ensures Join(sep, Split(s, sep)) == s
    decreases |s|, 0
  {
    var rest := Split(s[|sep|..], sep);
    assert Split(s, sep) == [""] + rest;
    JoinSplit(s[|sep|..], sep);
    JoinCons(sep, "", rest);
    assert s == sep + s[|sep|..];
  }

  lemma {:induction false} JoinSplitPastChar(s: string, sep: string)
    requires |sep| > 0 && |s| >= |sep| && s[..|sep|] != sep
    ensures Join(sep, Split(s, sep)) == s
    decreases |s|, 0
  {
    var rest := Split(s[1..], sep);
    assert Split(s, sep) == [[s[0]] + rest[0]] + rest[1..];
    JoinSplit(s[1..], sep);
    JoinPrepend(sep, s[0], rest);
    assert s == [s[0]] + s[1..];
  }

  /** Joining a first part before a nonempty rest puts the separator between. */
  lemma JoinCons(sep: string, x: string, rest: seq<string>)
    requires rest != []
    ensures Join(sep, [x] + rest) == x + sep + Join(sep, rest)
  {
    assert ([x] + rest)[1..] == rest;
  }

  /** A character put before the first part comes first in the joined text. */
  lemma JoinPrepend(sep: string, c: char, parts: seq<string>)
    requires parts != []
    ensures Join(sep, [[c] + parts[0]] + parts[1..]) == [c] + Join(sep, parts)
  {
    var q := [[c] + parts[0]] + parts[1..];
    assert q[1..] == parts[1..];
    if |parts| > 1 {
      assert [c] + parts[0] + sep + Join(sep, parts[1..]) == [c] + (parts[0] + sep + Join(sep, parts[1..]));
    }
  }

  /** Python's `s.replace(pat, rep) == rep.join(s.split(pat))`: replacing
      is splitting at the pattern and joining with the replacement. */
  lemma {:induction false} ReplaceIsJoinSplit(s: string, pat: string, rep: string)
    requires |pat| > 0
    ensures Replace(s, pat, rep) == Join(rep, Split(s, pat))
    decreases |s|, 1
  {
    if |s| < |pat| {
    } else if s[..|pat|] == pat {
      ReplaceAtPattern(s, pat, rep);
    } else {
      ReplacePastChar(s, pat, rep);
    }
  }

  lemma {:induction false} ReplaceAtPattern(s: string, pat: string, rep: string)
    requires |pat| > 0 && |s| >= |pat| && s[..|pat|] == pat
    ensures Replace(s, pat, rep) == Join(rep, Split(s, pat))
    decreases |s|, 0
  {
    var rest := Split(s[|pat|..], pat);
    assert Split(s, pat) == [""] + rest;
    ReplaceIsJoinSplit(s[|pat|..], pat, rep);
    JoinCons(rep, "", rest);
    assert "" + rep + Join(rep, rest) == rep + Join(rep, rest);
  }

  lemma {:induction false} ReplacePastChar(s: string, pat: string, rep: string)
    requires |pat| > 0 && |s| >= |pat| && s[..|pat|] != pat
    ensures Replace(s, pat, rep) == Join(rep, Split(s, pat))
    decreases |s|, 0
  {
    var rest := Split(s[1..], pat);
    assert |rest| >= 1;
    assert Split(s, pat) == [[s[0]] + rest[0]] + rest[1..];
    ReplaceIsJoinSplit(s[1..], pat, rep);
    JoinPrepend(rep, s[0], rest);
  }

  /** The first piece of a split is the text before the first separator. */
  lemma {:induction false} SplitHead(a: string, c: char, b: string)
    requires c !in a
    ensures Split(a + [c] + b, [c])[0] == a
    decreases |a|
  {
    var s := a + [c] + b;
    if a == [] {
      assert s[..1] == [c];
    } else {
      assert s[..1] != [c] by {
        assert s[0] == a[0];
      }
      assert s[1..] == a[1..] + [c] + b;
      SplitHead(a[1..], c, b);
      assert [a[0]] + a[1..] == a;
    }
  }

  /** Splitting at a separator character that `a` does not hold peels `a` off. */
  lemma {:induction false} SplitAt(a: string, c: char, b: string)
    requires c !in a
    ensures Split(a + [c] + b, [c]) == [a] + Split(b, [c])
    decreases |a|
  {
    var s := a + [c] + b;
    if a == [] {
      assert s[..1] == [c];
      assert s[1..] == b;
    } else {
      assert s[..1] != [c] by {
        assert s[0] == a[0];
      }
      assert s[1..] == a[1..] + [c] + b;
      SplitAt(a[1..], c, b);
      assert [a[0]] + a[1..] == a;
    }
  }

  /** A text without the separator character splits into itself. */
  lemma {:induction false} SplitWithout(a: string, c: char)
    requires c !in a
    ensures Split(a, [c]) == [a]
    decreases |a|
  {
    if |a| >= 1 {
      assert a[..1] != [c] by {
        assert a[..1][0] == a[0];
      }
      SplitWithout(a[1..], c);
      assert [a[0]] + a[1..] == a;
    }
  }

  /** Joining parts that do not hold the separator character and splitting
      again gives the parts back. */
  lemma {:induction false} SplitJoin(parts: seq<string>, c: char)
    requires |parts| >= 1
    requires forall i :: 0 <= i < |parts| ==> c !in parts[i]
    ensures Split(Join([c], parts), [c]) == parts
    decreases |parts|
  {
    if |parts| == 1 {
      SplitWithout(parts[0], c);
    } else {
      SplitJoin(parts[1..], c);
      assert Join([c], parts) == parts[0] + [c] + Join([c], parts[1..]);
      SplitAt(parts[0], c, Join([c], parts[1..]));
      assert parts == [parts[0]] + parts[1..];
    }
  }

  /** Python `str.isspace()` for one character. */
  predicate IsSpace(c: char) {
    c == ' ' || ('\t' <= c <= '\r') || ('\U{1C}' <= c <= '\U{1F}') || c == '\U{85}' || c == '\U{A0}'
    || c == '\U{1680}' || ('\U{2000}' <= c <= '\U{200A}') || c == '\U{2028}' || c == '\U{2029}'
    || c == '\U{202F}' || c == '\U{205F}' || c == '\U{3000}'
  }

  function StripLeft(s: string): (r: string)
    ensures |r| <= |s| && r == s[|s| - |r|..]
    ensures r == [] || !IsSpace(r[0])
    ensures forall i :: 0 <= i < |s| - |r| ==> IsSpace(s[i])
    decreases |s|
  {
    if s != [] && IsSpace(s[0]) then StripLeft(s[1..]) else s
  }

  function StripRight(s: string): (r: string)
    ensures |r| <= |s| && r == s[..|r|]
    ensures r == [] || !IsSpace(r[|r| - 1])
    ensures forall i :: |r| <= i < |s| ==> IsSpace(s[i])
    decreases |s|
  {
    if s != [] && IsSpace(s[|s| - 1]) then StripRight(s[..|s| - 1]) else s
  }

  /** Python `s.strip()`. */
  function Strip(s: string): (r: string)
    ensures IsStripped(r)
    ensures forall c :: c in r ==> c in s
    ensures (forall i :: 0 <= i < |s| ==> IsSpace(s[i])) ==> r == []
    ensures exists i, j :: 0 <= i <= j <= |s| && r == s[i..j]
                           && (forall k :: 0 <= k < i ==> IsSpace(s[k]))
                           && (forall k :: j <= k < |s| ==> IsSpace(s[k]))
  {
    var l := StripLeft(s);
    var r := StripRight(l);
    CutSlice(s, l, r);
    r
  }

  /** Cutting white space off both ends: `l` is the suffix of `s` after its
      leading white space and `r` the prefix of `l` before its trailing white
      space, so `r` is a stripped slice of `s` with only white space outside. */
  lemma CutSlice(s: string, l: string, r: string)
    requires |l| <= |s| && l == s[|s| - |l|..] && forall k :: 0 <= k < |s| - |l| ==> IsSpace(s[k])
    requires |r| <= |l| && r == l[..|r|] && forall k :: |r| <= k < |l| ==> IsSpace(l[k])
    requires (l == [] || !IsSpace(l[0])) && (r == [] || !IsSpace(r[|r| - 1]))
    ensures IsStripped(r)
    ensures (forall k :: 0 <= k < |s| ==> IsSpace(s[k])) ==> r == []
    ensures forall c :: c in r ==> c in s
    ensures exists i, j :: 0 <= i <= j <= |s| && r == s[i..j]
                           && (forall k :: 0 <= k < i ==> IsSpace(s[k]))
                           && (forall k :: j <= k < |s| ==> IsSpace(s[k]))
  {
    var i := |s| - |l|;
    var j := i + |r|;
    assert r == s[i..j];
    assert forall k :: j <= k < |s| ==> IsSpace(s[k]) by {
      assert forall k :: j <= k < |s| ==> s[k] == l[k - i];
    }
    SliceChars(s, i, j);
    assert r != [] ==> r[0] == l[0];
    if r != [] {
      assert !IsSpace(s[i]);
    }
  }

  /** A slice holds only characters of its text. */
  lemma SliceChars(s: string, i: nat, j: nat)
    requires i <= j <= |s|
    ensures forall c :: c in s[i..j] ==> c in s
  {
    forall c | c in s[i..j]
      ensures c in s
    {
      var m :| i <= m < j && s[m] == c;
    }
  }

  predicate IsStripped(s: string) {
    s == [] || (!IsSpace(s[0]) && !IsSpace(s[|s| - 1]))
  }

  /** Stripping a string with no surrounding white space changes nothing. */
  lemma StripStripped(s: string)
    requires IsStripped(s)
    ensures Strip(s) == s
  {
    assert StripLeft(s) == s;
    assert StripRight(s) == s;
  }

  /** Length of the run of digits at the start of `s`. */
  function DigitRun(s: string): (n: nat)
    ensures n <= |s| && AllDigits(s[..n])
    ensures n < |s| ==> !IsDigit(s[n])
    decreases |s|
  {
    if s != [] && IsDigit(s[0]) then
      var k := DigitRun(s[1..]);
      assert s[..k + 1] == [s[0]] + s[1..][..k];
      k + 1
    else 0
  }

  /** Python `re.findall(r'\d+', s)`: the maximal runs of digits, in order. */
  function DigitGroups(s: string): (r: seq<string>)
    ensures forall i :: 0 <= i < |r| ==> |r[i]| >= 1 && AllDigits(r[i])
    decreases |s|
  {
    if s == [] then []
    else if !IsDigit(s[0]) then DigitGroups(s[1..])
    else
      var n := DigitRun(s);
      [s[..n]] + DigitGroups(s[n..])
  }

  lemma {:induction false} DigitRunOfDigitsThen(a: string, t: string)
    requires AllDigits(a)
    requires t == [] || !IsDigit(t[0])
    ensures DigitRun(a + t) == |a|
    decreases |a|
  {
    if a == [] {
    } else {
      assert (a + t)[1..] == a[1..] + t;
      DigitRunOfDigitsThen(a[1..], t);
    }
  }

  /** A run of digits followed by a non-digit (or nothing) is one group. */
  lemma DigitGroupsOfDigitsThen(a: string, t: string)
    requires |a| >= 1 && AllDigits(a)
    requires t == [] || !IsDigit(t[0])
    ensures DigitGroups(a + t) == [a] + DigitGroups(t)
  {
    DigitRunOfDigitsThen(a, t);
    assert (a + t)[..|a|] == a;
    assert (a + t)[|a|..] == t;
  }

  lemma DigitGroupsSkip(c: char, t: string)
    requires !IsDigit(c)
    ensures DigitGroups([c] + t) == DigitGroups(t)
  {
    assert ([c] + t)[1..] == t;
  }
}
